=== FILE: README.md ===
# SJA1110 FRER static-configuration tools, modelled in Dafny

The NXP SJA1110 automotive TSN switch boots from two images: a switch
static-configuration blob (2236 bytes in the GoldVIP reference image, a
header followed by table blocks or by 8-byte command/value pairs) and a
microcontroller image that starts with the marker `6A A6 6A A6 6A A6 6A A6`.
The repository is a set of Python tools that build, patch and inspect
these blobs to enable IEEE 802.1CB Frame Replication and Elimination for
Reliability (FRER): one stream entering on port P4 and replicated to
ports P2A and P2B, each frame carrying an R-TAG sequence number.

This project models the byte-level core of those tools:

- **Checksums** (`crc32.dfy`, `ultrathink_frer_patch.dfy`, `fix_crc.dfy`):
  the MSB-first CRC-32 of the sja1105-tool port (`bit_reverse`,
  `crc32_add`, `ether_crc32_le`) and the reflected 0xEDB88320 loop. The
  two are proved to compute the same IEEE 802.3 CRC-32 on every input.
  The switch checksum depends only on the bytes it covers.
- **Blob builders** (`ultrathink_firmware.dfy`, `proper_config.dfy`,
  `proper_frer_config.dfy`, `frer_registers.dfy`, `goldvip_fix.dfy`,
  `ghidra_analysis.dfy`): each builder's output is pinned down word by
  word. The model proves its length, its table headers, its port masks
  and its padding, and that the stored checksum matches what the
  matching verifier recomputes.
- **Blob patchers**: these take a loaded GoldVIP blob as a parameter.
  What the model proves differs from module to module:
  - `pair_scan.dfy`, the command/value pair scan that several patchers
    share: the length is kept, only the value words of visited pairs
    change, each to the value computed from its own pair, and a second
    scan changes nothing (`PairScan.PatchPairsIdempotent`).
  - `s32g_fix.dfy`: the device-id fix writes bytes 0..3 and nothing else,
    and a second fix changes nothing (`S32gFix.FixSwitchIdempotent`). The
    microcontroller fix builds a 320280-byte image. Both outputs pass the
    tool's checks (`S32gFix.FixesVerify`).
  - `ultrathink_frer_patch.dfy`: the length is kept. The CB_EN bits, the
    port nibbles and the R-TAG record (at the first free 16-byte 0xFF run)
    are written, and every other byte is kept. The stored checksum passes
    the tool's final check.
  - `fix_crc.dfy`: the length is kept, and only bytes 12..15
    (`FixCrc.FixGoldvipCrc`) or only bytes 4..7
    (`FixCrc.CreateMinimalFrerConfig`) change.
  - `final_fix.dfy`: the output is cut to 2236 bytes
    (`FinalFix.SwitchConfigShape`, which also gives the length for
    shorter inputs). Only the id, the checksum and scanned value words
    differ from the input, and `verify_config` accepts the result
    (`FinalFix.SwitchConfigVerifies`).
  - `fixed_frer.dfy`: builds a new 2236-byte configuration from the
    original's port pairs; its header and checksum verify
    (`FixedFrer.SwitchConfigHeader`).
  - `frer_enabled.dfy`: the length is kept. Only entry or fallback value
    words, the FRER block at 0x100 and bytes 12..15 change. The tool's
    verifier passes exactly when the original carries the device id
    (`FrerEnabled.FrerConfigVerifies`).
  - `frer_enabler.dfy`: the length is kept, and every changed byte is
    accounted for. The tool's verifier reports the bits enabled and the
    R-TAG found (`FrerEnabler.EnableThenVerify`).
  - `minimal_frer.dfy`: the length is kept. The conservative patch changes
    only scanned value words and bytes 12..15. The FRER table goes into
    the first all-zero run.
  - `goldvip_frer.dfy`: the length is kept exactly when the blob has at
    least 0x38 bytes; a shorter blob grows
    (`GoldvipFrer.FrerSwitchConfigLength`).

  Idempotence is proved only for the pair scan and the device-id fix.
  Three patchers write at the first free run: `FrerEnabler.EnableFrerInGoldvip`,
  `UltrathinkFrerPatch.AddRtag` and `MinimalFrer.OriginalPlusFrerTable`.
  A second run of any of them writes again further on, as the tools do.
- **The analyzer** (`analyze_ultrathink_frer.dfy`): the device-header
  decode, the configuration-table walk, the FRER table scan with its
  three entry parsers, and the table-name lookup. The parsers decode
  what the generator writes. The walk and the scan as written both
  misread every generated image (see "## Findings"). Their corrected
  forms list the six tables and the three FRER tables as written.
- **The R-TAG test frames** (`frer_test.dfy`): the test frame and the
  R-TAG frame layouts, the 16-bit wrapping sequence counter, and the
  receive-side R-TAG decode.

`bytes.dfy` holds the shared byte helpers: little- and big-endian words,
Python slice assignment with its clamping, and padding. `uc_image.dfy`
holds the microcontroller-image marker.

Where the tools disagree with each other, each module keeps its own
constants: the device id is 0xB700030F in some tools and 0xB700030E in
others, and the R-TAG EtherType is 0xF1C1 in some and 0xF1CD in others.
Each module states them as its source does.

The model also proves one observation about the Ghidra-analysis tool
(`GhidraAnalysis.GeneratedConfigHasNoPortEntries`). Its classifier counts
a pair as port configuration when the command's high half is 0x00EC. The
configuration the same tool builds uses command 0xFFFF00EC, so the
classifier finds no port entries in that configuration.

## Model

| member | source | states |
|---|---|---|
| Crc32.Rev32Bits | source/sja1110_ultrathink_frer.py:11-19 | the 32-bit reversal moves bit i to bit 31 - i |
| Crc32.Rev32Involution | source/sja1110_ultrathink_frer.py:11-19 | reversing all 32 bits twice gives the word back |
| Crc32.Rev32Poly | source/sja1110_ultrathink_frer.py:26 | the MSB-first polynomial 0x04C11DB7 reversed is the reflected 0xEDB88320, and the seed 0xFFFFFFFF is its own reversal |
| Crc32.RoundsAgree | source/sja1110_ultrathink_frer.py:29-35 | k MSB-first shifts, seen through the reversal, are k reflected shifts |
| Crc32.StepAgrees | source/sja1110_ultrathink_frer.py:21-37 | one `crc32_add` byte step is the reflected `crc ^= byte`-and-eight-shifts step under the reversal |
| Crc32.FoldsAgree | source/sja1110_ultrathink_frer.py:46-48 | feeding any byte string MSB-first equals feeding it reflected, under the reversal |
| Crc32.EtherCrcIsReflectedCrc | source/sja1110_ultrathink_frer.py:39-51 | `ether_crc32_le` equals the reflected CRC-32 (0xEDB88320, seed and final inversion) on every input |
| Crc32.Crc32Empty | source/sja1110_ultrathink_frer.py:44-51 | both checksums of the empty string are 0 |
| Crc32.CheckValue | sja1110_fix_crc.py:20-32 | the reflected CRC-32 of the ASCII digits "123456789" is the standard check value 0xCBF43926 |
| UltrathinkFrerPatch.BitReverse | source/sja1110_ultrathink_frer.py:11-19 | the loop places bit j of `val` at bit `width - 1 - j` for every j below `width` |
| UltrathinkFrerPatch.BitReverseIsRev32 | source/sja1110_ultrathink_frer.py:11-19 | at width 32 the loop's result is the full bit reversal |
| UltrathinkFrerPatch.BitReverseInvolution | source/sja1110_ultrathink_frer.py:11-19 | `bit_reverse(bit_reverse(v, 32), 32) == v` |
| UltrathinkFrerPatch.Crc32Add | source/sja1110_ultrathink_frer.py:21-37 | the eight-shift loop with the 32-bit mask computes the MSB-first byte step (and so, by `StepAgrees`, the reflected one) |
| UltrathinkFrerPatch.EtherCrc32Le | source/sja1110_ultrathink_frer.py:39-51 | the byte loop plus final inversion and reversal returns the CRC-32 of the data |
| UltrathinkFrerPatch.ConfigRegion | source/sja1110_ultrathink_frer.py:62-65 | the checksummed region is `data[16:16+n]` with n the LE word at 8..11, clamped to the buffer, and empty below 16 bytes |
| UltrathinkFrerPatch.ConfigRegionIgnoresHeader | source/sja1110_ultrathink_frer.py:62-67 | buffers agreeing on the length word and on bytes 16.. have the same checksum region: bytes 0..7 and the stored CRC never matter |
| UltrathinkFrerPatch.CalculateSja1110Crc | source/sja1110_ultrathink_frer.py:53-67 | `calculate_sja1110_crc` is the CRC-32 of that region |
| UltrathinkFrerPatch.RtagRecordFields | source/sja1110_ultrathink_frer.py:200-206 | the record is 12 bytes of LE halfwords 0xF1C1, 1, 0x10, 0x0C, 0x100, 0x3E8 |
| UltrathinkFrerPatch.SetPortNibbles | source/sja1110_ultrathink_frer.py:165-186 | bytes 0x37, 0x27, 0x2F keep their high nibble and get low nibble 0xE, 0xA, 0xC when in range; length and every other byte unchanged |
| UltrathinkFrerPatch.AddRtag | source/sja1110_ultrathink_frer.py:190-208 | the record lands at the first all-0xFF 16-byte run in `[0x100, min(len-16, 0x400))`, nowhere when there is none; nothing else changes |
| UltrathinkFrerPatch.ApplyFrerPatches | source/sja1110_ultrathink_frer.py:140-208 | CB_EN (0x80) is OR-ed into the LE word at 4..7, the nibbles and the record are written, and only those bytes can differ |
| UltrathinkFrerPatch.CreateUltrathinkFrer | source/sja1110_ultrathink_frer.py:133-243 | steps [3] to [8]: the patches above, the CRC of the region stored at 12..15, and the final check always passes |
| FixCrc.CalculateSja1110Crc | sja1110_fix_crc.py:11-32 | the nested loop is the reflected CRC-32 of `data[16:]`; 16 bytes or fewer give 0 |
| FixCrc.AddByte | sja1110_fix_crc.py:25-30 | one outer iteration is the reflected byte step |
| FixCrc.CrcIgnoresHeader | sja1110_fix_crc.py:24-30 | buffers that agree from byte 16 on have the same checksum, whatever bytes 0..15 hold |
| FixCrc.FixGoldvipCrc | sja1110_fix_crc.py:74-109 | length and bytes 0..11, 16.. kept; 12..15 hold the CRC of `data[16:]` (independent of the old field), or the reference blob's stored CRC when that blob is supplied |
| FixCrc.CreateMinimalFrerConfig | sja1110_fix_crc.py:173-182 | only bytes 4..7 change: the LE word there gets bit 7 set |
| UltrathinkFirmware.DeviceHeader | sja1110_ultrathink_frer.py:77-102 | 36 bytes: BE 0xB700030E, BE 0x10, BE u64 timestamp, BE features 0x1F, 16 zero bytes |
| UltrathinkFirmware.TableHeader | sja1110_ultrathink_frer.py:109-116 | 16 bytes: LE id, count, entry size and a zero CRC placeholder |
| UltrathinkFirmware.SealTable | sja1110_ultrathink_frer.py:162-164 | only bytes 12..15 change, and they hold the CRC-32 of the table from byte 16 on |
| UltrathinkFirmware.SealedTable | sja1110_ultrathink_frer.py:109-164 | a header plus records, once sealed, is framed (id, count, size, CRC of the body) with its records intact |
| UltrathinkFirmware.MakeStreamIdentEntry | sja1110_ultrathink_frer.py:119-160 | stream `id`'s 32-byte entry: LE handle, method 3, priority `id % 8`, source MAC only for streams 0-3, VLAN 100 + id, multicast filter, EtherType 0x88F7, port mask 0x7FF/0x01E and flags 0x07/0x03 for critical/other streams |
| UltrathinkFirmware.WriteStreamKeys | sja1110_ultrathink_frer.py:122-136 | bytes 0..11 of the entry as above, 12..31 untouched |
| UltrathinkFirmware.WriteStreamFilters | sja1110_ultrathink_frer.py:138-158 | bytes 12..31 of the entry as above, 0..11 untouched |
| UltrathinkFirmware.CreateStreamIdentTable | sja1110_ultrathink_frer.py:104-166 | 528 bytes: framed header (0x20, 16, 32) and 16 entries, entry k laid out for stream k |
| UltrathinkFirmware.MakeSeqGenEntry | sja1110_ultrathink_frer.py:182-215 | stream `id`'s 24-byte entry: LE stream, vector algorithm, sequence space 65535 from 0, R-TAG offset 18, replication mask 0x000C for streams 0-7 and 0 otherwise, period 1000, paths A and B |
| UltrathinkFirmware.WriteSeqGenHead | sja1110_ultrathink_frer.py:185-198 | bytes 0..9 of the entry, the rest untouched |
| UltrathinkFirmware.WriteSeqGenTail | sja1110_ultrathink_frer.py:200-213 | bytes 10..23 of the entry, the rest untouched |
| UltrathinkFirmware.CreateSeqGenTable | sja1110_ultrathink_frer.py:168-221 | 400 bytes: framed header (0x23, 16, 24) and 16 generator entries |
| UltrathinkFirmware.MakeRecoveryEntry | sja1110_ultrathink_frer.py:237-278 | stream `id`'s 48-byte entry: window 256 at 4..5, timeout 100000 at 8..11, reset timeout 1000000, statistics offset 0x1000 + 64 id, acceptance 5, member mask 0x03 for streams 0-7 else 0, bytes 32..39 all 0xFF |
| UltrathinkFirmware.WriteRecoveryIdent | sja1110_ultrathink_frer.py:240-247 | bytes 0..7 of the entry, the rest untouched |
| UltrathinkFirmware.WriteRecoveryTimeouts | sja1110_ultrathink_frer.py:249-256 | bytes 8..15 of the entry, the rest untouched |
| UltrathinkFirmware.WriteRecoveryWindow | sja1110_ultrathink_frer.py:258-271 | bytes 16..27 of the entry, the rest untouched |
| UltrathinkFirmware.WriteRecoveryVector | sja1110_ultrathink_frer.py:273-276 | the all-ones initial vector at 32..39 when the algorithm is the vector one, bytes 0..27 untouched |
| UltrathinkFirmware.CreateRecoveryTable | sja1110_ultrathink_frer.py:223-284 | 784 bytes: framed header (0x25, 16, 48) and 16 recovery entries |
| UltrathinkFirmware.MakePortEntry | sja1110_ultrathink_frer.py:300-370 | port `port`'s 64-byte entry: number, enable, LE speed, full duplex, FRER, cut-through, preemption for gigabit ports, MTU 1522, VLAN 1, 8 queues, unlimited rates, and for FRER ports R-TAG position 14 and its recovery function |
| UltrathinkFirmware.WritePortIdentity | sja1110_ultrathink_frer.py:321-340 | bytes 0..7 of the entry, the rest untouched |
| UltrathinkFirmware.WritePortLimits | sja1110_ultrathink_frer.py:342-349 | bytes 8..15 of the entry, the rest untouched |
| UltrathinkFirmware.WritePortFrerPart | sja1110_ultrathink_frer.py:351-368 | bytes 16..63 of the entry, 0..15 untouched |
| UltrathinkFirmware.CreatePortTable | sja1110_ultrathink_frer.py:286-376 | 720 bytes: framed header (0x09, 11, 64) and 11 port entries |
| UltrathinkFirmware.MakeL2Entry | sja1110_ultrathink_frer.py:413-429 | port `port`'s 16-byte entry: LE reach mask and broadcast mask from the rule table, VLAN 1, features on |
| UltrathinkFirmware.CreateL2Table | sja1110_ultrathink_frer.py:378-434 | 192 bytes: framed header (0x08, 11, 16) and 11 forwarding entries |
| UltrathinkFirmware.ForwardingRulesMeaning | sja1110_ultrathink_frer.py:392-411 | port 4 reaches and floods only ports 2 and 3; ports 0-3 reach all but themselves; ports 2 and 3 flood only to port 0; ports 5 and 6 clear bits 4 and 5 instead of their own bit; ports 7-10 forward nowhere |
| UltrathinkFirmware.MakeGeneralEntry | sja1110_ultrathink_frer.py:450-494 | the 128-byte entry: switch id 0x001122334455, disabled mirror and cascade ports, host port 0, 8 ns timestamps, 300 s ageing, features 0x3F, FRER on, 16 streams, 8 recovery functions, R-TAG EtherType 0xF1C1 at 36 |
| UltrathinkFirmware.WriteGeneralFrerPart | sja1110_ultrathink_frer.py:486-492 | bytes 32..127 of the entry, 0..31 untouched |
| UltrathinkFirmware.CreateGeneralTable | sja1110_ultrathink_frer.py:436-500 | 144 bytes: framed header (0x11, 1, 128) and the entry |
| UltrathinkFirmware.UcStreamRecord | sja1110_ultrathink_frer.py:589-594 | `pack('<IIHH', i, 0x10000, 100 i, 0xFFFF)`: 12 bytes reading back those four fields |
| UltrathinkFirmware.UcVectors | sja1110_ultrathink_frer.py:507-528 | 256 vectors: the 16 system vectors, then handler `0x1101 + 4 j` for interrupt j |
| UltrathinkFirmware.UcVectorTableAndHandler | sja1110_ultrathink_frer.py:531-560 | 1046 bytes: the 256 LE vector words, then the 11 LE reset-handler halfwords at 1024 |
| UltrathinkFirmware.UcConfigData | sja1110_ultrathink_frer.py:585-595 | 192 bytes: the 16 stream records in order |
| UltrathinkFirmware.UcCode | sja1110_ultrathink_frer.py:504-597 | the 1254 bytes written before padding: vectors, handler, the two code fragments at 1046 and 1054, the records at 1062 |
| UltrathinkFirmware.CreateUcFirmware | sja1110_ultrathink_frer.py:502-604 | exactly 320280 bytes: the code part, then 0xFF |
| UltrathinkFirmware.SwitchLayout | sja1110_ultrathink_frer.py:613-630 | the concatenation is 2804 bytes and the cut at 2236 leaves header, five whole tables and the first 216 bytes of the recovery table at fixed offsets |
| UltrathinkFirmware.RecoveryTableHead | sja1110_ultrathink_frer.py:621-630 | the 216 surviving bytes hold the recovery header words and its first four entries, and are the first 216 bytes of a complete recovery table, so the CRC word and the 8 bytes of entry 4 are pinned too |
| UltrathinkFirmware.GenerateCompleteFirmware | sja1110_ultrathink_frer.py:606-630 | a 2236-byte switch image (header, general, port, L2, stream-ident, sequence-generation tables, head of the recovery table) and the 320280-byte microcontroller image |
| AnalyzeUltrathinkFrer.DecodeDeviceHeader | source/analyze_ultrathink_frer.py:38-52 | the header decodes exactly when the file has at least 20 bytes (a shorter file makes the BE reads fail); the device id is the BE word at 0 and the timestamp the BE u64 at 8 |
| AnalyzeUltrathinkFrer.DeviceHeaderRoundTrip | source/analyze_ultrathink_frer.py:38-52 | on a file that starts with the generator's 36-byte device header, the decode returns the device id 0xB700030E, the version, the timestamp and the features the generator wrote, and the device id is reported valid |
| AnalyzeUltrathinkFrer.TableSpan | source/analyze_ultrathink_frer.py:90 | a table spans at least its 16 header bytes, so each step of the walk moves forward and the walk ends |
| AnalyzeUltrathinkFrer.WalkReadsHeaders | source/analyze_ultrathink_frer.py:70-104 | the walk starts at its start offset, every table it reports has its four LE words inside the file and a live id (not 0 and not 0xFFFFFFFF), and each next table starts 16 + count * size bytes after the previous one |
| AnalyzeUltrathinkFrer.WalkTables | source/analyze_ultrathink_frer.py:66-104 | the table loop reports exactly the tables of the walk specification from its start offset |
| AnalyzeUltrathinkFrer.AnalyzeSwitchFirmware | source/analyze_ultrathink_frer.py:30-108 | the analysis as written: the header decode, then (when the header decodes) the table walk from offset 48 and the FRER scan from offset 48; nothing after the header when the file is too short |
| AnalyzeUltrathinkFrer.WalkSwitchTables | source/analyze_ultrathink_frer.py:66-104 | the same walk started at offset 36, where the generator's header ends |
| AnalyzeUltrathinkFrer.SwitchImageGeneralWords | source/analyze_ultrathink_frer.py:66-80 | on every generated switch image, the words the walk from 48 reads as count and size are the switch id's low word 0x22334455 and 17 |
| AnalyzeUltrathinkFrer.SwitchImageWords | source/analyze_ultrathink_frer.py:72-80 | every generated switch image holds the id, count and size of its six tables at offsets 36, 180, 900, 1092, 1620 and 2020 |
| AnalyzeUltrathinkFrer.WalkAt48MisreadsImage | source/analyze_ultrathink_frer.py:66 | on every generated switch image the walk from 48 reports at most one table, and that one has count 0x22334455 and size 17, which no generated table has |
| AnalyzeUltrathinkFrer.WalkAfterHeaderListsImageTables | source/analyze_ultrathink_frer.py:66-104 | on every generated switch image the walk from 36 reports the six tables in the order written: general, MAC, L2 forwarding, stream identification, sequence encode, sequence recovery, at their offsets with their counts and sizes |
| AnalyzeUltrathinkFrer.StreamSummaryAt | source/analyze_ultrathink_frer.py:140-142 | a stream entry is read exactly when its 4 bytes lie inside the file |
| AnalyzeUltrathinkFrer.GeneratorSummaryAt | source/analyze_ultrathink_frer.py:160-162 | a generator entry is read exactly when its 6 bytes lie inside the file |
| AnalyzeUltrathinkFrer.RecoverySummaryAt | source/analyze_ultrathink_frer.py:180-183 | a recovery entry is read exactly when its 12 bytes lie inside the file |
| AnalyzeUltrathinkFrer.ParseFrom | source/analyze_ultrathink_frer.py:138-149 | a successful parse of k entries yields exactly k entries |
| AnalyzeUltrathinkFrer.ParseFromSucceeds | source/analyze_ultrathink_frer.py:138-149 | the entry loop succeeds exactly when the read at every entry offset (start + i * size, for i below k) succeeds |
| AnalyzeUltrathinkFrer.ParseFromEntries | source/analyze_ultrathink_frer.py:138-149 | entry i of a successful parse is what the read finds i * size bytes after the first entry |
| AnalyzeUltrathinkFrer.ParseEntries | source/analyze_ultrathink_frer.py:138-149 | the entry loop returns the entries of the parse specification |
| AnalyzeUltrathinkFrer.EntriesShown | source/analyze_ultrathink_frer.py:139-183 | the parsers decode min(limit, entry_count) entries: no more than the limit, no more than the table's count, and one of the two |
| AnalyzeUltrathinkFrer.StreamIdentTableAt | source/analyze_ultrathink_frer.py:130-149 | the stream identification parser yields min(3, entry_count) streams |
| AnalyzeUltrathinkFrer.SeqGenTableAt | source/analyze_ultrathink_frer.py:151-169 | the sequence generation parser yields min(2, entry_count) generators |
| AnalyzeUltrathinkFrer.RecoveryTableAt | source/analyze_ultrathink_frer.py:171-191 | the sequence recovery parser yields min(2, entry_count) recovery functions |
| AnalyzeUltrathinkFrer.ParseStreamIdentTable | source/analyze_ultrathink_frer.py:130-149 | the stream parser method returns what the stream table specification reads |
| AnalyzeUltrathinkFrer.ParseSeqGenTable | source/analyze_ultrathink_frer.py:151-169 | the generator parser method returns what the generator table specification reads |
| AnalyzeUltrathinkFrer.ParseSeqRecoveryTable | source/analyze_ultrathink_frer.py:171-191 | the recovery parser method returns what the recovery table specification reads |
| AnalyzeUltrathinkFrer.FrerTableAt | source/analyze_ultrathink_frer.py:116-126 | a FRER table found by the dispatch carries the offset it was found at |
| AnalyzeUltrathinkFrer.ScanFailsAtHit | source/analyze_ultrathink_frer.py:113-128 | the FRER scan fails exactly when, at one of the offsets it visits (48, 52, ... below len - 16) holding id 0x20, 0x23 or 0x25, the parser runs past the end |
| AnalyzeUltrathinkFrer.ScanReportsOnlyHits | source/analyze_ultrathink_frer.py:113-128 | a successful scan reports only visited offsets holding a FRER id, in rising order, each with what its parser decoded there |
| AnalyzeUltrathinkFrer.ScanReportsEveryHit | source/analyze_ultrathink_frer.py:113-128 | a successful scan reports every visited offset that holds a FRER id |
| AnalyzeUltrathinkFrer.ScanFrerTables | source/analyze_ultrathink_frer.py:110-128 | the scan loop returns the scan specification from offset 48 |
| AnalyzeUltrathinkFrer.ParseGeneratedStreamIdent | source/analyze_ultrathink_frer.py:130-149 | on a generated stream identification table, the parser shows streams 0, 1 and 2, each with method 0x03 and priority id mod 8 |
| AnalyzeUltrathinkFrer.ParseGeneratedSeqGen | source/analyze_ultrathink_frer.py:151-169 | on a generated sequence generation table, the parser shows generators 0 and 1 with the vector algorithm and sequence space 65535 |
| AnalyzeUltrathinkFrer.ParseGeneratedRecovery | source/analyze_ultrathink_frer.py:171-191 | on the head of a generated recovery table, the parser reads the window at entry + 4 and the timeout at entry + 8 where the generator wrote them: 256 packets and 100000 us |
| AnalyzeUltrathinkFrer.ScanFindsImageFrerTables | source/analyze_ultrathink_frer.py:113-128 | on every generated switch image the scan visits offsets 1092, 1620 and 2020, and its dispatch decodes the three FRER tables the generator wrote there |
| AnalyzeUltrathinkFrer.ImageScanFails | source/analyze_ultrathink_frer.py:113-128 | on a generated switch image whose stream-table CRC word at 1104 is 2 or more, the scan visits 1100, reads the stream table's size word 0x20 there as a stream identification id, and its parser runs past the end; so the whole scan fails |
| AnalyzeUltrathinkFrer.ScanSwitchTables | source/analyze_ultrathink_frer.py:110-128 | the corrected scan: the walk from the end of the header, and the FRER parsers run only at the starts of the tables it finds |
| AnalyzeUltrathinkFrer.CorrectedScanListsImageFrerTables | source/analyze_ultrathink_frer.py:110-128 | on every generated switch image the corrected scan reports exactly the stream identification table at 1092, the sequence generation table at 1620 and the recovery table at 2020, in that order, with the entries the generator wrote |
| AnalyzeUltrathinkFrer.HexDigitsRoundTrip | source/analyze_ultrathink_frer.py:218 | the hexadecimal digits of n read back as n |
| AnalyzeUltrathinkFrer.Hex02RoundTrip | source/analyze_ultrathink_frer.py:218 | the zero-padded two-digit form of n reads back as n |
| AnalyzeUltrathinkFrer.KnownNamesNotUnknown | source/analyze_ultrathink_frer.py:195-217 | no name in the table starts with 'U' |
| AnalyzeUltrathinkFrer.TableNameMeaning | source/analyze_ultrathink_frer.py:193-218 | each of the 21 declared ids gets its name; every other id gets "Unknown (0x..)" whose hexadecimal reads back as the id; a name starts with 'U' exactly when the id is unknown |
| AnalyzeUltrathinkFrer.UnknownNamesDistinct | source/analyze_ultrathink_frer.py:218 | two unknown ids with the same name are the same id |
| ProperConfig.TableHeader | sja1110_proper_config.py:35-42 | 12 bytes reading back as LE id, LE count, LE data size and a zero CRC word |
| ProperConfig.FramedTable | sja1110_proper_config.py:35-78 | `header + table_data` is framed (id, count, size field = data length, CRC word 0) and the data follows the header unchanged |
| ProperConfig.CreateL2ForwardingTable | sja1110_proper_config.py:44-78 | 11 framed 8-byte entries; port 4 (the FRER input) reaches and floods only ports 2 and 3, every other port all 11 |
| ProperConfig.MakeMacEntry | sja1110_proper_config.py:87-105 | the 32-byte entry: enable 1, speed 1, a zero word, bit 31 set in word 3 exactly for ports 2 and 3, zeros after |
| ProperConfig.CreateMacConfigTable | sja1110_proper_config.py:80-107 | 11 framed MAC entries, entry k laid out for port k |
| ProperConfig.WordTableShape | sja1110_proper_config.py:109-198 | a header for one entry followed by LE words is the one-entry table of those words |
| ProperConfig.WordTable | sja1110_proper_config.py:109-198 | the shared shape of the one-entry builders: the header, then the LE words |
| ProperConfig.CreateL2ForwardingParams | sja1110_proper_config.py:109-126 | 24 bytes: one entry of words 0xFFF, 1, 0 |
| ProperConfig.CreateGeneralParams | sja1110_proper_config.py:128-158 | 56 bytes: one 44-byte entry whose third word is the switch id 0xB700030F |
| ProperConfig.CreateXmiiParams | sja1110_proper_config.py:183-198 | 16 bytes: one entry holding the MII mode 0 |
| ProperConfig.CreateVlanLookupTable | sja1110_proper_config.py:160-181 | 20 bytes: VLAN 1 with all 11 ports as members and broadcast targets, none tagged |
| ProperConfig.BodyLayout | sja1110_proper_config.py:200-224 | the 16-byte header and the six tables of sizes 100, 364, 24, 56, 20, 16 land at fixed offsets of a 596-byte buffer |
| ProperConfig.HeaderWords | sja1110_proper_config.py:206-210 | the header reads back as device id, version 0x100 and two zero words |
| ProperConfig.BuildBody | sja1110_proper_config.py:200-224 | the header and the six tables in order, CRC field still 0 |
| ProperConfig.BodyIgnoresCrcField | sja1110_proper_config.py:226-230 | whether a buffer is a configuration body does not depend on bytes 12..15 |
| ProperConfig.ZeroCrcField | sja1110_proper_config.py:226-227 | the copy differs from the buffer only at 12..15, which are zero |
| ProperConfig.VerifyConfiguration | sja1110_proper_config.py:237-260 | true exactly when the LE word at 12 equals the CRC-32 of the buffer with bytes 12..15 zeroed |
| ProperConfig.ZeroCrcFieldIgnoresStored | sja1110_proper_config.py:226-230 | storing any word at 12 leaves the zeroed copy unchanged |
| ProperConfig.StoredCrcUnique | sja1110_proper_config.py:226-260 | after storing w at 12, the buffer verifies if and only if w is the CRC of the zeroed buffer |
| ProperConfig.SealedFresh | sja1110_proper_config.py:229-230 | storing the CRC keeps a configuration body a configuration body |
| ProperConfig.SealedAppended | sja1110_proper_config.py:200-230 | on a second call the CRC lands in the first block; the appended block keeps its zero CRC field |
| ProperConfig.AppendedAndSealed | sja1110_proper_config.py:200-235 | appending a body and storing the CRC of the zeroed buffer: 596 more bytes, a body at the end, earlier bytes other than 12..15 kept, and the buffer verifies |
| ProperConfig.ConfigGenerator.constructor | sja1110_proper_config.py:31-33 | `config_data` starts empty |
| ProperConfig.ConfigGenerator.GenerateConfiguration | sja1110_proper_config.py:200-235 | `config_data` grows by one 596-byte configuration, earlier bytes other than the CRC field are kept, the result is `config_data`, and it passes `verify_configuration` |
| ProperConfig.GenerateFresh | sja1110_proper_config.py:263-270 | on a fresh generator the configuration is 596 bytes, a configuration body, and it verifies |
| ProperFrerConfig.CreateTableHeader | analysis/sja1110_proper_frer_config.py:33-38 | 12 bytes reading back as the block id, the entry count and the CRC, in that order although the CRC is the second parameter |
| ProperFrerConfig.V1Buffer | analysis/sja1110_proper_frer_config.py:53-77 | after k turns of the fill loop the buffer is 24 + 8 k bytes long |
| ProperFrerConfig.V1BufferFilled | analysis/sja1110_proper_frer_config.py:55-77 | the buffer holds the header and the port-4 entry, then k (0x00ECFFFF, 0x9FFF7F00) pairs |
| ProperFrerConfig.V1Cut | analysis/sja1110_proper_frer_config.py:75-79 | cutting a filled buffer at 2236 leaves 24 fixed bytes, 276 filler pairs and one more command word |
| ProperFrerConfig.V1BufferImage | analysis/sja1110_proper_frer_config.py:75-79 | the loop stops at 2240 bytes, the first time the buffer reaches 2236, and the first 2236 bytes are that image |
| ProperFrerConfig.V1LastValue | analysis/sja1110_proper_frer_config.py:75-77 | the buffer always ends with a value word 0x9FFF7F00 |
| ProperFrerConfig.FrerConfigV1.constructor | analysis/sja1110_proper_frer_config.py:50-51 | `config` starts empty |
| ProperFrerConfig.FrerConfigV1.CreateConfig | analysis/sja1110_proper_frer_config.py:53-79 | the first call builds 2240 bytes and returns their first 2236, the V1 image; because `config` is an instance field, a second call only appends another 24 bytes and returns the same image |
| ProperFrerConfig.V2Turn | analysis/sja1110_proper_frer_config.py:132-136 | a fill turn appends 8 bytes, or only the 4-byte command word on the last turn |
| ProperFrerConfig.V2Buffer | analysis/sja1110_proper_frer_config.py:88-137 | after p turns the buffer is 56 + 8 p bytes long, and 2236 after the last turn |
| ProperFrerConfig.V2BufferFilled | analysis/sja1110_proper_frer_config.py:92-136 | after p whole turns the buffer holds the 14 fixed words, then pair k = (0x00ECFFFF, pattern k mod 6 + 2 k) for every k < p |
| ProperFrerConfig.V2LastCommand | analysis/sja1110_proper_frer_config.py:132-136 | at 2232 bytes only the command word fits, which completes the image |
| ProperFrerConfig.V2BufferImage | analysis/sja1110_proper_frer_config.py:132-139 | after 273 turns the buffer is the V2 image |
| ProperFrerConfig.V2FillTurn | analysis/sja1110_proper_frer_config.py:132-136 | one turn takes the buffer of p turns to the buffer of p + 1 turns |
| ProperFrerConfig.V2Fill | analysis/sja1110_proper_frer_config.py:132-137 | the loop ends with exactly 2236 bytes forming the V2 image |
| ProperFrerConfig.CreateConfigV2 | analysis/sja1110_proper_frer_config.py:88-139 | the V2 image: the 14 fixed words, 272 filler pairs with values pattern k mod 6 + 2 k, and a final command word |
| ProperFrerConfig.TableHeaderWords | analysis/sja1110_proper_frer_config.py:33-38 | a header with CRC 0 reads as the words id, count, 0 |
| ProperFrerConfig.V3L2Table | analysis/sja1110_proper_frer_config.py:158-180 | the table header (id 8, 11 entries), then 11 (reach, broadcast) entries, port 4 to ports 2 and 3 only |
| ProperFrerConfig.V3MacEntry | analysis/sja1110_proper_frer_config.py:189-194 | a 32-byte entry: enable 3, speed 1000, zeros |
| ProperFrerConfig.V3MacTable | analysis/sja1110_proper_frer_config.py:182-194 | the table header (id 9, 11 entries), then 11 such entries |
| ProperFrerConfig.V3Layout | analysis/sja1110_proper_frer_config.py:148-200 | header, the two tables and zero padding form the V3 image |
| ProperFrerConfig.CreateConfigV3 | analysis/sja1110_proper_frer_config.py:148-200 | the V3 image: BE header 0xB700030F, version 6, the forwarding and MAC tables, zeros up to 2236 |
| ProperFrerConfig.UcLayout | analysis/sja1110_proper_frer_config.py:207-232 | the marker, then the header words, then the vector words at their offsets |
| ProperFrerConfig.AppendVectors | analysis/sja1110_proper_frer_config.py:226-227 | the loop appends n LE copies of one handler address |
| ProperFrerConfig.BasicUcCode | analysis/sja1110_proper_frer_config.py:207-232 | the marker, the six header words and 14 default-handler vectors form the 88-byte code part |
| ProperFrerConfig.CreateBasicUc | analysis/sja1110_proper_frer_config.py:207-237 | 8192 bytes: the marker, the code part, then 0xFF |
| ProperFrerConfig.WordRunOf | analysis/sja1110_proper_frer_config.py:261-262 | words read through a list of equal words form a run of that word |
| ProperFrerConfig.UcLayout3 | analysis/sja1110_proper_frer_config.py:240-276 | the marker and three word lists land at consecutive offsets |
| ProperFrerConfig.FrerUcCode | analysis/sja1110_proper_frer_config.py:240-276 | the marker, eight header words, 12 FRER handler vectors and six FRER words form the 112-byte code part |
| ProperFrerConfig.FrerUcCodePart | analysis/sja1110_proper_frer_config.py:240-276 | the code part of `create_frer_uc` |
| ProperFrerConfig.CreateFrerUc | analysis/sja1110_proper_frer_config.py:240-281 | 320280 bytes: the marker, the code part, then 0xFF |
| FrerRegisters.RegisterCounts | analysis/sja1110_frer_config.py:33-105 | the five `configure_*` groups add 4, 6, 12, 2 and 5 registers, 29 in all |
| FrerRegisters.PortMasks | analysis/sja1110_frer_config.py:10-92 | with P4 defined as 5 the stream's input mask is 0x20 and the forwarding source mask 0x20, while the replication paths are bits 2 and 3 |
| FrerRegisters.RegisterBytes | analysis/sja1110_frer_config.py:116-121 | each register takes 8 bytes |
| FrerRegisters.RegisterBytesRead | analysis/sja1110_frer_config.py:116-121 | register i reads back at 8 i as its BE address, then its BE value |
| FrerRegisters.RegistersExtend | analysis/sja1110_frer_config.py:116-125 | appending bytes leaves the registers already written in place |
| FrerRegisters.PairRead | analysis/sja1110_frer_config.py:118-121 | the appended pair reads back as the register's address and value |
| FrerRegisters.PadLen16 | analysis/sja1110_frer_config.py:123-125 | the padded length is the least multiple of 16 at or above the length |
| FrerRegisters.PadTo16 | analysis/sja1110_frer_config.py:123-125 | the loop appends exactly that many zero bytes |
| FrerRegisters.ZeroPadded | analysis/sja1110_frer_config.py:123-125 | zero padding keeps the original in front and only zeros after it |
| FrerRegisters.BinaryLayout | analysis/sja1110_frer_config.py:107-127 | the header followed by the padded register bytes is the binary of the register list |
| FrerRegisters.RegistersShift | analysis/sja1110_frer_config.py:127 | registers laid out in the body are found 16 bytes later behind the header |
| FrerRegisters.BinaryHeader | analysis/sja1110_frer_config.py:109-113 | 16 bytes reading back as BE magic 0x0F0300B7, version 6, the count, the placeholder 0xE82CE086 |
| FrerRegisters.RegisterConfig.constructor | analysis/sja1110_frer_config.py:26-27 | the register list starts empty |
| FrerRegisters.RegisterConfig.AddRegister | analysis/sja1110_frer_config.py:29-31 | exactly one pair is appended, the earlier ones unchanged |
| FrerRegisters.RegisterConfig.ConfigureGeneral | analysis/sja1110_frer_config.py:33-39 | the general registers are appended in order |
| FrerRegisters.RegisterConfig.ConfigurePorts | analysis/sja1110_frer_config.py:41-53 | the six port registers are appended in order |
| FrerRegisters.RegisterConfig.ConfigureFrerReplication | analysis/sja1110_frer_config.py:55-81 | the twelve FRER registers are appended in order |
| FrerRegisters.RegisterConfig.ConfigureForwardingTable | analysis/sja1110_frer_config.py:83-92 | the two forwarding registers are appended in order |
| FrerRegisters.RegisterConfig.ConfigureSequenceRecovery | analysis/sja1110_frer_config.py:94-105 | the five recovery registers are appended in order |
| FrerRegisters.RegisterConfig.GenerateBinary | analysis/sja1110_frer_config.py:107-127 | the header carries the register count and every register sits at 16 + 8 i as BE address and value, followed by zeros up to a multiple of 16; the count must fit the unsigned 32-bit pack |
| FrerRegisters.RegisterConfig.BuildConfiguration | analysis/sja1110_frer_config.py:129-137 | the 29 registers are appended (again, on a second call) and the binary of the whole list is returned: 256 bytes from a fresh object |
| FrerRegisters.PaddedBody | analysis/sja1110_frer_config.py:116-125 | the padded body holds the registers and zeros after them |
| FixedFrer.PortPairCount | old_versions/sja1110_fixed_frer.py:57-61 | the number of ports i < 11 with `i < len(original) // 8 - 2`: all of their pairs lie inside the original, and a further pair would not |
| FixedFrer.PortConfigs | old_versions/sja1110_fixed_frer.py:54-74 | pair i is the original's LE command at 16 + 8 i and its value at 20 + 8 i changed as the FRER rule says, for exactly those ports |
| FixedFrer.CollectPortConfigs | old_versions/sja1110_fixed_frer.py:54-74 | the loop collects exactly `PortConfigs(original)` |
| FixedFrer.AdjustPortValue | old_versions/sja1110_fixed_frer.py:65-72 | port 4 gets bits 2 and 3, ports 2 and 3 get bit 31, any other value is kept |
| FixedFrer.Prefix | old_versions/sja1110_fixed_frer.py:42-93 | everything appended before the padding is at most 136 bytes |
| FixedFrer.BuildPrefix | old_versions/sja1110_fixed_frer.py:42-93 | the appends before the padding loop build the prefix |
| FixedFrer.AppendPairs | old_versions/sja1110_fixed_frer.py:77-79 | each pair goes out as two LE words, command first |
| FixedFrer.AppendFrerPairs | old_versions/sja1110_fixed_frer.py:83-93 | the guard `len(config) < 2228` always holds, so all four FRER pairs are appended |
| FixedFrer.PadOriginalSpec | old_versions/sja1110_fixed_frer.py:96-102 | the padding stops at exactly 2236 bytes, keeps what was there, and byte k after it is the original's byte k while the original still fits, zero otherwise |
| FixedFrer.PadConfig | old_versions/sja1110_fixed_frer.py:96-102 | the loop computes that padding |
| FixedFrer.CutAndStore | old_versions/sja1110_fixed_frer.py:105-113 | the cut is a no-op at 2236 bytes; the store changes only 12..15, which then hold the CRC-32 of bytes 16.. |
| FixedFrer.CreateSwitchConfig | old_versions/sja1110_fixed_frer.py:34-115 | append, pad, cut and checksum compute `SwitchConfig(original)`, whose layout the lemmas below describe |
| FixedFrer.PrefixHeadWords | old_versions/sja1110_fixed_frer.py:45-46 | the prefix starts with the LE words 0xB700030E and 6 |
| FixedFrer.PrefixPortWords | old_versions/sja1110_fixed_frer.py:50-79 | the port pairs follow the id, the version and `original[8:16]` |
| FixedFrer.PrefixFrerWords | old_versions/sja1110_fixed_frer.py:77-93 | on an original of at least 16 bytes the four FRER pairs follow the last port pair |
| FixedFrer.PrefixParts | old_versions/sja1110_fixed_frer.py:42-93 | the prefix is id and version, `original[8:16]`, the port pairs and the FRER pairs, each laid out from its start |
| FixedFrer.PrefixKept | old_versions/sja1110_fixed_frer.py:96-113 | padding and the checksum store keep every prefix byte outside 12..15 |
| FixedFrer.SwitchConfigKeepsPrefix | old_versions/sja1110_fixed_frer.py:34-115 | the blob is 2236 bytes, stores the CRC of bytes 16.., and keeps every prefix byte outside 12..15 |
| FixedFrer.SwitchConfigHeader | old_versions/sja1110_fixed_frer.py:45-46 | the blob is 2236 bytes with device id 0xB700030E and version 6, its checksum is the CRC-32 of bytes 16.., and `verify_config` accepts it |
| FixedFrer.SwitchConfigKeepsFlags | old_versions/sja1110_fixed_frer.py:50 | on an original of at least 16 bytes, bytes 8..11 of the blob are the original's |
| FixedFrer.PrefixFlags | old_versions/sja1110_fixed_frer.py:50 | bytes 8..11 of the prefix are `original[8:12]` |
| FixedFrer.KeptFlags | old_versions/sja1110_fixed_frer.py:96-113 | bytes 8..11 of the prefix survive padding and the store |
| FixedFrer.SwitchConfigPortPairs | old_versions/sja1110_fixed_frer.py:57-79 | port pair i of the blob, at 16 + 8 i, is the original's pair there with the FRER change applied |
| FixedFrer.PortWordsKept | old_versions/sja1110_fixed_frer.py:77-79 | the port pairs' words survive into the blob at 16 |
| FixedFrer.PortPairsIn | old_versions/sja1110_fixed_frer.py:57-79 | words laid out from 16 read back as the original's pairs with the FRER change |
| FixedFrer.SwitchConfigFrerPairs | old_versions/sja1110_fixed_frer.py:83-93 | the four FRER pairs sit right after the last port pair in the blob |
| FixedFrer.KeptWords | old_versions/sja1110_fixed_frer.py:96-113 | words of the prefix clear of 12..15 survive into the blob |
| FixedFrer.PairsRead | old_versions/sja1110_fixed_frer.py:77-79 | pairs laid out as words from 16 read back pair by pair |
| FixedFrer.SwitchConfigPadding | old_versions/sja1110_fixed_frer.py:96-102 | every byte after the prefix is the original's byte at that offset or zero, as the padding rule says |
| PairScan.FrerValue | sja1110_final_fix.py:89-106 | a value naming P4 (low byte 0x08) gets bits 2 and 3, one naming P2A or P2B (0x04, 0x06) gets bit 31, any other is kept |
| PairScan.PatchPair | sja1110_final_fix.py:82-106 | one iteration changes at most the value word at offset + 4..offset + 7, which then holds the pair's new value |
| PairScan.PatchPairs | sja1110_final_fix.py:82-106 | the scan keeps the buffer's length; its contents are stated by `PairScan.PatchPairsFrame` and `PairScan.PatchPairsValues` |
| PairScan.PatchPairsFrame | sja1110_final_fix.py:82-106 | the scan changes no byte outside the value words of the pairs it visits |
| PairScan.PatchPairsValues | sja1110_final_fix.py:82-106 | every visited pair that fits holds, after the whole scan, the value computed from the input's own pair |
| PairScan.FirstPairValue | sja1110_final_fix.py:82-106 | the first visited pair holds its new value once the scan is done |
| PairScan.PairValueFrame | sja1110_final_fix.py:83-106 | a pair's new value depends only on its own eight bytes |
| PairScan.PairUntouched | sja1110_final_fix.py:82 | later iterations leave an earlier pair alone, because the offsets step by 8 |
| PairScan.CommandNotInValueWord | sja1110_final_fix.py:82-106 | a visited pair's command word is never inside any value word the scan writes |
| PairScan.PatchPairsFixed | sja1110_final_fix.py:82-106 | a buffer on which every visited pair is already settled goes through the scan unchanged |
| PairScan.FrerValueSettled | sja1110_final_fix.py:92-106 | a rewritten value is settled: it no longer names P4, or OR-ing bit 31 again changes nothing |
| PairScan.PairSettled | sja1110_final_fix.py:82-106 | every visited pair of the scan's output is settled |
| PairScan.PatchPairsIdempotent | sja1110_final_fix.py:82-106 | running the scan on its own output changes nothing |
| PairScan.IneligibleUnchanged | sja1110_final_fix.py:82-106 | with no pair carrying a port command and a FRER port, the scan changes nothing |
| FinalFix.IdFixed | sja1110_final_fix.py:34-65 | the id word becomes 0xB700030F, every other byte is kept, and an original that already has that id is taken as is |
| FinalFix.ScanPair | sja1110_final_fix.py:83-106 | the loop body is one scan iteration with the commands 0xFFFFEC00 and 0x00ECFFFF |
| FinalFix.ScanPairs | sja1110_final_fix.py:82-106 | the loop over `range(0x10, min(0x200, len), 8)` is the pair scan over that range |
| FinalFix.CreateSwitchConfig | sja1110_final_fix.py:51-120 | fix the id, scan, truncate, store the checksum: `SwitchConfig(original)`, described by the lemmas below |
| FinalFix.CutAndStore | sja1110_final_fix.py:108-116 | on at least 16 bytes: the output is cut to 2236, holds w at 12..15 and every other byte of the input |
| FinalFix.ShortStore | sja1110_final_fix.py:108-116 | below 16 bytes the slice write lands at `min(len, 12)`, so the output is the input cut to 12 plus four bytes |
| FinalFix.SwitchConfigShape | sja1110_final_fix.py:51-120 | the output carries the hardware id and is the input cut to 2236, or below 16 bytes cut to 12 with four bytes appended |
| FinalFix.SwitchConfigVerifies | sja1110_final_fix.py:122-152 | `verify_config(create_switch_config())` holds for every input of at least 12 bytes |
| FinalFix.SwitchConfigChanges | sja1110_final_fix.py:51-120 | apart from the id and the checksum, only value words of scanned pairs differ from the input, and each such pair holds its new value |
| FinalFix.CreateUcFirmware | sja1110_final_fix.py:154-171 | the length is kept; when `0x1000 + 32 < len` the five LE words 1, 0xF1CD, 0x100, 0x10, 0x0C sit at 0x1000, and every other byte is kept |
| FrerEnabled.PortOf | sja1110_frer_enabled.py:55-61 | the recorded port, the top byte of the value halved, is below 128 |
| FrerEnabled.Scan | sja1110_frer_enabled.py:45-72 | every recorded entry describes the pair at its offset (command, value, port), lies at or after the start, and the entries ascend by at least 8 bytes |
| FrerEnabled.ScanFromScan | sja1110_frer_enabled.py:45-72 | the loop's accumulator is what was recorded so far followed by the rest of the scan |
| FrerEnabled.ScanComplete | sja1110_frer_enabled.py:49-72 | every pair the scan reaches before a 16-byte zero run, below `len - 8`, with a qualifying command word is recorded |
| FrerEnabled.AnalyzeOriginalStructure | sja1110_frer_enabled.py:21-74 | the loop from 0x10 returns exactly the entries `Scan` describes |
| FrerEnabled.ApplyEntry | sja1110_frer_enabled.py:94-127 | one turn changes at most the entry's value word, which then holds the patched value for ports 4, 2 and 3 |
| FrerEnabled.ApplyEntries | sja1110_frer_enabled.py:94-127 | the entry loop keeps the length; its contents are stated by `FrerEnabled.ApplyEntriesFrame` and `FrerEnabled.ApplyEntriesValues` |
| FrerEnabled.AnyPatchedSpec | sja1110_frer_enabled.py:92-129 | `modified` ends true exactly when some entry names port 2, 3 or 4 |
| FrerEnabled.UnpatchedUnchanged | sja1110_frer_enabled.py:94-129 | when no entry names port 2, 3 or 4 the entry loop changes nothing |
| FrerEnabled.BelowEntryValues | sja1110_frer_enabled.py:94-127 | a byte below every entry's value word lies in none of them |
| FrerEnabled.ApplyEntriesFrame | sja1110_frer_enabled.py:94-127 | the entry loop changes only the entries' value words |
| FrerEnabled.ApplyEntriesValues | sja1110_frer_enabled.py:94-127 | on ascending entries that fit, each patched entry's value word ends up holding its new value |
| FrerEnabled.RestFits | sja1110_frer_enabled.py:94 | the entries after the first still fit and ascend |
| FrerEnabled.FirstEntryKept | sja1110_frer_enabled.py:94-127 | later turns leave the first entry's value word alone |
| FrerEnabled.PatchEntry | sja1110_frer_enabled.py:95-127 | the loop body patches the entry and reports whether it named port 2, 3 or 4 |
| FrerEnabled.FallbackPair | sja1110_frer_enabled.py:135-149 | the fallback body is the pair scan step with the command 0xFFFFEC00 |
| FrerEnabled.Patched | sja1110_frer_enabled.py:79-149 | the port stage keeps the length; its contents are stated by `FrerEnabled.PatchedEntries` and `FrerEnabled.PatchedFallback` |
| FrerEnabled.WritePair | sja1110_frer_enabled.py:167-170 | a block pair that fits is written at its address, nothing else changes |
| FrerEnabled.WritePairs | sja1110_frer_enabled.py:166-170 | the block loop keeps the length; its contents are stated by `FrerEnabled.WritePairsSpec` |
| FrerEnabled.WritePairsSpec | sja1110_frer_enabled.py:166-170 | the block loop writes pair j at `at + 8 j` and nothing outside the block |
| FrerEnabled.PairKept | sja1110_frer_enabled.py:166-175 | bytes that agree carry the same pair |
| FrerEnabled.WithBlock | sja1110_frer_enabled.py:153-170 | the block stage keeps the length; its contents are stated by `FrerEnabled.WithBlockSpec` |
| FrerEnabled.WithBlockSpec | sja1110_frer_enabled.py:153-170 | when `0x100 < len - 32` the four FRER pairs sit at 0x100..0x11F; no other byte changes |
| FrerEnabled.CreateFrerConfig | sja1110_frer_enabled.py:76-179 | scan, patch the entries or fall back, add the block, store the checksum: `FrerConfig(original)`, described by the lemmas below |
| FrerEnabled.PatchPorts | sja1110_frer_enabled.py:79-149 | the port part computes `Patched(original)` |
| FrerEnabled.PatchEntries | sja1110_frer_enabled.py:92-127 | the entry loop computes `ApplyEntries` and `modified` |
| FrerEnabled.PatchFallback | sja1110_frer_enabled.py:129-149 | the fallback is the pair scan over `[0x10, min(0x400, len))` |
| FrerEnabled.AddFrerBlock | sja1110_frer_enabled.py:151-170 | the block part computes `WithBlock` |
| FrerEnabled.WriteBlock | sja1110_frer_enabled.py:166-170 | the enumerate loop computes `WritePairs` |
| FrerEnabled.AddBlockPair | sja1110_frer_enabled.py:167-170 | one turn writes the pair when it fits |
| FrerEnabled.PatchedKeepsHeader | sja1110_frer_enabled.py:79-149 | the port stage keeps the length and the first 20 bytes |
| FrerEnabled.PatchedEntries | sja1110_frer_enabled.py:92-127 | when an entry names port 2, 3 or 4 the fallback does not run: only entries' value words change, each patched one to its new value |
| FrerEnabled.PatchedFallback | sja1110_frer_enabled.py:129-149 | otherwise only value words on the fallback grid change, each to the value computed from the original pair |
| FrerEnabled.FrerConfigChecksum | sja1110_frer_enabled.py:151-179 | the result keeps the length, stores the CRC-32 of bytes 16.. at 12..15, and outside the checksum and the block equals the port stage's output |
| FrerEnabled.FrerConfigBlock | sja1110_frer_enabled.py:153-170 | when `0x100 < len - 32` the four FRER pairs sit at 0x100..0x11F of the result |
| FrerEnabled.StoreCrc | sja1110_frer_enabled.py:173-175 | the stored checksum reads back as the CRC of bytes 16.. and nothing else changes |
| FrerEnabled.PairsKept | sja1110_frer_enabled.py:166-175 | block pairs survive the checksum store |
| FrerEnabled.FrerConfigVerifies | sja1110_frer_enabled.py:203-225 | `verify_frer_config(create_frer_config())` holds exactly when the original carries id 0xB700030F |
| FrerEnabled.CreateFrerUc | sja1110_frer_enabled.py:181-201 | the length is kept; when `0x1000 + 32 < len` the six LE words 1, 0xF1CD, 0x100, 1, 0x10, 0x0C sit at 0x1000, and every other byte is kept |
| FrerEnabler.CbEnBits | source/sja1110_frer_enabler.py:69-71 | `config1 \| 0x80` has CB_EN (bit 7) set and every other bit of the word kept |
| FrerEnabler.ReplicationBits | source/sja1110_frer_enabler.py:73-75 | `config2 \| 0x30000` has FRMREPEN and SEQGEN (bits 16, 17) set and every other bit kept |
| FrerEnabler.LowNibbleBits | source/sja1110_frer_enabler.py:88-102 | `(b & 0xF0) \| n` keeps the high nibble and has low nibble n |
| FrerEnabler.HeaderBitsSet | source/sja1110_frer_enabler.py:50-75 | the two configuration words are rewritten in place and every other byte is kept |
| FrerEnabler.EnableHeaderBits | source/sja1110_frer_enabler.py:50-75 | step [3] computes `HeaderBitsSet` |
| FrerEnabler.SetPortRoles | source/sja1110_frer_enabler.py:86-102 | bytes 0x37, 0x27 and 0x2F, where they exist, get low nibbles 4, 2 and 3 over their high nibble; length and every other byte kept |
| FrerEnabler.StreamRecordFields | source/sja1110_frer_enabler.py:117-129 | the 12-byte record reads back as LE halfwords 1, 0xF1C1, 0x10, 0x0C, 0x100, 0x3E8, so it contains the bytes C1 F1 |
| FrerEnabler.SearchEnd | source/sja1110_frer_enabler.py:110 | the end of `range(0x200, len - 32)`: empty, or 32 below the length |
| FrerEnabler.StreamSlotSpec | source/sja1110_frer_enabler.py:109-113 | the slot is the first i with `0x200 <= i < len - 32` whose 32 bytes are all 0xFF, and there is none exactly when no such i exists |
| FrerEnabler.SlotPastHeader | source/sja1110_frer_enabler.py:110-115 | a slot is at least 0x200, so the truth test `if frer_config_offset` never meets offset 0 |
| FrerEnabler.StreamSlotFrame | source/sja1110_frer_enabler.py:110-113 | the search reads only bytes from 0x200 on, so the earlier steps cannot move the slot |
| FrerEnabler.AddStreamRecord | source/sja1110_frer_enabler.py:107-132 | the record lands at the slot and nowhere when there is none; length and every other byte kept |
| FrerEnabler.Checksummed | source/sja1110_frer_enabler.py:139-142 | bytes 12..15 hold the CRC-32 of bytes 16.., every other byte kept |
| FrerEnabler.EnabledFrame | source/sja1110_frer_enabler.py:50-142 | the four steps' guarantees add up to the whole function's |
| FrerEnabler.EnableFrerInGoldvip | source/sja1110_frer_enabler.py:11-149 | steps [3] to [6]: the two words with the FRER bits, the role nibbles, the record at the slot, the CRC of bytes 16.. at 12..15, and no other byte changed |
| FrerEnabler.VerifyFrerConfig | source/sja1110_frer_enabler.py:180-205 | the id check passes exactly when the first four bytes are B7 00 03 0F |
| FrerEnabler.EnabledReport | source/sja1110_frer_enabler.py:180-205 | on a blob the enabler wrote, CB_EN, FRMREPEN and SEQGEN read as enabled, the id check passes exactly when the input carried the id, and the R-TAG is found whenever the record was written |
| FrerEnabler.EnableThenVerify | source/sja1110_frer_enabler.py:209-215 | `main`: enable, then read back; the same three guarantees hold of the report |
| MinimalFrer.DetectStoredCrc | sja1110_minimal_frer.py:38-48 | a blob holding the CRC-32 of its bytes 16.. at 12..15 is recognised as `data[16:]`, whatever the field held before |
| MinimalFrer.ConservativeFrer | sja1110_minimal_frer.py:87-138 | the result keeps the length; its contents are stated by `MinimalFrer.ConservativeChanges` and `MinimalFrer.ConservativeChecksumStored` |
| MinimalFrer.ConservativePair | sja1110_minimal_frer.py:100-122 | one pass is the pair-scan step with command 0xFFFFEC00 and ports P2A, P2B only, and `hit` says exactly whether the pair was rewritten |
| MinimalFrer.ConservativeEligible | sja1110_minimal_frer.py:105-122 | only values with low byte 0x04 or 0x06 qualify, and they get bit 31 |
| MinimalFrer.CreateConservativeFrer | sja1110_minimal_frer.py:87-138 | the pair loop with its `modified` flag, the early return, and the checksum store for the `data[16:]` scope: `ConservativeFrer(data)` |
| MinimalFrer.ConservativeChanges | sja1110_minimal_frer.py:100-138 | outside 12..15 only value words of scanned pairs differ, each holding the value computed from the input's pair |
| MinimalFrer.ConservativeUnmatched | sja1110_minimal_frer.py:124-126 | with no eligible pair the input comes back unchanged, and the scan alone would have given it back too |
| MinimalFrer.ConservativeChecksumKept | sja1110_minimal_frer.py:129-135 | for any scope other than `data[16:]` bytes 12..15 are kept: the `data[12:]` branch computes a CRC it never stores |
| MinimalFrer.ConservativeChecksumStored | sja1110_minimal_frer.py:129-131 | for the `data[16:]` scope 12..15 hold the CRC-32 of bytes 16.., so the same scope is detected on the result |
| MinimalFrer.PaddingSearchEnd | sja1110_minimal_frer.py:153 | the end of `range(len - 16)`: 0, or 16 below the length |
| MinimalFrer.WordsWhileFit | sja1110_minimal_frer.py:170-174 | the table loop keeps the length; its contents are stated by `MinimalFrer.WordsWhileFitSpec` |
| MinimalFrer.WordsWhileFitSpec | sja1110_minimal_frer.py:170-174 | every word that fits lands at `at + 4 j`, and nothing outside `[at, at + 4 n)` changes |
| MinimalFrer.CreateOriginalPlusFrerTable | sja1110_minimal_frer.py:140-177 | the search and the table loop compute `OriginalPlusFrerTable(original)` |
| MinimalFrer.OriginalPlusFrerTableSpec | sja1110_minimal_frer.py:140-177 | the length never changes; without a zero run, or with the first at offset 0 (falsy), the blob comes back as it was; otherwise the first all-zero 16-byte run gets the first four words, the fifth when it fits, and nothing outside `[i, i + 20)` changes |
| MinimalFrer.TableWritten | sja1110_minimal_frer.py:160-174 | at a run of at least 16 bytes the first four words land, the fifth when it fits, nothing else changes |
| GoldvipFrer.SetWord | sja1110_goldvip_frer.py:58-72 | a word write in range is an in-place overwrite; past the end Python's slice clamping appends, so the length becomes `max(len, at + 4)`, or `len + 4` when `at` is past the end |
| GoldvipFrer.CreateFrerSwitchConfig | sja1110_goldvip_frer.py:40-85 | the six pair writes and the stream block compute `FrerSwitchConfig(orig)`, described by the lemmas below |
| GoldvipFrer.ReadAfterPut | sja1110_goldvip_frer.py:58-72 | a word read elsewhere is not disturbed by a write |
| GoldvipFrer.PairsInPlaceFrame | sja1110_goldvip_frer.py:58-72 | the three pairs survive in any buffer agreeing on 0x20..0x37 |
| GoldvipFrer.PairsWrittenLayout | sja1110_goldvip_frer.py:54-72 | on at least 0x38 bytes the P2A, P2B and P4 pairs (command 0x00ECFFFF; values 0x9FFF7F02 and 0x9FFF7F03 with bit 31, 0x9FFF7F04) sit at 0x20, 0x28, 0x30, the length is kept and no other byte changes |
| GoldvipFrer.TwoPuts | sja1110_goldvip_frer.py:58-72 | a command and a value written as one pair read back, nothing else changes |
| GoldvipFrer.FrerBitAlreadySet | sja1110_goldvip_frer.py:67-72 | the value words the result holds at 0x24 and 0x2C are 0x9FFF7F02 and 0x9FFF7F03: the OR-ed bit 31 is already set in them |
| GoldvipFrer.FrerSwitchConfigLayout | sja1110_goldvip_frer.py:40-85 | on at least 0x38 bytes: the pairs are in place, the stream words sit at 0x100 exactly when `0x100 < len - 16`, and every other byte, the stored checksum included, is the original's |
| GoldvipFrer.FrerSwitchConfigLength | sja1110_goldvip_frer.py:40-85 | the length is kept exactly when the blob has at least 0x38 bytes; a shorter one grows |
| GoldvipFrer.PairsWrittenLength | sja1110_goldvip_frer.py:54-72 | the pair writes never shrink the blob, and keep its length exactly from 0x38 bytes on |
| GoldvipFix.PatternBytes | sja1110_goldvip_fix.py:76-86 | fill word k, packed LE, is `config_pattern[k % 8]` |
| GoldvipFix.PatternRun | sja1110_goldvip_fix.py:83-86 | k turns of the fill loop append 4 k bytes |
| GoldvipFix.PatternRunRecords | sja1110_goldvip_fix.py:83-86 | word i of the fill is `config_pattern[i % 8]` for every i below k |
| GoldvipFix.FillRunWord | sja1110_goldvip_fix.py:83-86 | word j of a fill is the j-th word appended, whatever comes after it |
| GoldvipFix.SwitchImageOf | sja1110_goldvip_fix.py:16-89 | the 34 fixed words followed by 525 fill words are the whole image |
| GoldvipFix.CreateGoldvipSwitchFirmware | sja1110_goldvip_fix.py:10-95 | every byte of the 2236-byte image: the fixed words (id 0x0F0300B7, CB_EN, FRMREPEN, the port blocks, the forwarding, MAC, VLAN and stream entries, the static route), then `config_pattern[k % 8]` |
| GoldvipFix.SwitchImageBytes | sja1110_goldvip_fix.py:18-66 | the image starts B7 00 03 0F, which the hardware reads as 0xB700030F, and its R-TAG word lies as 00 00 F1 C1 |
| GoldvipFix.SwitchPatternWord | sja1110_goldvip_fix.py:83-86 | the word at 136 + 4 k is pattern word k mod 8 |
| GoldvipFix.NopSled | sja1110_goldvip_fix.py:135-137 | 100 copies of the Thumb NOP 00 BF |
| GoldvipFix.UcFrontLayout | sja1110_goldvip_fix.py:103-131 | the marker, the four header words and the 16-word vector table form the first 88 bytes |
| GoldvipFix.UcHeadLayout | sja1110_goldvip_fix.py:103-164 | the front, the NOPs, the six LE halfwords of init code and the six FRER words land at 0, 88, 288 and 300 |
| GoldvipFix.UcHead | sja1110_goldvip_fix.py:103-164 | everything before the fill loop, 324 bytes, part by part |
| GoldvipFix.UcCut | sja1110_goldvip_fix.py:166-172 | the fill loop stops at 320284 bytes and the cut keeps 39994 whole blocks and the FF half of the last |
| GoldvipFix.CreateGoldvipUcFirmware | sja1110_goldvip_fix.py:98-178 | every byte of the 320280-byte image: the 324-byte head, then blocks FF FF FF FF 00 00 00 00 |
| GoldvipFix.UcImageWords | sja1110_goldvip_fix.py:116-156 | the FRER block's R-TAG word is 0xF1C1 and the reset vector 0x1C1 |
| GoldvipFix.UcFillByte | sja1110_goldvip_fix.py:166-172 | fill byte i is FF in the first half of its eight-byte block and 00 in the second |
| GoldvipFix.VerifyBinaries | sja1110_goldvip_fix.py:181-212 | the id check passes exactly when the switch image starts B7 00 03 0F, the marker check exactly when the first eight UC bytes are the marker (so never below eight bytes), the size check exactly at 320280 bytes |
| GoldvipFix.GoldvipImagesPass | sja1110_goldvip_fix.py:251-256 | both generated images pass all three checks |
| GhidraAnalysis.SplitEntries | analysis/sja1110_ghidra_analysis.py:31-42 | one entry per whole 8-byte step from offset 0, entry i holding the LE words at 8 i and 8 i + 4; a shorter tail is dropped |
| GhidraAnalysis.InterpretMeaning | analysis/sja1110_ghidra_analysis.py:52-66 | the five patterns never overlap, so each interpretation holds exactly when its own mask test matches |
| GhidraAnalysis.PortsOfMeaning | analysis/sja1110_ghidra_analysis.py:82-86 | a port is collected exactly when some entry with command high half 0x00EC has it as its value's low byte |
| GhidraAnalysis.ConfiguredPorts | analysis/sja1110_ghidra_analysis.py:82-86 | the loop collects exactly that set |
| GhidraAnalysis.AnalyzeSwitchBinary | analysis/sja1110_ghidra_analysis.py:10-90 | for a file of at least 8 bytes (a shorter one makes the header-block unpacks at :77-78 raise): the entries of the split and the set of configured ports, both characterised as above |
| GhidraAnalysis.PairRun | analysis/sja1110_ghidra_analysis.py:218-223 | k filler pairs take 8 k bytes |
| GhidraAnalysis.SwitchImageOf | analysis/sja1110_ghidra_analysis.py:187-225 | the 56-byte prefix and the 273 turns of the pad loop form the whole configuration |
| GhidraAnalysis.CreateSwitchConfigBinary | analysis/sja1110_ghidra_analysis.py:181-233 | every byte of the 2236-byte configuration: the 14 fixed words, 272 pairs (0xFFFF00EC, 0x007FFF9F), four zero bytes |
| GhidraAnalysis.SwitchImageMagic | analysis/sja1110_ghidra_analysis.py:190 | the magic is packed LE, so the image starts 0F 03 00 B7 |
| GhidraAnalysis.FillCommandAt | analysis/sja1110_ghidra_analysis.py:218-223 | the command word of filler pair k is 0xFFFF00EC |
| GhidraAnalysis.SwitchImageCommands | analysis/sja1110_ghidra_analysis.py:187-225 | the command word of entry i is the i-th fixed command for i < 7 and the filler command after |
| GhidraAnalysis.PrefixCommandNotPort | analysis/sja1110_ghidra_analysis.py:190-215 | none of the seven fixed command words has high half 0x00EC |
| GhidraAnalysis.GeneratedConfigHasNoPortEntries | analysis/sja1110_ghidra_analysis.py:82-223 | the tool's own classifier finds no port-configuration entry in the configuration it builds: its commands are 0xFFFF00EC, high half 0xFFFF |
| GhidraAnalysis.VectorTable | analysis/sja1110_ghidra_analysis.py:246-258 | the four named vectors, then the default handler 0x401 44 times |
| GhidraAnalysis.PaddedRegion | analysis/sja1110_ghidra_analysis.py:261-304 | a padded region survives into the final image |
| GhidraAnalysis.UcImageLayout | analysis/sja1110_ghidra_analysis.py:244-304 | the buffer after each step determines the image region by region |
| GhidraAnalysis.CreateUcFirmwareBinary | analysis/sja1110_ghidra_analysis.py:235-312 | every byte of the 8192-byte image: 48 vectors, zeros to 256, the nine reset-code halfwords, 0xFF to 1024, the six FRER words, 0xFF to the end |
| GhidraAnalysis.UcImageWords | analysis/sja1110_ghidra_analysis.py:250-290 | the reset vector 0x101, the default handler in vector 47, the R-TAG EtherType 0xF1CD at 1036 |
| S32gFix.DeviceIdLayout | sja1110_s32g_fix.py:19-24 | 0x0F0300B7 packed LE is the bytes B7 00 03 0F |
| S32gFix.DeviceIdRead | sja1110_s32g_fix.py:88-90 | the LE word at 0 is 0x0F0300B7 exactly when the first four bytes are B7 00 03 0F |
| S32gFix.FixSwitchFirmware | sja1110_s32g_fix.py:10-34 | `pack_into` at 0 writes B7 00 03 0F over the first four bytes and changes nothing else |
| S32gFix.FixSwitchIdempotent | sja1110_s32g_fix.py:23-24 | fixing an already fixed image changes nothing |
| S32gFix.Slice | sja1110_s32g_fix.py:60-63 | a slice with Python's clamping has length `max(0, min(hi, len) - lo)` |
| S32gFix.BodySlices | sja1110_s32g_fix.py:59-63 | `original[0:1024] + original[1024:320256]` is the first `min(len, 320256)` bytes |
| S32gFix.FixUcFirmware | sja1110_s32g_fix.py:37-76 | 320280 bytes: the marker, the four header words, the original's first `min(len, 320256)` bytes, then 0xFF |
| S32gFix.UcLayout | sja1110_s32g_fix.py:43-71 | the buffer before and after the pad loop determines the output's layout |
| S32gFix.VerifyFixes | sja1110_s32g_fix.py:79-106 | the id check passes exactly when the switch image starts B7 00 03 0F, the marker check exactly when the UC image starts with the marker |
| S32gFix.FixesVerify | sja1110_s32g_fix.py:134-144 | both checks pass on what the two fixes produce |
| FrerTest.Payload | sja1110_test.py:25 | the payload is the data followed by zero bytes up to 46 bytes; data of 46 bytes or more is kept unpadded |
| FrerTest.TestFrameLayout | sja1110_test.py:17-29 | a test frame is 14 + max(46, n) bytes: broadcast destination, source 00:11:22:33:44:55, EtherType 0x88F7 big-endian, then the data |
| FrerTest.FrerFrameLayout | sja1110_test.py:31-49 | an R-TAG frame is 20 + max(46, n) bytes: destination 00:AA:BB:CC:DD:EE, the test source, EtherType 0xF1CD, a zero reserved halfword, the sequence number, EtherType 0x0800, then the data |
| FrerTest.CheckRTag | sja1110_test.py:126-132 | a received frame is too short exactly when it has fewer than 18 bytes; otherwise it reports the R-TAG sequence number at bytes 16-17 when bytes 12-13 read 0xF1CD, and the EtherType found there when they do not |
| FrerTest.CheckFrerFrame | sja1110_test.py:126-130 | the receive-side check reads back from an R-TAG frame exactly the sequence number it was built with |
| FrerTest.CheckTestFrame | sja1110_test.py:126-132 | a plain test frame is reported as carrying no R-TAG, with EtherType 0x88F7 |
| FrerTest.HeadersMatchSeq | sja1110_test.py:142 | two R-TAG frames of the same payload have matching 18-byte headers exactly when their sequence numbers are equal |
| FrerTest.FrerTester.constructor | sja1110_test.py:13-15 | a new tester starts with sequence number 0 |
| FrerTest.FrerTester.CreateTestFrame | sja1110_test.py:17-29 | returns the test frame of the data and leaves the sequence counter unchanged |
| FrerTest.FrerTester.CreateFrerFrame | sja1110_test.py:31-49 | the frame carries the sequence number held before the call, and the counter advances by one modulo 65536 |
| FrerTest.SeqAfter | sja1110_test.py:41 | the counter after any number of frames stays below 65536 |
| FrerTest.SeqAfterWraps | sja1110_test.py:41 | after n frames the counter is n mod 65536 |
| FrerTest.SendFrames | sja1110_test.py:148-156 | a fresh tester that sends n R-TAG frames ends with sequence counter n mod 65536 |

## Left out

- File and OS I/O (reading the GoldVIP blobs, writing the output files), shell-script generation (`create_upload_script`, `create_verification_script`), `main` functions and every `print`: the patchers and verifiers take the loaded bytes as parameters and return bytes or a verdict, and print-only reporting has no model.
- `time.time()`: the generator's header timestamp (sja1110_ultrathink_frer.py:77-97) is a `timestamp` parameter; the test payload built from the clock in `verify_replication` is not modelled.
- Sockets and timing in sja1110_test.py (`send_to_port`, `receive_from_port`, `sys.platform`, `time.sleep`, the loop of `run_continuous_test`): only the R-TAG decode and header comparison of `verify_replication` are modelled (`FrerTest.CheckRTag`, `FrerTest.HeadersMatchSeq`), and the counter across frames is modelled by `FrerTest.SendFrames`.
- Python exceptions: a `struct.error` on a buffer too short for a fixed-offset read is modelled as a `requires` on the member that would raise (for example `S32gFix.FixSwitchFirmware`, `FixCrc.CreateMinimalFrerConfig` and `GhidraAnalysis.AnalyzeSwitchBinary`); in the analyzer it is `None`, and the output printed before the exception is not modelled.
- `zlib.crc32` and `calculate_crc` in analysis/sja1110_proper_frer_config.py (defined but never called) are both modelled as `Crc32.Crc`, the reflected CRC-32 whose equality with the MSB-first loop is proved.
- FrerTest.Payload: `data.encode()` is modelled as the payload bytes themselves, and the padding count is taken from the byte length; sja1110_test.py:25 and :45 pad by `46 - len(data)` in characters, which differs for non-ASCII text. The default arguments "Test Frame" and "FRER Test" are not modelled.
- Microcontroller code bytes (Thumb instructions, vector tables written as literal words) are opaque constants: the model states where they are written, not what they execute.
- `GoldVIPFRER.create_frer_uc_firmware` (sja1110_goldvip_frer.py:87-116) has no member of its own: it writes the same six words under the same length condition as `FrerEnabled.CreateFrerUc`. The UC patch of old_versions/sja1110_fixed_frer.py:117-144 is the same as that of sja1110_final_fix.py and is covered by `FinalFix.CreateUcFirmware`.
- Identical copies: source/sja1110_fix_crc.py, old_versions/sja1110_final_fix.py and source/sja1110_goldvip_fix.py are byte-for-byte copies of their top-level files and are covered by the modules `FixCrc`, `FinalFix` and `GoldvipFix`.
- `fix_goldvip_crc` reads a second, reference blob from disk when it exists; `FixCrc.FixGoldvipCrc` takes it as an optional parameter.
- BitReverseUpTo: proved to be the full reversal `Rev32`, and so an involution, only at width 32 (`UltrathinkFrerPatch.BitReverseIsRev32`, `UltrathinkFrerPatch.BitReverseInvolution`), the one width the source calls `bit_reverse` with (source/sja1110_ultrathink_frer.py:27 and :51). The bound below 2^w and the involution for narrower widths are not proved.
- AnalyzeUltrathinkFrer.ImageScanFails: takes the stream-table CRC word at 1104 being 2 or more as a hypothesis. The word is the CRC-32 of the 512 fixed entry bytes, and the verifier does not evaluate that CRC, so the lemma does not show that the word meets the hypothesis.
- MinimalFrer.WordsWhileFitSpec: states that every word that fits is written at its place and that nothing outside the table's span changes; it does not state that the bytes of a trailing word that no longer fits keep their values.
- `create_conservative_frer` computes a checksum over `data[12:]` when that is the detected method and never stores it; the model leaves the stored checksum untouched on that branch, as the source does, and does not model the discarded value.
- `create_backup_methods` and `main` in sja1110_minimal_frer.py, which try the variants in turn and write the files, are not modelled; the two variants are (`MinimalFrer.CreateConservativeFrer`, `MinimalFrer.CreateOriginalPlusFrerTable`).
- `GoldVIPFRER.analyze_original` (sja1110_goldvip_frer.py:23-38) only prints the header of the original blob and is not modelled.
- `SJA1110FinalFix.check_original` (sja1110_final_fix.py:34-49) only prints what the original blob holds and is not modelled.
- The analyzer's microcontroller part (`analyze_uc_firmware`, `find_frer_code_patterns` in source/analyze_ultrathink_frer.py) and the Ghidra tool's `analyze_uc_binary` and `create_sja1110_frer_firmware` print reports or call the modelled builders; they are not modelled. Of `analyze_switch_binary` the model keeps the entry split, the classifier and the port collection.
- The hexadecimal dump of each table's first entry in `analyze_switch_firmware` (source/analyze_ultrathink_frer.py:92-99) is print-only and not modelled.
- `FRERTester.test_frames` is never read or written after `__init__` and is not modelled.
- `generate_all_versions` in analysis/sja1110_proper_frer_config.py writes the three variants and the UC images to files; the builders it calls are modelled.
- analysis/binary_hexdump.py is not part of this model: it only dumps files.

## Findings

| source | as written | input that shows it | evidently intended | confidence | as-written member | corrected member |
|---|---|---|---|---|---|---|
| source/analyze_ultrathink_frer.py:66 | the table walk starts at offset 48 ("after header"), but the generator's device header is 36 bytes (sja1110_ultrathink_frer.py:77-101), so the walk starts inside the general-parameters table | any image from `generate_complete_firmware`: at 48 the walk reads that table's CRC as an id, the switch id's low word 0x22334455 as an entry count and 17 as an entry size, jumps past the end, and reports at most that one bogus table | the walk starts where the header ends (offset 36) and lists the six tables in the order the generator wrote them | not executed | AnalyzeUltrathinkFrer.AnalyzeSwitchFirmware, AnalyzeUltrathinkFrer.WalkAt48MisreadsImage | AnalyzeUltrathinkFrer.WalkSwitchTables, AnalyzeUltrathinkFrer.WalkAfterHeaderListsImageTables |
| source/analyze_ultrathink_frer.py:113-128 | the FRER scan dispatches on every 4-byte-aligned word from 48, not only at table starts, and the entry parsers do not guard their reads | any image from `generate_complete_firmware`: at 1100 (48 + 4 * 263) the scan meets the stream table's entry-size word 32 = 0x20 and parses a stream table there. The count it reads is the table's CRC word at 1104, 0x8576AE92 for the fixed entries. The size it reads is 0x30000, stream 0's first four bytes. The second entry read, at 1116 + 0x30000, is past the 2236-byte end and raises `struct.error`. The proof takes the CRC word being 2 or more as a hypothesis; the verifier does not evaluate the CRC | dispatch only at the starts of the tables the walk finds, which reports the stream identification, sequence generation and recovery tables at 1092, 1620 and 2020 | not executed | AnalyzeUltrathinkFrer.ScanFrerTables, AnalyzeUltrathinkFrer.ImageScanFails | AnalyzeUltrathinkFrer.ScanSwitchTables, AnalyzeUltrathinkFrer.CorrectedScanListsImageFrerTables |

=== FILE: analyze_ultrathink_frer.dfy ===
/**
 * The reader for the images of `UltrathinkFirmware`: the device-header
 * decode, the table walk, the FRER table scan with its three entry parsers,
 * and the table-name lookup of `BinaryAnalyzer`.
 *
 * Python raises `struct.error` (or `IndexError`) when an unpack runs past
 * the end of the file, which ends the analysis; here that outcome is
 * `None`.
 */
module AnalyzeUltrathinkFrer {
  import opened Bytes
  import opened Crc32
  import opened UltrathinkFirmware

  // ------------------------------------------------------------ device header

  datatype HeaderFields = HeaderFields(deviceId: bv32, version: bv32, timestamp: bv64, features: bv32)

  /** The header part of `analyze_switch_firmware`: BE words at 0, 4 and 16, a BE u64 at 8. */
  function DecodeDeviceHeader(data: Bytes): (r: Option<HeaderFields>)
    ensures r.Some? <==> |data| >= 20
    ensures r.Some? ==> r.value.deviceId == ReadBe32(data, 0) && r.value.timestamp == ReadBe64(data, 8)
  {
    if |data| < 20 then None
    else Some(HeaderFields(ReadBe32(data, 0), ReadBe32(data, 4), ReadBe64(data, 8), ReadBe32(data, 16)))
  }

  /** The check behind "Valid SJA1110 device ID". */
  predicate ValidDeviceId(h: HeaderFields)
  {
    h.deviceId == 0xB700_030E
  }

  /**
   * The four header fields are read back exactly as `create_device_header`
   * wrote them, and the device id is reported valid.
   */
  lemma DeviceHeaderRoundTrip(data: Bytes, timestamp: bv64)
    requires |data| >= HeaderSize && data[..HeaderSize] == DeviceHeader(timestamp)
    ensures DecodeDeviceHeader(data) == Some(HeaderFields(DeviceId, HeaderVersion, timestamp, HeaderFeatures))
    ensures ValidDeviceId(DecodeDeviceHeader(data).value)
  {
    ReadBe32Sub(data, 0, HeaderSize, 0);
    ReadBe32Sub(data, 0, HeaderSize, 4);
    ReadBe64Sub(data, 0, HeaderSize, 8);
    ReadBe32Sub(data, 0, HeaderSize, 16);
  }

  // --------------------------------------------------------------- table walk

  /** One table header as the walk reports it: where, and the four LE words. */
  datatype TableInfo = TableInfo(offset: nat, id: bv32, count: bv32, size: bv32, crc: bv32)

  /** The walk's start as written: 48, "after header". */
  const AsWrittenTableStart: nat := 48

  /** The bytes a table occupies: its header and `count` entries of `size` bytes. */
  function TableSpan(count: bv32, size: bv32): (r: nat)
    ensures r >= 16
  {
    var c: nat := count as nat;
    var z: nat := size as nat;
    16 + Product(c, z)
  }

  function Product(a: nat, b: nat): nat
  {
    a * b
  }

  /**
   * The tables the walk reports from `offset` on. A header is read only
   * while `offset < len - 16`; id 0 or 0xFFFFFFFF ends the walk; otherwise
   * the walk moves on by `16 + count * size`.
   */
  function WalkFrom(data: Bytes, offset: nat): seq<TableInfo>
    decreases |data| - offset
  {
    if offset + 16 >= |data| then []
    else
      var id := ReadLe32(data, offset);
      if id == 0 || id == 0xFFFF_FFFF then []
      else
        var count, size := ReadLe32(data, offset + 4), ReadLe32(data, offset + 8);
        [TableInfo(offset, id, count, size, ReadLe32(data, offset + 12))]
          + WalkFrom(data, offset + TableSpan(count, size))
  }

  /** `t` is what the walk reads at `t.offset`: a header inside `data` with a live id. */
  predicate HeaderAt(data: Bytes, t: TableInfo)
  {
    t.offset + 16 < |data| &&
    t.id == ReadLe32(data, t.offset) && t.id != 0 && t.id != 0xFFFF_FFFF &&
    t.count == ReadLe32(data, t.offset + 4) && t.size == ReadLe32(data, t.offset + 8) &&
    t.crc == ReadLe32(data, t.offset + 12)
  }

  /** Each table after the first starts where the previous one's bytes end. */
  predicate Chained(w: seq<TableInfo>)
  {
    forall k :: 0 < k < |w| ==> w[k].offset == w[k - 1].offset + TableSpan(w[k - 1].count, w[k - 1].size)
  }

  /**
   * The walk starts at `offset`, every reported header lies inside the file
   * and holds the four words reported, and each one after the first starts
   * where the previous table's `16 + count * size` bytes end.
   */
  lemma {:induction false} WalkReadsHeaders(data: Bytes, offset: nat)
    ensures var w := WalkFrom(data, offset);
      (|w| > 0 ==> w[0].offset == offset) &&
      (forall k :: 0 <= k < |w| ==> offset <= w[k].offset && HeaderAt(data, w[k])) &&
      Chained(w)
    decreases |data| - offset
  {
    if offset + 16 < |data| {
      var id := ReadLe32(data, offset);
      if id != 0 && id != 0xFFFF_FFFF {
        var next := offset + TableSpan(ReadLe32(data, offset + 4), ReadLe32(data, offset + 8));
        WalkReadsHeaders(data, next);
        var rest := WalkFrom(data, next);
        var w := [TableInfo(offset, id, ReadLe32(data, offset + 4), ReadLe32(data, offset + 8), ReadLe32(data, offset + 12))] + rest;
        assert WalkFrom(data, offset) == w;
        forall k | 0 <= k < |w|
          ensures offset <= w[k].offset && HeaderAt(data, w[k])
        {
          if k > 0 {
            assert w[k] == rest[k - 1];
          }
        }
        forall k | 0 < k < |w|
          ensures w[k].offset == w[k - 1].offset + TableSpan(w[k - 1].count, w[k - 1].size)
        {
          assert w[k] == rest[k - 1];
          if k > 1 {
            assert w[k - 1] == rest[k - 2];
          }
        }
      }
    }
  }

  /** The table loop of `analyze_switch_firmware`, from `start`. */
  method WalkTables(data: Bytes, start: nat) returns (tables: seq<TableInfo>)
    ensures tables == WalkFrom(data, start)
  {
    var offset := start;
    tables := [];
    while offset + 16 < |data|
      invariant tables + WalkFrom(data, offset) == WalkFrom(data, start)
      decreases |data| - offset
    {
      var tableId := ReadLe32(data, offset);
      if tableId == 0 || tableId == 0xFFFF_FFFF {
        break;
      }
      var entryCount := ReadLe32(data, offset + 4);
      var entrySize := ReadLe32(data, offset + 8);
      var crc := ReadLe32(data, offset + 12);
      var tableSize := TableSpan(entryCount, entrySize);
      ghost var info := TableInfo(offset, tableId, entryCount, entrySize, crc);
      ghost var rest := WalkFrom(data, offset + tableSize);
      assert WalkFrom(data, offset) == [info] + rest;
      assert (tables + [info]) + rest == tables + ([info] + rest);
      tables := tables + [TableInfo(offset, tableId, entryCount, entrySize, crc)];
      offset := offset + tableSize;
      if offset + 16 >= |data| {
        break;
      }
    }
  }

  /**
   * `analyze_switch_firmware` as written: the header decode, the walk from
   * offset 48, then `analyze_frer_tables`. A file too short for the header
   * ends the analysis before the walk (`header == None`); `frer == None`
   * when an entry parser runs past the end.
   */
  method AnalyzeSwitchFirmware(data: Bytes) returns (header: Option<HeaderFields>, tables: seq<TableInfo>, frer: Option<seq<FrerTable>>)
    ensures header == DecodeDeviceHeader(data)
    ensures header.Some? ==> tables == WalkFrom(data, AsWrittenTableStart) && frer == ScanFrom(data, AsWrittenTableStart)
    ensures header.None? ==> tables == [] && frer.None?
  {
    header := DecodeDeviceHeader(data);
    tables := [];
    frer := None;
    if header.Some? {
      tables := WalkTables(data, AsWrittenTableStart);
      frer := ScanFrerTables(data);
    }
  }

  /** The walk as the generator's layout calls for it: from the end of the 36-byte header. */
  method WalkSwitchTables(data: Bytes) returns (tables: seq<TableInfo>)
    ensures tables == WalkFrom(data, HeaderSize)
  {
    tables := WalkTables(data, HeaderSize);
  }

  /** A table header's words, without the offset and the CRC. */
  function Shape(t: TableInfo): (bv32, bv32, bv32)
  {
    (t.id, t.count, t.size)
  }

  /** The words of every switch image that the walk from 48 reads. */
  lemma SwitchImageGeneralWords(fw: Bytes, timestamp: bv64)
    requires IsSwitchImage(fw, timestamp)
    ensures |fw| == 2236
    ensures ReadLe32(fw, 52) == 0x2233_4455 && ReadLe32(fw, 56) == 17
  {
    var g := fw[36..180];
    RecordAt(g, 16, 128, 1, IsGeneralEntry, 0);
    ReadLe32Sub(g, 16, 144, 0);
    ReadLe32Sub(g, 16, 144, 4);
    ReadLe32Sub(fw, 36, 180, 16);
    ReadLe32Sub(fw, 36, 180, 20);
  }

  /** The six table headers of every switch image, read in place. */
  lemma SwitchImageWords(fw: Bytes, timestamp: bv64)
    requires IsSwitchImage(fw, timestamp)
    ensures |fw| == 2236
    ensures ReadLe32(fw, 36) == TableGeneralParams && ReadLe32(fw, 40) == 1 && ReadLe32(fw, 44) == 128
    ensures ReadLe32(fw, 180) == TableMacConfig && ReadLe32(fw, 184) == 11 && ReadLe32(fw, 188) == 64
    ensures ReadLe32(fw, 900) == TableL2Forwarding && ReadLe32(fw, 904) == 11 && ReadLe32(fw, 908) == 16
    ensures ReadLe32(fw, 1092) == TableFrerStreamIdent && ReadLe32(fw, 1096) == 16 && ReadLe32(fw, 1100) == 32
    ensures ReadLe32(fw, 1620) == TableFrerSequenceEncode && ReadLe32(fw, 1624) == 16 && ReadLe32(fw, 1628) == 24
    ensures ReadLe32(fw, 2020) == TableFrerSequenceRecovery && ReadLe32(fw, 2024) == 16 && ReadLe32(fw, 2028) == 48
  {
    TableWordsAt(fw, 36, 180, TableGeneralParams, 1, 128);
    TableWordsAt(fw, 180, 900, TableMacConfig, 11, 64);
    TableWordsAt(fw, 900, 1092, TableL2Forwarding, 11, 16);
    TableWordsAt(fw, 1092, 1620, TableFrerStreamIdent, 16, 32);
    TableWordsAt(fw, 1620, 2020, TableFrerSequenceEncode, 16, 24);
    RecoveryTableAtEnd(fw);
    ReadLe32Sub(fw, 2020, 2236, 0);
    ReadLe32Sub(fw, 2020, 2236, 4);
    ReadLe32Sub(fw, 2020, 2236, 8);
  }

  /**
   * On every switch image, the walk from 48 starts inside the general
   * table: it takes that table's CRC for an id, the switch id's low word
   * 0x22334455 for a count and 17 for a size, and jumps past the end. So it
   * reports at most one table, and never a real one.
   */
  lemma WalkAt48MisreadsImage(fw: Bytes, timestamp: bv64)
    requires IsSwitchImage(fw, timestamp)
    ensures var w := WalkFrom(fw, AsWrittenTableStart);
      |w| <= 1 && (|w| == 1 ==> w[0].offset == 48 && w[0].count == 0x2233_4455 && w[0].size == 17)
  {
    SwitchImageGeneralWords(fw, timestamp);
    WalkAt48Words(fw);
  }

  lemma WalkAt48Words(fw: Bytes)
    requires |fw| == 2236 && ReadLe32(fw, 52) == 0x2233_4455 && ReadLe32(fw, 56) == 17
    ensures var w := WalkFrom(fw, AsWrittenTableStart);
      |w| <= 1 && (|w| == 1 ==> w[0].offset == 48 && w[0].count == 0x2233_4455 && w[0].size == 17)
  {
    assert TableSpan(0x2233_4455, 17) == 16 + 0x2233_4455 * 17;
  }

  /**
   * On every switch image, the walk from the end of the header reports the
   * six tables in the order the generator wrote them, at offsets 36, 180,
   * 900, 1092, 1620 and 2020, and stops after the (cut) recovery table.
   */
  lemma WalkAfterHeaderListsImageTables(fw: Bytes, timestamp: bv64)
    requires IsSwitchImage(fw, timestamp)
    ensures var w := WalkFrom(fw, HeaderSize);
      |w| == 6 &&
      w[0].offset == 36 && Shape(w[0]) == (TableGeneralParams, 1, 128) &&
      w[1].offset == 180 && Shape(w[1]) == (TableMacConfig, 11, 64) &&
      w[2].offset == 900 && Shape(w[2]) == (TableL2Forwarding, 11, 16) &&
      w[3].offset == 1092 && Shape(w[3]) == (TableFrerStreamIdent, 16, 32) &&
      w[4].offset == 1620 && Shape(w[4]) == (TableFrerSequenceEncode, 16, 24) &&
      w[5].offset == 2020 && Shape(w[5]) == (TableFrerSequenceRecovery, 16, 48)
  {
    SwitchImageWords(fw, timestamp);
    WalkSixTables(fw);
  }

  lemma WalkSixTables(fw: Bytes)
    requires |fw| == 2236
    requires ReadLe32(fw, 36) == TableGeneralParams && ReadLe32(fw, 40) == 1 && ReadLe32(fw, 44) == 128
    requires ReadLe32(fw, 180) == TableMacConfig && ReadLe32(fw, 184) == 11 && ReadLe32(fw, 188) == 64
    requires ReadLe32(fw, 900) == TableL2Forwarding && ReadLe32(fw, 904) == 11 && ReadLe32(fw, 908) == 16
    requires ReadLe32(fw, 1092) == TableFrerStreamIdent && ReadLe32(fw, 1096) == 16 && ReadLe32(fw, 1100) == 32
    requires ReadLe32(fw, 1620) == TableFrerSequenceEncode && ReadLe32(fw, 1624) == 16 && ReadLe32(fw, 1628) == 24
    requires ReadLe32(fw, 2020) == TableFrerSequenceRecovery && ReadLe32(fw, 2024) == 16 && ReadLe32(fw, 2028) == 48
    ensures var w := WalkFrom(fw, HeaderSize);
      |w| == 6 &&
      w[0].offset == 36 && Shape(w[0]) == (TableGeneralParams, 1, 128) &&
      w[1].offset == 180 && Shape(w[1]) == (TableMacConfig, 11, 64) &&
      w[2].offset == 900 && Shape(w[2]) == (TableL2Forwarding, 11, 16) &&
      w[3].offset == 1092 && Shape(w[3]) == (TableFrerStreamIdent, 16, 32) &&
      w[4].offset == 1620 && Shape(w[4]) == (TableFrerSequenceEncode, 16, 24) &&
      w[5].offset == 2020 && Shape(w[5]) == (TableFrerSequenceRecovery, 16, 48)
  {
    assert WalkFrom(fw, 2804) == [];
    assert WalkFrom(fw, 2020) == [TableInfo(2020, TableFrerSequenceRecovery, 16, 48, ReadLe32(fw, 2032))];
    assert WalkFrom(fw, 1620) == [TableInfo(1620, TableFrerSequenceEncode, 16, 24, ReadLe32(fw, 1632))] + WalkFrom(fw, 2020);
    assert WalkFrom(fw, 1092) == [TableInfo(1092, TableFrerStreamIdent, 16, 32, ReadLe32(fw, 1104))] + WalkFrom(fw, 1620);
    assert WalkFrom(fw, 900) == [TableInfo(900, TableL2Forwarding, 11, 16, ReadLe32(fw, 912))] + WalkFrom(fw, 1092);
    assert WalkFrom(fw, 180) == [TableInfo(180, TableMacConfig, 11, 64, ReadLe32(fw, 192))] + WalkFrom(fw, 900);
  }

  /** The header words of a framed table found at `fw[lo..hi]`, read in place. */
  lemma TableWordsAt(fw: Bytes, lo: nat, hi: nat, id: bv32, count: bv32, size: bv32)
    requires lo + 16 <= hi <= |fw| && TableFramed(fw[lo..hi], id, count, size)
    ensures ReadLe32(fw, lo) == id && ReadLe32(fw, lo + 4) == count && ReadLe32(fw, lo + 8) == size
  {
    ReadLe32Sub(fw, lo, hi, 0);
    ReadLe32Sub(fw, lo, hi, 4);
    ReadLe32Sub(fw, lo, hi, 8);
  }

  // ------------------------------------------------------------ entry parsers

  /** What `parse_stream_ident_table` prints for one entry. */
  datatype StreamSummary = StreamSummary(id: bv16, identMethod: bv8, priority: bv8)

  /** What `parse_seq_gen_table` prints for one entry. */
  datatype GeneratorSummary = GeneratorSummary(stream: bv16, algorithm: bv8, space: bv16)

  /** What `parse_seq_recovery_table` prints for one entry. */
  datatype RecoverySummary = RecoverySummary(stream: bv16, algorithm: bv8, window: bv16, timeout: bv32)

  /** One stream entry: LE u16 id at 0, method byte at 2, priority byte at 3; `None` past the end. */
  function StreamSummaryAt(data: Bytes, at: nat): (r: Option<StreamSummary>)
    ensures r.Some? <==> at + 4 <= |data|
  {
    if at + 4 <= |data| then Some(StreamSummary(ReadLe16(data, at), data[at + 2], data[at + 3])) else None
  }

  /** One generator entry: LE u16 stream at 0, algorithm byte at 2, LE u16 space at 4. */
  function GeneratorSummaryAt(data: Bytes, at: nat): (r: Option<GeneratorSummary>)
    ensures r.Some? <==> at + 6 <= |data|
  {
    if at + 6 <= |data| then Some(GeneratorSummary(ReadLe16(data, at), data[at + 2], ReadLe16(data, at + 4))) else None
  }

  /** One recovery entry: LE u16 stream at 0, algorithm at 2, LE u16 window at 4, LE u32 timeout at 8. */
  function RecoverySummaryAt(data: Bytes, at: nat): (r: Option<RecoverySummary>)
    ensures r.Some? <==> at + 12 <= |data|
  {
    if at + 12 <= |data| then
      Some(RecoverySummary(ReadLe16(data, at), data[at + 2], ReadLe16(data, at + 4), ReadLe32(data, at + 8)))
    else None
  }

  /**
   * `k` entries read with `read`, the first at `at` and each next one
   * `size` bytes further on; `None` as soon as one read runs past the end.
   */
  function ParseFrom<T>(data: Bytes, at: nat, size: nat, k: nat, read: (Bytes, nat) -> Option<T>): (r: Option<seq<T>>)
    ensures r.Some? ==> |r.value| == k
    decreases k
  {
    if k == 0 then Some([])
    else match read(data, at)
      case None => None
      case Some(x) => Prepend([x], ParseFrom(data, at + size, size, k - 1, read))
  }

  /** `xs` in front of the entries read after them, if those were read. */
  function Prepend<T>(xs: seq<T>, rest: Option<seq<T>>): (r: Option<seq<T>>)
    ensures r.Some? <==> rest.Some?
    ensures r.Some? ==> r.value == xs + rest.value
  {
    match rest
    case None => None
    case Some(ys) => Some(xs + ys)
  }

  /** The parse succeeds exactly when every one of the `k` reads does. */
  lemma {:induction false} ParseFromSucceeds<T>(data: Bytes, at: nat, size: nat, k: nat, read: (Bytes, nat) -> Option<T>)
    ensures ParseFrom(data, at, size, k, read).Some? <==>
      forall i :: 0 <= i < k ==> read(data, at + Product(i, size)).Some?
    decreases k
  {
    if k > 0 {
      ParseFromSucceeds(data, at + size, size, k - 1, read);
      assert Product(0, size) == 0;
      if ParseFrom(data, at, size, k, read).Some? {
        forall i | 0 < i < k
          ensures read(data, at + Product(i, size)).Some?
        {
          ProductNext(at, size, i - 1);
        }
      }
      if forall i :: 0 <= i < k ==> read(data, at + Product(i, size)).Some? {
        forall j | 0 <= j < k - 1
          ensures read(data, at + size + Product(j, size)).Some?
        {
          ProductNext(at, size, j);
        }
      }
    }
  }

  /** Entry `i` of a successful parse is what `read` finds `i * size` bytes after the first. */
  lemma {:induction false} ParseFromEntries<T>(data: Bytes, at: nat, size: nat, k: nat, read: (Bytes, nat) -> Option<T>)
    ensures ParseFrom(data, at, size, k, read).Some? ==>
      forall i :: 0 <= i < k ==> read(data, at + Product(i, size)) == Some(ParseFrom(data, at, size, k, read).value[i])
    decreases k
  {
    if k > 0 && ParseFrom(data, at, size, k, read).Some? {
      ParseFromEntries(data, at + size, size, k - 1, read);
      var rest := ParseFrom(data, at + size, size, k - 1, read);
      var r := ParseFrom(data, at, size, k, read).value;
      assert r == [read(data, at).value] + rest.value;
      assert Product(0, size) == 0;
      forall i | 0 <= i < k
        ensures read(data, at + Product(i, size)) == Some(r[i])
      {
        if i > 0 {
          ProductNext(at, size, i - 1);
          assert r[i] == rest.value[i - 1];
        }
      }
    }
  }

  /** Entry `j + 1` starts `size` bytes after entry `j`. */
  lemma ProductNext(at: nat, size: nat, j: nat)
    ensures at + Product(j + 1, size) == at + size + Product(j, size)
  {
  }

  lemma PrependNothing<T>(rest: Option<seq<T>>)
    ensures Prepend([], rest) == rest
  {
    if rest.Some? {
      assert [] + rest.value == rest.value;
    }
  }

  lemma PrependTwice<T>(xs: seq<T>, ys: seq<T>, rest: Option<seq<T>>)
    ensures Prepend(xs, Prepend(ys, rest)) == Prepend(xs + ys, rest)
  {
    if rest.Some? {
      assert xs + (ys + rest.value) == (xs + ys) + rest.value;
    }
  }

  /**
   * The entry loop shared by the three `parse_*_table` helpers: `k`
   * iterations, each reading one entry and advancing `entry_offset` by the
   * entry size.
   */
  method ParseEntries<T>(data: Bytes, at: nat, size: nat, k: nat, read: (Bytes, nat) -> Option<T>) returns (r: Option<seq<T>>)
    ensures r == ParseFrom(data, at, size, k, read)
  {
    var entries: seq<T> := [];
    PrependNothing(ParseFrom(data, at, size, k, read));
    var entryOffset: nat := at;
    var i := 0;
    while i < k
      invariant i <= k
      invariant Prepend(entries, ParseFrom(data, entryOffset, size, k - i, read)) == ParseFrom(data, at, size, k, read)
    {
      var x := read(data, entryOffset);
      if x.None? {
        return None;
      }
      PrependTwice(entries, [x.value], ParseFrom(data, entryOffset + size, size, k - i - 1, read));
      entries := entries + [x.value];
      entryOffset := entryOffset + size;
      i := i + 1;
    }
    assert entries + [] == entries;
    r := Some(entries);
  }

  /** The count `parse_*_table` decodes: `min(limit, entry_count)`. */
  function EntriesShown(data: Bytes, offset: nat, limit: nat): (r: nat)
    requires offset + 8 <= |data|
    ensures r <= limit && r <= ReadLe32(data, offset + 4) as nat
    ensures r == limit || r == ReadLe32(data, offset + 4) as nat
  {
    Min(limit, ReadLe32(data, offset + 4) as nat)
  }

  /** `parse_stream_ident_table(offset)`: up to 3 streams, entry size from the header. */
  function StreamIdentTableAt(data: Bytes, offset: nat): (r: Option<seq<StreamSummary>>)
    requires offset + 12 <= |data|
    ensures r.Some? ==> |r.value| == Min(3, ReadLe32(data, offset + 4) as nat)
  {
    ParseFrom(data, offset + 16, ReadLe32(data, offset + 8) as nat, EntriesShown(data, offset, 3), StreamSummaryAt)
  }

  /** `parse_seq_gen_table(offset)`: up to 2 generators. */
  function SeqGenTableAt(data: Bytes, offset: nat): (r: Option<seq<GeneratorSummary>>)
    requires offset + 12 <= |data|
    ensures r.Some? ==> |r.value| == Min(2, ReadLe32(data, offset + 4) as nat)
  {
    ParseFrom(data, offset + 16, ReadLe32(data, offset + 8) as nat, EntriesShown(data, offset, 2), GeneratorSummaryAt)
  }

  /** `parse_seq_recovery_table(offset)`: up to 2 recovery functions. */
  function RecoveryTableAt(data: Bytes, offset: nat): (r: Option<seq<RecoverySummary>>)
    requires offset + 12 <= |data|
    ensures r.Some? ==> |r.value| == Min(2, ReadLe32(data, offset + 4) as nat)
  {
    ParseFrom(data, offset + 16, ReadLe32(data, offset + 8) as nat, EntriesShown(data, offset, 2), RecoverySummaryAt)
  }

  method ParseStreamIdentTable(data: Bytes, offset: nat) returns (r: Option<seq<StreamSummary>>)
    requires offset + 12 <= |data|
    ensures r == StreamIdentTableAt(data, offset)
  {
    var entryCount := ReadLe32(data, offset + 4);
    var entrySize := ReadLe32(data, offset + 8);
    r := ParseEntries(data, offset + 16, entrySize as nat, Min(3, entryCount as nat), StreamSummaryAt);
  }

  method ParseSeqGenTable(data: Bytes, offset: nat) returns (r: Option<seq<GeneratorSummary>>)
    requires offset + 12 <= |data|
    ensures r == SeqGenTableAt(data, offset)
  {
    var entryCount := ReadLe32(data, offset + 4);
    var entrySize := ReadLe32(data, offset + 8);
    r := ParseEntries(data, offset + 16, entrySize as nat, Min(2, entryCount as nat), GeneratorSummaryAt);
  }

  method ParseSeqRecoveryTable(data: Bytes, offset: nat) returns (r: Option<seq<RecoverySummary>>)
    requires offset + 12 <= |data|
    ensures r == RecoveryTableAt(data, offset)
  {
    var entryCount := ReadLe32(data, offset + 4);
    var entrySize := ReadLe32(data, offset + 8);
    r := ParseEntries(data, offset + 16, entrySize as nat, Min(2, entryCount as nat), RecoverySummaryAt);
  }

  // ------------------------------------------------------------- FRER scan

  /** A FRER table `analyze_frer_tables` found, with the entries its parser decoded. */
  datatype FrerTable =
    | StreamIdentFound(offset: nat, streams: seq<StreamSummary>)
    | SeqGenFound(offset: nat, generators: seq<GeneratorSummary>)
    | RecoveryFound(offset: nat, recoveries: seq<RecoverySummary>)

  /** The three ids the scan dispatches on: stream identification, sequence encode, sequence recovery. */
  predicate IsFrerId(id: bv32)
  {
    id == TableFrerStreamIdent || id == TableFrerSequenceEncode || id == TableFrerSequenceRecovery
  }

  /** The scan's dispatch at `offset`: the parser for the id found there. */
  function FrerTableAt(data: Bytes, offset: nat): (r: Option<FrerTable>)
    requires offset + 16 < |data| && IsFrerId(ReadLe32(data, offset))
    ensures r.Some? ==> r.value.offset == offset
  {
    var id := ReadLe32(data, offset);
    if id == TableFrerStreamIdent then
      match StreamIdentTableAt(data, offset)
      case None => None
      case Some(s) => Some(StreamIdentFound(offset, s))
    else if id == TableFrerSequenceEncode then
      match SeqGenTableAt(data, offset)
      case None => None
      case Some(g) => Some(SeqGenFound(offset, g))
    else
      match RecoveryTableAt(data, offset)
      case None => None
      case Some(q) => Some(RecoveryFound(offset, q))
  }

  /**
   * The tables `analyze_frer_tables` reports from `offset` on, stepping by
   * 4 while `offset < len - 16`; `None` when a parser runs past the end.
   */
  function ScanFrom(data: Bytes, offset: nat): Option<seq<FrerTable>>
    decreases |data| - offset
  {
    if offset + 16 >= |data| then Some([])
    else if !IsFrerId(ReadLe32(data, offset)) then ScanFrom(data, offset + 4)
    else
      match FrerTableAt(data, offset)
      case None => None
      case Some(t) => Prepend([t], ScanFrom(data, offset + 4))
  }

  /** `p` is one of the offsets the scan from `start` visits, and holds a FRER id. */
  predicate ScanHit(data: Bytes, start: nat, p: nat)
  {
    start <= p && (p - start) % 4 == 0 && p + 16 < |data| && IsFrerId(ReadLe32(data, p))
  }

  /** A scan that fails has a hit where the parser failed. */
  lemma {:induction false} ScanFailureHasHit(data: Bytes, start: nat)
    requires ScanFrom(data, start).None?
    ensures exists p :: ScanHit(data, start, p) && FrerTableAt(data, p).None?
    decreases |data| - start
  {
    if IsFrerId(ReadLe32(data, start)) && FrerTableAt(data, start).None? {
      assert ScanHit(data, start, start);
    } else {
      ScanFailureHasHit(data, start + 4);
      var p :| ScanHit(data, start + 4, p) && FrerTableAt(data, p).None?;
      HitShift(data, start, p);
    }
  }

  /** A hit where the parser fails makes the whole scan fail. */
  lemma {:induction false} FailingHitFailsScan(data: Bytes, start: nat, p: nat)
    requires ScanHit(data, start, p) && FrerTableAt(data, p).None?
    ensures ScanFrom(data, start).None?
    decreases |data| - start
  {
    if p != start {
      assert ScanHit(data, start + 4, p);
      FailingHitFailsScan(data, start + 4, p);
    }
  }

  /** The scan fails exactly when the parser fails at one of its hits. */
  lemma ScanFailsAtHit(data: Bytes, start: nat)
    ensures ScanFrom(data, start).None? <==>
      exists p :: ScanHit(data, start, p) && FrerTableAt(data, p).None?
  {
    if ScanFrom(data, start).None? {
      ScanFailureHasHit(data, start);
    }
    if exists p :: ScanHit(data, start, p) && FrerTableAt(data, p).None? {
      var p :| ScanHit(data, start, p) && FrerTableAt(data, p).None?;
      FailingHitFailsScan(data, start, p);
    }
  }

  /**
   * A successful scan reports only hits, in rising offset order, each with
   * what its parser decoded there.
   */
  lemma {:induction false} ScanReportsOnlyHits(data: Bytes, start: nat)
    requires ScanFrom(data, start).Some?
    ensures var ts := ScanFrom(data, start).value;
      (forall k :: 0 <= k < |ts| ==> ScanHit(data, start, ts[k].offset) && FrerTableAt(data, ts[k].offset) == Some(ts[k])) &&
      (forall k :: 0 < k < |ts| ==> ts[k - 1].offset < ts[k].offset)
    decreases |data| - start
  {
    if start + 16 < |data| {
      ScanReportsOnlyHits(data, start + 4);
      var ts := ScanFrom(data, start).value;
      var rest := ScanFrom(data, start + 4).value;
      forall k | 0 <= k < |rest|
        ensures ScanHit(data, start, rest[k].offset)
      {
        HitShift(data, start, rest[k].offset);
      }
      if IsFrerId(ReadLe32(data, start)) {
        assert ts == [FrerTableAt(data, start).value] + rest;
        forall k | 0 < k < |ts|
          ensures ts[k] == rest[k - 1]
        {
        }
      }
    }
  }

  lemma HitShift(data: Bytes, start: nat, p: nat)
    requires ScanHit(data, start + 4, p)
    ensures ScanHit(data, start, p) && p != start
  {
  }

  /** A successful scan reports every hit. */
  lemma {:induction false} ScanReportsEveryHit(data: Bytes, start: nat)
    requires ScanFrom(data, start).Some?
    ensures var ts := ScanFrom(data, start).value;
      forall p :: ScanHit(data, start, p) ==> exists k :: 0 <= k < |ts| && ts[k].offset == p
    decreases |data| - start
  {
    var ts := ScanFrom(data, start).value;
    if start + 16 < |data| {
      ScanReportsEveryHit(data, start + 4);
      var rest := ScanFrom(data, start + 4).value;
      if IsFrerId(ReadLe32(data, start)) {
        assert ts == [FrerTableAt(data, start).value] + rest;
        forall p | ScanHit(data, start, p)
          ensures exists k :: 0 <= k < |ts| && ts[k].offset == p
        {
          if p == start {
            assert ts[0].offset == p;
          } else {
            assert ScanHit(data, start + 4, p);
            var j :| 0 <= j < |rest| && rest[j].offset == p;
            assert ts[j + 1].offset == p;
          }
        }
      } else {
        forall p | ScanHit(data, start, p)
          ensures ScanHit(data, start + 4, p)
        {
          assert p != start;
        }
      }
    } else {
      assert forall p :: !ScanHit(data, start, p);
    }
  }

  /** `analyze_frer_tables`: from offset 48, dispatch on every 4-byte-aligned word. */
  method ScanFrerTables(data: Bytes) returns (r: Option<seq<FrerTable>>)
    ensures r == ScanFrom(data, AsWrittenTableStart)
  {
    var offset := AsWrittenTableStart;
    var found: seq<FrerTable> := [];
    PrependNothing(ScanFrom(data, offset));
    while offset + 16 < |data|
      invariant Prepend(found, ScanFrom(data, offset)) == ScanFrom(data, AsWrittenTableStart)
      decreases |data| - offset
    {
      var tableId := ReadLe32(data, offset);
      if tableId == TableFrerStreamIdent {
        var streams := ParseStreamIdentTable(data, offset);
        if streams.None? {
          return None;
        }
        PrependTwice(found, [StreamIdentFound(offset, streams.value)], ScanFrom(data, offset + 4));
        found := found + [StreamIdentFound(offset, streams.value)];
      } else if tableId == TableFrerSequenceEncode {
        var generators := ParseSeqGenTable(data, offset);
        if generators.None? {
          return None;
        }
        PrependTwice(found, [SeqGenFound(offset, generators.value)], ScanFrom(data, offset + 4));
        found := found + [SeqGenFound(offset, generators.value)];
      } else if tableId == TableFrerSequenceRecovery {
        var recoveries := ParseSeqRecoveryTable(data, offset);
        if recoveries.None? {
          return None;
        }
        PrependTwice(found, [RecoveryFound(offset, recoveries.value)], ScanFrom(data, offset + 4));
        found := found + [RecoveryFound(offset, recoveries.value)];
      }
      offset := offset + 4;
    }
    assert found + [] == found;
    r := Some(found);
  }

  // ------------------------------------ the parsers on the generator's tables

  /** Two reads that succeed, `size` bytes apart, make a parse of two entries. */
  lemma ParseTwo<T>(data: Bytes, at: nat, size: nat, read: (Bytes, nat) -> Option<T>, a: T, b: T)
    requires read(data, at) == Some(a) && read(data, at + size) == Some(b)
    ensures ParseFrom(data, at, size, 2, read) == Some([a, b])
  {
    assert ParseFrom(data, at + size + size, size, 0, read) == Some([]);
    assert [b] + [] == [b];
    assert ParseFrom(data, at + size, size, 1, read) == Some([b]);
    assert [a] + [b] == [a, b];
  }

  lemma ParseThree<T>(data: Bytes, at: nat, size: nat, read: (Bytes, nat) -> Option<T>, a: T, b: T, c: T)
    requires read(data, at) == Some(a) && read(data, at + size) == Some(b) && read(data, at + size + size) == Some(c)
    ensures ParseFrom(data, at, size, 3, read) == Some([a, b, c])
  {
    ParseTwo(data, at + size, size, read, b, c);
    assert [a] + [b, c] == [a, b, c];
  }

  lemma StreamEntryIn(data: Bytes, lo: nat, k: nat)
    requires lo + 528 <= |data| && IsStreamIdentTable(data[lo..lo + 528]) && k < 16
    ensures StreamSummaryAt(data, lo + 16 + 32 * k) == Some(StreamSummary(k as bv16, 0x03, (k % 8) as bv8))
  {
    RecordIn(data, lo, lo + 528, 16, 32, 16, IsStreamIdentEntry, k);
    var at := lo + 16 + 32 * k;
    StreamFields(data[at..at + 32], k);
    ReadLe16Sub(data, at, at + 32, 0);
  }

  lemma StreamFields(e: Bytes, k: nat)
    requires IsStreamIdentEntry(e, k)
    ensures ReadLe16(e, 0) == k as bv16 && e[2] == 0x03 && e[3] == (k % 8) as bv8
  {
  }

  /**
   * A stream identification table as the generator builds it, found at
   * `lo`: the parser shows its first three streams, each with method 3 and
   * priority `id % 8`.
   */
  lemma ParseGeneratedStreamIdent(data: Bytes, lo: nat)
    requires lo + 528 <= |data| && IsStreamIdentTable(data[lo..lo + 528])
    ensures ReadLe32(data, lo) == TableFrerStreamIdent
    ensures StreamIdentTableAt(data, lo) ==
      Some([StreamSummary(0, 0x03, 0), StreamSummary(1, 0x03, 1), StreamSummary(2, 0x03, 2)])
    ensures FrerTableAt(data, lo) ==
      Some(StreamIdentFound(lo, [StreamSummary(0, 0x03, 0), StreamSummary(1, 0x03, 1), StreamSummary(2, 0x03, 2)]))
  {
    TableWordsAt(data, lo, lo + 528, TableFrerStreamIdent, 16, 32);
    StreamEntryIn(data, lo, 0);
    StreamEntryIn(data, lo, 1);
    StreamEntryIn(data, lo, 2);
    ParseThree(data, lo + 16, 32, StreamSummaryAt, StreamSummary(0, 0x03, 0), StreamSummary(1, 0x03, 1), StreamSummary(2, 0x03, 2));
  }

  lemma GeneratorEntryIn(data: Bytes, lo: nat, k: nat)
    requires lo + 400 <= |data| && IsSeqGenTable(data[lo..lo + 400]) && k < 16
    ensures GeneratorSummaryAt(data, lo + 16 + 24 * k) == Some(GeneratorSummary(k as bv16, VectorAlgorithm, 65535))
  {
    var t := data[lo..lo + 400];
    GeneratorFields(t, k);
    ReadLe16Sub(data, lo, lo + 400, 16 + 24 * k);
    ReadLe16Sub(data, lo, lo + 400, 20 + 24 * k);
  }

  /** Entry `k` of a generated sequence generation table, read in the table. */
  lemma GeneratorFields(t: Bytes, k: nat)
    requires IsSeqGenTable(t) && k < 16
    ensures 40 + 24 * k <= |t|
    ensures ReadLe16(t, 16 + 24 * k) == k as bv16 && t[18 + 24 * k] == VectorAlgorithm && ReadLe16(t, 20 + 24 * k) == 65535
  {
    RecordAt(t, 16, 24, 16, IsSeqGenEntry, k);
    ReadLe16Sub(t, 16 + 24 * k, 40 + 24 * k, 0);
    ReadLe16Sub(t, 16 + 24 * k, 40 + 24 * k, 4);
  }

  /**
   * A sequence generation table as the generator builds it: the parser
   * shows its first two generators, vector algorithm, sequence space 65535.
   */
  lemma ParseGeneratedSeqGen(data: Bytes, lo: nat)
    requires lo + 400 <= |data| && IsSeqGenTable(data[lo..lo + 400])
    ensures ReadLe32(data, lo) == TableFrerSequenceEncode
    ensures SeqGenTableAt(data, lo) ==
      Some([GeneratorSummary(0, VectorAlgorithm, 65535), GeneratorSummary(1, VectorAlgorithm, 65535)])
    ensures FrerTableAt(data, lo) ==
      Some(SeqGenFound(lo, [GeneratorSummary(0, VectorAlgorithm, 65535), GeneratorSummary(1, VectorAlgorithm, 65535)]))
  {
    TableWordsAt(data, lo, lo + 400, TableFrerSequenceEncode, 16, 24);
    GeneratorEntryIn(data, lo, 0);
    GeneratorEntryIn(data, lo, 1);
    ParseTwo(data, lo + 16, 24, GeneratorSummaryAt, GeneratorSummary(0, VectorAlgorithm, 65535), GeneratorSummary(1, VectorAlgorithm, 65535));
  }

  lemma RecoveryEntryIn(data: Bytes, lo: nat, k: nat)
    requires lo + 216 <= |data| && TruncatedRecoveryTable(data[lo..lo + 216]) && k < 4
    ensures RecoverySummaryAt(data, lo + 16 + 48 * k) == Some(RecoverySummary(k as bv16, VectorAlgorithm, 256, 100000))
  {
    RecordIn(data, lo, lo + 216, 16, 48, 4, IsRecoveryEntry, k);
    var at := lo + 16 + 48 * k;
    RecoveryFields(data[at..at + 48], k);
    ReadLe16Sub(data, at, at + 48, 0);
    ReadLe16Sub(data, at, at + 48, 4);
    ReadLe32Sub(data, at, at + 48, 8);
  }

  lemma RecoveryFields(e: Bytes, k: nat)
    requires IsRecoveryEntry(e, k)
    ensures ReadLe16(e, 0) == k as bv16 && e[2] == VectorAlgorithm && ReadLe16(e, 4) == 256 && ReadLe32(e, 8) == 100000
  {
  }

  /**
   * The head of a recovery table as the generator builds it (the part the
   * 2236-byte cut keeps): the parser reads the window at entry + 4 and the
   * timeout at entry + 8 where the generator put them, 256 frames and
   * 100000 us.
   */
  lemma ParseGeneratedRecovery(data: Bytes, lo: nat)
    requires lo + 216 <= |data| && TruncatedRecoveryTable(data[lo..lo + 216])
    ensures ReadLe32(data, lo) == TableFrerSequenceRecovery
    ensures RecoveryTableAt(data, lo) ==
      Some([RecoverySummary(0, VectorAlgorithm, 256, 100000), RecoverySummary(1, VectorAlgorithm, 256, 100000)])
    ensures FrerTableAt(data, lo) ==
      Some(RecoveryFound(lo, [RecoverySummary(0, VectorAlgorithm, 256, 100000), RecoverySummary(1, VectorAlgorithm, 256, 100000)]))
  {
    ReadLe32Sub(data, lo, lo + 216, 0);
    ReadLe32Sub(data, lo, lo + 216, 4);
    ReadLe32Sub(data, lo, lo + 216, 8);
    RecoveryEntryIn(data, lo, 0);
    RecoveryEntryIn(data, lo, 1);
    ParseTwo(data, lo + 16, 48, RecoverySummaryAt, RecoverySummary(0, VectorAlgorithm, 256, 100000), RecoverySummary(1, VectorAlgorithm, 256, 100000));
  }

  /**
   * On every switch image the three FRER tables sit at offsets the scan
   * visits (1092, 1620 and 2020 are 48 plus a multiple of 4), and the
   * scan's dispatch decodes there what the generator wrote. So a scan of
   * the image that completes reports all three.
   */
  lemma ScanFindsImageFrerTables(fw: Bytes, timestamp: bv64)
    requires IsSwitchImage(fw, timestamp)
    ensures ScanHit(fw, AsWrittenTableStart, 1092) && ScanHit(fw, AsWrittenTableStart, 1620) && ScanHit(fw, AsWrittenTableStart, 2020)
    ensures FrerTableAt(fw, 1092) ==
      Some(StreamIdentFound(1092, [StreamSummary(0, 0x03, 0), StreamSummary(1, 0x03, 1), StreamSummary(2, 0x03, 2)]))
    ensures FrerTableAt(fw, 1620) ==
      Some(SeqGenFound(1620, [GeneratorSummary(0, VectorAlgorithm, 65535), GeneratorSummary(1, VectorAlgorithm, 65535)]))
    ensures FrerTableAt(fw, 2020) ==
      Some(RecoveryFound(2020, [RecoverySummary(0, VectorAlgorithm, 256, 100000), RecoverySummary(1, VectorAlgorithm, 256, 100000)]))
  {
    RecoveryTableAtEnd(fw);
    ParseGeneratedStreamIdent(fw, 1092);
    ParseGeneratedSeqGen(fw, 1620);
    ParseGeneratedRecovery(fw, 2020);
    ImageHits(fw);
  }

  lemma RecoveryTableAtEnd(fw: Bytes)
    requires |fw| == SwitchImageSize && TruncatedRecoveryTable(fw[2020..])
    ensures TruncatedRecoveryTable(fw[2020..2236])
  {
    assert fw[2020..2236] == fw[2020..];
  }

  lemma ImageHits(fw: Bytes)
    requires |fw| == SwitchImageSize
    requires ReadLe32(fw, 1092) == TableFrerStreamIdent && ReadLe32(fw, 1620) == TableFrerSequenceEncode
    requires ReadLe32(fw, 2020) == TableFrerSequenceRecovery
    ensures ScanHit(fw, AsWrittenTableStart, 1092) && ScanHit(fw, AsWrittenTableStart, 1620) && ScanHit(fw, AsWrittenTableStart, 2020)
  {
  }

  /**
   * On a switch image whose stream table CRC word (at 1104) is 2 or more,
   * the scan from 48 fails. At 1100 = 48 + 4 * 263 it meets the stream
   * table's entry-size word 32, which is the stream identification id. The
   * parser there takes the CRC for a count, and stream 0's first bytes
   * 0, 0, 3, 0 for an entry size of 0x30000, so its second read lands past
   * the end of the 2236-byte file.
   */
  lemma ImageScanFails(fw: Bytes, timestamp: bv64)
    requires IsSwitchImage(fw, timestamp) && ReadLe32(fw, 1104) >= 2
    ensures ScanHit(fw, AsWrittenTableStart, 1100) && FrerTableAt(fw, 1100).None?
    ensures ScanFrom(fw, AsWrittenTableStart).None?
  {
    SwitchImageWords(fw, timestamp);
    StreamEntryIn(fw, 1092, 0);
    MisreadEntrySize(fw);
    MisreadStreamTable(fw);
    FailingHitFailsScan(fw, AsWrittenTableStart, 1100);
  }

  /** Stream 0's id, method and priority, read as one LE word: 0x30000. */
  lemma MisreadEntrySize(fw: Bytes)
    requires 1112 <= |fw| && StreamSummaryAt(fw, 1108) == Some(StreamSummary(0, 0x03, 0))
    ensures ReadLe32(fw, 1108) == 0x3_0000
  {
    assert fw[1108] == 0 && fw[1109] == 0;
  }

  /** A stream table header read at 1100 with a count of 2 or more and an entry size of 0x30000. */
  lemma MisreadStreamTable(fw: Bytes)
    requires |fw| == 2236 && ReadLe32(fw, 1100) == TableFrerStreamIdent
    requires ReadLe32(fw, 1104) >= 2 && ReadLe32(fw, 1108) == 0x3_0000
    ensures ScanHit(fw, AsWrittenTableStart, 1100) && FrerTableAt(fw, 1100).None?
  {
    var k := EntriesShown(fw, 1100, 3);
    ParseFromSucceeds(fw, 1116, 0x3_0000, k, StreamSummaryAt);
    assert StreamSummaryAt(fw, 1116 + Product(1, 0x3_0000)).None?;
  }

  /**
   * The FRER tables among the walk's tables `w`: the parser for each table
   * whose header holds a FRER id, run at that table's start and nowhere
   * else; `None` when a parser runs past the end.
   */
  function FrerTablesIn(data: Bytes, w: seq<TableInfo>): (r: Option<seq<FrerTable>>)
    ensures r.Some? ==> |r.value| <= |w|
  {
    if |w| == 0 then Some([])
    else
      var at := w[0].offset;
      if at + 16 < |data| && IsFrerId(ReadLe32(data, at)) then
        match FrerTableAt(data, at)
        case None => None
        case Some(t) => Prepend([t], FrerTablesIn(data, w[1..]))
      else FrerTablesIn(data, w[1..])
  }

  /**
   * `analyze_frer_tables` as the layout calls for it: walk the tables from
   * the end of the 36-byte header and dispatch only at the start of each
   * table the walk finds.
   */
  method ScanSwitchTables(data: Bytes) returns (tables: seq<TableInfo>, r: Option<seq<FrerTable>>)
    ensures tables == WalkFrom(data, HeaderSize)
    ensures r == FrerTablesIn(data, tables)
  {
    tables := WalkSwitchTables(data);
    var found: seq<FrerTable> := [];
    PrependNothing(FrerTablesIn(data, tables));
    var i := 0;
    while i < |tables|
      invariant i <= |tables|
      invariant Prepend(found, FrerTablesIn(data, tables[i..])) == FrerTablesIn(data, tables)
    {
      var at := tables[i].offset;
      assert tables[i..][1..] == tables[i + 1..];
      if at + 16 < |data| && IsFrerId(ReadLe32(data, at)) {
        var t := FrerTableAt(data, at);
        if t.None? {
          return tables, None;
        }
        PrependTwice(found, [t.value], FrerTablesIn(data, tables[i + 1..]));
        found := found + [t.value];
      }
      i := i + 1;
    }
    assert found + [] == found;
    r := Some(found);
  }

  /**
   * On every switch image the corrected scan reports exactly the image's
   * three FRER tables, in the order written, each with what the generator
   * wrote in its first entries.
   */
  lemma CorrectedScanListsImageFrerTables(fw: Bytes, timestamp: bv64)
    requires IsSwitchImage(fw, timestamp)
    ensures FrerTablesIn(fw, WalkFrom(fw, HeaderSize)) == Some([
      StreamIdentFound(1092, [StreamSummary(0, 0x03, 0), StreamSummary(1, 0x03, 1), StreamSummary(2, 0x03, 2)]),
      SeqGenFound(1620, [GeneratorSummary(0, VectorAlgorithm, 65535), GeneratorSummary(1, VectorAlgorithm, 65535)]),
      RecoveryFound(2020, [RecoverySummary(0, VectorAlgorithm, 256, 100000), RecoverySummary(1, VectorAlgorithm, 256, 100000)])])
  {
    WalkAfterHeaderListsImageTables(fw, timestamp);
    SwitchImageWords(fw, timestamp);
    ScanFindsImageFrerTables(fw, timestamp);
    var w := WalkFrom(fw, HeaderSize);
    var s := FrerTableAt(fw, 1092).value;
    var g := FrerTableAt(fw, 1620).value;
    var q := FrerTableAt(fw, 2020).value;
    FrerTablesOfSix(fw, w, s, g, q);
  }

  lemma FrerTablesOfSix(fw: Bytes, w: seq<TableInfo>, s: FrerTable, g: FrerTable, q: FrerTable)
    requires |fw| == 2236 && |w| == 6
    requires w[0].offset == 36 && w[1].offset == 180 && w[2].offset == 900
    requires w[3].offset == 1092 && w[4].offset == 1620 && w[5].offset == 2020
    requires ReadLe32(fw, 36) == TableGeneralParams && ReadLe32(fw, 180) == TableMacConfig && ReadLe32(fw, 900) == TableL2Forwarding
    requires ReadLe32(fw, 1092) == TableFrerStreamIdent && ReadLe32(fw, 1620) == TableFrerSequenceEncode
    requires ReadLe32(fw, 2020) == TableFrerSequenceRecovery
    requires FrerTableAt(fw, 1092) == Some(s) && FrerTableAt(fw, 1620) == Some(g) && FrerTableAt(fw, 2020) == Some(q)
    ensures FrerTablesIn(fw, w) == Some([s, g, q])
  {
    assert FrerTablesIn(fw, w[6..]) == Some([]);
    assert w[5..][0] == w[5] && w[5..][1..] == w[6..] && [q] + [] == [q];
    assert FrerTablesIn(fw, w[5..]) == Some([q]);
    assert w[4..][0] == w[4] && w[4..][1..] == w[5..] && [g] + [q] == [g, q];
    assert FrerTablesIn(fw, w[4..]) == Some([g, q]);
    assert w[3..][0] == w[3] && w[3..][1..] == w[4..] && [s] + [g, q] == [s, g, q];
    assert FrerTablesIn(fw, w[3..]) == Some([s, g, q]);
    assert w[2..][1..] == w[3..];
    assert w[1..][1..] == w[2..];
    assert FrerTablesIn(fw, w[1..]) == Some([s, g, q]);
  }

  // ------------------------------------------------------------- table names

  /**
   * The dictionary of `get_table_name`: a name for each of the 21 table ids
   * the generator declares, `None` for every other id.
   */
  function KnownName(id: nat): Option<string>
  {
    if id == TableSchedule as nat then Some("Schedule")
    else if id == TableL2Lookup as nat then Some("L2 Lookup")
    else if id == TableL2Policing as nat then Some("L2 Policing")
    else if id == TableVlanLookup as nat then Some("VLAN Lookup")
    else if id == TableL2Forwarding as nat then Some("L2 Forwarding")
    else if id == TableMacConfig as nat then Some("MAC Configuration")
    else if id == TableScheduleParams as nat then Some("Schedule Parameters")
    else if id == TableScheduleEntryPoints as nat then Some("Schedule Entry Points")
    else if id == TableVlForwarding as nat then Some("VL Forwarding")
    else if id == TableL2LookupParams as nat then Some("L2 Lookup Parameters")
    else if id == TableL2ForwardingParams as nat then Some("L2 Forwarding Parameters")
    else if id == TableAvbParams as nat then Some("AVB Parameters")
    else if id == TableGeneralParams as nat then Some("General Parameters")
    else if id == TableRetagging as nat then Some("Retagging")
    else if id == TableXmiiMode as nat then Some("XMII Mode")
    else if id == TableFrerStreamIdent as nat then Some("FRER Stream Identification")
    else if id == TableFrerStreamSplit as nat then Some("FRER Stream Split")
    else if id == TableFrerMemberStream as nat then Some("FRER Member Stream")
    else if id == TableFrerSequenceEncode as nat then Some("FRER Sequence Encode")
    else if id == TableFrerSequenceDecode as nat then Some("FRER Sequence Decode")
    else if id == TableFrerSequenceRecovery as nat then Some("FRER Sequence Recovery")
    else None
  }

  /** An upper-case hexadecimal digit. */
  function HexDigit(d: nat): char
    requires d < 16
  {
    if d < 10 then (48 + d) as char else (55 + d) as char
  }

  /** The value of a hexadecimal digit; 0 for any other character. */
  function DigitValue(c: char): (v: nat)
    ensures v < 16
  {
    if '0' <= c <= '9' then (c as int - 48) as nat
    else if 'A' <= c <= 'F' then (c as int - 55) as nat
    else 0
  }

  /** `n` in upper-case hexadecimal, no leading zeros. */
  function HexDigits(n: nat): (s: string)
    ensures |s| >= 1
    decreases n
  {
    if n < 16 then [HexDigit(n)] else HexDigits(n / 16) + [HexDigit(n % 16)]
  }

  /** Python's `{:02X}`: upper-case hexadecimal, zero-padded to two digits. */
  function Hex02(n: nat): (s: string)
    ensures |s| >= 2
  {
    if n < 16 then "0" + HexDigits(n) else HexDigits(n)
  }

  /** Reads hexadecimal digits back, most significant first. */
  function ParseHex(s: string): nat
  {
    if |s| == 0 then 0 else ParseHex(s[..|s| - 1]) * 16 + DigitValue(s[|s| - 1])
  }

  lemma DigitRoundTrip(d: nat)
    requires d < 16
    ensures DigitValue(HexDigit(d)) == d
  {
  }

  /** The digits of `n` read back give `n`. */
  lemma {:induction false} HexDigitsRoundTrip(n: nat)
    ensures ParseHex(HexDigits(n)) == n
    decreases n
  {
    if n < 16 {
      DigitRoundTrip(n);
      assert ParseHex([HexDigit(n)]) == ParseHex([]) * 16 + DigitValue(HexDigit(n));
    } else {
      var s := HexDigits(n);
      HexDigitsRoundTrip(n / 16);
      DigitRoundTrip(n % 16);
      assert s[..|s| - 1] == HexDigits(n / 16);
      assert s[|s| - 1] == HexDigit(n % 16);
    }
  }

  /** The padded form reads back too, so distinct ids print differently. */
  lemma Hex02RoundTrip(n: nat)
    ensures ParseHex(Hex02(n)) == n
  {
    HexDigitsRoundTrip(n);
    if n < 16 {
      var s := "0" + HexDigits(n);
      assert s[..|s| - 1] == "0";
      assert ParseHex("0") == ParseHex("") * 16 + DigitValue('0');
    }
  }

  /** `get_table_name`: the known name, or "Unknown (0x..)" with the id in hexadecimal. */
  function TableName(id: nat): string
  {
    match KnownName(id)
    case Some(name) => name
    case None => "Unknown (0x" + Hex02(id) + ")"
  }

  /** No known name starts with the letter that starts every unknown one. */
  lemma KnownNamesNotUnknown(id: nat)
    requires KnownName(id).Some?
    ensures |KnownName(id).value| > 0 && KnownName(id).value[0] != 'U'
  {
  }

  /**
   * The 21 declared ids get their names, every other id gets "Unknown
   * (0x..)", the two kinds never look alike, and the hexadecimal in an
   * unknown name reads back as the id.
   */
  lemma TableNameMeaning(id: nat)
    ensures KnownName(id).Some? ==> TableName(id) == KnownName(id).value
    ensures |TableName(id)| > 0 && (TableName(id)[0] == 'U' <==> KnownName(id).None?)
    ensures KnownName(id).None? ==>
      var name := TableName(id);
      |name| >= 14 && name[..11] == "Unknown (0x" && name[|name| - 1] == ')' &&
      ParseHex(name[11..|name| - 1]) == id
  {
    if KnownName(id).Some? {
      KnownNamesNotUnknown(id);
    } else {
      var name := TableName(id);
      assert name[11..|name| - 1] == Hex02(id);
      Hex02RoundTrip(id);
    }
  }

  /** Different ids the table does not know never share a name. */
  lemma UnknownNamesDistinct(a: nat, b: nat)
    requires KnownName(a).None? && KnownName(b).None? && TableName(a) == TableName(b)
    ensures a == b
  {
    var ha, hb := Hex02(a), Hex02(b);
    var na, nb := "Unknown (0x" + ha + ")", "Unknown (0x" + hb + ")";
    assert na == TableName(a) && nb == TableName(b);
    assert ha == na[11..|na| - 1];
    assert hb == nb[11..|nb| - 1];
    Hex02RoundTrip(a);
    Hex02RoundTrip(b);
  }
}

=== FILE: bytes.dfy ===
/**
 * Byte-level vocabulary shared by every builder and patcher: byte strings,
 * little- and big-endian packing as Python's `struct` does it, and Python's
 * slice assignment on a `bytearray`.
 */
module Bytes {

  type Bytes = seq<bv8>

  /** `bytes(n)` / `b'\x00' * n` */
  function Zeros(n: nat): (r: Bytes)
    ensures |r| == n
    ensures forall i :: 0 <= i < n ==> r[i] == 0
  {
    seq(n, _ => 0)
  }

  /** `b'\xff' * n` */
  function Ones(n: nat): (r: Bytes)
    ensures |r| == n
    ensures forall i :: 0 <= i < n ==> r[i] == 0xFF
  {
    seq(n, _ => 0xFF)
  }

  predicate AllEqual(s: Bytes, b: bv8)
  {
    forall i :: 0 <= i < |s| ==> s[i] == b
  }

  // ---------------------------------------------------------------- packing

  /** `struct.pack('<H', v)` */
  function Le16(v: bv16): Bytes
  {
    [(v & 0xFF) as bv8, (v >> 8) as bv8]
  }

  /** `struct.pack('>H', v)` */
  function Be16(v: bv16): Bytes
  {
    [(v >> 8) as bv8, (v & 0xFF) as bv8]
  }

  /** `struct.pack('<I', v)` */
  function Le32(v: bv32): Bytes
  {
    [(v & 0xFF) as bv8, ((v >> 8) & 0xFF) as bv8, ((v >> 16) & 0xFF) as bv8, (v >> 24) as bv8]
  }

  /** `struct.pack('>I', v)` */
  function Be32(v: bv32): Bytes
  {
    [(v >> 24) as bv8, ((v >> 16) & 0xFF) as bv8, ((v >> 8) & 0xFF) as bv8, (v & 0xFF) as bv8]
  }

  /** `struct.pack('<Q', v)` */
  function Le64(v: bv64): Bytes
  {
    Le32((v & 0xFFFF_FFFF) as bv32) + Le32((v >> 32) as bv32)
  }

  /** `struct.pack('>Q', v)` */
  function Be64(v: bv64): Bytes
  {
    Be32((v >> 32) as bv32) + Be32((v & 0xFFFF_FFFF) as bv32)
  }

  /** `struct.unpack('<H', s[i:i+2])[0]` */
  function ReadLe16(s: Bytes, i: nat): bv16
    requires i + 2 <= |s|
  {
    (s[i] as bv16) | ((s[i + 1] as bv16) << 8)
  }

  /** `struct.unpack('>H', s[i:i+2])[0]` */
  function ReadBe16(s: Bytes, i: nat): bv16
    requires i + 2 <= |s|
  {
    ((s[i] as bv16) << 8) | (s[i + 1] as bv16)
  }

  /** `struct.unpack('<I', s[i:i+4])[0]` */
  function ReadLe32(s: Bytes, i: nat): bv32
    requires i + 4 <= |s|
  {
    (s[i] as bv32) | ((s[i + 1] as bv32) << 8) | ((s[i + 2] as bv32) << 16) | ((s[i + 3] as bv32) << 24)
  }

  /** `struct.unpack('>I', s[i:i+4])[0]` */
  function ReadBe32(s: Bytes, i: nat): bv32
    requires i + 4 <= |s|
  {
    ((s[i] as bv32) << 24) | ((s[i + 1] as bv32) << 16) | ((s[i + 2] as bv32) << 8) | (s[i + 3] as bv32)
  }

  /** `struct.unpack('>Q', s[i:i+8])[0]` */
  function ReadBe64(s: Bytes, i: nat): bv64
    requires i + 8 <= |s|
  {
    ((ReadBe32(s, i) as bv64) << 32) | (ReadBe32(s, i + 4) as bv64)
  }

  lemma Le16RoundTrip(v: bv16)
    ensures ReadLe16(Le16(v), 0) == v
  {
  }

  lemma Be16RoundTrip(v: bv16)
    ensures ReadBe16(Be16(v), 0) == v
  {
  }

  lemma Le32RoundTrip(v: bv32)
    ensures ReadLe32(Le32(v), 0) == v
  {
  }

  lemma Be32RoundTrip(v: bv32)
    ensures ReadBe32(Be32(v), 0) == v
  {
  }

  lemma Be64RoundTrip(v: bv64)
    ensures ReadBe64(Be64(v), 0) == v
  {
    Be32RoundTrip((v >> 32) as bv32);
    Be32RoundTrip((v & 0xFFFF_FFFF) as bv32);
  }

  /** Reading a field is local: only the bytes it covers matter. */
  lemma ReadLe32Slice(s: Bytes, lo: nat, i: nat)
    requires lo + i + 4 <= |s|
    ensures ReadLe32(s[lo..], i) == ReadLe32(s, lo + i)
  {
  }

  /** Two buffers that agree on four bytes read the same word there. */
  lemma ReadLe32Frame(s: Bytes, t: Bytes, i: nat)
    requires i + 4 <= |s| && i + 4 <= |t|
    requires s[i] == t[i] && s[i + 1] == t[i + 1] && s[i + 2] == t[i + 2] && s[i + 3] == t[i + 3]
    ensures ReadLe32(s, i) == ReadLe32(t, i)
  {
  }

  lemma ReadLe16Frame(s: Bytes, t: Bytes, i: nat)
    requires i + 2 <= |s| && i + 2 <= |t|
    requires s[i] == t[i] && s[i + 1] == t[i + 1]
    ensures ReadLe16(s, i) == ReadLe16(t, i)
  {
  }

  lemma ReadLe16Slice(s: Bytes, lo: nat, i: nat)
    requires lo + i + 2 <= |s|
    ensures ReadLe16(s[lo..], i) == ReadLe16(s, lo + i)
  {
  }

  /** Reading inside a window `s[lo..hi]` is reading `s` at the shifted position. */
  lemma ReadLe32Sub(s: Bytes, lo: nat, hi: nat, i: nat)
    requires lo + i + 4 <= hi <= |s|
    ensures ReadLe32(s[lo..hi], i) == ReadLe32(s, lo + i)
  {
  }

  lemma ReadBe32Sub(s: Bytes, lo: nat, hi: nat, i: nat)
    requires lo + i + 4 <= hi <= |s|
    ensures ReadBe32(s[lo..hi], i) == ReadBe32(s, lo + i)
  {
  }

  lemma ReadBe64Sub(s: Bytes, lo: nat, hi: nat, i: nat)
    requires lo + i + 8 <= hi <= |s|
    ensures ReadBe64(s[lo..hi], i) == ReadBe64(s, lo + i)
  {
  }

  lemma ReadLe16Sub(s: Bytes, lo: nat, hi: nat, i: nat)
    requires lo + i + 2 <= hi <= |s|
    ensures ReadLe16(s[lo..hi], i) == ReadLe16(s, lo + i)
  {
  }

  // -------------------------------------------------------- slice assignment

  function Min(a: int, b: int): int { if a <= b then a else b }
  function Max(a: int, b: int): int { if a <= b then b else a }

  /**
   * Python's `s[lo:hi] = v` on a bytearray for non-negative bounds: the
   * bounds are clamped to the current length, so a write past the end
   * appends instead of failing.
   */
  function SetSlice(s: Bytes, lo: nat, hi: nat, v: Bytes): (r: Bytes)
    ensures var a := Min(lo, |s|); var b := Max(a, Min(hi, |s|));
      |r| == |s| - (b - a) + |v| && r[..a] == s[..a] && r[a..a + |v|] == v && r[a + |v|..] == s[b..]
  {
    var a := Min(lo, |s|);
    var b := Max(a, Min(hi, |s|));
    s[..a] + v + s[b..]
  }

  /** An in-range slice assignment keeps the length and touches only `[lo, lo+|v|)`. */
  lemma SetSliceInRange(s: Bytes, lo: nat, v: Bytes)
    requires lo + |v| <= |s|
    ensures |SetSlice(s, lo, lo + |v|, v)| == |s|
    ensures forall k :: 0 <= k < |s| && !(lo <= k < lo + |v|) ==> SetSlice(s, lo, lo + |v|, v)[k] == s[k]
    ensures SetSlice(s, lo, lo + |v|, v)[lo..lo + |v|] == v
  {
  }

  /** `s[at:at+len(v)] = v` when the slice lies inside the buffer: an overwrite in place. */
  function PutBytes(s: Bytes, at: nat, v: Bytes): (r: Bytes)
    requires at + |v| <= |s|
    ensures r == SetSlice(s, at, at + |v|, v)
    ensures |r| == |s| && r[at..at + |v|] == v
    ensures forall k :: 0 <= k < |s| && !(at <= k < at + |v|) ==> r[k] == s[k]
  {
    s[..at] + v + s[at + |v|..]
  }

  /** `struct.pack_into('<I', s, at, w)` and `s[at:at+4] = struct.pack('<I', w)` when in range. */
  function PutLe32(s: Bytes, at: nat, w: bv32): (r: Bytes)
    requires at + 4 <= |s|
    ensures |r| == |s|
    ensures ReadLe32(r, at) == w
    ensures forall k :: 0 <= k < |s| && !(at <= k < at + 4) ==> r[k] == s[k]
  {
    Le32RoundTrip(w);
    s[..at] + Le32(w) + s[at + 4..]
  }

  /** `struct.pack_into('<H', s, at, w)` */
  function PutLe16(s: Bytes, at: nat, w: bv16): (r: Bytes)
    requires at + 2 <= |s|
    ensures |r| == |s|
    ensures ReadLe16(r, at) == w
    ensures forall k :: 0 <= k < |s| && !(at <= k < at + 2) ==> r[k] == s[k]
  {
    Le16RoundTrip(w);
    s[..at] + Le16(w) + s[at + 2..]
  }

  /** `s[at] = b` */
  function PutByte(s: Bytes, at: nat, b: bv8): (r: Bytes)
    requires at < |s|
    ensures |r| == |s| && r[at] == b
    ensures forall k :: 0 <= k < |s| && k != at ==> r[k] == s[k]
  {
    s[at := b]
  }

  /** `struct.pack_into('<Q', s, at, w)` */
  function PutLe64(s: Bytes, at: nat, w: bv64): (r: Bytes)
    requires at + 8 <= |s|
    ensures |r| == |s|
    ensures ReadLe32(r, at) == (w & 0xFFFF_FFFF) as bv32 && ReadLe32(r, at + 4) == (w >> 32) as bv32
    ensures forall k :: 0 <= k < |s| && !(at <= k < at + 8) ==> r[k] == s[k]
  {
    PutLe32(PutLe32(s, at, (w & 0xFFFF_FFFF) as bv32), at + 4, (w >> 32) as bv32)
  }

  /** Writing back the word a buffer already holds changes nothing. */
  lemma PutLe32Same(s: Bytes, at: nat)
    requires at + 4 <= |s|
    ensures PutLe32(s, at, ReadLe32(s, at)) == s
  {
    var w := ReadLe32(s, at);
    assert Le32(w) == s[at..at + 4];
    assert s == s[..at] + s[at..at + 4] + s[at + 4..];
  }

  /** Appending to a buffer keeps every slice of what was there and places the new part at the end. */
  lemma AppendSlices(t: Bytes, e: Bytes)
    ensures forall lo, hi :: 0 <= lo <= hi <= |t| ==> (t + e)[lo..hi] == t[lo..hi]
    ensures (t + e)[|t|..] == e && (t + e)[|t|..|t| + |e|] == e
  {
    forall lo, hi | 0 <= lo <= hi <= |t| ensures (t + e)[lo..hi] == t[lo..hi] {
      assert (t + e)[lo..hi] == (t + e)[..|t|][lo..hi];
    }
  }

  /** The first `n` bytes of a concatenation whose first part is at least `n` long. */
  lemma SlicePrefix(a: Bytes, b: Bytes, n: nat)
    requires n <= |a|
    ensures (a + b)[..n] == a[..n]
  {
    assert (a + b)[..n] == (a + b)[..|a|][..n];
  }

  /** Two buffers with the same first `n` bytes agree on every byte and slice below `n`. */
  lemma PrefixAgree(a: Bytes, b: Bytes, n: nat)
    requires n <= |a| && n <= |b| && a[..n] == b[..n]
    ensures forall i :: 0 <= i < n ==> a[i] == b[i]
    ensures forall lo, hi :: 0 <= lo <= hi <= n ==> a[lo..hi] == b[lo..hi]
  {
    forall i | 0 <= i < n ensures a[i] == b[i] {
      assert a[..n][i] == b[..n][i];
    }
  }

  // ------------------------------------------------------------ word lists

  /** Reading a word inside the first part of a concatenation. */
  lemma ReadLe32Prefix(a: Bytes, b: Bytes, i: nat)
    requires i + 4 <= |a|
    ensures ReadLe32(a + b, i) == ReadLe32(a, i)
  {
  }

  /** Reading a word inside the second part of a concatenation. */
  lemma ReadLe32Append(a: Bytes, b: Bytes, i: nat)
    requires i + 4 <= |b|
    ensures ReadLe32(a + b, |a| + i) == ReadLe32(b, i)
  {
  }

  lemma ReadLe16Append(a: Bytes, b: Bytes, i: nat)
    requires i + 2 <= |b|
    ensures ReadLe16(a + b, |a| + i) == ReadLe16(b, i)
  {
  }

  /** An 8-byte (command, value) pair: two LE words. */
  function Le32Pair(command: bv32, value: bv32): (r: Bytes)
    ensures |r| == 8 && ReadLe32(r, 0) == command && ReadLe32(r, 4) == value
  {
    Le32RoundTrip(command);
    Le32RoundTrip(value);
    ReadLe32Append(Le32(command), Le32(value), 0);
    Le32(command) + Le32(value)
  }

  /** Word `i` of `ws` is stored LE at `at + 4 i`. */
  predicate WordsAt(t: Bytes, at: nat, ws: seq<bv32>)
  {
    forall i :: 0 <= i < |ws| ==> at + 4 * i + 4 <= |t| && ReadLe32(t, at + 4 * i) == ws[i]
  }

  /** One word of a laid-out run. */
  lemma WordAt(t: Bytes, at: nat, ws: seq<bv32>, j: nat)
    requires WordsAt(t, at, ws) && j < |ws|
    ensures at + 4 * j + 4 <= |t| && ReadLe32(t, at + 4 * j) == ws[j]
  {
  }

  lemma WordsAppend(a: Bytes, b: Bytes, at: nat, ws: seq<bv32>)
    requires WordsAt(b, at, ws)
    ensures WordsAt(a + b, |a| + at, ws)
  {
    forall i | 0 <= i < |ws| ensures |a| + at + 4 * i + 4 <= |a + b| && ReadLe32(a + b, |a| + at + 4 * i) == ws[i] {
      ReadLe32Append(a, b, at + 4 * i);
    }
  }

  lemma WordsPrefix(a: Bytes, b: Bytes, at: nat, ws: seq<bv32>)
    requires WordsAt(a, at, ws)
    ensures WordsAt(a + b, at, ws)
  {
    forall i | 0 <= i < |ws| ensures at + 4 * i + 4 <= |a + b| && ReadLe32(a + b, at + 4 * i) == ws[i] {
      ReadLe32Prefix(a, b, at + 4 * i);
    }
  }

  lemma WordsCons(w: bv32, rest: Bytes, ws: seq<bv32>)
    requires |ws| >= 1 && ws[0] == w && WordsAt(rest, 0, ws[1..])
    ensures WordsAt(Le32(w) + rest, 0, ws)
  {
    Le32RoundTrip(w);
    ReadLe32Prefix(Le32(w), rest, 0);
    WordsAppend(Le32(w), rest, 0, ws[1..]);
    forall i | 1 <= i < |ws| ensures 4 * i + 4 <= |Le32(w) + rest| && ReadLe32(Le32(w) + rest, 4 * i) == ws[i] {
      assert 4 * i == 4 + 4 * (i - 1);
      assert ws[i] == ws[1..][i - 1];
    }
  }

  /** Words stored in a prefix are still there in any buffer that starts with it. */
  lemma WordsInPrefix(p: Bytes, c: Bytes, at: nat, ws: seq<bv32>)
    requires WordsAt(p, at, ws) && |p| <= |c| && c[..|p|] == p
    ensures WordsAt(c, at, ws)
  {
    assert c == p + c[|p|..];
    WordsPrefix(p, c[|p|..], at, ws);
  }

  /** Words survive in any buffer that agrees on their bytes. */
  lemma WordsFrame(p: Bytes, c: Bytes, at: nat, ws: seq<bv32>)
    requires WordsAt(p, at, ws) && at + 4 * |ws| <= |c|
    requires forall k :: at <= k < at + 4 * |ws| && k < |p| ==> c[k] == p[k]
    ensures WordsAt(c, at, ws)
  {
    forall i | 0 <= i < |ws| ensures ReadLe32(c, at + 4 * i) == ws[i] {
      ReadLe32Frame(c, p, at + 4 * i);
    }
  }

  /** A run of `struct.pack('<I', w)` for the words of `ws`, in order. */
  function Le32s(ws: seq<bv32>): (r: Bytes)
    ensures |r| == 4 * |ws|
  {
    if |ws| == 0 then [] else Le32(ws[0]) + Le32s(ws[1..])
  }

  /** Word `i` of the run reads back as `ws[i]`. */
  lemma {:induction false} Le32sWords(ws: seq<bv32>)
    ensures WordsAt(Le32s(ws), 0, ws)
  {
    if |ws| > 0 {
      Le32sWords(ws[1..]);
      WordsCons(ws[0], Le32s(ws[1..]), ws);
    }
  }

  /** Encoding one more word appends its four bytes. */
  lemma {:induction false} Le32sSnoc(ws: seq<bv32>, w: bv32)
    ensures Le32s(ws + [w]) == Le32s(ws) + Le32(w)
  {
    if |ws| == 0 {
      assert ws + [w] == [w];
    } else {
      assert (ws + [w])[1..] == ws[1..] + [w];
      Le32sSnoc(ws[1..], w);
      ConcatAssoc(Le32(ws[0]), Le32s(ws[1..]), Le32(w));
    }
  }

  /** `for w in ws: fw += struct.pack('<I', w)`, as the bytes appended. */
  method PackWords(ws: seq<bv32>) returns (e: Bytes)
    ensures |e| == 4 * |ws| && WordsAt(e, 0, ws)
  {
    e := [];
    for i := 0 to |ws|
      invariant e == Le32s(ws[..i])
    {
      Le32sSnoc(ws[..i], ws[i]);
      assert ws[..i + 1] == ws[..i] + [ws[i]];
      e := e + Le32(ws[i]);
    }
    assert ws[..|ws|] == ws;
    Le32sWords(ws);
  }

  /** Halfword `i` of `hs` is stored LE at `at + 2 i`. */
  predicate HalfwordsAt(t: Bytes, at: nat, hs: seq<bv16>)
  {
    forall i :: 0 <= i < |hs| ==> at + 2 * i + 2 <= |t| && ReadLe16(t, at + 2 * i) == hs[i]
  }

  /** `for h in hs: fw += struct.pack('<H', h)`, as the bytes appended. */
  method PackHalfwords(hs: seq<bv16>) returns (e: Bytes)
    ensures |e| == 2 * |hs| && HalfwordsAt(e, 0, hs)
  {
    e := [];
    for i := 0 to |hs|
      invariant |e| == 2 * i && HalfwordsAt(e, 0, hs[..i])
    {
      var h := Le16(hs[i]);
      Le16RoundTrip(hs[i]);
      ReadLe16Append(e, h, 0);
      forall j | 0 <= j < i ensures ReadLe16(e + h, 2 * j) == hs[j] {
        assert ReadLe16(e, 2 * j) == hs[..i][j];
      }
      e := e + h;
    }
    assert hs[..|hs|] == hs;
  }

  /**
   * Consecutive in-range writes `s[at+4i:at+4i+4] = struct.pack('<I', ws[i])`:
   * the words land in order and nothing outside `[at, at + 4 |ws|)` changes.
   */
  function PutWords(s: Bytes, at: nat, ws: seq<bv32>): (r: Bytes)
    requires at + 4 * |ws| <= |s|
    ensures |r| == |s| && WordsAt(r, at, ws)
    ensures forall k :: 0 <= k < |s| && !(at <= k < at + 4 * |ws|) ==> r[k] == s[k]
  {
    var a := s[..at];
    var m := Le32s(ws);
    Le32sWords(ws);
    WordsAppend(a, m, 0, ws);
    WordsPrefix(a + m, s[at + 4 * |ws|..], at, ws);
    a + m + s[at + 4 * |ws|..]
  }

  lemma ConcatAssoc(a: Bytes, b: Bytes, c: Bytes)
    ensures (a + b) + c == a + (b + c)
  {
  }

  /** Two equally long buffers with the same bytes from `n` on agree on every slice there. */
  lemma SuffixAgree(a: Bytes, b: Bytes, n: nat)
    requires |a| == |b| && n <= |a| && a[n..] == b[n..]
    ensures forall lo, hi :: n <= lo <= hi <= |a| ==> a[lo..hi] == b[lo..hi]
  {
    forall i | n <= i < |a| ensures a[i] == b[i] {
      assert a[i] == a[n..][i - n] && b[i] == b[n..][i - n];
    }
  }

  // --------------------------------------------------- fixed-size records

  lemma MulStep(size: nat, k: nat, n: nat)
    requires k < n
    ensures size * k + size <= size * n
  {
    assert size * k + size == size * (k + 1);
    assert size * (k + 1) <= size * n by {
      var d := n - (k + 1);
      assert size * n == size * (k + 1) + size * d;
    }
  }

  /**
   * `n` records of `size` bytes start at `base`, and record `k` satisfies
   * `P(record, k)`.
   */
  predicate Records(t: Bytes, base: nat, size: nat, n: nat, P: (Bytes, nat) -> bool)
  {
    forall k :: 0 <= k < n ==> base + size * k + size <= |t| && P(t[base + size * k..base + size * k + size], k)
  }

  /** Appending record `n` to a buffer that ends after record `n - 1`. */
  lemma AppendRecord(t: Bytes, e: Bytes, base: nat, size: nat, n: nat, P: (Bytes, nat) -> bool)
    requires |t| == base + size * n && |e| == size && P(e, n) && Records(t, base, size, n, P)
    ensures |t + e| == base + size * (n + 1) && Records(t + e, base, size, n + 1, P)
  {
    assert size * (n + 1) == size * n + size;
    forall k | 0 <= k < n + 1
      ensures base + size * k + size <= |t + e| && P((t + e)[base + size * k..base + size * k + size], k)
    {
      if k < n {
        MulStep(size, k, n);
        assert (t + e)[base + size * k..base + size * k + size] == t[base + size * k..base + size * k + size];
      } else {
        assert (t + e)[base + size * k..base + size * k + size] == e;
      }
    }
  }

  /** Records survive any change that leaves the bytes from `base` on alone. */
  lemma RecordsFrame(t: Bytes, r: Bytes, base: nat, size: nat, n: nat, P: (Bytes, nat) -> bool)
    requires base <= |t| && |r| == |t| && r[base..] == t[base..] && Records(t, base, size, n, P)
    ensures Records(r, base, size, n, P)
  {
    forall i | base <= i < |t| ensures r[i] == t[i] {
      assert r[base..][i - base] == t[base..][i - base];
    }
    forall k | 0 <= k < n
      ensures base + size * k + size <= |r| && P(r[base + size * k..base + size * k + size], k)
    {
      var lo, hi := base + size * k, base + size * k + size;
      assert hi <= |t| && P(t[lo..hi], k);
      assert r[lo..hi] == t[lo..hi];
    }
  }

  /** Record `k` of a run of records. */
  lemma RecordAt(t: Bytes, base: nat, size: nat, n: nat, P: (Bytes, nat) -> bool, k: nat)
    requires Records(t, base, size, n, P) && k < n
    ensures base + size * k + size <= |t| && P(t[base + size * k..base + size * k + size], k)
  {
  }

  /** Record `k` of a run of records inside the window `t[lo..hi]`, read in place. */
  lemma RecordIn(t: Bytes, lo: nat, hi: nat, base: nat, size: nat, n: nat, P: (Bytes, nat) -> bool, k: nat)
    requires lo <= hi <= |t| && Records(t[lo..hi], base, size, n, P) && k < n
    ensures lo + base + size * k + size <= hi
    ensures P(t[lo + base + size * k..lo + base + size * k + size], k)
  {
    RecordAt(t[lo..hi], base, size, n, P, k);
    var a := base + size * k;
    var v := t[lo..hi][a..a + size];
    var w := t[lo + a..lo + a + size];
    forall i | 0 <= i < size
      ensures v[i] == w[i]
    {
      assert v[i] == t[lo..hi][a + i];
      assert t[lo..hi][a + i] == t[lo + a + i];
    }
    assert v == w;
  }

  /** Appending keeps every record that lies inside the old buffer. */
  lemma RecordsExtend(t: Bytes, e: Bytes, base: nat, size: nat, n: nat, P: (Bytes, nat) -> bool)
    requires Records(t, base, size, n, P)
    ensures Records(t + e, base, size, n, P)
  {
    forall k | 0 <= k < n
      ensures base + size * k + size <= |t + e| && P((t + e)[base + size * k..base + size * k + size], k)
    {
      var lo, hi := base + size * k, base + size * k + size;
      assert (t + e)[lo..hi] == t[lo..hi];
    }
  }

  /** Record `k` of a run laid out from the start of `e`, read inside `t + e`. */
  lemma {:induction false} RecordShifted(t: Bytes, e: Bytes, size: nat, P: (Bytes, nat) -> bool, k: nat)
    requires size * k + size <= |e| && P(e[size * k..size * k + size], k)
    ensures |t| + size * k + size <= |t + e| && P((t + e)[|t| + size * k..|t| + size * k + size], k)
  {
    var lo := size * k;
    assert (t + e)[|t| + lo..|t| + lo + size] == e[lo..lo + size];
  }

  /** Records laid out from the start of `e` are records of `t + e` from `|t|` on. */
  lemma {:induction false} RecordsShift(t: Bytes, e: Bytes, size: nat, n: nat, P: (Bytes, nat) -> bool)
    requires Records(e, 0, size, n, P)
    ensures Records(t + e, |t|, size, n, P)
  {
    forall k | 0 <= k < n
      ensures |t| + size * k + size <= |t + e| && P((t + e)[|t| + size * k..|t| + size * k + size], k)
    {
      RecordAt(e, 0, size, n, P, k);
      RecordShifted(t, e, size, P, k);
    }
  }

  /** Cutting the buffer anywhere after record `n - 1` keeps records `0..n-1`. */
  lemma RecordsTake(t: Bytes, m: nat, base: nat, size: nat, n: nat, P: (Bytes, nat) -> bool)
    requires Records(t, base, size, n, P) && base + size * n <= m <= |t|
    ensures Records(t[..m], base, size, n, P)
  {
    forall k | 0 <= k < n
      ensures base + size * k + size <= |t[..m]| && P(t[..m][base + size * k..base + size * k + size], k)
    {
      MulStep(size, k, n);
      var lo, hi := base + size * k, base + size * k + size;
      assert t[..m][lo..hi] == t[lo..hi];
    }
  }

  /** `e * k`: `k` copies of `e`. */
  function Repeat(e: Bytes, k: nat): (r: Bytes)
    ensures |r| == |e| * k
  {
    if k == 0 then [] else Repeat(e, k - 1) + e
  }

  /** Each copy of a record that satisfies `P` at every index is a record of the run. */
  lemma {:induction false} RepeatRecords(e: Bytes, k: nat, P: (Bytes, nat) -> bool)
    requires forall j :: P(e, j)
    ensures Records(Repeat(e, k), 0, |e|, k, P)
  {
    if k > 0 {
      RepeatRecords(e, k - 1, P);
      assert |Repeat(e, k - 1)| == 0 + |e| * (k - 1);
      AppendRecord(Repeat(e, k - 1), e, 0, |e|, k - 1, P);
    }
  }

  /** `while len(s) < n: s += bytes([b])`: pad with `b` up to `n` bytes. */
  method PadWith(s: Bytes, b: bv8, n: nat) returns (r: Bytes)
    ensures |r| == Max(|s|, n) && r[..|s|] == s
    ensures AllEqual(r[|s|..], b)
  {
    r := s;
    while |r| < n
      invariant |s| <= |r| <= Max(|s|, n) && r[..|s|] == s
      invariant forall i :: |s| <= i < |r| ==> r[i] == b
      decreases n - |r|
    {
      r := r + [b];
    }
    assert forall i :: 0 <= i < |r| - |s| ==> r[|s|..][i] == r[|s| + i];
  }

  /** Zero padding up to `n` bytes when shorter; unchanged otherwise. */
  function PadZeros(s: Bytes, n: nat): (r: Bytes)
    ensures |r| == Max(|s|, n) && r[..|s|] == s
    ensures forall i :: |s| <= i < |r| ==> r[i] == 0
  {
    if |s| < n then s + Zeros(n - |s|) else s
  }

  function Take(s: Bytes, n: nat): (r: Bytes)
    ensures |r| == Min(n, |s|) && r == s[..Min(n, |s|)]
  {
    s[..Min(n, |s|)]
  }

  /** Slicing a buffer at its own length gives it back (`data[:n]` when `len(data) == n`). */
  lemma SliceWhole(s: Bytes, n: nat)
    requires |s| == n
    ensures s[..n] == s
  {
  }

  /** `data[lo:]` */
  function Drop(s: Bytes, lo: nat): (r: Bytes)
    ensures |r| == Max(0, |s| - lo)
    ensures lo <= |s| ==> r == s[lo..]
  {
    if lo <= |s| then s[lo..] else []
  }

  // ------------------------------------------------------------ run search

  datatype Option<T> = None | Some(value: T)

  /** The `n` bytes at `i` all equal `b`. */
  predicate RunAt(s: Bytes, i: nat, n: nat, b: bv8)
    requires i + n <= |s|
  {
    AllEqual(s[i..i + n], b)
  }

  /**
   * The first `i` in `[lo, hi)` such that the `n` bytes at `i` all equal
   * `b`: the shape of the free-space searches of the patchers.
   */
  function FirstRun(s: Bytes, b: bv8, n: nat, lo: nat, hi: nat): Option<nat>
    requires hi <= lo || hi + n <= |s|
    decreases hi - lo
  {
    if hi <= lo then None
    else if RunAt(s, lo, n, b) then Some(lo)
    else FirstRun(s, b, n, lo + 1, hi)
  }

  /** `FirstRun` finds the first run in range, and finds none only when there is none. */
  lemma {:induction false} FirstRunSpec(s: Bytes, b: bv8, n: nat, lo: nat, hi: nat)
    requires hi <= lo || hi + n <= |s|
    ensures FirstRun(s, b, n, lo, hi).Some? ==>
      var i := FirstRun(s, b, n, lo, hi).value;
      lo <= i < hi && RunAt(s, i, n, b) &&
      forall j :: lo <= j < i ==> !RunAt(s, j, n, b)
    ensures FirstRun(s, b, n, lo, hi).None? ==>
      forall j :: lo <= j < hi ==> !RunAt(s, j, n, b)
    decreases hi - lo
  {
    if lo < hi && !RunAt(s, lo, n, b) {
      FirstRunSpec(s, b, n, lo + 1, hi);
    }
  }

  /** The search only looks at bytes from `lo` on. */
  lemma {:induction false} FirstRunFrame(s: Bytes, t: Bytes, b: bv8, n: nat, lo: nat, hi: nat)
    requires |s| == |t| && (hi <= lo || hi + n <= |s|)
    requires forall k :: lo <= k < |s| ==> s[k] == t[k]
    ensures FirstRun(s, b, n, lo, hi) == FirstRun(t, b, n, lo, hi)
    decreases hi - lo
  {
    if lo < hi {
      assert s[lo..lo + n] == t[lo..lo + n];
      FirstRunFrame(s, t, b, n, lo + 1, hi);
    }
  }

  /** The search loop itself. */
  method FindRun(s: Bytes, b: bv8, n: nat, lo: nat, hi: nat) returns (r: Option<nat>)
    requires hi <= lo || hi + n <= |s|
    ensures r == FirstRun(s, b, n, lo, hi)
  {
    var i := lo;
    while i < hi
      invariant lo <= i && (i <= hi || hi <= lo)
      invariant FirstRun(s, b, n, lo, hi) == FirstRun(s, b, n, i, hi)
      decreases hi - i
    {
      var k := 0;
      while k < n && s[i + k] == b
        invariant k <= n
        invariant forall j :: i <= j < i + k ==> s[j] == b
      {
        k := k + 1;
      }
      if k == n {
        assert RunAt(s, i, n, b);
        return Some(i);
      }
      assert s[i..i + n][k] != b;
      i := i + 1;
    }
    return None;
  }
}

=== FILE: crc32.dfy ===
/**
 * The two CRC-32 formulations used by the configuration tools, as
 * specification functions:
 *
 *  - the MSB-first form of the NXP sja1105-tool (`crc32_add` with the
 *    polynomial 0x04C11DB7, each input byte bit-reversed into the top of a
 *    32-bit word, the final value inverted and bit-reversed);
 *  - the reflected LSB-first form with the polynomial 0xEDB88320, seed
 *    0xFFFFFFFF and final inversion, which is what `zlib.crc32` computes
 *    (the IEEE 802.3 frame check sequence).
 *
 * The main result, `EtherCrcIsReflectedCrc`, proves the two equal on every
 * input.
 */
module Crc32 {
  import opened Bytes

  const MsbPoly: bv32 := 0x04C1_1DB7
  const LsbPoly: bv32 := 0xEDB8_8320
  const Seed: bv32 := 0xFFFF_FFFF

  // ------------------------------------------------------------ bit reversal

  /** Reversal of all 32 bits of a word (bit i moves to bit 31 - i). */
  function Rev32(x: bv32): bv32
  {
    var a := ((x >> 1) & 0x5555_5555) | ((x & 0x5555_5555) << 1);
    var b := ((a >> 2) & 0x3333_3333) | ((a & 0x3333_3333) << 2);
    var c := ((b >> 4) & 0x0F0F_0F0F) | ((b & 0x0F0F_0F0F) << 4);
    var d := ((c >> 8) & 0x00FF_00FF) | ((c & 0x00FF_00FF) << 8);
    (d >> 16) | (d << 16)
  }

  /** Bit i of a word. */
  function Bit(x: bv32, i: bv32): bool
    requires i < 32
  {
    (x >> i) & 1 == 1
  }

  /** `Rev32` is the bit reversal: bit i of the result is bit 31 - i of the input. */
  lemma Rev32Bits(x: bv32, i: bv32)
    requires i < 32
    ensures Bit(Rev32(x), i) == Bit(x, 31 - i)
  {
  }

  lemma Rev32Involution(x: bv32)
    ensures Rev32(Rev32(x)) == x
  {
  }

  lemma Rev32Xor(x: bv32, y: bv32)
    ensures Rev32(x ^ y) == Rev32(x) ^ Rev32(y)
  {
  }

  lemma Rev32Not(x: bv32)
    ensures Rev32(!x) == !Rev32(x)
  {
  }

  lemma Rev32ShiftLeft(x: bv32)
    ensures Rev32(x << 1) == Rev32(x) >> 1
  {
  }

  lemma Rev32TopBit(x: bv32)
    ensures (x & 0x8000_0000 != 0) == (Rev32(x) & 1 != 0)
  {
  }

  /** The reflected polynomial is the bit reversal of the normal one. */
  lemma Rev32Poly()
    ensures Rev32(MsbPoly) == LsbPoly && Rev32(Seed) == Seed
  {
  }

  // -------------------------------------------------------- MSB-first engine

  /** One shift of `crc32_add`: feed the top bit of `d` into the register. */
  function MsbRound(crc: bv32, d: bv32): bv32
  {
    if (crc ^ d) & 0x8000_0000 != 0 then (crc << 1) ^ MsbPoly else crc << 1
  }

  /** `k` shifts, the data word moving left one bit per shift. */
  function MsbRounds(crc: bv32, d: bv32, k: nat): bv32
    decreases k
  {
    if k == 0 then crc else MsbRounds(MsbRound(crc, d), d << 1, k - 1)
  }

  /** `crc32_add(crc, b)`: the byte is reversed into bits 31..24, eight shifts. */
  function MsbStep(crc: bv32, b: bv8): bv32
  {
    MsbRounds(crc, Rev32(b as bv32), 8)
  }

  /** The register after feeding every byte of `s`, starting from `crc`. */
  function MsbFold(crc: bv32, s: Bytes): bv32
  {
    if |s| == 0 then crc else MsbStep(MsbFold(crc, s[..|s| - 1]), s[|s| - 1])
  }

  /** `ether_crc32_le(s)`: seed, all bytes, then `bit_reverse(~crc, 32)`. */
  function EtherCrc(s: Bytes): bv32
  {
    Rev32(!MsbFold(Seed, s))
  }

  // -------------------------------------------------------- LSB-first engine

  /** One shift of the reflected algorithm. */
  function LsbRound(crc: bv32): bv32
  {
    if crc & 1 != 0 then (crc >> 1) ^ LsbPoly else crc >> 1
  }

  function LsbRounds(crc: bv32, k: nat): bv32
    decreases k
  {
    if k == 0 then crc else LsbRounds(LsbRound(crc), k - 1)
  }

  /** `crc ^= byte` followed by eight shifts. */
  function LsbStep(crc: bv32, b: bv8): bv32
  {
    LsbRounds(crc ^ (b as bv32), 8)
  }

  function LsbFold(crc: bv32, s: Bytes): bv32
  {
    if |s| == 0 then crc else LsbStep(LsbFold(crc, s[..|s| - 1]), s[|s| - 1])
  }

  /** The reflected CRC-32 of `s`; this is `zlib.crc32(s)`. */
  function Crc(s: Bytes): bv32
  {
    LsbFold(Seed, s) ^ 0xFFFF_FFFF
  }

  // ------------------------------------------------------------- equivalence

  /** The data word after `k` shifts of one bit each. */
  function ShiftedData(d: bv32, k: nat): bv32
    decreases k
  {
    if k == 0 then d else ShiftedData(d << 1, k - 1)
  }

  lemma RoundTopSet(c: bv32, d: bv32)
    requires (c ^ d) & 0x8000_0000 != 0
    ensures Rev32(((c << 1) ^ MsbPoly) ^ (d << 1)) == (Rev32(c ^ d) >> 1) ^ LsbPoly
    ensures Rev32(c ^ d) & 1 != 0
  {
  }

  lemma RoundTopClear(c: bv32, d: bv32)
    requires (c ^ d) & 0x8000_0000 == 0
    ensures Rev32((c << 1) ^ (d << 1)) == Rev32(c ^ d) >> 1
    ensures Rev32(c ^ d) & 1 == 0
  {
  }

  /** One MSB-first shift is one reflected shift seen through `Rev32`. */
  lemma RoundAgrees(c: bv32, d: bv32)
    ensures Rev32(MsbRound(c, d) ^ (d << 1)) == LsbRound(Rev32(c ^ d))
  {
    if (c ^ d) & 0x8000_0000 != 0 {
      RoundTopSet(c, d);
      assert MsbRound(c, d) == (c << 1) ^ MsbPoly;
    } else {
      RoundTopClear(c, d);
      assert MsbRound(c, d) == c << 1;
    }
  }

  lemma {:induction false} RoundsAgree(c: bv32, d: bv32, k: nat)
    ensures Rev32(MsbRounds(c, d, k) ^ ShiftedData(d, k)) == LsbRounds(Rev32(c ^ d), k)
    decreases k
  {
    if k == 0 {
      assert MsbRounds(c, d, k) == c && ShiftedData(d, k) == d;
    } else {
      RoundAgrees(c, d);
      RoundsAgree(MsbRound(c, d), d << 1, k - 1);
    }
  }

  /** Per byte: the MSB-first step is the reflected step under `Rev32`. */
  lemma StepAgrees(c: bv32, b: bv8)
    ensures Rev32(MsbStep(c, b)) == LsbStep(Rev32(c), b)
  {
    var d := Rev32(b as bv32);
    RoundsAgree(c, d, 8);
    assert d & 0x00FF_FFFF == 0;
    assert ShiftedData(d, 8) == 0;
    Rev32Xor(c, d);
    Rev32Involution(b as bv32);
  }

  lemma {:induction false} FoldsAgree(c: bv32, s: Bytes)
    ensures Rev32(MsbFold(c, s)) == LsbFold(Rev32(c), s)
  {
    if |s| > 0 {
      FoldsAgree(c, s[..|s| - 1]);
      StepAgrees(MsbFold(c, s[..|s| - 1]), s[|s| - 1]);
    }
  }

  /**
   * The sja1105-tool checksum and the reflected CRC-32 (zlib's) agree on
   * every byte string.
   */
  lemma EtherCrcIsReflectedCrc(s: Bytes)
    ensures EtherCrc(s) == Crc(s)
  {
    FoldsAgree(Seed, s);
    Rev32Not(MsbFold(Seed, s));
    Rev32Poly();
  }

  /** No byte: the seed inverted, that is 0. */
  lemma Crc32Empty()
    ensures Crc([]) == 0 && EtherCrc([]) == 0
  {
  }

  /** The register after each of the nine digits. */
  lemma CheckValueSteps()
    ensures LsbStep(0xFFFFFFFF, 0x31) == 0x7C231048
    ensures LsbStep(0x7C231048, 0x32) == 0xB0ACBB32
    ensures LsbStep(0xB0ACBB32, 0x33) == 0x77B79C2D
    ensures LsbStep(0x77B79C2D, 0x34) == 0x641C1F5C
    ensures LsbStep(0x641C1F5C, 0x35) == 0x340AC5E3
    ensures LsbStep(0x340AC5E3, 0x36) == 0xF68D2C9E
    ensures LsbStep(0xF68D2C9E, 0x37) == 0xAFFC9660
    ensures LsbStep(0xAFFC9660, 0x38) == 0x651F2550
    ensures LsbStep(0x651F2550, 0x39) == 0x340BC6D9
  {
  }

  lemma LsbFoldSnoc(c: bv32, s: seq<bv8>, b: bv8)
    ensures LsbFold(c, s + [b]) == LsbStep(LsbFold(c, s), b)
  {
    assert (s + [b])[..|s|] == s;
  }

  /** The standard check value of CRC-32: the nine ASCII digits "123456789". */
  lemma CheckValue()
    ensures Crc([0x31, 0x32, 0x33, 0x34, 0x35, 0x36, 0x37, 0x38, 0x39]) == 0xCBF4_3926
  {
    CheckValueSteps();
    var s: seq<bv8> := [];
    LsbFoldSnoc(Seed, s, 0x31);
    s := s + [0x31];
    assert LsbFold(Seed, s) == 0x7C231048;
    LsbFoldSnoc(Seed, s, 0x32);
    s := s + [0x32];
    assert LsbFold(Seed, s) == 0xB0ACBB32;
    LsbFoldSnoc(Seed, s, 0x33);
    s := s + [0x33];
    assert LsbFold(Seed, s) == 0x77B79C2D;
    LsbFoldSnoc(Seed, s, 0x34);
    s := s + [0x34];
    assert LsbFold(Seed, s) == 0x641C1F5C;
    LsbFoldSnoc(Seed, s, 0x35);
    s := s + [0x35];
    assert LsbFold(Seed, s) == 0x340AC5E3;
    LsbFoldSnoc(Seed, s, 0x36);
    s := s + [0x36];
    assert LsbFold(Seed, s) == 0xF68D2C9E;
    LsbFoldSnoc(Seed, s, 0x37);
    s := s + [0x37];
    assert LsbFold(Seed, s) == 0xAFFC9660;
    LsbFoldSnoc(Seed, s, 0x38);
    s := s + [0x38];
    assert LsbFold(Seed, s) == 0x651F2550;
    LsbFoldSnoc(Seed, s, 0x39);
    s := s + [0x39];
    assert LsbFold(Seed, s) == 0x340BC6D9;
    assert s == [0x31, 0x32, 0x33, 0x34, 0x35, 0x36, 0x37, 0x38, 0x39];
  }
}

=== FILE: final_fix.dfy ===
/**
 * The "final fix" of a GoldVIP switch blob: force the little-endian device
 * id 0xB700030F, turn on FRER for the P4 -> P2A/P2B path by OR-ing bits
 * into the value words of the port-configuration pairs found below 0x200,
 * cut the blob to 2236 bytes and store the CRC-32 of bytes 16.. at 12..15.
 * Also the microcontroller image patch: five configuration words at 0x1000.
 */
module FinalFix {
  import opened Bytes
  import opened Crc32
  import opened PairScan

  /** The device id the hardware reports. */
  const HardwareId: bv32 := 0xB700_030F
  const SwitchConfigSize: nat := 2236
  /** The pair scan covers `[ScanStart, min(ScanLimit, len))` in steps of 8. */
  const ScanStart: nat := 0x10
  const ScanLimit: nat := 0x200

  // -------------------------------------------------------------- device id

  /** `check_original` followed by the header rewrite: the id is forced to `HardwareId`. */
  function IdFixed(original: Bytes): (r: Bytes)
    requires |original| >= 4
    ensures |r| == |original| && ReadLe32(r, 0) == HardwareId
    ensures forall k :: 4 <= k < |r| ==> r[k] == original[k]
    ensures ReadLe32(original, 0) == HardwareId ==> r == original
  {
    if ReadLe32(original, 0) == HardwareId then original else PutLe32(original, 0, HardwareId)
  }

  // ------------------------------------------------------------- pair scan

  /** Both port-configuration command words mark a pair; P4, P2A and P2B are all rewritten. */
  const PortRule: Rule := Rule({0xFFFF_EC00, 0x00EC_FFFF}, true)

  // ----------------------------------------------------------- whole config

  /** `create_switch_config` on the loaded blob `original`. */
  function SwitchConfig(original: Bytes): Bytes
    requires |original| >= 4
  {
    var patched := PatchPairs(PortRule, IdFixed(original), ScanStart, Min(ScanLimit, |original|));
    var cut := Take(patched, SwitchConfigSize);
    SetSlice(cut, 12, 16, Le32(Crc(Drop(cut, 16))))
  }

  /**
   * `create_switch_config` (minus the file read): fix the id, scan the pairs
   * in place, truncate, store the checksum.
   */
  method CreateSwitchConfig(original: Bytes) returns (config: Bytes)
    requires |original| >= 4
    ensures config == SwitchConfig(original)
  {
    var alreadyCorrect := ReadLe32(original, 0) == HardwareId;
    config := original;
    if !alreadyCorrect {
      config := PutLe32(config, 0, HardwareId);
    }
    assert config == IdFixed(original);
    config := ScanPairs(config);
    config := Take(config, SwitchConfigSize);
    var configData := Drop(config, 16);
    var crc := Crc(configData);
    config := SetSlice(config, 12, 16, Le32(crc));
  }

  /** The scan loop of `create_switch_config`: every 8 bytes from 0x10 up to `min(0x200, len)`. */
  method ScanPairs(data: Bytes) returns (config: Bytes)
    ensures config == PatchPairs(PortRule, data, ScanStart, Min(ScanLimit, |data|))
  {
    config := data;
    var end := Min(ScanLimit, |config|);
    var offset := ScanStart;
    while offset < end
      invariant |config| == |data|
      invariant PatchPairs(PortRule, config, offset, end) == PatchPairs(PortRule, data, ScanStart, end)
      decreases end - offset
    {
      config := ScanPair(config, offset);
      offset := offset + 8;
    }
  }

  /** The body of the scan loop at `offset`. */
  method ScanPair(config: Bytes, offset: nat) returns (out: Bytes)
    ensures out == PatchPair(PortRule, config, offset)
  {
    out := config;
    if offset + 8 <= |config| {
      var cmd := ReadLe32(config, offset);
      var val := ReadLe32(config, offset + 4);
      if cmd == 0xFFFF_EC00 || cmd == 0x00EC_FFFF {
        var portNum := val & 0xFF;
        if portNum == 0x08 {
          val := val | 0x0000_000C;
          assert val == FrerValue(ReadLe32(config, offset + 4));
          out := PutLe32(config, offset + 4, val);
        } else if portNum == 0x04 {
          val := val | 0x8000_0000;
          assert val == FrerValue(ReadLe32(config, offset + 4));
          out := PutLe32(config, offset + 4, val);
        } else if portNum == 0x06 {
          val := val | 0x8000_0000;
          assert val == FrerValue(ReadLe32(config, offset + 4));
          out := PutLe32(config, offset + 4, val);
        }
      }
    }
  }

  /** `verify_config`: the device id and the stored checksum of bytes 16.. both match. */
  predicate VerifyConfig(config: Bytes)
    requires |config| >= 16
  {
    ReadLe32(config, 0) == HardwareId && Crc(config[16..]) == ReadLe32(config, 12)
  }

  /** The last two steps: cut to 2236 bytes and store `w` at 12..15 of a blob of at least 16 bytes. */
  lemma CutAndStore(patched: Bytes, w: bv32)
    requires |patched| >= 16
    ensures var out := SetSlice(Take(patched, SwitchConfigSize), 12, 16, Le32(w));
      |out| == Min(|patched|, SwitchConfigSize) && ReadLe32(out, 12) == w &&
      out[16..] == Drop(Take(patched, SwitchConfigSize), 16) &&
      forall k :: 0 <= k < |out| && !(12 <= k < 16) ==> out[k] == patched[k]
  {
    Le32RoundTrip(w);
    var cut := Take(patched, SwitchConfigSize);
    var out := SetSlice(cut, 12, 16, Le32(w));
    assert out[12..16] == Le32(w);
    assert out[16..] == cut[16..];
  }

  /** Below 16 bytes the cut keeps everything and the slice write lands at `min(len, 12)`. */
  lemma ShortStore(patched: Bytes, w: bv32)
    requires |patched| < 16
    ensures var out := SetSlice(Take(patched, SwitchConfigSize), 12, 16, Le32(w));
      |out| == Min(|patched|, 12) + 4 && out[..Min(|patched|, 12)] == patched[..Min(|patched|, 12)] &&
      (|patched| >= 12 ==> ReadLe32(out, 12) == w)
  {
    Le32RoundTrip(w);
    var out := SetSlice(Take(patched, SwitchConfigSize), 12, 16, Le32(w));
    if |patched| >= 12 {
      assert out[12..16] == Le32(w);
    }
  }

  /**
   * The output carries the hardware id; it is the input cut to 2236 bytes,
   * or, below 16 bytes, the input cut to 12 with the checksum of nothing
   * appended.
   */
  lemma SwitchConfigShape(original: Bytes)
    requires |original| >= 4
    ensures |original| >= 16 ==> |SwitchConfig(original)| == Min(|original|, SwitchConfigSize)
    ensures |original| < 16 ==> |SwitchConfig(original)| == Min(|original|, 12) + 4
    ensures ReadLe32(SwitchConfig(original), 0) == HardwareId
  {
    var fixed := IdFixed(original);
    var patched := PatchPairs(PortRule, fixed, ScanStart, Min(ScanLimit, |original|));
    PatchPairsFrame(PortRule, fixed, ScanStart, Min(ScanLimit, |original|));
    ReadLe32Frame(patched, fixed, 0);
    var w := Crc(Drop(Take(patched, SwitchConfigSize), 16));
    if |patched| >= 16 {
      CutAndStore(patched, w);
    } else {
      ShortStore(patched, w);
    }
    ReadLe32Frame(SwitchConfig(original), patched, 0);
  }

  /** `verify_config(create_switch_config())` holds for every input of at least 12 bytes. */
  lemma SwitchConfigVerifies(original: Bytes)
    requires |original| >= 12
    ensures |SwitchConfig(original)| >= 16 && VerifyConfig(SwitchConfig(original))
  {
    SwitchConfigShape(original);
    var patched := PatchPairs(PortRule, IdFixed(original), ScanStart, Min(ScanLimit, |original|));
    PatchPairsFrame(PortRule, IdFixed(original), ScanStart, Min(ScanLimit, |original|));
    var w := Crc(Drop(Take(patched, SwitchConfigSize), 16));
    if |patched| >= 16 {
      CutAndStore(patched, w);
    } else {
      ShortStore(patched, w);
      Crc32Empty();
    }
  }

  /**
   * Apart from the id at 0..3 and the checksum at 12..15, only the value
   * words of scanned pairs differ from the input, and each of those that
   * survives the cut holds `PairValue` of the input.
   */
  lemma SwitchConfigChanges(original: Bytes)
    requires |original| >= 16
    ensures forall k :: (4 <= k < |SwitchConfig(original)| && k < |original| && !(12 <= k < 16) &&
      !InValueWord(k, ScanStart, Min(ScanLimit, |original|))) ==> SwitchConfig(original)[k] == original[k]
    ensures forall p: nat {:trigger IsScanned(p, ScanStart, Min(ScanLimit, |original|))} ::
      (IsScanned(p, ScanStart, Min(ScanLimit, |original|)) && p + 8 <= |SwitchConfig(original)| && p + 8 <= |original| ==>
      ReadLe32(SwitchConfig(original), p + 4) == PairValue(PortRule, original, p))
  {
    var end := Min(ScanLimit, |original|);
    var fixed := IdFixed(original);
    var patched := PatchPairs(PortRule, fixed, ScanStart, end);
    PatchPairsFrame(PortRule, fixed, ScanStart, end);
    PatchPairsValues(PortRule, fixed, ScanStart, end);
    CutAndStore(patched, Crc(Drop(Take(patched, SwitchConfigSize), 16)));
    var out := SwitchConfig(original);
    forall p: nat | IsScanned(p, ScanStart, end) && p + 8 <= |out|
      ensures ReadLe32(out, p + 4) == PairValue(PortRule, original, p)
    {
      ReadLe32Frame(out, patched, p + 4);
      ReadLe32Frame(fixed, original, p);
      ReadLe32Frame(fixed, original, p + 4);
    }
  }

  // ------------------------------------------------------- microcontroller

  const UcConfigOffset: nat := 0x1000
  /** Enable, the R-TAG EtherType, the window, the P4 mask and the P2A|P2B mask. */
  const UcFrerWords: seq<bv32> := [0x0000_0001, 0x0000_F1CD, 0x0000_0100, 0x0000_0010, 0x0000_000C]

  /**
   * The patch part of `create_uc_firmware`: when `0x1000 + 32 < len`, the
   * five words at 0x1000..0x1013; otherwise the image as loaded.
   */
  method CreateUcFirmware(uc: Bytes) returns (out: Bytes)
    ensures |out| == |uc|
    ensures UcConfigOffset + 32 < |uc| ==> WordsAt(out, UcConfigOffset, UcFrerWords)
    ensures forall k :: 0 <= k < |uc| && !(UcConfigOffset + 32 < |uc| && UcConfigOffset <= k < UcConfigOffset + 20) ==>
      out[k] == uc[k]
  {
    out := uc;
    if UcConfigOffset + 32 < |uc| {
      out := PutWords(out, UcConfigOffset, UcFrerWords);
    }
  }
}

=== FILE: fix_crc.dfy ===
/**
 * The CRC fixer for an FRER-patched switch blob: a hand-written reflected
 * CRC-32 over the bytes from 16 on, the rewrite of the stored checksum at
 * 12..15, and the "minimal" variant that only sets CB_EN.
 */
module FixCrc {
  import opened Bytes
  import opened Crc32

  /**
   * `calculate_sja1110_crc(data)`: the reflected CRC-32 (polynomial
   * 0xEDB88320) of `data[16:]`. A buffer of 16 bytes or fewer gives 0.
   */
  method CalculateSja1110Crc(data: Bytes) returns (r: bv32)
    ensures r == Crc(Drop(data, 16))
    ensures |data| <= 16 ==> r == 0
  {
    var body := Drop(data, 16);
    var crc := Seed;
    for i := 0 to |body|
      invariant crc == LsbFold(Seed, body[..i])
    {
      assert body[..i + 1][..i] == body[..i];
      crc := AddByte(crc, body[i]);
    }
    assert body[..|body|] == body;
    r := crc ^ 0xFFFF_FFFF;
    Crc32Empty();
  }

  /** The body of the outer loop: `crc ^= byte`, then eight shifts. */
  method AddByte(crc: bv32, b: bv8) returns (r: bv32)
    ensures r == LsbStep(crc, b)
  {
    r := crc ^ (b as bv32);
    for j := 0 to 8
      invariant LsbRounds(r, 8 - j) == LsbStep(crc, b)
    {
      if r & 1 != 0 {
        r := (r >> 1) ^ LsbPoly;
      } else {
        r := r >> 1;
      }
    }
  }

  /**
   * The checksum rewrite of `fix_goldvip_crc`: zero 12..15, compute, store;
   * then, when the reference GoldVIP blob is supplied, store its checksum
   * field instead.
   */
  method FixGoldvipCrc(data: Bytes, reference: Option<Bytes>) returns (out: Bytes)
    requires |data| >= 16
    requires reference.Some? ==> |reference.value| >= 16
    ensures |out| == |data|
    ensures out[..12] == data[..12] && out[16..] == data[16..]
    ensures reference.None? ==> ReadLe32(out, 12) == Crc(data[16..])
    ensures reference.Some? ==> ReadLe32(out, 12) == ReadLe32(reference.value, 12)
  {
    out := PutLe32(data, 12, 0);
    var newCrc := CalculateSja1110Crc(out);
    assert Drop(out, 16) == data[16..];
    out := PutLe32(out, 12, newCrc);
    if reference.Some? {
      var origCrc := ReadLe32(reference.value, 12);
      out := PutLe32(out, 12, origCrc);
    }
    assert out[..12] == data[..12];
    assert out[16..] == data[16..];
  }

  /**
   * The checksum is a function of the bytes from 16 on, so the stored field
   * (and anything else in 0..15) cannot influence it.
   */
  lemma CrcIgnoresHeader(a: Bytes, b: Bytes)
    requires |a| >= 16 && |b| >= 16 && a[16..] == b[16..]
    ensures Crc(Drop(a, 16)) == Crc(Drop(b, 16))
  {
  }

  /** `create_minimal_frer_config`: set bit 7 (CB_EN) of the LE word at 4..7 and nothing else. */
  method CreateMinimalFrerConfig(data: Bytes) returns (out: Bytes)
    requires |data| >= 8
    ensures |out| == |data|
    ensures ReadLe32(out, 4) == ReadLe32(data, 4) | 0x80
    ensures forall k :: 0 <= k < |data| && !(4 <= k < 8) ==> out[k] == data[k]
  {
    var config1 := ReadLe32(data, 4);
    config1 := config1 | 0x80;
    out := PutLe32(data, 4, config1);
  }
}

=== FILE: fixed_frer.dfy ===
/**
 * The earlier "fixed" FRER configuration: a 2236-byte switch blob rebuilt
 * from scratch with device id 0xB700030E, version 6, the original's header
 * words at 8..15, up to eleven port pairs copied from the original (with
 * the FRER bits OR-ed into ports 2, 3 and 4), four FRER pairs, padding taken
 * from the original or zeros, and the CRC-32 of bytes 16.. at 12..15.
 */
module FixedFrer {
  import opened Bytes
  import opened Crc32

  /** The device id this version writes (the driver's define). */
  const DeviceId: bv32 := 0xB700_030E
  const Version: bv32 := 6
  const SwitchConfigSize: nat := 2236
  const PortCount: nat := 11

  /** Stream 1 enable, the P4 input mask, the P2A|P2B output mask, the R-TAG and window. */
  const FrerPairs: seq<(bv32, bv32)> :=
    [(0x8000_0001, 0x0000_0001), (0x0000_0010, 0x0000_0001), (0x0000_000C, 0x0000_0001), (0xF1CD_0000, 0x0000_0100)]

  /** The value word of port `i` after the FRER change. */
  function PortValue(i: nat, val: bv32): bv32
  {
    if i == 4 then val | 0x0000_000C
    else if i == 2 || i == 3 then val | 0x8000_0000
    else val
  }

  /**
   * How many ports `i < 11` pass `i < len(original) // 8 - 2`: the largest
   * count whose pairs all lie inside the original, capped at eleven.
   */
  function PortPairCount(n: nat): (c: nat)
    ensures c <= PortCount && c == Min(PortCount, Max(0, n / 8 - 2))
    ensures c > 0 ==> 16 + 8 * c <= n
    ensures c < PortCount ==> n < 24 + 8 * c
  {
    if n / 8 < 3 then 0 else Min(PortCount, n / 8 - 2)
  }

  /** `port_configs`: pair `i` of the original at `16 + 8 i`, with its value changed by `PortValue`. */
  function PortConfigs(original: Bytes): (ps: seq<(bv32, bv32)>)
    ensures |ps| == PortPairCount(|original|) <= PortCount
    ensures forall i :: 0 <= i < |ps| ==> (24 + 8 * i <= |original| &&
      ps[i] == (ReadLe32(original, 16 + 8 * i), PortValue(i, ReadLe32(original, 20 + 8 * i))))
  {
    seq(PortPairCount(|original|), i requires 0 <= i < PortPairCount(|original|) =>
      (ReadLe32(original, 16 + 8 * i), PortValue(i, ReadLe32(original, 20 + 8 * i))))
  }

  /** The words of a pair list, command before value. */
  function Flatten(ps: seq<(bv32, bv32)>): (ws: seq<bv32>)
    ensures |ws| == 2 * |ps|
  {
    if |ps| == 0 then [] else Flatten(ps[..|ps| - 1]) + [ps[|ps| - 1].0, ps[|ps| - 1].1]
  }

  /** Pair `i` becomes words `2 i` and `2 i + 1`. */
  lemma {:induction false} FlattenIndex(ps: seq<(bv32, bv32)>)
    ensures forall i :: 0 <= i < |ps| ==> Flatten(ps)[2 * i] == ps[i].0 && Flatten(ps)[2 * i + 1] == ps[i].1
  {
    if |ps| > 0 {
      FlattenIndex(ps[..|ps| - 1]);
    }
  }

  /** Appending one pair's two words to an encoded run. */
  lemma PairSnoc(ps: seq<(bv32, bv32)>, p: (bv32, bv32))
    ensures Le32s(Flatten(ps + [p])) == Le32s(Flatten(ps)) + Le32(p.0) + Le32(p.1)
  {
    assert (ps + [p])[..|ps|] == ps;
    assert Flatten(ps + [p]) == Flatten(ps) + [p.0] + [p.1];
    Le32sSnoc(Flatten(ps) + [p.0], p.1);
    Le32sSnoc(Flatten(ps), p.0);
  }

  /** Everything before the padding: id, version, `original[8:16]`, the port pairs, the FRER pairs. */
  function Prefix(original: Bytes): (r: Bytes)
    ensures |r| <= 136
  {
    Le32s([DeviceId, Version]) + Drop(Take(original, 16), 8) +
    Le32s(Flatten(PortConfigs(original))) + Le32s(Flatten(FrerPairs))
  }

  // ---------------------------------------------------------------- padding

  /**
   * The padding loop from `config` on: while short, copy up to eight bytes
   * of the original at the same offsets when the original fits in what is
   * left and has not been passed yet, otherwise append up to four zeros.
   */
  function PadOriginal(config: Bytes, original: Bytes): Bytes
    decreases SwitchConfigSize - |config|
  {
    if |config| >= SwitchConfigSize then config
    else
      var remaining := SwitchConfigSize - |config|;
      if remaining >= |original| && |config| < |original| then
        PadOriginal(config + original[|config|..Min(|config| + Min(remaining, 8), |original|)], original)
      else
        PadOriginal(config + Zeros(Min(remaining, 4)), original)
  }

  /**
   * The padding stops at exactly 2236 bytes and keeps what was there. A
   * padding byte at `k` is the original's byte at `k` or zero: the original's
   * byte when `k` is inside it and the original still fits after `k`, zero
   * past the original's end or once the original can no longer fit.
   */
  lemma {:induction false} PadOriginalSpec(c: Bytes, o: Bytes)
    requires |c| <= SwitchConfigSize
    ensures |PadOriginal(c, o)| == SwitchConfigSize && PadOriginal(c, o)[..|c|] == c
    ensures forall k :: |c| <= k < SwitchConfigSize ==> PaddingByte(PadOriginal(c, o), o, k)
    decreases SwitchConfigSize - |c|
  {
    if |c| < SwitchConfigSize {
      var remaining := SwitchConfigSize - |c|;
      var chunk := if remaining >= |o| && |c| < |o| then o[|c|..Min(|c| + Min(remaining, 8), |o|)] else Zeros(Min(remaining, 4));
      var c' := c + chunk;
      PadOriginalSpec(c', o);
      var r := PadOriginal(c, o);
      assert r == PadOriginal(c', o);
      assert r[..|c|] == c by {
        assert r[..|c|] == r[..|c'|][..|c|];
      }
      forall k | |c| <= k < |c'| ensures PaddingByte(r, o, k) {
        assert r[k] == r[..|c'|][k] == chunk[k - |c|];
      }
    }
  }

  /** What byte `k` of the padding may hold (see `PadOriginalSpec`). */
  predicate PaddingByte(r: Bytes, o: Bytes, k: nat)
    requires k < |r|
  {
    (r[k] == 0 || (k < |o| && r[k] == o[k])) &&
    (k < |o| && k + |o| <= SwitchConfigSize ==> r[k] == o[k]) &&
    (k >= |o| || k + |o| >= SwitchConfigSize + 8 ==> r[k] == 0)
  }

  // ------------------------------------------------------------ whole blob

  /** `create_switch_config` on the loaded blob `original`. */
  function SwitchConfig(original: Bytes): Bytes
  {
    var padded := PadOriginal(Prefix(original), original);
    var cut := Take(padded, SwitchConfigSize);
    SetSlice(cut, 12, 16, Le32(Crc(Drop(cut, 16))))
  }

  /** `create_switch_config` (minus the file read): append, pad, cut, checksum. */
  method CreateSwitchConfig(original: Bytes) returns (config: Bytes)
    ensures config == SwitchConfig(original)
  {
    config := BuildPrefix(original);
    config := PadConfig(config, original);
    config := Take(config, SwitchConfigSize);
    var configData := Drop(config, 16);
    var crc := Crc(configData);
    config := SetSlice(config, 12, 16, Le32(crc));
  }

  /** The appends of `create_switch_config` before the padding loop. */
  method BuildPrefix(original: Bytes) returns (config: Bytes)
    ensures config == Prefix(original)
  {
    config := [];
    config := config + Le32(DeviceId);
    config := config + Le32(Version);
    assert config == Le32s([DeviceId, Version]);
    config := config + Drop(Take(original, 16), 8);
    var portConfigs := CollectPortConfigs(original);
    config := AppendPairs(config, portConfigs);
    config := AppendFrerPairs(config);
  }

  /** The padding loop of `create_switch_config`. */
  method PadConfig(config0: Bytes, original: Bytes) returns (config: Bytes)
    ensures config == PadOriginal(config0, original)
  {
    config := config0;
    while |config| < SwitchConfigSize
      invariant PadOriginal(config, original) == PadOriginal(config0, original)
      decreases SwitchConfigSize - |config|
    {
      var remaining := SwitchConfigSize - |config|;
      if remaining >= |original| && |config| < |original| {
        config := config + original[|config|..Min(|config| + Min(remaining, 8), |original|)];
      } else {
        config := config + Zeros(Min(remaining, 4));
      }
    }
  }

  /** `for cmd, val in port_configs`: each pair as two LE words. */
  method AppendPairs(config0: Bytes, ps: seq<(bv32, bv32)>) returns (config: Bytes)
    ensures config == config0 + Le32s(Flatten(ps))
  {
    config := config0;
    for j := 0 to |ps|
      invariant config == config0 + Le32s(Flatten(ps[..j]))
    {
      var (cmd, val) := ps[j];
      assert ps[..j + 1] == ps[..j] + [(cmd, val)];
      PairSnoc(ps[..j], (cmd, val));
      ConcatAssoc(config0, Le32s(Flatten(ps[..j])), Le32(cmd));
      ConcatAssoc(config0, Le32s(Flatten(ps[..j])) + Le32(cmd), Le32(val));
      config := config + Le32(cmd);
      config := config + Le32(val);
    }
    assert ps[..|ps|] == ps;
  }

  /**
   * `for cmd, val in frer_config`: a pair is appended only while the blob is
   * below 2228 bytes, which a prefix of at most 104 bytes always is.
   */
  method AppendFrerPairs(config0: Bytes) returns (config: Bytes)
    requires |config0| <= 104
    ensures config == config0 + Le32s(Flatten(FrerPairs))
  {
    config := config0;
    for j := 0 to |FrerPairs|
      invariant config == config0 + Le32s(Flatten(FrerPairs[..j]))
      invariant |config| <= 104 + 8 * j
    {
      var (cmd, val) := FrerPairs[j];
      assert FrerPairs[..j + 1] == FrerPairs[..j] + [(cmd, val)];
      PairSnoc(FrerPairs[..j], (cmd, val));
      ConcatAssoc(config0, Le32s(Flatten(FrerPairs[..j])), Le32(cmd));
      ConcatAssoc(config0, Le32s(Flatten(FrerPairs[..j])) + Le32(cmd), Le32(val));
      if |config| < SwitchConfigSize - 8 {
        config := config + Le32(cmd);
        config := config + Le32(val);
      }
    }
    assert FrerPairs[..|FrerPairs|] == FrerPairs;
  }

  /** The cut (a no-op at 2236 bytes) and the checksum store touch only 12..15. */
  lemma CutAndStore(padded: Bytes)
    requires |padded| == SwitchConfigSize
    ensures var cut := Take(padded, SwitchConfigSize);
      var out := SetSlice(cut, 12, 16, Le32(Crc(Drop(cut, 16))));
      |out| == SwitchConfigSize && ReadLe32(out, 12) == Crc(out[16..]) &&
      forall k :: 0 <= k < SwitchConfigSize && !(12 <= k < 16) ==> out[k] == padded[k]
  {
    var cut := Take(padded, SwitchConfigSize);
    var w := Crc(Drop(cut, 16));
    var out := SetSlice(cut, 12, 16, Le32(w));
    Le32RoundTrip(w);
    assert out[12..16] == Le32(w);
    assert out[16..] == cut[16..];
  }

  /** Words of the first part of `a + b + c + d` read back in the whole. */
  lemma FirstOfFour(a: Bytes, b: Bytes, c: Bytes, d: Bytes, wa: seq<bv32>)
    requires WordsAt(a, 0, wa)
    ensures WordsAt(a + b + c + d, 0, wa)
  {
    WordsPrefix(a, b, 0, wa);
    WordsPrefix(a + b, c, 0, wa);
    WordsPrefix(a + b + c, d, 0, wa);
  }

  lemma ThirdOfFour(ab: Bytes, c: Bytes, d: Bytes, wc: seq<bv32>)
    requires WordsAt(c, 0, wc)
    ensures WordsAt(ab + c + d, |ab|, wc)
  {
    WordsAppend(ab, c, 0, wc);
    WordsPrefix(ab + c, d, |ab|, wc);
  }

  /** The prefix starts with the device id and version words. */
  lemma PrefixHeadWords(original: Bytes)
    ensures WordsAt(Prefix(original), 0, [DeviceId, Version])
  {
    var a, b, c, d := PrefixParts(original);
    FirstOfFour(a, b, c, d, [DeviceId, Version]);
  }

  /** The port pairs follow the id, the version and `original[8:16]`. */
  lemma PrefixPortWords(original: Bytes)
    ensures WordsAt(Prefix(original), 8 + |Drop(Take(original, 16), 8)|, Flatten(PortConfigs(original)))
  {
    var a, b, c, d := PrefixParts(original);
    ThirdOfFour(a + b, c, d, Flatten(PortConfigs(original)));
  }

  /** On an original of at least 16 bytes, the FRER pairs follow the last port pair. */
  lemma PrefixFrerWords(original: Bytes)
    requires |original| >= 16
    ensures WordsAt(Prefix(original), 16 + 8 * PortPairCount(|original|), Flatten(FrerPairs))
  {
    var a, b, c, d := PrefixParts(original);
    var abc := a + b + c;
    assert |abc| == 16 + 8 * PortPairCount(|original|);
    WordsAppend(abc, d, 0, Flatten(FrerPairs));
  }

  /** The four parts of the prefix, each part's words laid out from its start. */
  lemma PrefixParts(original: Bytes) returns (a: Bytes, b: Bytes, c: Bytes, d: Bytes)
    ensures Prefix(original) == a + b + c + d && b == Drop(Take(original, 16), 8)
    ensures |a| == 8 && |c| == 8 * PortPairCount(|original|) && |d| == 32
    ensures WordsAt(a, 0, [DeviceId, Version]) && WordsAt(c, 0, Flatten(PortConfigs(original))) && WordsAt(d, 0, Flatten(FrerPairs))
  {
    var hw := [DeviceId, Version];
    var fw := Flatten(FrerPairs);
    var pw := Flatten(PortConfigs(original));
    a, b, c, d := Le32s(hw), Drop(Take(original, 16), 8), Le32s(pw), Le32s(fw);
    Le32sWords(hw);
    Le32sWords(pw);
    Le32sWords(fw);
  }

  /** Padding and the checksum store keep every prefix byte outside 12..15. */
  lemma PrefixKept(p: Bytes, padded: Bytes, out: Bytes)
    requires |p| <= |padded| == |out| && padded[..|p|] == p
    requires forall k :: 0 <= k < |out| && !(12 <= k < 16) ==> out[k] == padded[k]
    ensures forall k :: 0 <= k < |p| && !(12 <= k < 16) ==> out[k] == p[k]
  {
    forall k | 0 <= k < |p| && !(12 <= k < 16) ensures out[k] == p[k] {
      assert padded[..|p|][k] == padded[k];
    }
  }

  /** The final blob keeps every byte of the prefix outside 12..15. */
  lemma SwitchConfigKeepsPrefix(original: Bytes)
    ensures |SwitchConfig(original)| == SwitchConfigSize && |Prefix(original)| <= SwitchConfigSize
    ensures ReadLe32(SwitchConfig(original), 12) == Crc(SwitchConfig(original)[16..])
    ensures forall k :: 0 <= k < |Prefix(original)| && !(12 <= k < 16) ==> SwitchConfig(original)[k] == Prefix(original)[k]
  {
    var p := Prefix(original);
    var padded := PadOriginal(p, original);
    PadOriginalSpec(p, original);
    CutAndStore(padded);
    PrefixKept(p, padded, SwitchConfig(original));
  }

  /**
   * The switch blob is 2236 bytes with device id 0xB700030E and version 6,
   * its stored checksum is the CRC-32 of bytes 16.., and `verify_config`
   * accepts it.
   */
  lemma SwitchConfigHeader(original: Bytes)
    ensures |SwitchConfig(original)| == SwitchConfigSize
    ensures ReadLe32(SwitchConfig(original), 0) == DeviceId && ReadLe32(SwitchConfig(original), 4) == Version
    ensures ReadLe32(SwitchConfig(original), 12) == Crc(SwitchConfig(original)[16..])
    ensures VerifyConfig(SwitchConfig(original))
  {
    PrefixHeadWords(original);
    SwitchConfigKeepsPrefix(original);
    KeptWords(Prefix(original), SwitchConfig(original), 0, [DeviceId, Version]);
  }

  /** For an original of at least 16 bytes, bytes 8..11 of the blob are the original's. */
  lemma SwitchConfigKeepsFlags(original: Bytes)
    requires |original| >= 16
    ensures |SwitchConfig(original)| == SwitchConfigSize && SwitchConfig(original)[8..12] == original[8..12]
  {
    PrefixFlags(original);
    SwitchConfigKeepsPrefix(original);
    KeptFlags(Prefix(original), SwitchConfig(original));
  }

  /** Bytes 8..11 of the prefix are `original[8:12]`. */
  lemma PrefixFlags(original: Bytes)
    requires |original| >= 16
    ensures |Prefix(original)| >= 16 && Prefix(original)[8..12] == original[8..12]
  {
    var a, b, c, d := PrefixParts(original);
    assert (a + b + c + d)[8..12] == b[..4];
  }

  /** Bytes 8..11 of the prefix survive into the blob. */
  lemma KeptFlags(p: Bytes, out: Bytes)
    requires 16 <= |p| <= |out|
    requires forall k :: 0 <= k < |p| && !(12 <= k < 16) ==> out[k] == p[k]
    ensures out[8..12] == p[8..12]
  {
  }

  /** Port pair `i` of the blob is the original's pair at `16 + 8 i` with `PortValue` applied. */
  lemma SwitchConfigPortPairs(original: Bytes)
    ensures |SwitchConfig(original)| == SwitchConfigSize
    ensures forall i :: 0 <= i < PortPairCount(|original|) ==> (24 + 8 * i <= |original| &&
      ReadLe32(SwitchConfig(original), 16 + 8 * i) == ReadLe32(original, 16 + 8 * i) &&
      ReadLe32(SwitchConfig(original), 20 + 8 * i) == PortValue(i, ReadLe32(original, 20 + 8 * i)))
  {
    if |PortConfigs(original)| > 0 {
      PortWordsKept(original);
      PortPairsIn(SwitchConfig(original), original);
    } else {
      SwitchConfigKeepsPrefix(original);
    }
  }

  /** The port pairs' words survive into the blob at 16. */
  lemma PortWordsKept(original: Bytes)
    requires |PortConfigs(original)| > 0
    ensures |SwitchConfig(original)| == SwitchConfigSize && WordsAt(SwitchConfig(original), 16, Flatten(PortConfigs(original)))
  {
    PrefixPortWords(original);
    SwitchConfigKeepsPrefix(original);
    KeptWords(Prefix(original), SwitchConfig(original), 16, Flatten(PortConfigs(original)));
  }

  /** A buffer holding the port pairs' words at 16 holds each pair at `16 + 8 i`. */
  lemma PortPairsIn(out: Bytes, original: Bytes)
    requires WordsAt(out, 16, Flatten(PortConfigs(original)))
    ensures forall i :: 0 <= i < PortPairCount(|original|) ==> (24 + 8 * i <= |original| && 24 + 8 * i <= |out| &&
      ReadLe32(out, 16 + 8 * i) == ReadLe32(original, 16 + 8 * i) &&
      ReadLe32(out, 20 + 8 * i) == PortValue(i, ReadLe32(original, 20 + 8 * i)))
  {
    var ps := PortConfigs(original);
    FlattenIndex(ps);
    PairsRead(out, ps, Flatten(ps));
  }

  /** The four FRER pairs follow the last port pair. */
  lemma SwitchConfigFrerPairs(original: Bytes)
    requires |original| >= 16
    ensures |SwitchConfig(original)| == SwitchConfigSize
    ensures WordsAt(SwitchConfig(original), 16 + 8 * PortPairCount(|original|), Flatten(FrerPairs))
  {
    PrefixFrerWords(original);
    SwitchConfigKeepsPrefix(original);
    KeptWords(Prefix(original), SwitchConfig(original), 16 + 8 * PortPairCount(|original|), Flatten(FrerPairs));
  }

  /** Words of the prefix clear of bytes 12..15 survive into the blob. */
  lemma KeptWords(p: Bytes, out: Bytes, at: nat, ws: seq<bv32>)
    requires WordsAt(p, at, ws) && (at >= 16 || at + 4 * |ws| <= 12) && |p| <= |out|
    requires forall k :: 0 <= k < |p| && !(12 <= k < 16) ==> out[k] == p[k]
    ensures WordsAt(out, at, ws)
  {
    if |ws| > 0 {
      WordAt(p, at, ws, |ws| - 1);
      WordsFrame(p, out, at, ws);
    }
  }

  /** Pairs laid out as words from 16 read back pair by pair. */
  lemma PairsRead(out: Bytes, ps: seq<(bv32, bv32)>, ws: seq<bv32>)
    requires WordsAt(out, 16, ws) && |ws| == 2 * |ps|
    requires forall i :: 0 <= i < |ps| ==> ws[2 * i] == ps[i].0 && ws[2 * i + 1] == ps[i].1
    ensures forall i :: 0 <= i < |ps| ==> (24 + 8 * i <= |out| &&
      ReadLe32(out, 16 + 8 * i) == ps[i].0 && ReadLe32(out, 20 + 8 * i) == ps[i].1)
  {
    forall i | 0 <= i < |ps|
      ensures 24 + 8 * i <= |out| && ReadLe32(out, 16 + 8 * i) == ps[i].0 && ReadLe32(out, 20 + 8 * i) == ps[i].1
    {
      var j := 2 * i;
      WordAt(out, 16, ws, j);
      WordAt(out, 16, ws, j + 1);
    }
  }

  /** Every byte after the prefix is padding as `PaddingByte` describes. */
  lemma SwitchConfigPadding(original: Bytes)
    ensures |SwitchConfig(original)| == SwitchConfigSize
    ensures forall k :: |Prefix(original)| <= k < SwitchConfigSize ==> PaddingByte(SwitchConfig(original), original, k)
  {
    var p := Prefix(original);
    var padded := PadOriginal(p, original);
    PadOriginalSpec(p, original);
    CutAndStore(padded);
    var out := SwitchConfig(original);
    forall k | |p| <= k < SwitchConfigSize ensures PaddingByte(out, original, k) {
      assert PaddingByte(padded, original, k);
    }
  }

  /** The loop that fills `port_configs`. */
  method CollectPortConfigs(original: Bytes) returns (portConfigs: seq<(bv32, bv32)>)
    ensures portConfigs == PortConfigs(original)
  {
    portConfigs := [];
    ghost var n := PortPairCount(|original|);
    ghost var ps := PortConfigs(original);
    EighthBounds(|original|);
    for i := 0 to PortCount
      invariant portConfigs == ps[..Min(i, n)]
    {
      if i < |original| / 8 - 2 {
        var offset := 16 + i * 8;
        if offset + 8 <= |original| {
          var cmd := ReadLe32(original, offset);
          var val := ReadLe32(original, offset + 4);
          val := AdjustPortValue(i, val);
          assert i < n && ps[i] == (cmd, val);
          assert ps[..i + 1] == ps[..i] + [ps[i]];
          portConfigs := portConfigs + [(cmd, val)];
        }
      }
    }
    assert ps[..n] == ps;
  }

  /** The FRER change inside the loop: P4 forwards to P2A and P2B, which get bit 31. */
  method AdjustPortValue(i: nat, val: bv32) returns (r: bv32)
    ensures r == PortValue(i, val)
  {
    r := val;
    if i == 4 {
      r := r | 0x0000_000C;
    } else if i == 2 {
      r := r | 0x8000_0000;
    } else if i == 3 {
      r := r | 0x8000_0000;
    }
  }

  lemma EighthBounds(n: nat)
    ensures 8 * (n / 8) <= n < 8 * (n / 8) + 8
  {
  }

  /** `verify_config`: only the device id decides; a CRC mismatch is merely reported. */
  predicate VerifyConfig(config: Bytes)
    requires |config| >= 16
  {
    ReadLe32(config, 0) == DeviceId
  }
}

=== FILE: frer_enabled.dfy ===
/**
 * The FRER-enabled variant of a working GoldVIP switch blob: scan the
 * (command, value) pairs from 0x10, OR the FRER bits into the value words
 * of the pairs that name ports 4, 2 and 3 (or, when none does, into the
 * 0xFFFFEC00 pairs below 0x400 whose low byte names those ports), write a
 * four-pair FRER block at 0x100 and store the CRC-32 of bytes 16.. at
 * 12..15. Also the microcontroller image patch: six words at 0x1000.
 */
module FrerEnabled {
  import opened Bytes
  import opened Crc32
  import opened PairScan

  /** The device id `verify_frer_config` expects. */
  const HardwareId: bv32 := 0xB700_030F
  /** The entry scan starts at 0x10. */
  const ScanStart: nat := 0x10
  /** The fallback covers `[0x10, min(0x400, len))` and only this command word. */
  const FallbackLimit: nat := 0x400
  const FallbackRule: Rule := Rule({0xFFFF_EC00}, true)
  /** The FRER block: enable stream 1, P4 input, P2A|P2B output, R-TAG EtherType with window 0x100. */
  const FrerBlockOffset: nat := 0x100
  const FrerBlock: seq<(bv32, bv32)> :=
    [(0x8001_0000, 0x0000_0001), (0x0000_0010, 0x0000_0001), (0x0000_000C, 0x0000_0001), (0xF1CD_0000, 0x0000_0100)]

  // ------------------------------------------------------------ entry scan

  /** One recorded configuration entry; `port` is the top byte of the value halved. */
  datatype Entry = Entry(offset: nat, cmd: bv32, val: bv32, port: nat)

  /** The scan records a pair when its command is 0xFFFFEC00 or its high half is 0xFFFF. */
  predicate IsPortEntry(cmd: bv32)
  {
    cmd == 0xFFFF_EC00 || cmd & 0xFFFF_0000 == 0xFFFF_0000
  }

  /** `((val >> 24) & 0xFF) // 2` */
  function PortOf(val: bv32): (port: nat)
    ensures port < 128
  {
    ((val >> 24) & 0xFF) as nat / 2
  }

  /**
   * `data[at:at+16] == b'\x00' * 16`: Python clamps the slice, so a run
   * cut short by the end of the buffer never matches.
   */
  predicate ZeroRunAt(data: Bytes, at: nat)
  {
    at + 16 <= |data| && data[at..at + 16] == Zeros(16)
  }

  /** `e` describes the pair of `data` at its offset. */
  predicate EntryOf(data: Bytes, e: Entry)
  {
    e.offset + 8 < |data| && e.cmd == ReadLe32(data, e.offset) && e.val == ReadLe32(data, e.offset + 4) &&
    IsPortEntry(e.cmd) && e.port == PortOf(e.val)
  }

  /** Entries in strictly increasing order of offset, eight bytes apart at least. */
  predicate Ascending(es: seq<Entry>)
  {
    forall i, j :: 0 <= i < j < |es| ==> es[i].offset + 8 <= es[j].offset
  }

  /** The entries the scan from `offset` records. */
  function Scan(data: Bytes, offset: nat): (es: seq<Entry>)
    ensures forall i :: 0 <= i < |es| ==> EntryOf(data, es[i]) && offset <= es[i].offset
    ensures Ascending(es)
    decreases |data| - offset
  {
    if offset + 8 >= |data| then []
    else
      var cmd := ReadLe32(data, offset);
      var val := ReadLe32(data, offset + 4);
      var here := if IsPortEntry(cmd) then [Entry(offset, cmd, val, PortOf(val))] else [];
      if ZeroRunAt(data, offset + 8) then here else here + Scan(data, offset + 8)
  }

  /** The scan loop from `offset` with `acc` recorded so far; the loop's own shape. */
  function ScanFrom(data: Bytes, offset: nat, acc: seq<Entry>): seq<Entry>
    decreases |data| - offset
  {
    if offset + 8 >= |data| then acc
    else
      var cmd := ReadLe32(data, offset);
      var val := ReadLe32(data, offset + 4);
      var acc' := if IsPortEntry(cmd) then acc + [Entry(offset, cmd, val, PortOf(val))] else acc;
      if ZeroRunAt(data, offset + 8) then acc' else ScanFrom(data, offset + 8, acc')
  }

  /** The loop's accumulator holds what was recorded so far followed by the rest of the scan. */
  lemma {:induction false} ScanFromScan(data: Bytes, offset: nat, acc: seq<Entry>)
    ensures ScanFrom(data, offset, acc) == acc + Scan(data, offset)
    decreases |data| - offset
  {
    if offset + 8 < |data| {
      var cmd := ReadLe32(data, offset);
      var val := ReadLe32(data, offset + 4);
      var here := if IsPortEntry(cmd) then [Entry(offset, cmd, val, PortOf(val))] else [];
      var acc' := if IsPortEntry(cmd) then acc + [Entry(offset, cmd, val, PortOf(val))] else acc;
      assert acc' == acc + here;
      if !ZeroRunAt(data, offset + 8) {
        ScanFromScan(data, offset + 8, acc');
        EntriesAssoc(acc, here, Scan(data, offset + 8));
      }
    } else {
      assert acc + [] == acc;
    }
  }

  lemma EntriesAssoc(a: seq<Entry>, b: seq<Entry>, c: seq<Entry>)
    ensures (a + b) + c == a + (b + c)
  {
  }

  /** The scan from `offset` walks on to `p`: no 16-byte zero run stops it first. */
  predicate Reaches(data: Bytes, offset: nat, p: nat)
    decreases p - offset
  {
    offset <= p && (offset == p || (offset + 8 < |data| && !ZeroRunAt(data, offset + 8) && Reaches(data, offset + 8, p)))
  }

  /** Every pair the scan reaches and whose command qualifies is recorded. */
  lemma {:induction false} ScanComplete(data: Bytes, offset: nat, p: nat)
    requires Reaches(data, offset, p) && p + 8 < |data| && IsPortEntry(ReadLe32(data, p))
    ensures exists i :: 0 <= i < |Scan(data, offset)| && Scan(data, offset)[i].offset == p
    decreases p - offset
  {
    var es := Scan(data, offset);
    var cmd := ReadLe32(data, offset);
    var val := ReadLe32(data, offset + 4);
    var here := if IsPortEntry(cmd) then [Entry(offset, cmd, val, PortOf(val))] else [];
    if offset == p {
      assert es[0] == here[0];
    } else {
      ScanComplete(data, offset + 8, p);
      var rest := Scan(data, offset + 8);
      var i :| 0 <= i < |rest| && rest[i].offset == p;
      assert es == here + rest;
      assert es[|here| + i] == rest[i];
    }
  }

  /**
   * The header read and the pair scan of `analyze_original_structure`
   * (minus the file read and the report).
   */
  method AnalyzeOriginalStructure(data: Bytes) returns (configs: seq<Entry>)
    requires |data| >= 16
    ensures configs == Scan(data, ScanStart)
  {
    configs := [];
    var offset := ScanStart;
    while offset < |data| - 8
      invariant ScanFrom(data, offset, configs) == ScanFrom(data, ScanStart, [])
      decreases |data| - offset
    {
      var cmd := ReadLe32(data, offset);
      var val := ReadLe32(data, offset + 4);
      if cmd == 0xFFFF_EC00 || cmd & 0xFFFF_0000 == 0xFFFF_0000 {
        var port := ((val >> 24) & 0xFF) as nat;
        configs := configs + [Entry(offset, cmd, val, port / 2)];
      }
      offset := offset + 8;
      if offset + 16 <= |data| && data[offset..offset + 16] == Zeros(16) {
        break;
      }
    }
    ScanFromScan(data, ScanStart, []);
    assert [] + Scan(data, ScanStart) == Scan(data, ScanStart);
  }

  // -------------------------------------------------------- entry patches

  /** P4's value word gains the forwarding bits for ports 2 and 3. */
  function WithForwarding(val: bv32): bv32
  {
    val | 0x0000_000C
  }

  /** A P2A or P2B value word gains the FRER enable bit 31. */
  function WithFrerBit(val: bv32): bv32
  {
    val | 0x8000_0000
  }

  /** Port 4 forwards to P2A and P2B; P2A and P2B get the FRER bit; other ports are left alone. */
  function PortPatch(port: nat, val: bv32): Option<bv32>
  {
    if port == 4 then Some(WithForwarding(val))
    else if port == 2 || port == 3 then Some(WithFrerBit(val))
    else None
  }

  /** Every entry's pair lies inside a buffer of `n` bytes. */
  predicate EntriesFit(es: seq<Entry>, n: nat)
  {
    forall i :: 0 <= i < |es| ==> es[i].offset + 8 <= n
  }

  /** One turn of the loop over the recorded entries (a recorded entry always fits). */
  function ApplyEntry(s: Bytes, e: Entry): (r: Bytes)
    ensures |r| == |s|
    ensures forall k :: 0 <= k < |s| && !(e.offset + 4 <= k < e.offset + 8) ==> r[k] == s[k]
    ensures e.offset + 8 <= |s| && PortPatch(e.port, e.val).Some? ==> ReadLe32(r, e.offset + 4) == PortPatch(e.port, e.val).value
  {
    var v := PortPatch(e.port, e.val);
    if v.Some? && e.offset + 8 <= |s| then PutLe32(s, e.offset + 4, v.value) else s
  }

  /** The loop over the recorded entries. */
  function ApplyEntries(s: Bytes, es: seq<Entry>): (r: Bytes)
    ensures |r| == |s|
    decreases |es|
  {
    if |es| == 0 then s else ApplyEntries(ApplyEntry(s, es[0]), es[1..])
  }

  /** Some recorded entry names port 2, 3 or 4: `modified` after the loop. */
  predicate AnyPatched(es: seq<Entry>)
  {
    |es| > 0 && (PortPatch(es[0].port, es[0].val).Some? || AnyPatched(es[1..]))
  }

  /** `AnyPatched` holds exactly when some entry names port 2, 3 or 4. */
  lemma {:induction false} AnyPatchedSpec(es: seq<Entry>)
    ensures AnyPatched(es) <==> exists i :: 0 <= i < |es| && PortPatch(es[i].port, es[i].val).Some?
    decreases |es|
  {
    if |es| > 0 {
      AnyPatchedSpec(es[1..]);
      if AnyPatched(es[1..]) {
        var i :| 0 <= i < |es[1..]| && PortPatch(es[1..][i].port, es[1..][i].val).Some?;
        assert es[i + 1] == es[1..][i];
      }
      if !PortPatch(es[0].port, es[0].val).Some? {
        forall i | 1 <= i < |es| ensures es[i] == es[1..][i - 1] {
        }
      }
    }
  }

  /** When no entry names port 2, 3 or 4 the entry loop changes nothing. */
  lemma {:induction false} UnpatchedUnchanged(s: Bytes, es: seq<Entry>)
    requires !AnyPatched(es)
    ensures ApplyEntries(s, es) == s
    decreases |es|
  {
    if |es| > 0 {
      UnpatchedUnchanged(s, es[1..]);
    }
  }

  /** Byte `k` lies in the value word of one of the entries. */
  predicate InEntryValue(k: nat, es: seq<Entry>)
  {
    |es| > 0 && ((es[0].offset + 4 <= k < es[0].offset + 8) || InEntryValue(k, es[1..]))
  }

  /** A byte below every entry's value word is in none of them. */
  lemma {:induction false} BelowEntryValues(k: nat, es: seq<Entry>)
    requires forall j :: 0 <= j < |es| ==> k < es[j].offset + 4
    ensures !InEntryValue(k, es)
    decreases |es|
  {
    if |es| > 0 {
      assert forall j :: 0 <= j < |es| - 1 ==> es[1..][j] == es[j + 1];
      BelowEntryValues(k, es[1..]);
    }
  }

  /** The loop changes only the value words of the entries. */
  lemma {:induction false} ApplyEntriesFrame(s: Bytes, es: seq<Entry>)
    ensures forall k :: 0 <= k < |s| && !InEntryValue(k, es) ==> ApplyEntries(s, es)[k] == s[k]
    decreases |es|
  {
    if |es| > 0 {
      ApplyEntriesFrame(ApplyEntry(s, es[0]), es[1..]);
    }
  }

  /** On ascending entries that fit, each patched entry's value word ends up holding its new value. */
  lemma {:induction false} ApplyEntriesValues(s: Bytes, es: seq<Entry>)
    requires EntriesFit(es, |s|) && Ascending(es)
    ensures forall i :: 0 <= i < |es| && PortPatch(es[i].port, es[i].val).Some? ==>
      ReadLe32(ApplyEntries(s, es), es[i].offset + 4) == PortPatch(es[i].port, es[i].val).value
    decreases |es|
  {
    if |es| > 0 {
      var t := ApplyEntry(s, es[0]);
      var rest := es[1..];
      var r := ApplyEntries(t, rest);
      assert ApplyEntries(s, es) == r;
      RestFits(es, |s|);
      ApplyEntriesValues(t, rest);
      FirstEntryKept(t, es);
      forall i | 0 <= i < |es| && PortPatch(es[i].port, es[i].val).Some?
        ensures ReadLe32(r, es[i].offset + 4) == PortPatch(es[i].port, es[i].val).value
      {
        if i > 0 {
          assert es[i] == rest[i - 1];
        }
      }
    }
  }

  /** The entries after the first still fit and ascend. */
  lemma RestFits(es: seq<Entry>, n: nat)
    requires |es| > 0 && EntriesFit(es, n) && Ascending(es)
    ensures EntriesFit(es[1..], n) && Ascending(es[1..])
  {
    assert forall j :: 0 <= j < |es| - 1 ==> es[1..][j] == es[j + 1];
  }

  /** The rest of the loop leaves the first entry's value word alone. */
  lemma FirstEntryKept(t: Bytes, es: seq<Entry>)
    requires |es| > 0 && Ascending(es) && es[0].offset + 8 <= |t|
    ensures ReadLe32(ApplyEntries(t, es[1..]), es[0].offset + 4) == ReadLe32(t, es[0].offset + 4)
  {
    var rest := es[1..];
    var r := ApplyEntries(t, rest);
    ApplyEntriesFrame(t, rest);
    forall k | es[0].offset + 4 <= k < es[0].offset + 8 ensures r[k] == t[k] {
      assert forall j :: 0 <= j < |rest| ==> rest[j] == es[j + 1];
      BelowEntryValues(k, rest);
    }
    ReadLe32Frame(r, t, es[0].offset + 4);
  }

  /** The body of the entry loop: patch the entry's value word, report whether it was one of ours. */
  method PatchEntry(config: Bytes, e: Entry) returns (out: Bytes, hit: bool)
    requires e.offset + 8 <= |config|
    ensures out == ApplyEntry(config, e) && hit == PortPatch(e.port, e.val).Some?
  {
    var newVal := e.val;
    hit := false;
    if e.port == 4 {
      newVal := WithForwarding(e.val);
      hit := true;
    } else if e.port == 2 {
      newVal := WithFrerBit(e.val);
      hit := true;
    } else if e.port == 3 {
      newVal := WithFrerBit(e.val);
      hit := true;
    }
    if hit {
      out := PutLe32(config, e.offset + 4, newVal);
    } else {
      out := config;
    }
  }

  // -------------------------------------------------------------- fallback

  /** The body of the fallback loop at `offset`. */
  method FallbackPair(config: Bytes, offset: nat) returns (out: Bytes)
    ensures out == PatchPair(FallbackRule, config, offset)
  {
    out := config;
    if offset + 8 <= |config| {
      var cmd := ReadLe32(config, offset);
      var val := ReadLe32(config, offset + 4);
      if cmd == 0xFFFF_EC00 {
        var portNum := val & 0xFF;
        if portNum == 0x08 {
          val := val | 0x0000_000C;
          assert val == FrerValue(ReadLe32(config, offset + 4));
          out := PutLe32(config, offset + 4, val);
        } else if portNum == 0x04 {
          val := val | 0x8000_0000;
          assert val == FrerValue(ReadLe32(config, offset + 4));
          out := PutLe32(config, offset + 4, val);
        } else if portNum == 0x06 {
          val := val | 0x8000_0000;
          assert val == FrerValue(ReadLe32(config, offset + 4));
          out := PutLe32(config, offset + 4, val);
        }
      }
    }
  }

  /** The port patches: the entry loop, or the fallback scan when it patched nothing. */
  function Patched(original: Bytes): (r: Bytes)
    ensures |r| == |original|
  {
    var es := Scan(original, ScanStart);
    if AnyPatched(es) then ApplyEntries(original, es)
    else PatchPairs(FallbackRule, original, ScanStart, Min(FallbackLimit, |original|))
  }

  // ------------------------------------------------------------ FRER block

  /** Pair `i` of `ps` written at `at + 8 i` when it fits. */
  function WritePair(s: Bytes, addr: nat, pair: (bv32, bv32)): (r: Bytes)
    ensures |r| == |s|
    ensures forall k :: 0 <= k < |s| && !(addr <= k < addr + 8) ==> r[k] == s[k]
    ensures addr + 8 <= |s| ==> ReadLe32(r, addr) == pair.0 && ReadLe32(r, addr + 4) == pair.1
  {
    if addr + 8 <= |s| then
      var t := PutLe32(s, addr, pair.0);
      var r := PutLe32(t, addr + 4, pair.1);
      ReadLe32Frame(r, t, addr);
      r
    else s
  }

  /** The block loop from pair `i` on. */
  function WritePairs(s: Bytes, at: nat, ps: seq<(bv32, bv32)>, i: nat): (r: Bytes)
    ensures |r| == |s|
    decreases |ps| - i
  {
    if i >= |ps| then s else WritePairs(WritePair(s, at + 8 * i, ps[i]), at, ps, i + 1)
  }

  /** The block loop writes pairs `i..` at their places and nothing outside them. */
  lemma {:induction false} WritePairsSpec(s: Bytes, at: nat, ps: seq<(bv32, bv32)>, i: nat)
    requires i <= |ps| && at + 8 * |ps| <= |s|
    ensures forall k :: 0 <= k < |s| && !(at + 8 * i <= k < at + 8 * |ps|) ==> WritePairs(s, at, ps, i)[k] == s[k]
    ensures forall j :: i <= j < |ps| ==>
      ReadLe32(WritePairs(s, at, ps, i), at + 8 * j) == ps[j].0 && ReadLe32(WritePairs(s, at, ps, i), at + 8 * j + 4) == ps[j].1
    decreases |ps| - i
  {
    if i < |ps| {
      var addr := at + 8 * i;
      var t := WritePair(s, addr, ps[i]);
      var r := WritePairs(t, at, ps, i + 1);
      assert WritePairs(s, at, ps, i) == r;
      WritePairsSpec(t, at, ps, i + 1);
      PairKept(t, r, addr);
    }
  }

  /** Bytes `addr..addr + 8` that agree carry the same pair. */
  lemma PairKept(t: Bytes, r: Bytes, addr: nat)
    requires addr + 8 <= |t| == |r|
    requires forall k :: addr <= k < addr + 8 ==> r[k] == t[k]
    ensures ReadLe32(r, addr) == ReadLe32(t, addr) && ReadLe32(r, addr + 4) == ReadLe32(t, addr + 4)
  {
    ReadLe32Frame(r, t, addr);
    ReadLe32Frame(r, t, addr + 4);
  }

  /** The block is written when `0x100 < len - 32`. */
  function WithBlock(s: Bytes): (r: Bytes)
    ensures |r| == |s|
  {
    if FrerBlockOffset + 32 < |s| then WritePairs(s, FrerBlockOffset, FrerBlock, 0) else s
  }

  /** The block: the four FRER pairs at 0x100..0x11F when there is room, nothing else changed. */
  lemma WithBlockSpec(s: Bytes)
    ensures FrerBlockOffset + 32 < |s| ==> forall j :: 0 <= j < 4 ==>
      ReadLe32(WithBlock(s), FrerBlockOffset + 8 * j) == FrerBlock[j].0 &&
      ReadLe32(WithBlock(s), FrerBlockOffset + 8 * j + 4) == FrerBlock[j].1
    ensures forall k :: 0 <= k < |s| && !(FrerBlockOffset + 32 < |s| && FrerBlockOffset <= k < FrerBlockOffset + 32) ==>
      WithBlock(s)[k] == s[k]
  {
    if FrerBlockOffset + 32 < |s| {
      WritePairsSpec(s, FrerBlockOffset, FrerBlock, 0);
    }
  }

  // ----------------------------------------------------------- whole config

  /** `create_frer_config` on the loaded blob `original`. */
  function FrerConfig(original: Bytes): (r: Bytes)
    requires |original| >= 16
  {
    var b := WithBlock(Patched(original));
    PutLe32(b, 12, Crc(b[16..]))
  }

  /**
   * `create_frer_config` (minus the file read and the report): scan, patch
   * the recorded entries or fall back to the pattern scan, add the FRER
   * block, store the checksum.
   */
  method CreateFrerConfig(original: Bytes) returns (config: Bytes)
    requires |original| >= 16
    ensures config == FrerConfig(original)
  {
    config := PatchPorts(original);
    config := AddFrerBlock(config);
    var configData := config[16..];
    var crc := Crc(configData);
    config := PutLe32(config, 12, crc);
  }

  /** The port part of `create_frer_config`: the scan, the entry loop and, when it patched nothing, the fallback. */
  method PatchPorts(original: Bytes) returns (config: Bytes)
    requires |original| >= 16
    ensures config == Patched(original)
  {
    var configs := AnalyzeOriginalStructure(original);
    var modified;
    config, modified := PatchEntries(original, configs);
    if !modified {
      UnpatchedUnchanged(original, configs);
      config := PatchFallback(config);
    }
  }

  /** The loop over the recorded entries; `modified` tells whether any entry named port 2, 3 or 4. */
  method PatchEntries(original: Bytes, configs: seq<Entry>) returns (config: Bytes, modified: bool)
    requires EntriesFit(configs, |original|)
    ensures config == ApplyEntries(original, configs) && modified == AnyPatched(configs)
  {
    config := original;
    modified := false;
    var i := 0;
    while i < |configs|
      invariant i <= |configs| && |config| == |original|
      invariant ApplyEntries(config, configs[i..]) == ApplyEntries(original, configs)
      invariant (modified || AnyPatched(configs[i..])) == AnyPatched(configs)
    {
      var hit;
      assert configs[i..][0] == configs[i] && configs[i..][1..] == configs[i + 1..];
      config, hit := PatchEntry(config, configs[i]);
      modified := modified || hit;
      i := i + 1;
    }
  }

  /** The fallback scan over `[0x10, min(0x400, len))`. */
  method PatchFallback(config0: Bytes) returns (config: Bytes)
    ensures config == PatchPairs(FallbackRule, config0, ScanStart, Min(FallbackLimit, |config0|))
  {
    config := config0;
    var end := Min(FallbackLimit, |config|);
    var offset := ScanStart;
    while offset < end
      invariant |config| == |config0|
      invariant PatchPairs(FallbackRule, config, offset, end) == PatchPairs(FallbackRule, config0, ScanStart, end)
      decreases end - offset
    {
      config := FallbackPair(config, offset);
      offset := offset + 8;
    }
  }

  /** The block part of `create_frer_config`. */
  method AddFrerBlock(config0: Bytes) returns (config: Bytes)
    ensures config == WithBlock(config0)
  {
    config := config0;
    if FrerBlockOffset < |config| - 32 {
      config := WriteBlock(config, FrerBlockOffset, FrerBlock);
    }
  }

  /** The block loop: `for i, (cmd, val) in enumerate(ps)`, each pair at `at + 8 i` when it fits. */
  method WriteBlock(config0: Bytes, at: nat, ps: seq<(bv32, bv32)>) returns (config: Bytes)
    ensures config == WritePairs(config0, at, ps, 0)
  {
    config := config0;
    for i := 0 to |ps|
      invariant WritePairs(config, at, ps, i) == WritePairs(config0, at, ps, 0)
    {
      ghost var before := config;
      config := AddBlockPair(config, at + 8 * i, ps[i].0, ps[i].1);
      assert WritePairs(before, at, ps, i) == WritePairs(config, at, ps, i + 1);
    }
  }

  /** One turn of the block loop: the pair at `addr` when it fits. */
  method AddBlockPair(config0: Bytes, addr: nat, cmd: bv32, val: bv32) returns (config: Bytes)
    ensures config == WritePair(config0, addr, (cmd, val))
  {
    config := config0;
    if addr + 8 <= |config| {
      config := PutLe32(config, addr, cmd);
      config := PutLe32(config, addr + 4, val);
    }
  }

  // ------------------------------------------------------------ properties

  /** The port stage keeps the length and the first 20 bytes: the header and the first command word. */
  lemma PatchedKeepsHeader(original: Bytes)
    ensures |Patched(original)| == |original|
    ensures forall k :: 0 <= k < 20 && k < |original| ==> Patched(original)[k] == original[k]
  {
    var es := Scan(original, ScanStart);
    if AnyPatched(es) {
      ApplyEntriesFrame(original, es);
      forall k | 0 <= k < 20 && k < |original| ensures Patched(original)[k] == original[k] {
        BelowEntryValues(k, es);
      }
    } else {
      PatchPairsFrame(FallbackRule, original, ScanStart, Min(FallbackLimit, |original|));
    }
  }

  /**
   * When a recorded entry names port 2, 3 or 4, the fallback does not run:
   * only the recorded entries' value words change, each patched one to its
   * `PortPatch` value.
   */
  lemma PatchedEntries(original: Bytes)
    requires AnyPatched(Scan(original, ScanStart))
    ensures forall k :: 0 <= k < |original| && !InEntryValue(k, Scan(original, ScanStart)) ==>
      Patched(original)[k] == original[k]
    ensures forall i :: 0 <= i < |Scan(original, ScanStart)| && PortPatch(Scan(original, ScanStart)[i].port, Scan(original, ScanStart)[i].val).Some? ==>
      ReadLe32(Patched(original), Scan(original, ScanStart)[i].offset + 4) ==
      PortPatch(Scan(original, ScanStart)[i].port, Scan(original, ScanStart)[i].val).value
  {
    var es := Scan(original, ScanStart);
    ApplyEntriesFrame(original, es);
    ApplyEntriesValues(original, es);
  }

  /**
   * When no recorded entry names port 2, 3 or 4, the fallback scan decides:
   * only value words of pairs on its grid below `min(0x400, len)` change,
   * each to `PairValue` over the 0xFFFFEC00 command.
   */
  lemma PatchedFallback(original: Bytes)
    requires !AnyPatched(Scan(original, ScanStart))
    ensures forall k :: 0 <= k < |original| && !InValueWord(k, ScanStart, Min(FallbackLimit, |original|)) ==>
      Patched(original)[k] == original[k]
    ensures forall p: nat {:trigger IsScanned(p, ScanStart, Min(FallbackLimit, |original|))} ::
      (IsScanned(p, ScanStart, Min(FallbackLimit, |original|)) && p + 8 <= |original| ==>
      ReadLe32(Patched(original), p + 4) == PairValue(FallbackRule, original, p))
  {
    PatchPairsFrame(FallbackRule, original, ScanStart, Min(FallbackLimit, |original|));
    PatchPairsValues(FallbackRule, original, ScanStart, Min(FallbackLimit, |original|));
  }

  /**
   * The result keeps the input's length, stores the CRC-32 of bytes 16..
   * at 12..15, and outside the checksum and the FRER block (written when
   * `0x100 < len - 32`) is the port stage's output.
   */
  lemma FrerConfigChecksum(original: Bytes)
    requires |original| >= 16
    ensures |FrerConfig(original)| == |original|
    ensures ReadLe32(FrerConfig(original), 12) == Crc(FrerConfig(original)[16..])
    ensures forall k :: (0 <= k < |original| && !(12 <= k < 16) &&
      !(FrerBlockOffset + 32 < |original| && FrerBlockOffset <= k < FrerBlockOffset + 32)) ==>
      FrerConfig(original)[k] == Patched(original)[k]
  {
    WithBlockSpec(Patched(original));
    StoreCrc(WithBlock(Patched(original)));
  }

  /** When `0x100 < len - 32` the four FRER pairs sit at 0x100..0x11F of the result. */
  lemma FrerConfigBlock(original: Bytes)
    requires |original| >= 16 && FrerBlockOffset + 32 < |original|
    ensures |FrerConfig(original)| == |original|
    ensures forall j :: 0 <= j < 4 ==>
      ReadLe32(FrerConfig(original), FrerBlockOffset + 8 * j) == FrerBlock[j].0 &&
      ReadLe32(FrerConfig(original), FrerBlockOffset + 8 * j + 4) == FrerBlock[j].1
  {
    var b := WithBlock(Patched(original));
    WithBlockSpec(Patched(original));
    StoreCrc(b);
    PairsKept(b, FrerConfig(original), FrerBlockOffset, FrerBlock);
  }

  /** The last step: the CRC-32 of bytes 16.. stored at 12..15 reads back and nothing else changes. */
  lemma StoreCrc(b: Bytes)
    requires |b| >= 16
    ensures var r := PutLe32(b, 12, Crc(b[16..]));
      ReadLe32(r, 12) == Crc(r[16..]) && forall k :: 0 <= k < |b| && !(12 <= k < 16) ==> r[k] == b[k]
  {
    var r := PutLe32(b, 12, Crc(b[16..]));
    assert r[16..] == b[16..];
  }

  /** Pairs laid out at `at + 8 j` survive into a buffer that agrees on those bytes. */
  lemma PairsKept(b: Bytes, r: Bytes, at: nat, ps: seq<(bv32, bv32)>)
    requires at >= 16 && at + 8 * |ps| <= |b| == |r|
    requires forall j :: 0 <= j < |ps| ==> ReadLe32(b, at + 8 * j) == ps[j].0 && ReadLe32(b, at + 8 * j + 4) == ps[j].1
    requires forall k :: 0 <= k < |b| && !(12 <= k < 16) ==> r[k] == b[k]
    ensures forall j :: 0 <= j < |ps| ==> ReadLe32(r, at + 8 * j) == ps[j].0 && ReadLe32(r, at + 8 * j + 4) == ps[j].1
  {
    forall j | 0 <= j < |ps|
      ensures ReadLe32(r, at + 8 * j) == ps[j].0 && ReadLe32(r, at + 8 * j + 4) == ps[j].1
    {
      PairKept(b, r, at + 8 * j);
    }
  }

  /**
   * `verify_frer_config(create_frer_config())` holds exactly when the
   * original carries the hardware id: the checksum half always holds.
   */
  lemma FrerConfigVerifies(original: Bytes)
    requires |original| >= 16
    ensures |FrerConfig(original)| == |original|
    ensures VerifyFrerConfig(FrerConfig(original)) <==> ReadLe32(original, 0) == HardwareId
  {
    FrerConfigChecksum(original);
    PatchedKeepsHeader(original);
    WithBlockSpec(Patched(original));
    ReadLe32Frame(FrerConfig(original), original, 0);
  }

  /** `verify_frer_config`: the device id and the stored checksum of bytes 16.. both match. */
  predicate VerifyFrerConfig(config: Bytes)
    requires |config| >= 16
  {
    ReadLe32(config, 0) == HardwareId && ReadLe32(config, 12) == Crc(config[16..])
  }

  // ------------------------------------------------------- microcontroller

  const UcConfigOffset: nat := 0x1000
  /** Enable, the R-TAG EtherType, the window, the stream id, the P4 mask and the P2A|P2B mask. */
  const UcFrerWords: seq<bv32> := [0x0000_0001, 0x0000_F1CD, 0x0000_0100, 0x0000_0001, 0x0000_0010, 0x0000_000C]

  /**
   * The patch part of `create_frer_uc`: when `0x1000 + 32 < len`, the six
   * words at 0x1000..0x1017; otherwise the image as loaded.
   */
  method CreateFrerUc(uc: Bytes) returns (out: Bytes)
    ensures |out| == |uc|
    ensures UcConfigOffset + 32 < |uc| ==> WordsAt(out, UcConfigOffset, UcFrerWords)
    ensures forall k :: 0 <= k < |uc| && !(UcConfigOffset + 32 < |uc| && UcConfigOffset <= k < UcConfigOffset + 24) ==>
      out[k] == uc[k]
  {
    out := uc;
    if UcConfigOffset + 32 < |uc| {
      out := PutWords(out, UcConfigOffset, UcFrerWords);
    }
  }
}

=== FILE: frer_enabler.dfy ===
/**
 * The FRER enabler for a GoldVIP switch blob: set CB_EN in the first
 * configuration word and FRMREPEN | SEQGEN in the second, mark the port 4,
 * 2 and 3 control nibbles as FRER input and outputs, drop a 12-byte stream
 * record into the first run of 32 bytes of 0xFF at or after 0x200, and
 * store the CRC-32 of bytes 16.. at 12..15. Then the read-back checks.
 */
module FrerEnabler {
  import opened Bytes
  import opened Crc32
  import Nibble = UltrathinkFrerPatch

  /** The id the read-back check expects, read little-endian: bytes B7 00 03 0F. */
  const ExpectedDeviceId: bv32 := 0x0F03_00B7
  /** Bit 7 of the first configuration word. */
  const CbEn: bv32 := 0x0000_0080
  /** Bits 16 and 17 of the second configuration word. */
  const FrmRepEn: bv32 := 0x0001_0000
  const SeqGen: bv32 := 0x0002_0000

  /** The stream record search starts here. */
  const StreamSearchStart: nat := 0x200
  /** The free space the search asks for: this many bytes of 0xFF. */
  const StreamSearchRun: nat := 32

  // ------------------------------------------------------------ header bits

  /** `config1 | 0x80` */
  function WithCbEn(config1: bv32): bv32
  {
    config1 | CbEn
  }

  /** `config2 | 0x30000` */
  function WithReplication(config2: bv32): bv32
  {
    config2 | FrmRepEn | SeqGen
  }

  /** CB_EN ends up set and every other bit of the word is kept. */
  lemma CbEnBits(config1: bv32)
    ensures WithCbEn(config1) & CbEn != 0
    ensures WithCbEn(config1) & !CbEn == config1 & !CbEn
  {
  }

  /** FRMREPEN and SEQGEN end up set and every other bit of the word is kept. */
  lemma ReplicationBits(config2: bv32)
    ensures WithReplication(config2) & FrmRepEn != 0 && WithReplication(config2) & SeqGen != 0
    ensures WithReplication(config2) & !(FrmRepEn | SeqGen) == config2 & !(FrmRepEn | SeqGen)
  {
  }

  /** The new low nibble replaces the old one; the high nibble is kept. */
  lemma LowNibbleBits(b: bv8, nibble: bv8)
    requires nibble <= 0x0F
    ensures Nibble.WithLowNibble(b, nibble) & 0xF0 == b & 0xF0
    ensures Nibble.WithLowNibble(b, nibble) & 0x0F == nibble
  {
  }

  /** Step [3]: both configuration words rewritten in place. */
  function HeaderBitsSet(data: Bytes): (r: Bytes)
    requires |data| >= 16
    ensures |r| == |data|
    ensures ReadLe32(r, 4) == WithCbEn(ReadLe32(data, 4)) && ReadLe32(r, 8) == WithReplication(ReadLe32(data, 8))
    ensures forall k :: 0 <= k < |data| && !(4 <= k < 12) ==> r[k] == data[k]
  {
    var withCb := PutLe32(data, 4, WithCbEn(ReadLe32(data, 4)));
    var out := PutLe32(withCb, 8, WithReplication(ReadLe32(data, 8)));
    ReadLe32Frame(out, withCb, 4);
    out
  }

  method EnableHeaderBits(data: Bytes) returns (out: Bytes)
    requires |data| >= 16
    ensures out == HeaderBitsSet(data)
  {
    var config1 := ReadLe32(data, 4);
    var config2 := ReadLe32(data, 8);
    var config1Frer := WithCbEn(config1);
    out := PutLe32(data, 4, config1Frer);
    var config2Frer := WithReplication(config2);
    out := PutLe32(out, 8, config2Frer);
  }

  // ------------------------------------------------------------ port roles

  /** The port 4 control byte (FRER input), and those of ports 2 and 3 (outputs A and B). */
  const Port4Byte: nat := 0x10 + 4 * 8 + 7
  const Port2Byte: nat := 0x10 + 2 * 8 + 7
  const Port3Byte: nat := 0x10 + 3 * 8 + 7

  /** Bytes 0x37, 0x27 and 0x2F of `data`, where in range, hold role nibbles 4, 2 and 3 over the high nibble of `orig`. */
  predicate PortRolesSet(data: Bytes, orig: Bytes)
    requires |data| == |orig|
  {
    (|data| > Port4Byte ==> data[Port4Byte] == Nibble.WithLowNibble(orig[Port4Byte], 0x04)) &&
    (|data| > Port2Byte ==> data[Port2Byte] == Nibble.WithLowNibble(orig[Port2Byte], 0x02)) &&
    (|data| > Port3Byte ==> data[Port3Byte] == Nibble.WithLowNibble(orig[Port3Byte], 0x03))
  }

  /** Step [4]: the three role nibbles, each written only when its byte exists. */
  method SetPortRoles(data: Bytes) returns (out: Bytes)
    ensures |out| == |data|
    ensures PortRolesSet(out, data)
    ensures forall k :: 0 <= k < |out| && k != Port4Byte && k != Port2Byte && k != Port3Byte ==> out[k] == data[k]
  {
    out := data;
    if Port4Byte < |out| {
      out := PutByte(out, Port4Byte, Nibble.WithLowNibble(out[Port4Byte], 0x04));
    }
    if Port2Byte < |out| {
      out := PutByte(out, Port2Byte, Nibble.WithLowNibble(out[Port2Byte], 0x02));
    }
    if Port3Byte < |out| {
      out := PutByte(out, Port3Byte, Nibble.WithLowNibble(out[Port3Byte], 0x03));
    }
  }

  // --------------------------------------------------------- stream record

  /** Stream id 1, the R-TAG EtherType 0xF1C1, input mask P4, output mask P2|P3, window 256, timeout 1000 ms. */
  const StreamRecord: Bytes :=
    Le16(0x0001) + Le16(0xF1C1) + Le16(0x0010) + Le16(0x000C) + Le16(0x0100) + Le16(0x03E8)

  lemma StreamRecordFields()
    ensures |StreamRecord| == 12
    ensures ReadLe16(StreamRecord, 0) == 0x0001 && ReadLe16(StreamRecord, 2) == 0xF1C1
    ensures ReadLe16(StreamRecord, 4) == 0x0010 && ReadLe16(StreamRecord, 6) == 0x000C
    ensures ReadLe16(StreamRecord, 8) == 0x0100 && ReadLe16(StreamRecord, 10) == 0x03E8
    ensures StreamRecord[2] == 0xC1 && StreamRecord[3] == 0xF1
  {
  }

  /** The end of `range(0x200, len - 32)`, empty when the blob is shorter than 32 bytes. */
  function SearchEnd(data: Bytes): (hi: nat)
    ensures hi <= StreamSearchStart || hi + StreamSearchRun == |data|
  {
    if |data| >= StreamSearchRun then |data| - StreamSearchRun else 0
  }

  /** Where the stream record goes, if anywhere. */
  function StreamSlot(data: Bytes): Option<nat>
  {
    FirstRun(data, 0xFF, StreamSearchRun, StreamSearchStart, SearchEnd(data))
  }

  /**
   * The slot is the first `i` with `0x200 <= i < len - 32` whose 32 bytes are
   * all 0xFF, and there is none exactly when no such `i` exists.
   */
  lemma StreamSlotSpec(data: Bytes)
    ensures StreamSlot(data).Some? ==>
      var i := StreamSlot(data).value;
      StreamSearchStart <= i && i + StreamSearchRun < |data| && RunAt(data, i, StreamSearchRun, 0xFF) &&
      forall j :: StreamSearchStart <= j < i ==> !RunAt(data, j, StreamSearchRun, 0xFF)
    ensures StreamSlot(data).None? ==>
      forall j :: StreamSearchStart <= j && j + StreamSearchRun < |data| ==> !RunAt(data, j, StreamSearchRun, 0xFF)
  {
    FirstRunSpec(data, 0xFF, StreamSearchRun, StreamSearchStart, SearchEnd(data));
  }

  /** A slot, when there is one, lies past the 16-byte header. */
  lemma SlotPastHeader(data: Bytes)
    ensures StreamSlot(data).Some? ==> StreamSlot(data).value >= StreamSearchStart
  {
    StreamSlotSpec(data);
  }

  /** The search reads only bytes from 0x200 on. */
  lemma StreamSlotFrame(a: Bytes, b: Bytes)
    requires |a| == |b|
    requires forall k :: StreamSearchStart <= k < |a| ==> a[k] == b[k]
    ensures StreamSlot(a) == StreamSlot(b)
  {
    FirstRunFrame(a, b, 0xFF, StreamSearchRun, StreamSearchStart, SearchEnd(a));
  }

  /** Byte `k` lies inside the stream record written at `slot`. */
  predicate InRecord(k: nat, slot: Option<nat>)
  {
    slot.Some? && slot.value <= k < slot.value + |StreamRecord|
  }

  /** Step [5]: the record at the slot, and no change when there is none. */
  method AddStreamRecord(data: Bytes) returns (out: Bytes)
    ensures |out| == |data|
    ensures StreamSlot(data).Some? ==>
      var i := StreamSlot(data).value; i + 12 <= |out| && out[i..i + 12] == StreamRecord
    ensures forall k :: 0 <= k < |out| && !InRecord(k, StreamSlot(data)) ==> out[k] == data[k]
  {
    out := data;
    var frerConfigOffset := FindRun(data, 0xFF, StreamSearchRun, StreamSearchStart, SearchEnd(data));
    if frerConfigOffset.Some? {
      var i := frerConfigOffset.value;
      StreamSlotSpec(data);
      StreamRecordFields();
      out := PutBytes(data, i, StreamRecord);
    }
  }

  // ---------------------------------------------------------------- whole

  /** Byte `k` is one the enabler may change, given where the stream record went. */
  predicate Patchable(k: nat, slot: Option<nat>)
  {
    4 <= k < 16 || k == Port4Byte || k == Port2Byte || k == Port3Byte || InRecord(k, slot)
  }

  /**
   * Steps [3] to [6] of `enable_frer_in_goldvip` on the loaded switch blob:
   * header bits, port roles, stream record, then the CRC-32 of bytes 16..
   * stored little-endian at 12..15.
   */
  method EnableFrerInGoldvip(switchData: Bytes) returns (out: Bytes)
    requires |switchData| >= 16
    ensures |out| == |switchData|
    ensures ReadLe32(out, 4) == WithCbEn(ReadLe32(switchData, 4))
    ensures ReadLe32(out, 8) == WithReplication(ReadLe32(switchData, 8))
    ensures PortRolesSet(out, switchData)
    ensures StreamSlot(switchData).Some? ==>
      var i := StreamSlot(switchData).value; i + 12 <= |out| && out[i..i + 12] == StreamRecord
    ensures ReadLe32(out, 12) == Crc(out[16..])
    ensures forall k :: 0 <= k < |out| && !Patchable(k, StreamSlot(switchData)) ==> out[k] == switchData[k]
  {
    var withBits := EnableHeaderBits(switchData);
    var withRoles := SetPortRoles(withBits);
    StreamSlotFrame(withRoles, switchData);
    var withRecord := AddStreamRecord(withRoles);
    out := Checksummed(withRecord);
    EnabledFrame(switchData, withBits, withRoles, withRecord, out);
  }

  /** Step [6]: `zlib.crc32(switch_data[16:])` stored at 12..15. */
  method Checksummed(data: Bytes) returns (out: Bytes)
    requires |data| >= 16
    ensures |out| == |data| && ReadLe32(out, 12) == Crc(out[16..])
    ensures forall k :: 0 <= k < |data| && !(12 <= k < 16) ==> out[k] == data[k]
  {
    var crcNew := Crc(data[16..]);
    out := PutLe32(data, 12, crcNew);
    assert out[16..] == data[16..];
  }

  /** How the four steps' guarantees add up to the whole method's. */
  lemma EnabledFrame(orig: Bytes, withBits: Bytes, withRoles: Bytes, withRecord: Bytes, out: Bytes)
    requires |orig| >= 16
    requires withBits == HeaderBitsSet(orig)
    requires |withRoles| == |orig| && PortRolesSet(withRoles, withBits)
    requires forall k :: 0 <= k < |orig| && k != Port4Byte && k != Port2Byte && k != Port3Byte ==> withRoles[k] == withBits[k]
    requires StreamSlot(withRoles) == StreamSlot(orig)
    requires |withRecord| == |orig|
    requires StreamSlot(orig).Some? ==>
      var i := StreamSlot(orig).value; i + 12 <= |withRecord| && withRecord[i..i + 12] == StreamRecord
    requires forall k :: 0 <= k < |orig| && !InRecord(k, StreamSlot(orig)) ==> withRecord[k] == withRoles[k]
    requires |out| == |orig|
    requires forall k :: 0 <= k < |orig| && !(12 <= k < 16) ==> out[k] == withRecord[k]
    ensures ReadLe32(out, 4) == WithCbEn(ReadLe32(orig, 4))
    ensures ReadLe32(out, 8) == WithReplication(ReadLe32(orig, 8))
    ensures PortRolesSet(out, orig)
    ensures StreamSlot(orig).Some? ==>
      var i := StreamSlot(orig).value; out[i..i + 12] == StreamRecord
    ensures forall k :: 0 <= k < |out| && !Patchable(k, StreamSlot(orig)) ==> out[k] == orig[k]
  {
    StreamSlotSpec(orig);
    ReadLe32Frame(out, withBits, 4);
    ReadLe32Frame(out, withBits, 8);
    if StreamSlot(orig).Some? {
      var i := StreamSlot(orig).value;
      assert out[i..i + 12] == withRecord[i..i + 12];
    }
  }

  // ------------------------------------------------------------- read-back

  /** What `verify_frer_config` reports: device id, CB_EN, FRMREPEN, SEQGEN and whether an R-TAG is present. */
  datatype FrerReport = FrerReport(deviceOk: bool, cbEn: bool, frmRepEn: bool, seqGen: bool, rtagFound: bool)

  /** `bytes([x, y]) in data` */
  predicate ContainsBytePair(data: Bytes, x: bv8, y: bv8)
  {
    exists i :: 0 <= i < |data| - 1 && data[i] == x && data[i + 1] == y
  }

  /** `verify_frer_config` on the written blob. */
  function VerifyFrerConfig(data: Bytes): (r: FrerReport)
    requires |data| >= 12
    ensures r.deviceOk <==> data[..4] == [0xB7, 0x00, 0x03, 0x0F]
  {
    FrerReport(
      ReadLe32(data, 0) == ExpectedDeviceId,
      ReadLe32(data, 4) & CbEn != 0,
      ReadLe32(data, 8) & FrmRepEn != 0,
      ReadLe32(data, 8) & SeqGen != 0,
      ContainsBytePair(data, 0xC1, 0xF1) || ContainsBytePair(data, 0xF1, 0xC1))
  }

  /**
   * On a blob the enabler wrote, CB_EN, FRMREPEN and SEQGEN always read as
   * enabled, the id check passes exactly when the input carried the id,
   * and the R-TAG is found whenever the stream record was written.
   */
  lemma EnabledReport(orig: Bytes, out: Bytes)
    requires |orig| >= 16 && |out| == |orig|
    requires ReadLe32(out, 4) == WithCbEn(ReadLe32(orig, 4))
    requires ReadLe32(out, 8) == WithReplication(ReadLe32(orig, 8))
    requires StreamSlot(orig).Some? ==>
      var i := StreamSlot(orig).value; i + 12 <= |out| && out[i..i + 12] == StreamRecord
    requires forall k :: 0 <= k < 4 ==> out[k] == orig[k]
    ensures VerifyFrerConfig(out).cbEn && VerifyFrerConfig(out).frmRepEn && VerifyFrerConfig(out).seqGen
    ensures VerifyFrerConfig(out).deviceOk <==> ReadLe32(orig, 0) == ExpectedDeviceId
    ensures StreamSlot(orig).Some? ==> VerifyFrerConfig(out).rtagFound
  {
    CbEnBits(ReadLe32(orig, 4));
    ReplicationBits(ReadLe32(orig, 8));
    ReadLe32Frame(out, orig, 0);
    if StreamSlot(orig).Some? {
      var i := StreamSlot(orig).value;
      StreamRecordFields();
      assert out[i + 2] == out[i..i + 12][2] == 0xC1;
      assert out[i + 3] == out[i..i + 12][3] == 0xF1;
      assert ContainsBytePair(out, 0xC1, 0xF1);
    }
  }

  /**
   * `main`: enable, then read the written blob back. The three FRER bits
   * always read as enabled, the id check passes exactly when the input
   * carried the id, and the R-TAG is found whenever the record was written.
   */
  method EnableThenVerify(switchData: Bytes) returns (out: Bytes, report: FrerReport)
    requires |switchData| >= 16
    ensures |out| == |switchData| && report == VerifyFrerConfig(out)
    ensures report.cbEn && report.frmRepEn && report.seqGen
    ensures report.deviceOk <==> ReadLe32(switchData, 0) == ExpectedDeviceId
    ensures StreamSlot(switchData).Some? ==> report.rtagFound
  {
    out := EnableFrerInGoldvip(switchData);
    SlotPastHeader(switchData);
    forall k | 0 <= k < 4
      ensures out[k] == switchData[k]
    {
      assert !Patchable(k, StreamSlot(switchData));
    }
    EnabledReport(switchData, out);
    report := VerifyFrerConfig(out);
  }
}

=== FILE: frer_registers.dfy ===
/**
 * The register-list configuration for P4 -> P2A/P2B replication: an object
 * that collects (address, value) pairs, five groups of them, and a binary
 * form with a 16-byte big-endian header, big-endian pairs and zero padding
 * to a multiple of 16.
 */
module FrerRegisters {
  import opened Bytes

  datatype Register = Register(address: bv32, value: bv32)

  // Port numbers; P4 is 5 here.
  const PortP2A: bv32 := 2
  const PortP2B: bv32 := 3
  const PortP4: bv32 := 5

  const RegGeneralCfg: bv32 := 0x10_0000
  const RegPortCfg: bv32 := 0x20_0000
  const RegFrerCfg: bv32 := 0x40_0000
  const RegStreamId: bv32 := 0x50_0000
  const RegSeqRecovery: bv32 := 0x60_0000

  const Magic: bv32 := 0x0F03_00B7
  const Version: bv32 := 6
  const ChecksumPlaceholder: bv32 := 0xE82C_E086

  /** `configure_general`: magic, version, feature enable, TSN enable. */
  const GeneralRegisters: seq<Register> := [
    Register(RegGeneralCfg + 0x00, 0x0F03_00B7), Register(RegGeneralCfg + 0x04, 6),
    Register(RegGeneralCfg + 0x08, 0xDC00_0000), Register(RegGeneralCfg + 0x0C, 0xE82C_E086)
  ]

  /** `configure_ports`: a command and a value register for P4, P2A and P2B. */
  const PortRegisters: seq<Register> := [
    Register(RegPortCfg + PortP4 * 0x100, 0x00EC_FFFF), Register(RegPortCfg + PortP4 * 0x100 + 4, 0x9FFF_7F00 | PortP4),
    Register(RegPortCfg + PortP2A * 0x100, 0x00EC_FFFF), Register(RegPortCfg + PortP2A * 0x100 + 4, 0x9FFF_7F00 | PortP2A),
    Register(RegPortCfg + PortP2B * 0x100, 0x00EC_FFFF), Register(RegPortCfg + PortP2B * 0x100 + 4, 0x9FFF_7F00 | PortP2B)
  ]

  /** `configure_frer_replication`: stream 1 on the P4 input mask, FRER, two paths, sequence generation, R-TAG. */
  const FrerRegisters: seq<Register> := [
    Register(RegStreamId + 0x00, 0x8000_0001), Register(RegStreamId + 0x04, 1 << PortP4),
    Register(RegStreamId + 0x08, 0xFFFF_FFFF), Register(RegStreamId + 0x0C, 1),
    Register(RegFrerCfg + 0x00, 0x8000_0001), Register(RegFrerCfg + 0x04, 3),
    Register(RegFrerCfg + 0x10, 1 << PortP2A), Register(RegFrerCfg + 0x14, 1 << PortP2B),
    Register(RegFrerCfg + 0x20, 0x0001_0000), Register(RegFrerCfg + 0x24, 0x0000_FFFF),
    Register(RegFrerCfg + 0x30, 0xF1CD_0000), Register(RegFrerCfg + 0x34, 1)
  ]

  /** `configure_forwarding_table`: broadcast mask P2A|P2B, then forwarding enabled from P4. */
  const ForwardingRegisters: seq<Register> := [
    Register(0x30_0000, (1 << PortP2A) | (1 << PortP2B)), Register(0x30_0004, 1 << PortP4)
  ]

  /** `configure_sequence_recovery`: enable, window 256, timeout 1000, history buffer size and address. */
  const RecoveryRegisters: seq<Register> := [
    Register(RegSeqRecovery + 0x00, 0x8000_0001), Register(RegSeqRecovery + 0x04, 0x100),
    Register(RegSeqRecovery + 0x08, 0x3E8), Register(RegSeqRecovery + 0x10, 0x1000),
    Register(RegSeqRecovery + 0x14, 0x9000_0000)
  ]

  /** What `build_configuration` adds, in call order. */
  const AllRegisters: seq<Register> :=
    GeneralRegisters + PortRegisters + FrerRegisters + ForwardingRegisters + RecoveryRegisters

  /** The five groups hold 4, 6, 12, 2 and 5 registers: 29 in all. */
  lemma RegisterCounts()
    ensures |GeneralRegisters| == 4 && |PortRegisters| == 6 && |FrerRegisters| == 12
    ensures |ForwardingRegisters| == 2 && |RecoveryRegisters| == 5 && |AllRegisters| == 29
  {
  }

  /** With P4 = 5 the stream's input mask is 0x20; the replication paths are bits 2 and 3. */
  lemma PortMasks()
    ensures FrerRegisters[1].value == 0x20 && FrerRegisters[6].value == 0x04 && FrerRegisters[7].value == 0x08
    ensures ForwardingRegisters[0].value == 0x0C && ForwardingRegisters[1].value == 0x20
  {
  }

  // ------------------------------------------------------------ binary form

  /** Big-endian address and value of each register, in list order. */
  function RegisterBytes(rs: seq<Register>): (r: Bytes)
    ensures |r| == 8 * |rs|
  {
    if |rs| == 0 then []
    else RegisterBytes(rs[..|rs| - 1]) + Be32(rs[|rs| - 1].address) + Be32(rs[|rs| - 1].value)
  }

  /** Register `i` sits at `at + 8 i`: address, then value. */
  predicate RegistersAt(t: Bytes, at: nat, rs: seq<Register>)
  {
    forall i :: 0 <= i < |rs| ==>
      at + 8 * i + 8 <= |t| && ReadBe32(t, at + 8 * i) == rs[i].address && ReadBe32(t, at + 8 * i + 4) == rs[i].value
  }

  lemma {:induction false} RegisterBytesRead(rs: seq<Register>)
    ensures RegistersAt(RegisterBytes(rs), 0, rs)
  {
    if |rs| > 0 {
      var init := rs[..|rs| - 1];
      var last := rs[|rs| - 1];
      var p := RegisterBytes(init);
      RegisterBytesRead(init);
      ConcatAssoc(p, Be32(last.address), Be32(last.value));
      RegistersExtend(p, Be32(last.address) + Be32(last.value), init);
      PairRead(p, last);
      assert rs == init + [last];
    }
  }

  /** Appending bytes leaves the registers already laid out in place. */
  lemma RegistersExtend(p: Bytes, e: Bytes, rs: seq<Register>)
    requires RegistersAt(p, 0, rs)
    ensures RegistersAt(p + e, 0, rs)
  {
    forall i | 0 <= i < |rs|
      ensures ReadBe32(p + e, 8 * i) == rs[i].address && ReadBe32(p + e, 8 * i + 4) == rs[i].value
    {
      ReadBe32Sub(p + e, 0, |p|, 8 * i);
      ReadBe32Sub(p + e, 0, |p|, 8 * i + 4);
      assert (p + e)[0..|p|] == p;
    }
  }

  /** The pair appended after `p` reads back as the register. */
  lemma PairRead(p: Bytes, last: Register)
    ensures ReadBe32(p + (Be32(last.address) + Be32(last.value)), |p|) == last.address
    ensures ReadBe32(p + (Be32(last.address) + Be32(last.value)), |p| + 4) == last.value
  {
    var e := Be32(last.address) + Be32(last.value);
    Be32RoundTrip(last.address);
    Be32RoundTrip(last.value);
    ReadBe32Sub(p + e, |p|, |p| + 8, 0);
    ReadBe32Sub(p + e, |p|, |p| + 8, 4);
    assert (p + e)[|p|..|p| + 8] == e;
    assert e[0..4] == Be32(last.address) && e[4..8] == Be32(last.value);
    ReadBe32Sub(e, 0, 4, 0);
    ReadBe32Sub(e, 4, 8, 0);
  }

  /** The length after zero padding to a multiple of 16. */
  function PadLen16(n: nat): (m: nat)
    ensures m % 16 == 0 && n <= m < n + 16
  {
    n + (16 - n % 16) % 16
  }

  /** The alignment loop of `generate_binary`: zero bytes until the length is a multiple of 16. */
  method PadTo16(s: Bytes) returns (r: Bytes)
    ensures r == s + Zeros(PadLen16(|s|) - |s|)
  {
    r := s;
    ghost var k: nat := 0;
    while |r| % 16 != 0
      invariant r == s + Zeros(k) && |s| + k <= PadLen16(|s|)
      decreases PadLen16(|s|) - |r|
    {
      assert Zeros(k) + [0] == Zeros(k + 1);
      r := r + [0];
      k := k + 1;
    }
  }

  /** A buffer padded with zeros: the original in front, zeros after it. */
  lemma ZeroPadded(s: Bytes, n: nat)
    ensures (s + Zeros(n))[..|s|] == s && AllEqual((s + Zeros(n))[|s|..], 0)
  {
    assert (s + Zeros(n))[|s|..] == Zeros(n);
  }

  /** `generate_binary`'s output for the list `rs`. */
  predicate IsRegisterBinary(out: Bytes, rs: seq<Register>)
    requires |rs| < 0x1_0000_0000
  {
    |out| == 16 + PadLen16(8 * |rs|) &&
    ReadBe32(out, 0) == Magic && ReadBe32(out, 4) == Version &&
    ReadBe32(out, 8) == |rs| as bv32 && ReadBe32(out, 12) == ChecksumPlaceholder &&
    RegistersAt(out, 16, rs) && AllEqual(out[16 + 8 * |rs|..], 0)
  }

  lemma BinaryLayout(h: Bytes, body: Bytes, rs: seq<Register>)
    requires |rs| < 0x1_0000_0000
    requires |h| == 16 && ReadBe32(h, 0) == Magic && ReadBe32(h, 4) == Version
    requires ReadBe32(h, 8) == |rs| as bv32 && ReadBe32(h, 12) == ChecksumPlaceholder
    requires body == RegisterBytes(rs) + Zeros(PadLen16(8 * |rs|) - 8 * |rs|)
    ensures IsRegisterBinary(h + body, rs)
  {
    PaddedBody(rs);
    var out := h + body;
    assert out[0..16] == h;
    ReadBe32Sub(out, 0, 16, 0);
    ReadBe32Sub(out, 0, 16, 4);
    ReadBe32Sub(out, 0, 16, 8);
    ReadBe32Sub(out, 0, 16, 12);
    RegistersShift(h, body, rs);
    assert out[16 + 8 * |rs|..] == body[8 * |rs|..];
  }

  /** Registers laid out in `body` are found `|h|` bytes later in `h + body`. */
  lemma RegistersShift(h: Bytes, body: Bytes, rs: seq<Register>)
    requires RegistersAt(body, 0, rs)
    ensures RegistersAt(h + body, |h|, rs)
  {
    var out := h + body;
    assert out[|h|..] == body;
    forall i | 0 <= i < |rs|
      ensures ReadBe32(out, |h| + 8 * i) == rs[i].address && ReadBe32(out, |h| + 8 * i + 4) == rs[i].value
    {
      ReadBe32Sub(out, |h|, |out|, 8 * i);
      ReadBe32Sub(out, |h|, |out|, 8 * i + 4);
    }
  }

  /** The four big-endian header words. */
  function BinaryHeader(count: bv32): (h: Bytes)
    ensures |h| == 16 && ReadBe32(h, 0) == Magic && ReadBe32(h, 4) == Version
    ensures ReadBe32(h, 8) == count && ReadBe32(h, 12) == ChecksumPlaceholder
  {
    var h := Be32(Magic) + Be32(Version) + Be32(count) + Be32(ChecksumPlaceholder);
    Be32RoundTrip(Magic);
    Be32RoundTrip(Version);
    Be32RoundTrip(count);
    Be32RoundTrip(ChecksumPlaceholder);
    assert h[0..4] == Be32(Magic) && h[4..8] == Be32(Version) && h[8..12] == Be32(count) && h[12..16] == Be32(ChecksumPlaceholder);
    ReadBe32Sub(h, 0, 4, 0);
    ReadBe32Sub(h, 4, 8, 0);
    ReadBe32Sub(h, 8, 12, 0);
    ReadBe32Sub(h, 12, 16, 0);
    h
  }

  /** `SJA1110Config`: `config_data` is the list every `configure_*` call appends to. */
  class RegisterConfig {
    var configData: seq<Register>

    constructor()
      ensures configData == []
    {
      configData := [];
    }

    /** `add_register`: exactly one pair at the end, earlier pairs in place. */
    method AddRegister(address: bv32, value: bv32)
      modifies this
      ensures configData == old(configData) + [Register(address, value)]
    {
      configData := configData + [Register(address, value)];
    }

    method ConfigureGeneral()
      modifies this
      ensures configData == old(configData) + GeneralRegisters
    {
      AddRegister(RegGeneralCfg + 0x00, 0x0F03_00B7);
      AddRegister(RegGeneralCfg + 0x04, 6);
      AddRegister(RegGeneralCfg + 0x08, 0xDC00_0000);
      AddRegister(RegGeneralCfg + 0x0C, 0xE82C_E086);
    }

    method ConfigurePorts()
      modifies this
      ensures configData == old(configData) + PortRegisters
    {
      AddRegister(RegPortCfg + PortP4 * 0x100, 0x00EC_FFFF);
      AddRegister(RegPortCfg + PortP4 * 0x100 + 4, 0x9FFF_7F00 | PortP4);
      AddRegister(RegPortCfg + PortP2A * 0x100, 0x00EC_FFFF);
      AddRegister(RegPortCfg + PortP2A * 0x100 + 4, 0x9FFF_7F00 | PortP2A);
      AddRegister(RegPortCfg + PortP2B * 0x100, 0x00EC_FFFF);
      AddRegister(RegPortCfg + PortP2B * 0x100 + 4, 0x9FFF_7F00 | PortP2B);
    }

    method ConfigureFrerReplication()
      modifies this
      ensures configData == old(configData) + FrerRegisters
    {
      var streamId: bv32 := 1;
      AddRegister(RegStreamId + 0x00, 0x8000_0001);
      AddRegister(RegStreamId + 0x04, 1 << PortP4);
      AddRegister(RegStreamId + 0x08, 0xFFFF_FFFF);
      AddRegister(RegStreamId + 0x0C, streamId);
      AddRegister(RegFrerCfg + 0x00, 0x8000_0001);
      AddRegister(RegFrerCfg + 0x04, 3);
      AddRegister(RegFrerCfg + 0x10, 1 << PortP2A);
      AddRegister(RegFrerCfg + 0x14, 1 << PortP2B);
      AddRegister(RegFrerCfg + 0x20, 0x0001_0000);
      AddRegister(RegFrerCfg + 0x24, 0x0000_FFFF);
      AddRegister(RegFrerCfg + 0x30, 0xF1CD_0000);
      AddRegister(RegFrerCfg + 0x34, 1);
    }

    method ConfigureForwardingTable()
      modifies this
      ensures configData == old(configData) + ForwardingRegisters
    {
      var portMask: bv32 := (1 << PortP2A) | (1 << PortP2B);
      AddRegister(0x30_0000, portMask);
      AddRegister(0x30_0004, 1 << PortP4);
    }

    method ConfigureSequenceRecovery()
      modifies this
      ensures configData == old(configData) + RecoveryRegisters
    {
      AddRegister(RegSeqRecovery + 0x00, 0x8000_0001);
      AddRegister(RegSeqRecovery + 0x04, 0x100);
      AddRegister(RegSeqRecovery + 0x08, 0x3E8);
      AddRegister(RegSeqRecovery + 0x10, 0x1000);
      AddRegister(RegSeqRecovery + 0x14, 0x9000_0000);
    }

    /**
     * `generate_binary`: header with the register count, each register as
     * big-endian address and value, zero padding to a multiple of 16. The
     * count is packed as an unsigned 32-bit word, which fails for 2^32
     * registers or more.
     */
    method GenerateBinary() returns (out: Bytes)
      requires |configData| < 0x1_0000_0000
      ensures IsRegisterBinary(out, configData)
    {
      var header := BinaryHeader(|configData| as bv32);
      var configBytes: Bytes := [];
      for i := 0 to |configData|
        invariant configBytes == RegisterBytes(configData[..i])
      {
        var r := configData[i];
        assert configData[..i + 1][..i] == configData[..i];
        configBytes := configBytes + Be32(r.address);
        configBytes := configBytes + Be32(r.value);
      }
      assert configData[..|configData|] == configData;
      var padded := PadTo16(configBytes);
      BinaryLayout(header, padded, configData);
      out := header + padded;
    }

    /**
     * `build_configuration`: the five groups in order, then the binary. The
     * list is never cleared, so a second call appends all 29 registers again.
     */
    method BuildConfiguration() returns (out: Bytes)
      requires |configData| + 29 < 0x1_0000_0000
      modifies this
      ensures configData == old(configData) + AllRegisters
      ensures IsRegisterBinary(out, configData)
      ensures old(configData) == [] ==> |out| == 256
    {
      ConfigureGeneral();
      ConfigurePorts();
      ConfigureFrerReplication();
      ConfigureForwardingTable();
      ConfigureSequenceRecovery();
      out := GenerateBinary();
    }
  }

  /** The register bytes padded with zeros form the body of the binary. */
  lemma PaddedBody(rs: seq<Register>)
    ensures var p := RegisterBytes(rs); var body := p + Zeros(PadLen16(|p|) - |p|);
      RegistersAt(body, 0, rs) && AllEqual(body[8 * |rs|..], 0)
  {
    var p := RegisterBytes(rs);
    RegisterBytesRead(rs);
    ZeroPadded(p, PadLen16(|p|) - |p|);
    RegistersExtend(p, Zeros(PadLen16(|p|) - |p|), rs);
  }
}

=== FILE: frer_test.dfy ===
/**
 * The replication test's frames: a plain broadcast test frame, and an
 * R-TAG frame (IEEE 802.1CB-2017, clause 7.8) that carries the tester's
 * 16-bit sequence counter, plus the R-TAG check the test applies to what
 * comes back from the output ports.
 */
module FrerTest {
  import opened Bytes

  const Broadcast: Bytes := [0xFF, 0xFF, 0xFF, 0xFF, 0xFF, 0xFF]
  const FrerDestination: Bytes := [0x00, 0xAA, 0xBB, 0xCC, 0xDD, 0xEE]
  const TestSource: Bytes := [0x00, 0x11, 0x22, 0x33, 0x44, 0x55]
  const TestEtherType: bv16 := 0x88F7
  const RTagEtherType: bv16 := 0xF1CD
  const Ipv4EtherType: bv16 := 0x0800
  /** The minimum Ethernet payload the test pads to. */
  const MinPayload: nat := 46
  /** The sequence space of the R-TAG. */
  const SeqModulus: nat := 0x1_0000

  /** `data.encode() + b'\x00' * (46 - len(data))`; a negative count adds nothing. */
  function Payload(data: Bytes): (p: Bytes)
    ensures |p| == Max(MinPayload, |data|) && p[..|data|] == data
    ensures forall i :: |data| <= i < |p| ==> p[i] == 0
  {
    PadZeros(data, MinPayload)
  }

  /** `create_test_frame`: broadcast destination, test source, EtherType 0x88F7, padded payload. */
  function TestFrame(data: Bytes): Bytes
  {
    Broadcast + TestSource + Be16(TestEtherType) + Payload(data)
  }

  /** `create_frer_frame` for sequence number `seqNo`: the R-TAG sits between the addresses and the IPv4 EtherType. */
  function FrerFrame(seqNo: bv16, data: Bytes): Bytes
  {
    FrerDestination + TestSource + Be16(RTagEtherType) + Be16(0) + Be16(seqNo) + Be16(Ipv4EtherType) + Payload(data)
  }

  lemma TestFrameLayout(data: Bytes)
    ensures |TestFrame(data)| == 14 + Max(MinPayload, |data|)
    ensures TestFrame(data)[..6] == Broadcast && TestFrame(data)[6..12] == TestSource
    ensures ReadBe16(TestFrame(data), 12) == TestEtherType
    ensures TestFrame(data)[14..14 + |data|] == data
  {
    var f := TestFrame(data);
    Be16RoundTrip(TestEtherType);
    assert f[12..14] == Be16(TestEtherType);
    assert f[14..] == Payload(data);
    assert f[14..14 + |data|] == Payload(data)[..|data|];
  }

  lemma FrerFrameLayout(seqNo: bv16, data: Bytes)
    ensures |FrerFrame(seqNo, data)| == 20 + Max(MinPayload, |data|)
    ensures FrerFrame(seqNo, data)[..6] == FrerDestination && FrerFrame(seqNo, data)[6..12] == TestSource
    ensures ReadBe16(FrerFrame(seqNo, data), 12) == RTagEtherType && ReadBe16(FrerFrame(seqNo, data), 14) == 0
    ensures ReadBe16(FrerFrame(seqNo, data), 16) == seqNo && ReadBe16(FrerFrame(seqNo, data), 18) == Ipv4EtherType
    ensures FrerFrame(seqNo, data)[20..20 + |data|] == data
  {
    var f := FrerFrame(seqNo, data);
    Be16RoundTrip(RTagEtherType);
    Be16RoundTrip(0);
    Be16RoundTrip(seqNo);
    Be16RoundTrip(Ipv4EtherType);
    assert f[12..14] == Be16(RTagEtherType);
    assert f[14..16] == Be16(0);
    assert f[16..18] == Be16(seqNo);
    assert f[18..20] == Be16(Ipv4EtherType);
    assert f[20..] == Payload(data);
    assert f[20..20 + |data|] == Payload(data)[..|data|];
  }

  /** What the R-TAG check in `verify_replication` reports for a received frame. */
  datatype RTagCheck = TooShort | NoRTag(etherType: bv16) | RTag(seqNo: bv16)

  function CheckRTag(rx: Bytes): (c: RTagCheck)
    ensures |rx| < 18 <==> c == TooShort
    ensures c.RTag? ==> ReadBe16(rx, 12) == RTagEtherType && c.seqNo == ReadBe16(rx, 16)
    ensures c.NoRTag? ==> c.etherType == ReadBe16(rx, 12) != RTagEtherType
  {
    if |rx| < 18 then TooShort
    else if ReadBe16(rx, 12) == RTagEtherType then RTag(ReadBe16(rx, 16))
    else NoRTag(ReadBe16(rx, 12))
  }

  /** The check reads back the sequence number the frame was built with. */
  lemma CheckFrerFrame(seqNo: bv16, data: Bytes)
    ensures CheckRTag(FrerFrame(seqNo, data)) == RTag(seqNo)
  {
    FrerFrameLayout(seqNo, data);
  }

  /** A plain test frame is not taken for an R-TAG frame. */
  lemma CheckTestFrame(data: Bytes)
    ensures CheckRTag(TestFrame(data)) == NoRTag(TestEtherType)
  {
    TestFrameLayout(data);
  }

  /** `received[0][:18] == received[1][:18]`: both copies agree up to and including the sequence number. */
  predicate HeadersMatch(a: Bytes, b: Bytes)
  {
    Take(a, 18) == Take(b, 18)
  }

  /** Two R-TAG frames of the same payload have matching headers exactly when their sequence numbers agree. */
  lemma HeadersMatchSeq(s1: bv16, s2: bv16, data: Bytes)
    ensures HeadersMatch(FrerFrame(s1, data), FrerFrame(s2, data)) <==> s1 == s2
  {
    FrerFrameLayout(s1, data);
    FrerFrameLayout(s2, data);
    var a, b := FrerFrame(s1, data), FrerFrame(s2, data);
    if HeadersMatch(a, b) {
      ReadBe16Frame(a, b, 16) by {
        assert a[16] == Take(a, 18)[16] && a[17] == Take(a, 18)[17];
        assert b[16] == Take(b, 18)[16] && b[17] == Take(b, 18)[17];
      }
    }
    if s1 == s2 {
      assert a == b;
    }
  }

  /** Two buffers that agree on two bytes read the same BE halfword there. */
  lemma ReadBe16Frame(a: Bytes, b: Bytes, i: nat)
    requires i + 2 <= |a| && i + 2 <= |b| && a[i] == b[i] && a[i + 1] == b[i + 1]
    ensures ReadBe16(a, i) == ReadBe16(b, i)
  {
  }

  /** `FRERTester`: only the sequence counter is state; the frame list is never used. */
  class FrerTester {
    var seqNum: nat

    /** The counter stays inside the 16-bit sequence space. */
    ghost predicate Valid()
      reads this
    {
      seqNum < SeqModulus
    }

    constructor()
      ensures Valid() && seqNum == 0
    {
      seqNum := 0;
    }

    /** `create_test_frame` leaves the counter alone. */
    method CreateTestFrame(data: Bytes) returns (frame: Bytes)
      ensures frame == TestFrame(data)
    {
      var dstMac := Broadcast;
      var srcMac := TestSource;
      var ethType := Be16(TestEtherType);
      var payload := data + Zeros(if |data| < MinPayload then MinPayload - |data| else 0);
      frame := dstMac + srcMac + ethType + payload;
    }

    /**
     * `create_frer_frame`: the frame carries the current counter, and the
     * counter moves on by one modulo 65536.
     */
    method CreateFrerFrame(data: Bytes) returns (frame: Bytes)
      requires Valid()
      modifies this
      ensures Valid() && frame == FrerFrame(old(seqNum) as bv16, data)
      ensures seqNum == (old(seqNum) + 1) % SeqModulus
    {
      var rTagType := Be16(RTagEtherType);
      var rTagReserved := Be16(0);
      var rTagSeqNum := Be16(seqNum as bv16);
      seqNum := (seqNum + 1) % SeqModulus;
      var originalType := Be16(Ipv4EtherType);
      var payload := data + Zeros(if |data| < MinPayload then MinPayload - |data| else 0);
      frame := FrerDestination + TestSource + rTagType + rTagReserved + rTagSeqNum + originalType + payload;
    }
  }

  /**
   * A fresh tester stamps its `n`-th R-TAG frame with `n mod 65536`: the
   * counter after `n` frames.
   */
  function SeqAfter(n: nat): (s: nat)
    ensures s < SeqModulus
  {
    if n == 0 then 0 else (SeqAfter(n - 1) + 1) % SeqModulus
  }

  lemma {:induction false} SeqAfterWraps(n: nat)
    ensures SeqAfter(n) == n % SeqModulus
  {
    if n > 0 {
      SeqAfterWraps(n - 1);
    }
  }

  /** Sending `n` R-TAG frames from a fresh tester leaves its counter at `n mod 65536`. */
  method SendFrames(n: nat, data: Bytes) returns (t: FrerTester)
    ensures fresh(t) && t.Valid() && t.seqNum == n % SeqModulus
  {
    t := new FrerTester();
    for i := 0 to n
      invariant t.Valid() && t.seqNum == SeqAfter(i)
    {
      var frame := t.CreateFrerFrame(data);
    }
    SeqAfterWraps(n);
  }
}

=== FILE: ghidra_analysis.dfy ===
/**
 * The binary analysis tool: it splits a switch configuration blob into
 * 8-byte (command, value) entries, names each command by its bit pattern
 * and collects the ports of the port-configuration entries. It then builds
 * its own 2236-byte switch configuration (header, three port pairs, a FRER
 * stream, (0xFFFF00EC, 0x007FFF9F) filler pairs and a zero tail) and an
 * 8192-byte microcontroller image (48 vectors, zeros to 256, nine Thumb
 * halfwords, 0xFF to 1024, six FRER words, 0xFF to the end).
 */
module GhidraAnalysis {
  import opened Bytes

  // ------------------------------------------------------------- entry split

  datatype Entry = Entry(offset: nat, cmd: bv32, val: bv32)

  /** Entry `i` of a split of `data`: the LE words at `8 i` and `8 i + 4`. */
  predicate IsEntryOf(data: Bytes, e: Entry, i: nat)
  {
    e.offset == 8 * i && 8 * i + 8 <= |data| && e.cmd == ReadLe32(data, 8 * i) && e.val == ReadLe32(data, 8 * i + 4)
  }

  /**
   * The entry loop of `analyze_switch_binary`: one entry per whole 8-byte
   * step from offset 0; a trailing part shorter than 8 bytes is dropped.
   */
  method SplitEntries(data: Bytes) returns (entries: seq<Entry>)
    ensures |entries| == |data| / 8
    ensures forall i :: 0 <= i < |entries| ==> IsEntryOf(data, entries[i], i)
  {
    var offset := 0;
    entries := [];
    while offset < |data|
      invariant offset == 8 * |entries| <= |data|
      invariant forall i :: 0 <= i < |entries| ==> IsEntryOf(data, entries[i], i)
      decreases |data| - offset
    {
      if offset + 8 <= |data| {
        var cmd := ReadLe32(data, offset);
        var val := ReadLe32(data, offset + 4);
        entries := entries + [Entry(offset, cmd, val)];
        offset := offset + 8;
      } else {
        break;
      }
    }
  }

  // -------------------------------------------------------------- classifier

  datatype Interpretation = ConfigHeader | PortConfig | PortMask | PaddingEnd | FeatureEnable | NoInterpretation

  /** A command whose high half is 0x00EC configures a port. */
  predicate IsPortConfigCmd(cmd: bv32)
  {
    cmd & 0xFFFF_0000 == 0x00EC_0000
  }

  /** The interpretation column: the first pattern that matches, or none. */
  function Interpret(cmd: bv32): Interpretation
  {
    if cmd & 0xFF00_0000 == 0x0F00_0000 then ConfigHeader
    else if IsPortConfigCmd(cmd) then PortConfig
    else if cmd & 0xFF00_0000 == 0x9F00_0000 then PortMask
    else if cmd == 0 then PaddingEnd
    else if cmd & 0xFFFF_0000 == 0xE82C_0000 then FeatureEnable
    else NoInterpretation
  }

  /**
   * The five patterns never overlap, so each interpretation holds exactly
   * when its own pattern matches, whatever the order of the tests.
   */
  lemma InterpretMeaning(cmd: bv32)
    ensures Interpret(cmd) == ConfigHeader <==> cmd & 0xFF00_0000 == 0x0F00_0000
    ensures Interpret(cmd) == PortConfig <==> cmd & 0xFFFF_0000 == 0x00EC_0000
    ensures Interpret(cmd) == PortMask <==> cmd & 0xFF00_0000 == 0x9F00_0000
    ensures Interpret(cmd) == PaddingEnd <==> cmd == 0
    ensures Interpret(cmd) == FeatureEnable <==> cmd & 0xFFFF_0000 == 0xE82C_0000
  {
    if cmd & 0xFFFF_0000 == 0x00EC_0000 || cmd == 0 {
      assert cmd & 0xFF00_0000 == 0;
    }
    if cmd & 0xFFFF_0000 == 0xE82C_0000 {
      assert cmd & 0xFF00_0000 == 0xE800_0000;
    }
  }

  // --------------------------------------------------------------- port list

  /** `port_num = val & 0xFF` */
  function PortNum(val: bv32): bv8
  {
    (val & 0xFF) as bv8
  }

  /** The set of ports named by the port-configuration entries of `es`. */
  function PortsOf(es: seq<Entry>): set<bv8>
  {
    if |es| == 0 then {}
    else PortsOf(es[..|es| - 1]) + (if IsPortConfigCmd(es[|es| - 1].cmd) then {PortNum(es[|es| - 1].val)} else {})
  }

  lemma {:induction false} PortsOfMeaning(es: seq<Entry>, p: bv8)
    ensures p in PortsOf(es) <==> exists i :: 0 <= i < |es| && IsPortConfigCmd(es[i].cmd) && PortNum(es[i].val) == p
  {
    if |es| > 0 {
      var init := es[..|es| - 1];
      PortsOfMeaning(init, p);
      if p in PortsOf(init) {
        var i :| 0 <= i < |init| && IsPortConfigCmd(init[i].cmd) && PortNum(init[i].val) == p;
        assert es[i] == init[i];
      }
      if exists i :: 0 <= i < |es| && IsPortConfigCmd(es[i].cmd) && PortNum(es[i].val) == p {
        var i :| 0 <= i < |es| && IsPortConfigCmd(es[i].cmd) && PortNum(es[i].val) == p;
        if i < |init| {
          assert init[i] == es[i];
        }
      }
    }
  }

  /** `list(set(port_configs))` as a set: the loop over all entries. */
  method ConfiguredPorts(entries: seq<Entry>) returns (ports: set<bv8>)
    ensures ports == PortsOf(entries)
  {
    ports := {};
    for i := 0 to |entries|
      invariant ports == PortsOf(entries[..i])
    {
      assert entries[..i + 1][..i] == entries[..i];
      if IsPortConfigCmd(entries[i].cmd) {
        ports := ports + {PortNum(entries[i].val)};
      }
    }
    assert entries[..|entries|] == entries;
  }

  /**
   * `analyze_switch_binary` without its printing: the entries and the
   * configured ports. The header block it prints unpacks bytes 0..3 and
   * 4..7, so a file shorter than 8 bytes makes it raise.
   */
  method AnalyzeSwitchBinary(data: Bytes) returns (entries: seq<Entry>, ports: set<bv8>)
    requires |data| >= 8
    ensures |entries| == |data| / 8 && forall i :: 0 <= i < |entries| ==> IsEntryOf(data, entries[i], i)
    ensures forall p :: p in ports <==> exists i :: 0 <= i < |entries| && IsPortConfigCmd(entries[i].cmd) && PortNum(entries[i].val) == p
  {
    entries := SplitEntries(data);
    ports := ConfiguredPorts(entries);
    forall p {
      PortsOfMeaning(entries, p);
    }
  }

  // ------------------------------------------------------ switch config image

  const ConfigSize: nat := 2236

  /**
   * Header (magic, version, size, checksum/features), the P4, P2A and P2B
   * port pairs (ports 5, 2, 3 in the top byte), and the FRER stream: enable,
   * P4 input mask 1 << 5, P2A|P2B output mask, stream id.
   */
  const ConfigPrefix: seq<bv32> := [
    0xB700_030F, 0x0600_0000, 0x0000_00DC, 0x86E0_2CE8,
    0xFFFF_00EC, 0x057F_FF9F, 0xFFFF_00EC, 0x027F_FF9F, 0xFFFF_00EC, 0x037F_FF9F,
    0x0001_0080, 0x0000_0020, 0x0000_000C, 0x0000_0001
  ]
  const PrefixSize: nat := 56

  const FillCommand: bv32 := 0xFFFF_00EC
  const FillValue: bv32 := 0x007F_FF9F
  /** Whole filler pairs: 56 + 8 * 272 = 2232 leaves 4 bytes, which are zeros. */
  const FillPairs: nat := 272
  const ZeroTailAt: nat := 2232

  const FillPair: Bytes := Le32Pair(FillCommand, FillValue)

  predicate IsFillPair(e: Bytes, k: nat)
  {
    e == FillPair
  }

  /** Every byte of the switch configuration. */
  predicate IsAnalysisSwitchImage(r: Bytes)
  {
    |r| == ConfigSize && WordsAt(r, 0, ConfigPrefix) && Records(r, PrefixSize, 8, FillPairs, IsFillPair) &&
    AllEqual(r[ZeroTailAt..], 0)
  }

  /** `k` filler pairs. */
  function PairRun(k: nat): (c: Bytes)
    ensures |c| == 8 * k
  {
    Repeat(FillPair, k)
  }

  /**
   * The bytes the pad loop has appended after `k` turns: a filler pair per
   * turn while 8 bytes remain, then the 4 zeros that remain.
   */
  function FillRun(k: nat): (c: Bytes)
    requires k <= FillPairs + 1
  {
    if k <= FillPairs then PairRun(k) else PairRun(FillPairs) + Zeros(4)
  }

  /** The prefix followed by all 273 turns is the whole configuration. */
  lemma SwitchImageOf(head: Bytes, k: nat)
    requires |head| == PrefixSize && WordsAt(head, 0, ConfigPrefix) && k == FillPairs + 1
    ensures IsAnalysisSwitchImage(head + FillRun(k))
  {
    var pairs := PairRun(k - 1);
    RepeatRecords(FillPair, k - 1, IsFillPair);
    ConcatAssoc(head, pairs, Zeros(4));
    RecordsShift(head, pairs, 8, k - 1, IsFillPair);
    RecordsExtend(head + pairs, Zeros(4), PrefixSize, 8, k - 1, IsFillPair);
    WordsPrefix(head, FillRun(k), 0, ConfigPrefix);
    assert (head + FillRun(k))[ZeroTailAt..] == Zeros(4);
  }

  /** `create_switch_config_binary` without the file write. */
  method CreateSwitchConfigBinary() returns (config: Bytes)
    ensures IsAnalysisSwitchImage(config)
  {
    var head := PackWords(ConfigPrefix);
    config := head;
    var turns := 0;
    while |config| < ConfigSize
      invariant turns <= FillPairs + 1 && config == head + FillRun(turns)
      invariant |config| == if turns <= FillPairs then PrefixSize + 8 * turns else ConfigSize
      decreases ConfigSize - |config|
    {
      var remaining := ConfigSize - |config|;
      var turn: Bytes;
      if remaining >= 8 {
        turn := Le32(FillCommand) + Le32(FillValue);
      } else {
        turn := Zeros(remaining);
      }
      assert FillRun(turns + 1) == FillRun(turns) + turn;
      ConcatAssoc(head, FillRun(turns), turn);
      config := config + turn;
      turns := turns + 1;
    }
    SwitchImageOf(head, turns);
  }

  /** The magic word is packed LE, so the image starts 0F 03 00 B7. */
  lemma SwitchImageMagic(r: Bytes)
    requires IsAnalysisSwitchImage(r)
    ensures r[..4] == [0x0F, 0x03, 0x00, 0xB7]
  {
    WordAt(r, 0, ConfigPrefix, 0);
  }

  /** The command word of filler pair `k`. */
  lemma FillCommandAt(r: Bytes, k: nat)
    requires IsAnalysisSwitchImage(r) && k < FillPairs
    ensures ReadLe32(r, PrefixSize + 8 * k) == FillCommand
  {
    RecordAt(r, PrefixSize, 8, FillPairs, IsFillPair, k);
    var e := r[PrefixSize + 8 * k..PrefixSize + 8 * k + 8];
    assert ReadLe32(e, 0) == FillCommand by {
      assert e == Le32Pair(FillCommand, FillValue);
    }
    ReadLe32Sub(r, PrefixSize + 8 * k, PrefixSize + 8 * k + 8, 0);
  }

  /** The command word of entry `i`: a command of the fixed part, or the filler command. */
  lemma SwitchImageCommands(r: Bytes, i: nat)
    requires IsAnalysisSwitchImage(r) && i < ConfigSize / 8
    ensures i < 7 ==> ReadLe32(r, 8 * i) == ConfigPrefix[2 * i]
    ensures i >= 7 ==> ReadLe32(r, 8 * i) == FillCommand
  {
    if i < 7 {
      WordAt(r, 0, ConfigPrefix, 2 * i);
    } else {
      FillCommandAt(r, i - 7);
    }
  }

  /** None of the seven fixed command words (magic, size, three port commands, stream enable, output mask) has high half 0x00EC. */
  lemma PrefixCommandNotPort(j: nat)
    requires j < 7
    ensures !IsPortConfigCmd(ConfigPrefix[2 * j])
  {
    assert j == 0 || j == 1 || j == 2 || j == 3 || j == 4 || j == 5 || j == 6;
  }

  /**
   * The tool's own classifier finds no port-configuration entry in the
   * configuration it builds: its command words are 0xFFFF00EC, whose high
   * half is 0xFFFF, not 0x00EC.
   */
  lemma GeneratedConfigHasNoPortEntries(r: Bytes, entries: seq<Entry>)
    requires IsAnalysisSwitchImage(r)
    requires |entries| == |r| / 8 && forall i :: 0 <= i < |entries| ==> IsEntryOf(r, entries[i], i)
    ensures PortsOf(entries) == {}
  {
    forall p: bv8 ensures p !in PortsOf(entries) {
      PortsOfMeaning(entries, p);
      forall i | 0 <= i < |entries| ensures !IsPortConfigCmd(entries[i].cmd) {
        SwitchImageCommands(r, i);
        if i < 7 {
          PrefixCommandNotPort(i);
        }
      }
    }
  }

  // --------------------------------------------------- microcontroller image

  const UcSize: nat := 8192

  /** Initial SP, reset, NMI and HardFault; vectors 4..47 all point at the default handler. */
  const FirstVectors: seq<bv32> := [0x2000_2000, 0x0000_0101, 0x0000_0201, 0x0000_0301]
  const DefaultHandler: bv32 := 0x0000_0401
  const DefaultVectors: nat := 44

  /** LDR, MOVS, STR, LDR, MOVS, STR, MOVS, STR, B . */
  const ResetCode: seq<bv16> := [0x4800, 0x2101, 0x6001, 0x4801, 0x2220, 0x6042, 0x220C, 0x6082, 0xE7FE]

  /** FRER base, port base, stream id, the R-TAG EtherType 0xF1CD, window, timeout. */
  const FrerConfigData: seq<bv32> := [0x4000_0000, 0x4000_1000, 0x0000_0001, 0x0000_F1CD, 0x0000_0100, 0x0000_03E8]

  const VectorTableEnd: nat := 192
  const ResetCodeAt: nat := 256
  const ResetCodeEnd: nat := 274
  const ConfigDataAt: nat := 1024
  const ConfigDataEnd: nat := 1048

  predicate IsDefaultVector(e: Bytes, k: nat)
  {
    |e| == 4 && ReadLe32(e, 0) == DefaultHandler
  }

  /** The 48 vectors. */
  predicate IsVectorTable(v: Bytes)
  {
    |v| == VectorTableEnd && WordsAt(v, 0, FirstVectors) && Records(v, 16, 4, DefaultVectors, IsDefaultVector)
  }

  /** Every byte of the microcontroller image, region by region. */
  predicate IsAnalysisUcImage(r: Bytes)
  {
    |r| == UcSize && IsVectorTable(r[..VectorTableEnd]) && AllEqual(r[VectorTableEnd..ResetCodeAt], 0) &&
    HalfwordsAt(r[ResetCodeAt..ResetCodeEnd], 0, ResetCode) && AllEqual(r[ResetCodeEnd..ConfigDataAt], 0xFF) &&
    WordsAt(r[ConfigDataAt..ConfigDataEnd], 0, FrerConfigData) && AllEqual(r[ConfigDataEnd..], 0xFF)
  }

  /** The vector part of `create_uc_firmware_binary`: four named vectors, then the default handler 44 times. */
  method VectorTable() returns (firmware: Bytes)
    ensures IsVectorTable(firmware)
  {
    firmware := PackWords(FirstVectors);
    ghost var head := firmware;
    for i := 4 to 48
      invariant |firmware| == 4 * i && firmware[..16] == head
      invariant Records(firmware, 16, 4, i - 4, IsDefaultVector)
    {
      Le32RoundTrip(DefaultHandler);
      AppendRecord(firmware, Le32(DefaultHandler), 16, 4, i - 4, IsDefaultVector);
      assert (firmware + Le32(DefaultHandler))[..16] == firmware[..16];
      firmware := firmware + Le32(DefaultHandler);
    }
    WordsInPrefix(head, firmware, 0, FirstVectors);
  }

  /** A region of a padded buffer read back from the final image. */
  lemma PaddedRegion(r: Bytes, p: Bytes, lo: nat, hi: nat, b: bv8)
    requires hi == |p| <= |r| && r[..|p|] == p && lo <= hi && AllEqual(p[lo..], b)
    ensures AllEqual(r[lo..hi], b)
  {
    assert r[lo..hi] == p[lo..];
  }

  /** The image from the buffer after each step of `create_uc_firmware_binary`. */
  lemma UcImageLayout(v: Bytes, a: Bytes, code: Bytes, b: Bytes, frer: Bytes, r: Bytes)
    requires IsVectorTable(v)
    requires |a| == ResetCodeAt && a[..VectorTableEnd] == v && AllEqual(a[VectorTableEnd..], 0)
    requires |code| == 2 * |ResetCode| && HalfwordsAt(code, 0, ResetCode)
    requires |b| == ConfigDataAt && b[..ResetCodeEnd] == a + code && AllEqual(b[ResetCodeEnd..], 0xFF)
    requires |frer| == 4 * |FrerConfigData| && WordsAt(frer, 0, FrerConfigData)
    requires |r| == UcSize && r[..ConfigDataEnd] == b + frer && AllEqual(r[ConfigDataEnd..], 0xFF)
    ensures IsAnalysisUcImage(r)
  {
    assert r[..ConfigDataAt] == b && r[ConfigDataAt..ConfigDataEnd] == frer by {
      assert r[..ConfigDataEnd][..ConfigDataAt] == b;
    }
    assert r[..ResetCodeEnd] == a + code by {
      assert r[..ConfigDataAt][..ResetCodeEnd] == b[..ResetCodeEnd];
    }
    assert r[..ResetCodeAt] == a && r[ResetCodeAt..ResetCodeEnd] == code by {
      assert r[..ResetCodeEnd][..ResetCodeAt] == a;
      assert r[..ResetCodeEnd][ResetCodeAt..] == code;
    }
    assert r[..VectorTableEnd] == v by {
      assert r[..ResetCodeAt][..VectorTableEnd] == a[..VectorTableEnd];
    }
    PaddedRegion(r, a, VectorTableEnd, ResetCodeAt, 0);
    PaddedRegion(r, b, ResetCodeEnd, ConfigDataAt, 0xFF);
  }

  /** `create_uc_firmware_binary` without the file write. */
  method CreateUcFirmwareBinary() returns (firmware: Bytes)
    ensures IsAnalysisUcImage(firmware)
  {
    firmware := VectorTable();
    ghost var v := firmware;
    firmware := PadWith(firmware, 0x00, ResetCodeAt);
    ghost var a := firmware;
    var code := PackHalfwords(ResetCode);
    firmware := firmware + code;
    firmware := PadWith(firmware, 0xFF, ConfigDataAt);
    ghost var b := firmware;
    var frer := PackWords(FrerConfigData);
    firmware := firmware + frer;
    firmware := PadWith(firmware, 0xFF, UcSize);
    UcImageLayout(v, a, code, b, frer, firmware);
  }

  /** The reset vector, the default handler in vector 47, and the R-TAG EtherType word at 1036. */
  lemma UcImageWords(r: Bytes)
    requires IsAnalysisUcImage(r)
    ensures ReadLe32(r, 4) == 0x0000_0101 && ReadLe32(r, 188) == DefaultHandler && ReadLe32(r, ConfigDataAt + 12) == 0x0000_F1CD
  {
    var v := r[..VectorTableEnd];
    WordAt(v, 0, FirstVectors, 1);
    RecordAt(v, 16, 4, DefaultVectors, IsDefaultVector, 43);
    ReadLe32Sub(v, 188, 192, 0);
    ReadLe32Frame(r, v, 4);
    ReadLe32Frame(r, v, 188);
    WordAt(r[ConfigDataAt..ConfigDataEnd], 0, FrerConfigData, 3);
    ReadLe32Sub(r, ConfigDataAt, ConfigDataEnd, 12);
  }
}

=== FILE: goldvip_fix.dfy ===
/**
 * The GoldVIP-compatible image generator: a 2236-byte switch image made of
 * 34 fixed words followed by an eight-word port-configuration pattern
 * repeated to the end, and a 320280-byte microcontroller image made of the
 * image-valid marker, a header, a Cortex-M vector table, a NOP sled, six
 * Thumb instructions and six FRER words, then FF FF FF FF 00 00 00 00
 * repeated and cut to size.
 */
module GoldvipFix {
  import opened Bytes
  import opened UcImage

  // ------------------------------------------------------------ switch image

  const SwitchSize: nat := 2236

  /**
   * The fixed words: device id 0x0F0300B7 (bytes B7 00 03 0F), CB_EN,
   * FRMREPEN, features; the P2A, P2B and P4 port blocks; the L2 forwarding
   * entry; a MAC entry; a VLAN entry; the FRER stream with the R-TAG word
   * 0xC1F10000; the static route.
   */
  const SwitchPrefix: seq<bv32> := [
    0x0F03_00B7, 0x0000_0086, 0xDD10_0000, 0x86E0_2CE8,
    0xFFFF_0000, 0x007F_FF9F, 0x9F7F_FF84, 0x0000_0000,
    0xFFFF_0000, 0x007F_FF9F, 0x9F7F_FF86, 0x0000_0000,
    0xFFFF_0000, 0x007F_FF9F, 0x9F7F_FF48, 0x0000_0000,
    0x0000_0004, 0x0000_000C,
    0xFFFF_FFFF, 0xFFFF_FFFF, 0x0000_0001, 0x0000_000C,
    0x0000_0001, 0x0000_07FF, 0x0000_001C,
    0x0000_0001, 0x0000_0010, 0x0000_000C, 0xC1F1_0000, 0x0000_0100,
    0x0000_0004, 0x0000_000C, 0xFFFF_FFFF, 0x0000_0007
  ]

  /** Where the fill pattern starts: 34 words. */
  const PatternStart: nat := 136
  /** The fill: 525 words take the image from 136 to exactly 2236 bytes. */
  const PatternWords: nat := 525

  const ConfigPattern: seq<bv32> := [
    0x00EC_FFFF, 0x9FFF_7F00, 0x00EC_FFFF, 0x9FFF_7F02,
    0x00EC_FFFF, 0x9FFF_7F04, 0x00EC_FFFF, 0x9FFF_7F06
  ]

  /** `config_pattern[k % len(config_pattern)]` */
  function PatternWord(k: nat): bv32
  {
    ConfigPattern[k % 8]
  }

  /** Fill word `k` is `PatternWord(k)`. */
  predicate IsPatternWord(e: Bytes, k: nat)
  {
    |e| == 4 && ReadLe32(e, 0) == PatternWord(k)
  }

  /** Every byte of the switch image: the fixed words, then 525 pattern words. */
  predicate IsGoldvipSwitchImage(r: Bytes)
  {
    |r| == SwitchSize && WordsAt(r, 0, SwitchPrefix) && Records(r, PatternStart, 4, PatternWords, IsPatternWord)
  }

  /** Fill word `k`, packed little-endian. */
  function PatternBytes(k: nat): (e: Bytes)
    ensures IsPatternWord(e, k)
  {
    Le32RoundTrip(PatternWord(k));
    Le32(PatternWord(k))
  }

  /** The words the fill loop has appended after `k` turns. */
  function PatternRun(k: nat): (c: Bytes)
    ensures |c| == 4 * k
  {
    FillRun(PatternBytes, k)
  }

  /** `k` four-byte words, word `i` being `f(i)`. */
  function FillRun(f: nat -> Bytes, k: nat): (c: Bytes)
    requires forall i :: |f(i)| == 4
    ensures |c| == 4 * k
  {
    if k == 0 then [] else FillRun(f, k - 1) + f(k - 1)
  }

  lemma PatternRunRecords(k: nat)
    ensures Records(PatternRun(k), 0, 4, k, IsPatternWord)
  {
    forall j | 0 <= j < k
      ensures 4 * j + 4 <= |PatternRun(k)| && IsPatternWord(PatternRun(k)[0 + 4 * j..0 + 4 * j + 4], j)
    {
      FillRunWord(PatternBytes, k, j);
    }
  }

  /** Word `j` of a run is `f(j)`, whatever comes after it. */
  lemma {:induction false} FillRunWord(f: nat -> Bytes, k: nat, j: nat)
    requires forall i :: |f(i)| == 4
    requires j < k
    ensures FillRun(f, k)[4 * j..4 * j + 4] == f(j)
  {
    var t, w := FillRun(f, k - 1), f(k - 1);
    assert FillRun(f, k) == t + w;
    if j < k - 1 {
      FillRunWord(f, k - 1, j);
      WordKept(t, w, j);
    } else {
      WordAppended(t, w, j);
    }
  }

  lemma WordKept(t: Bytes, w: Bytes, j: nat)
    requires 4 * j + 4 <= |t|
    ensures (t + w)[4 * j..4 * j + 4] == t[4 * j..4 * j + 4]
  {
  }

  lemma WordAppended(t: Bytes, w: Bytes, j: nat)
    requires |t| == 4 * j && |w| == 4
    ensures (t + w)[4 * j..4 * j + 4] == w
  {
  }

  /** The fixed words followed by 525 fill words are the whole image. */
  lemma SwitchImageOf(head: Bytes, k: nat)
    requires |head| == PatternStart && WordsAt(head, 0, SwitchPrefix) && k == PatternWords
    ensures IsGoldvipSwitchImage(head + PatternRun(k))
  {
    PatternRunRecords(k);
    RecordsShift(head, PatternRun(k), 4, k, IsPatternWord);
    WordsPrefix(head, PatternRun(k), 0, SwitchPrefix);
  }

  /** `create_goldvip_switch_firmware` without the file write. */
  method CreateGoldvipSwitchFirmware() returns (fw: Bytes)
    ensures IsGoldvipSwitchImage(fw)
  {
    var head := PackWords(SwitchPrefix);
    fw := head;
    var patternIdx := 0;
    while |fw| < SwitchSize
      invariant |head| == PatternStart && |fw| == PatternStart + 4 * patternIdx
      invariant patternIdx <= PatternWords
      invariant fw == head + PatternRun(patternIdx)
      decreases SwitchSize - |fw|
    {
      var word := Le32(PatternWord(patternIdx));
      assert PatternRun(patternIdx + 1) == PatternRun(patternIdx) + PatternBytes(patternIdx);
      ConcatAssoc(head, PatternRun(patternIdx), word);
      fw := fw + word;
      patternIdx := patternIdx + 1;
    }
    SwitchImageOf(head, patternIdx);
    SliceWhole(fw, SwitchSize);
    fw := Take(fw, SwitchSize);
  }

  /**
   * The image starts with the bytes B7 00 03 0F the hardware reads as
   * 0xB700030F, and its R-TAG word (word 28) lies as 00 00 F1 C1.
   */
  lemma SwitchImageBytes(r: Bytes)
    requires IsGoldvipSwitchImage(r)
    ensures r[..4] == [0xB7, 0x00, 0x03, 0x0F]
    ensures r[112..116] == [0x00, 0x00, 0xF1, 0xC1]
  {
    WordAt(r, 0, SwitchPrefix, 0);
    WordAt(r, 0, SwitchPrefix, 28);
  }

  /** The word at `136 + 4 k` is the pattern word `k mod 8`. */
  lemma SwitchPatternWord(r: Bytes, k: nat)
    requires IsGoldvipSwitchImage(r) && k < PatternWords
    ensures ReadLe32(r, PatternStart + 4 * k) == ConfigPattern[k % 8]
  {
    RecordAt(r, PatternStart, 4, PatternWords, IsPatternWord, k);
    ReadLe32Sub(r, PatternStart + 4 * k, PatternStart + 4 * k + 4, 0);
  }

  // ----------------------------------------------------- microcontroller image

  /** Entry point, size field, version, checksum/config. */
  const UcHeaderWords: seq<bv32> := [0x0000_0024, 0x1212_0000, 0x0000_1200, 0xF8E2_0400]

  /** Initial SP, reset, NMI, the fault handlers, reserved words, SVC, DebugMon, PendSV, SysTick. */
  const VectorTable: seq<bv32> := [
    0x0004_E2F8, 0x0000_01C1, 0x0000_0209, 0x0000_0209,
    0x0000_0209, 0x0000_0209, 0x0000_0209, 0x0000_0000,
    0x0000_0000, 0x0000_0000, 0x0000_0000, 0x0000_0209,
    0x0000_0209, 0x0000_0000, 0x0000_0209, 0x0000_0209
  ]

  /** The Thumb NOP, 00 BF, and how many of them. */
  const Nop: Bytes := [0x00, 0xBF]
  const NopCount: nat := 100

  /** LDR, LDR, CMP, BEQ, STR, BX LR. */
  const InitCode: seq<bv16> := [0x4B20, 0x681A, 0x2A00, 0xD0FE, 0x601A, 0x4770]

  /** FRER enable, the R-TAG EtherType 0xF1C1, stream 1, window, timeout, reserved. */
  const UcFrerConfig: seq<bv32> := [0x0000_0001, 0x0000_F1C1, 0x0000_0001, 0x0000_0100, 0x0000_03E8, 0x0000_0000]

  /** Offsets of the parts: 8 + 16 + 64 = 88, 88 + 200 = 288, 288 + 12 = 300, 300 + 24 = 324. */
  const VectorsAt: nat := 24
  const NopsAt: nat := 88
  const InitCodeAt: nat := 288
  const FrerConfigAt: nat := 300
  const UcHeadSize: nat := 324

  const FillPattern: Bytes := [0xFF, 0xFF, 0xFF, 0xFF, 0x00, 0x00, 0x00, 0x00]
  /** Whole fill blocks in the image; the 39995th is cut after its FF half. */
  const FillBlocks: nat := 39994

  predicate IsNop(e: Bytes, k: nat) { e == Nop }

  predicate IsFillBlock(e: Bytes, k: nat) { e == FillPattern }

  /** The marker, the header words and the vector table: the first 88 bytes. */
  predicate IsUcFront(f: Bytes)
  {
    |f| == NopsAt && f[..8] == Marker && WordsAt(f, 8, UcHeaderWords) && WordsAt(f, VectorsAt, VectorTable)
  }

  /** The 324 bytes before the fill, part by part. */
  predicate IsUcHead(h: Bytes)
  {
    |h| == UcHeadSize && IsUcFront(h[..NopsAt]) && Records(h[NopsAt..InitCodeAt], 0, 2, NopCount, IsNop) &&
    HalfwordsAt(h[InitCodeAt..FrerConfigAt], 0, InitCode) && WordsAt(h[FrerConfigAt..], 0, UcFrerConfig)
  }

  /** Every byte of the microcontroller image. */
  predicate IsGoldvipUcImage(r: Bytes)
  {
    |r| == FullSize && IsUcHead(r[..UcHeadSize]) && Records(r, UcHeadSize, 8, FillBlocks, IsFillBlock) &&
    AllEqual(r[FullSize - 4..], 0xFF)
  }

  /** `for _ in range(100): fw += nop_pattern`, as the bytes appended. */
  method NopSled() returns (e: Bytes)
    ensures |e| == 2 * NopCount && Records(e, 0, 2, NopCount, IsNop)
  {
    e := [];
    for i := 0 to NopCount
      invariant |e| == 2 * i && Records(e, 0, 2, i, IsNop)
    {
      AppendRecord(e, Nop, 0, 2, i, IsNop);
      e := e + Nop;
    }
  }

  lemma UcFrontLayout(m: Bytes, hw: Bytes, vt: Bytes)
    requires m == Marker && |hw| == 16 && WordsAt(hw, 0, UcHeaderWords) && |vt| == 64 && WordsAt(vt, 0, VectorTable)
    ensures IsUcFront(m + hw + vt)
  {
    WordsAppend(m, hw, 0, UcHeaderWords);
    WordsPrefix(m + hw, vt, 8, UcHeaderWords);
    WordsAppend(m + hw, vt, 0, VectorTable);
    assert (m + hw + vt)[..8] == m;
  }

  /** The head from its parts: each part lands at its offset. */
  lemma UcHeadLayout(f: Bytes, nops: Bytes, code: Bytes, frer: Bytes)
    requires IsUcFront(f)
    requires |nops| == 2 * NopCount && Records(nops, 0, 2, NopCount, IsNop)
    requires |code| == 2 * |InitCode| && HalfwordsAt(code, 0, InitCode)
    requires |frer| == 4 * |UcFrerConfig| && WordsAt(frer, 0, UcFrerConfig)
    ensures IsUcHead(f + nops + code + frer)
  {
    var h := f + nops + code + frer;
    assert h[..NopsAt] == f;
    assert h[NopsAt..InitCodeAt] == nops;
    assert h[InitCodeAt..FrerConfigAt] == code;
    assert h[FrerConfigAt..] == frer;
  }

  /** The code part of `create_goldvip_uc_firmware`: everything before the fill loop. */
  method UcHead() returns (fw: Bytes)
    ensures IsUcHead(fw)
  {
    fw := Marker;
    var header := PackWords(UcHeaderWords);
    fw := fw + header;
    var vectors := PackWords(VectorTable);
    fw := fw + vectors;
    UcFrontLayout(Marker, header, vectors);
    ghost var front := fw;
    var nops := NopSled();
    fw := fw + nops;
    var code := PackHalfwords(InitCode);
    fw := fw + code;
    var frer := PackWords(UcFrerConfig);
    fw := fw + frer;
    UcHeadLayout(front, nops, code, frer);
  }

  /**
   * The fill loop stops at 324 + 8 * 39995 = 320284 bytes; the cut keeps
   * 39994 whole blocks and the FF half of the last.
   */
  lemma UcCut(fw: Bytes, head: Bytes)
    requires |fw| == FullSize + 4 && IsUcHead(head) && fw[..UcHeadSize] == head
    requires Records(fw, UcHeadSize, 8, FillBlocks + 1, IsFillBlock)
    ensures IsGoldvipUcImage(fw[..FullSize])
  {
    var r := fw[..FullSize];
    RecordsTake(fw, FullSize, UcHeadSize, 8, FillBlocks, IsFillBlock);
    RecordAt(fw, UcHeadSize, 8, FillBlocks + 1, IsFillBlock, FillBlocks);
    assert r[..UcHeadSize] == head;
    var tail := r[FullSize - 4..];
    forall i | 0 <= i < 4 ensures tail[i] == 0xFF {
      assert tail[i] == fw[FullSize - 4..FullSize + 4][i];
    }
  }

  /** `create_goldvip_uc_firmware` without the file write. */
  method CreateGoldvipUcFirmware() returns (fw: Bytes)
    ensures IsGoldvipUcImage(fw)
  {
    fw := UcHead();
    ghost var head := fw;
    ghost var blocks := 0;
    while |fw| < FullSize
      invariant |fw| == UcHeadSize + 8 * blocks && blocks <= FillBlocks + 1
      invariant fw[..UcHeadSize] == head && Records(fw, UcHeadSize, 8, blocks, IsFillBlock)
      decreases FullSize - |fw|
    {
      AppendRecord(fw, FillPattern, UcHeadSize, 8, blocks, IsFillBlock);
      fw := fw + FillPattern;
      blocks := blocks + 1;
    }
    UcCut(fw, head);
    fw := fw[..FullSize];
  }

  /** The R-TAG EtherType word of the microcontroller's FRER block, and the reset vector. */
  lemma UcImageWords(r: Bytes)
    requires IsGoldvipUcImage(r)
    ensures ReadLe32(r, FrerConfigAt + 4) == 0xF1C1 && ReadLe32(r, VectorsAt + 4) == 0x0000_01C1
  {
    var h := r[..UcHeadSize];
    WordAt(h[FrerConfigAt..], 0, UcFrerConfig, 1);
    ReadLe32Slice(h, FrerConfigAt, 4);
    WordAt(h[..NopsAt], VectorsAt, VectorTable, 1);
    ReadLe32Sub(h, 0, NopsAt, VectorsAt + 4);
    ReadLe32Frame(r, h, FrerConfigAt + 4);
    ReadLe32Frame(r, h, VectorsAt + 4);
  }

  /** Byte `i` of the fill: FF in the first half of each eight-byte block, 00 in the second. */
  lemma UcFillByte(r: Bytes, i: nat)
    requires IsGoldvipUcImage(r) && UcHeadSize <= i < FullSize
    ensures r[i] == if (i - UcHeadSize) % 8 < 4 then 0xFF else 0x00
  {
    var k := (i - UcHeadSize) / 8;
    var j := (i - UcHeadSize) % 8;
    assert i == UcHeadSize + 8 * k + j;
    if k < FillBlocks {
      RecordAt(r, UcHeadSize, 8, FillBlocks, IsFillBlock, k);
      assert r[i] == r[UcHeadSize + 8 * k..UcHeadSize + 8 * k + 8][j];
    } else {
      assert r[i] == r[FullSize - 4..][i - (FullSize - 4)];
    }
  }

  // ------------------------------------------------------------ verification

  /** `verify_binaries`: the three checks it prints, device id, marker and size. */
  datatype Verdict = Verdict(deviceIdOk: bool, markerOk: bool, sizeOk: bool)

  function VerifyBinaries(switchData: Bytes, ucData: Bytes): (v: Verdict)
    requires |switchData| >= 4
    ensures v.deviceIdOk <==> switchData[..4] == [0xB7, 0x00, 0x03, 0x0F]
    ensures v.markerOk <==> HasMarker(ucData)
    ensures v.sizeOk <==> |ucData| == FullSize
  {
    Le32RoundTrip(0x0F03_00B7);
    assert switchData[..4] == [0xB7, 0x00, 0x03, 0x0F] ==> switchData[..4] == Le32(0x0F03_00B7);
    Verdict(ReadLe32(switchData, 0) == 0x0F03_00B7, Take(ucData, 8) == Marker, |ucData| == FullSize)
  }

  /** Both generated images pass all three checks. */
  lemma GoldvipImagesPass(switchFw: Bytes, ucFw: Bytes)
    requires IsGoldvipSwitchImage(switchFw) && IsGoldvipUcImage(ucFw)
    ensures VerifyBinaries(switchFw, ucFw) == Verdict(true, true, true)
  {
    SwitchImageBytes(switchFw);
    assert ucFw[..8] == ucFw[..UcHeadSize][..NopsAt][..8];
  }
}

=== FILE: goldvip_frer.dfy ===
/**
 * The GoldVIP FRER switch configuration: starting from the original blob,
 * overwrite the P2A, P2B and P4 port pairs at fixed offsets and, when the
 * blob is long enough, put a four-word FRER stream block at 0x100. The
 * stored checksum is left as it was. The microcontroller patch of the same
 * tool writes the same six words at 0x1000 as `FrerEnabled.CreateFrerUc`.
 */
module GoldvipFrer {
  import opened Bytes

  /** The port-configuration command word each rewritten pair gets. */
  const PortCommand: bv32 := 0x00EC_FFFF
  /** P4 forwards to P2A and P2B. */
  const P4Value: bv32 := 0x9FFF_7F04
  /** P2A and P2B with the FRER enable bit 31 OR-ed in. */
  const P2aValue: bv32 := 0x9FFF_7F02 | 0x8000_0000
  const P2bValue: bv32 := 0x9FFF_7F03 | 0x8000_0000

  /** Port `p`'s pair sits at `0x10 + 8 p`. */
  const P2aOffset: nat := 0x10 + 2 * 8
  const P2bOffset: nat := 0x10 + 3 * 8
  const P4Offset: nat := 0x10 + 4 * 8

  /** The stream block: stream 1, P4 input mask, P2A|P2B output mask, R-TAG EtherType 0xF1CD. */
  const StreamOffset: nat := 0x100
  const StreamWords: seq<bv32> := [0x0001_0001, 0x0000_0010, 0x0000_000C, 0xF1CD_0000]

  /**
   * `config[at:at+4] = struct.pack('<I', w)`: an overwrite in range, and
   * past the end Python's slice clamping makes it an append.
   */
  function SetWord(s: Bytes, at: nat, w: bv32): (r: Bytes)
    ensures at + 4 <= |s| ==> r == PutLe32(s, at, w)
    ensures |r| == if at <= |s| then Max(|s|, at + 4) else |s| + 4
  {
    SetSlice(s, at, at + 4, Le32(w))
  }

  /** The six pair writes, in the order the tool makes them. */
  function PairsWritten(orig: Bytes): Bytes
  {
    var p4 := SetWord(SetWord(orig, P4Offset, PortCommand), P4Offset + 4, P4Value);
    var p2a := SetWord(SetWord(p4, P2aOffset, PortCommand), P2aOffset + 4, P2aValue);
    SetWord(SetWord(p2a, P2bOffset, PortCommand), P2bOffset + 4, P2bValue)
  }

  /** `create_frer_switch_config` on the loaded blob. */
  function FrerSwitchConfig(orig: Bytes): Bytes
  {
    var c := PairsWritten(orig);
    if StreamOffset + 16 < |c| then PutWords(c, StreamOffset, StreamWords) else c
  }

  method CreateFrerSwitchConfig(switchOrig: Bytes) returns (config: Bytes)
    ensures config == FrerSwitchConfig(switchOrig)
  {
    config := switchOrig;
    config := SetWord(config, P4Offset, PortCommand);
    config := SetWord(config, P4Offset + 4, P4Value);
    config := SetWord(config, P2aOffset, PortCommand);
    config := SetWord(config, P2aOffset + 4, P2aValue);
    config := SetWord(config, P2bOffset, PortCommand);
    config := SetWord(config, P2bOffset + 4, P2bValue);
    if StreamOffset < |config| - 16 {
      config := PutWords(config, StreamOffset, StreamWords);
    }
  }

  /** A word read elsewhere is not disturbed by a write. */
  lemma ReadAfterPut(s: Bytes, at: nat, w: bv32, i: nat)
    requires at + 4 <= |s| && i + 4 <= |s| && (i + 4 <= at || at + 4 <= i)
    ensures ReadLe32(PutLe32(s, at, w), i) == ReadLe32(s, i)
  {
    ReadLe32Frame(PutLe32(s, at, w), s, i);
  }

  /** The P2A, P2B and P4 pairs of `t` hold the values the tool writes. */
  predicate PairsInPlace(t: Bytes)
    requires |t| >= 0x38
  {
    ReadLe32(t, P2aOffset) == PortCommand && ReadLe32(t, P2aOffset + 4) == P2aValue &&
    ReadLe32(t, P2bOffset) == PortCommand && ReadLe32(t, P2bOffset + 4) == P2bValue &&
    ReadLe32(t, P4Offset) == PortCommand && ReadLe32(t, P4Offset + 4) == P4Value
  }

  /** The pairs survive in any buffer that agrees on 0x20..0x37. */
  lemma PairsInPlaceFrame(t: Bytes, u: Bytes)
    requires |t| >= 0x38 && |u| >= 0x38 && PairsInPlace(t)
    requires forall k :: P2aOffset <= k < P4Offset + 8 ==> u[k] == t[k]
    ensures PairsInPlace(u)
  {
    ReadLe32Frame(u, t, 0x20); ReadLe32Frame(u, t, 0x24); ReadLe32Frame(u, t, 0x28);
    ReadLe32Frame(u, t, 0x2C); ReadLe32Frame(u, t, 0x30); ReadLe32Frame(u, t, 0x34);
  }

  /**
   * On a blob of at least 0x38 bytes the three pairs are in place at
   * 0x20..0x37, the length is kept, and no other byte changes.
   */
  lemma PairsWrittenLayout(orig: Bytes)
    requires |orig| >= 0x38
    ensures |PairsWritten(orig)| == |orig| && PairsInPlace(PairsWritten(orig))
    ensures forall k :: 0 <= k < |orig| && !(P2aOffset <= k < P4Offset + 8) ==> PairsWritten(orig)[k] == orig[k]
  {
    var p4 := PutLe32(PutLe32(orig, 0x30, PortCommand), 0x34, P4Value);
    var p2a := PutLe32(PutLe32(p4, 0x20, PortCommand), 0x24, P2aValue);
    var p2b := PutLe32(PutLe32(p2a, 0x28, PortCommand), 0x2C, P2bValue);
    assert PairsWritten(orig) == p2b;
    TwoPuts(orig, 0x30, PortCommand, P4Value);
    TwoPuts(p4, 0x20, PortCommand, P2aValue);
    TwoPuts(p2a, 0x28, PortCommand, P2bValue);
    ReadLe32Frame(p2b, p4, 0x30); ReadLe32Frame(p2b, p4, 0x34);
    ReadLe32Frame(p2b, p2a, 0x20); ReadLe32Frame(p2b, p2a, 0x24);
  }

  /** A command and a value written as one pair at `at`. */
  lemma TwoPuts(s: Bytes, at: nat, cmd: bv32, val: bv32)
    requires at + 8 <= |s|
    ensures var t := PutLe32(PutLe32(s, at, cmd), at + 4, val);
      ReadLe32(t, at) == cmd && ReadLe32(t, at + 4) == val &&
      forall k :: 0 <= k < |s| && !(at <= k < at + 8) ==> t[k] == s[k]
  {
    ReadAfterPut(PutLe32(s, at, cmd), at + 4, val, at);
  }

  /**
   * The FRER enable bit 31 OR-ed into the P2A and P2B values is already set
   * in 0x9FFF7F02 and 0x9FFF7F03: the value words the configuration holds at
   * 0x24 and 0x2C are those two words unchanged.
   */
  lemma FrerBitAlreadySet(orig: Bytes)
    requires |orig| >= 0x38
    ensures ReadLe32(FrerSwitchConfig(orig), P2aOffset + 4) == 0x9FFF_7F02
    ensures ReadLe32(FrerSwitchConfig(orig), P2bOffset + 4) == 0x9FFF_7F03
  {
    FrerSwitchConfigLayout(orig);
  }

  /**
   * On a blob of at least 0x38 bytes: the pairs are in place, the stream
   * block is at 0x100 exactly when `0x100 < len - 16`, and every other byte,
   * the stored checksum at 12..15 among them, is the original's.
   */
  lemma FrerSwitchConfigLayout(orig: Bytes)
    requires |orig| >= 0x38
    ensures |FrerSwitchConfig(orig)| == |orig|
    ensures PairsInPlace(FrerSwitchConfig(orig))
    ensures StreamOffset + 16 < |orig| ==> WordsAt(FrerSwitchConfig(orig), StreamOffset, StreamWords)
    ensures forall k :: (0 <= k < |orig| && !(P2aOffset <= k < P4Offset + 8) &&
      !(StreamOffset + 16 < |orig| && StreamOffset <= k < StreamOffset + 16)) ==> FrerSwitchConfig(orig)[k] == orig[k]
  {
    PairsWrittenLayout(orig);
    var c := PairsWritten(orig);
    if StreamOffset + 16 < |c| {
      PairsInPlaceFrame(c, PutWords(c, StreamOffset, StreamWords));
    }
  }

  /**
   * The length is kept exactly when the blob has at least 0x38 bytes; a
   * shorter one grows, because the pair writes past its end append.
   */
  lemma FrerSwitchConfigLength(orig: Bytes)
    ensures |FrerSwitchConfig(orig)| == |orig| <==> |orig| >= 0x38
    ensures |FrerSwitchConfig(orig)| >= |orig|
  {
    PairsWrittenLength(orig);
    var c := PairsWritten(orig);
    assert |FrerSwitchConfig(orig)| == |c|;
  }

  lemma PairsWrittenLength(orig: Bytes)
    ensures |PairsWritten(orig)| >= |orig|
    ensures |PairsWritten(orig)| == |orig| <==> |orig| >= 0x38
  {
    if |orig| >= 0x38 {
      PairsWrittenLayout(orig);
    } else {
      var a := SetWord(orig, P4Offset, PortCommand);
      var b := SetWord(a, P4Offset + 4, P4Value);
      var c := SetWord(b, P2aOffset, PortCommand);
      var d := SetWord(c, P2aOffset + 4, P2aValue);
      var e := SetWord(d, P2bOffset, PortCommand);
      var f := SetWord(e, P2bOffset + 4, P2bValue);
      assert PairsWritten(orig) == f;
      assert |a| >= |orig| && |b| > |orig| && |c| >= |b| && |d| >= |c| && |e| >= |d| && |f| >= |e|;
    }
  }
}

=== FILE: minimal_frer.dfy ===
/**
 * The "minimal" FRER additions to a GoldVIP switch blob: find out which
 * byte range the stored checksum at 12..15 covers, set bit 31 in the value
 * words of the P2A/P2B port pairs (re-storing the checksum only when it is
 * known to cover bytes 16..), or drop a five-word FRER table into the first
 * all-zero 16-byte run.
 */
module MinimalFrer {
  import opened Bytes
  import opened Crc32
  import opened PairScan

  // ------------------------------------------------------ checksum method

  /** The checksum scopes tried, in order: `data[16:]`, `data[12:]`, `data[4:12]`, none of them. */
  datatype CrcMethod = Data16 | Data12 | Header4To12 | Unknown

  /** The checksum part of `analyze_original_detailed`: the first scope whose CRC-32 equals the word at 12..15. */
  function DetectCrcMethod(data: Bytes): CrcMethod
    requires |data| >= 16
  {
    var field3 := ReadLe32(data, 12);
    if Crc(data[16..]) == field3 then Data16
    else if Crc(data[12..]) == field3 then Data12
    else if Crc(data[4..12]) == field3 then Header4To12
    else Unknown
  }

  /** A blob whose 12..15 hold the CRC-32 of bytes 16.. is recognised as `data[16:]`, whatever it held before. */
  lemma DetectStoredCrc(data: Bytes)
    requires |data| >= 16
    ensures DetectCrcMethod(PutLe32(data, 12, Crc(data[16..]))) == Data16
  {
    var out := PutLe32(data, 12, Crc(data[16..]));
    assert out[16..] == data[16..];
  }

  // ------------------------------------------------------ conservative

  /** Only 0xFFFFEC00 pairs, and only P2A (low byte 0x04) and P2B (0x06): bit 31 is set. */
  const ConservativeRule: Rule := Rule({0xFFFF_EC00}, false)
  const ScanStart: nat := 16

  /** `create_conservative_frer` on the loaded blob. */
  function ConservativeFrer(data: Bytes): (r: Bytes)
    requires |data| >= 16
    ensures |r| == |data|
  {
    var config := PatchPairs(ConservativeRule, data, ScanStart, |data|);
    if !AnyEligible(ConservativeRule, data, ScanStart, |data|) then data
    else if DetectCrcMethod(data) == Data16 then PutLe32(config, 12, Crc(config[16..]))
    else config
  }

  /** One pass of the scan loop: rewrite the pair at `offset` if eligible, and say whether it was. */
  method ConservativePair(config: Bytes, offset: nat) returns (out: Bytes, hit: bool)
    ensures out == PatchPair(ConservativeRule, config, offset)
    ensures hit <==> (offset + 8 <= |config| && ReadLe32(config, offset) in ConservativeRule.cmds &&
      IsFrerPort(ConservativeRule, ReadLe32(config, offset + 4)))
  {
    out := config;
    hit := false;
    if offset + 8 <= |config| {
      var cmd := ReadLe32(config, offset);
      var val := ReadLe32(config, offset + 4);
      ConservativeEligible(val);
      if cmd == 0xFFFF_EC00 {
        var portIndicator := val & 0xFF;
        if portIndicator == 0x04 || portIndicator == 0x06 {
          var newVal := val | 0x8000_0000;
          out := PutLe32(config, offset + 4, newVal);
          hit := true;
        }
      }
    }
  }

  /** Under the conservative rule only P2A and P2B qualify, and they get bit 31. */
  lemma ConservativeEligible(val: bv32)
    ensures IsFrerPort(ConservativeRule, val) <==> (val & 0xFF == 0x04 || val & 0xFF == 0x06)
    ensures (val & 0xFF == 0x04 || val & 0xFF == 0x06) ==> FrerValue(val) == val | 0x8000_0000
  {
  }

  /**
   * `create_conservative_frer`: the pair loop with its `modified` flag, the
   * early return of the unchanged input, and the checksum rewrite for the
   * `data[16:]` scope only (the `data[12:]` branch computes a value it
   * never stores).
   */
  method CreateConservativeFrer(data: Bytes) returns (out: Bytes)
    requires |data| >= 16
    ensures out == ConservativeFrer(data)
  {
    var crcMethod := DetectCrcMethod(data);
    var config := data;
    var modified := false;
    var offset := ScanStart;
    while offset < |config|
      invariant |config| == |data| && ScanStart <= offset
      invariant PatchPairs(ConservativeRule, config, offset, |data|) == PatchPairs(ConservativeRule, data, ScanStart, |data|)
      invariant (modified || AnyEligible(ConservativeRule, config, offset, |data|)) ==
        AnyEligible(ConservativeRule, data, ScanStart, |data|)
      decreases |config| - offset
    {
      var hit;
      config, hit := ConservativePair(config, offset);
      modified := modified || hit;
      offset := offset + 8;
    }
    if !modified {
      return data;
    }
    if crcMethod == Data16 {
      var newCrc := Crc(config[16..]);
      config := PutLe32(config, 12, newCrc);
    }
    out := config;
  }

  /**
   * The result keeps the length; outside the checksum field only value words
   * of scanned pairs differ, each holding `PairValue` of the input (bit 31
   * set on eligible P2A/P2B pairs, the word as it was otherwise).
   */
  lemma ConservativeChanges(data: Bytes)
    requires |data| >= 16
    ensures forall k :: (0 <= k < |data| && !(12 <= k < 16) && !InValueWord(k, ScanStart, |data|)) ==>
      ConservativeFrer(data)[k] == data[k]
    ensures forall p: nat {:trigger IsScanned(p, ScanStart, |data|)} ::
      (IsScanned(p, ScanStart, |data|) && p + 8 <= |data| ==>
      ReadLe32(ConservativeFrer(data), p + 4) == PairValue(ConservativeRule, data, p))
  {
    var config := PatchPairs(ConservativeRule, data, ScanStart, |data|);
    var r := ConservativeFrer(data);
    PatchPairsFrame(ConservativeRule, data, ScanStart, |data|);
    PatchPairsValues(ConservativeRule, data, ScanStart, |data|);
    if !AnyEligible(ConservativeRule, data, ScanStart, |data|) {
      IneligibleUnchanged(ConservativeRule, data, ScanStart, |data|);
    }
    forall p: nat | IsScanned(p, ScanStart, |data|) && p + 8 <= |data|
      ensures ReadLe32(r, p + 4) == PairValue(ConservativeRule, data, p)
    {
      ReadLe32Frame(r, config, p + 4);
    }
  }

  /** With no eligible pair the scan alone already gives back the input, so the early return changes nothing. */
  lemma ConservativeUnmatched(data: Bytes)
    requires |data| >= 16
    requires !AnyEligible(ConservativeRule, data, ScanStart, |data|)
    ensures ConservativeFrer(data) == data
    ensures PatchPairs(ConservativeRule, data, ScanStart, |data|) == data
  {
    IneligibleUnchanged(ConservativeRule, data, ScanStart, |data|);
  }

  /** Bytes 12..15 are rewritten only for the `data[16:]` scope. */
  lemma ConservativeChecksumKept(data: Bytes)
    requires |data| >= 16 && DetectCrcMethod(data) != Data16
    ensures ConservativeFrer(data)[12..16] == data[12..16]
  {
    var config := PatchPairs(ConservativeRule, data, ScanStart, |data|);
    if AnyEligible(ConservativeRule, data, ScanStart, |data|) {
      assert ConservativeFrer(data) == config;
      PatchPairsFrame(ConservativeRule, data, ScanStart, |data|);
      forall k | 12 <= k < 16 ensures config[k] == data[k] {
        assert !InValueWord(k, ScanStart, |data|);
      }
    }
  }

  /**
   * For the `data[16:]` scope, 12..15 of the result hold the CRC-32 of its
   * bytes 16.., so the same scope is detected on the result.
   */
  lemma ConservativeChecksumStored(data: Bytes)
    requires |data| >= 16 && DetectCrcMethod(data) == Data16
    ensures ReadLe32(ConservativeFrer(data), 12) == Crc(ConservativeFrer(data)[16..])
    ensures DetectCrcMethod(ConservativeFrer(data)) == Data16
  {
    if AnyEligible(ConservativeRule, data, ScanStart, |data|) {
      var config := PatchPairs(ConservativeRule, data, ScanStart, |data|);
      var r := PutLe32(config, 12, Crc(config[16..]));
      assert r[16..] == config[16..];
      DetectStoredCrc(config);
    }
  }

  // ------------------------------------------------- original plus table

  /** The FRER marker, stream 1, the P4 input mask, the P2A|P2B output mask, R-TAG EtherType and window. */
  const FrerTableWords: seq<bv32> := [0x4652_4552, 0x0000_0001, 0x0000_0010, 0x0000_000C, 0xF1CD_0100]

  /** The end of `range(len - 16)`, empty below 16 bytes. */
  function PaddingSearchEnd(data: Bytes): (hi: nat)
    ensures hi == 0 || hi + 16 == |data|
  {
    if |data| >= 16 then |data| - 16 else 0
  }

  /** The first `i` in `range(len - 16)` whose 16 bytes are all zero. */
  function PaddingStart(data: Bytes): Option<nat>
  {
    FirstRun(data, 0x00, 16, 0, PaddingSearchEnd(data))
  }

  /**
   * The table loop: each word is written at `at` when it fits, and `at`
   * advances only past a written word.
   */
  function WordsWhileFit(s: Bytes, at: nat, ws: seq<bv32>): (r: Bytes)
    ensures |r| == |s|
    decreases |ws|
  {
    if |ws| == 0 then s
    else if at + 4 <= |s| then WordsWhileFit(PutLe32(s, at, ws[0]), at + 4, ws[1..])
    else WordsWhileFit(s, at, ws[1..])
  }

  /** Every word that fits lands at `at + 4 j`, and nothing outside `[at, at + 4 |ws|)` changes. */
  lemma {:induction false} WordsWhileFitSpec(s: Bytes, at: nat, ws: seq<bv32>)
    ensures forall j :: 0 <= j < |ws| && at + 4 * j + 4 <= |s| ==> ReadLe32(WordsWhileFit(s, at, ws), at + 4 * j) == ws[j]
    ensures forall k :: 0 <= k < |s| && !(at <= k < at + 4 * |ws|) ==> WordsWhileFit(s, at, ws)[k] == s[k]
    decreases |ws|
  {
    if |ws| > 0 {
      var r := WordsWhileFit(s, at, ws);
      if at + 4 <= |s| {
        var t := PutLe32(s, at, ws[0]);
        WordsWhileFitSpec(t, at + 4, ws[1..]);
        ReadLe32Frame(r, t, at);
        forall j | 0 < j < |ws| && at + 4 * j + 4 <= |s| ensures ReadLe32(r, at + 4 * j) == ws[j] {
          assert at + 4 * j == (at + 4) + 4 * (j - 1);
          assert ws[1..][j - 1] == ws[j];
        }
      } else {
        WordsWhileFitSpec(s, at, ws[1..]);
      }
    }
  }

  /** `create_original_plus_frer_table` on the loaded blob; the checksum is left alone. */
  function OriginalPlusFrerTable(original: Bytes): Bytes
  {
    var start := PaddingStart(original);
    if start.Some? && start.value != 0 then WordsWhileFit(original, start.value, FrerTableWords) else original
  }

  method CreateOriginalPlusFrerTable(original: Bytes) returns (config: Bytes)
    ensures config == OriginalPlusFrerTable(original)
  {
    config := original;
    var paddingStart := FindRun(config, 0x00, 16, 0, PaddingSearchEnd(config));
    if paddingStart.Some? && paddingStart.value != 0 {
      var offset: nat := paddingStart.value;
      for j := 0 to |FrerTableWords|
        invariant WordsWhileFit(config, offset, FrerTableWords[j..]) == OriginalPlusFrerTable(original)
      {
        assert FrerTableWords[j..][1..] == FrerTableWords[j + 1..];
        var val := FrerTableWords[j];
        if offset + 4 <= |config| {
          config := PutLe32(config, offset, val);
          offset := offset + 4;
        }
      }
    }
  }

  /**
   * The length never changes. Without a run, or with the first run at 0,
   * the blob is returned as it was. Otherwise the run is the first all-zero
   * one, the first four words always land there, the fifth when it fits,
   * and no byte outside `[i, i + 20)` changes, the checksum field included
   * whenever the run starts at 16 or later.
   */
  lemma OriginalPlusFrerTableSpec(original: Bytes)
    ensures |OriginalPlusFrerTable(original)| == |original|
    ensures (PaddingStart(original).None? || PaddingStart(original) == Some(0)) ==> OriginalPlusFrerTable(original) == original
    ensures PaddingStart(original).Some? && PaddingStart(original).value != 0 ==>
      var i := PaddingStart(original).value;
      i + 16 <= |original| && RunAt(original, i, 16, 0x00) &&
      (forall j :: 0 <= j < i ==> !RunAt(original, j, 16, 0x00)) &&
      WordsAt(OriginalPlusFrerTable(original), i, FrerTableWords[..4]) &&
      (i + 20 <= |original| ==> WordsAt(OriginalPlusFrerTable(original), i, FrerTableWords)) &&
      (forall k :: 0 <= k < |original| && !(i <= k < i + 20) ==> OriginalPlusFrerTable(original)[k] == original[k])
  {
    FirstRunSpec(original, 0x00, 16, 0, PaddingSearchEnd(original));
    var start := PaddingStart(original);
    if start.Some? && start.value != 0 {
      TableWritten(original, start.value);
    }
  }

  /** The table loop at a run of at least 16 bytes. */
  lemma TableWritten(s: Bytes, i: nat)
    requires i + 16 <= |s|
    ensures WordsAt(WordsWhileFit(s, i, FrerTableWords), i, FrerTableWords[..4])
    ensures i + 20 <= |s| ==> WordsAt(WordsWhileFit(s, i, FrerTableWords), i, FrerTableWords)
    ensures forall k :: 0 <= k < |s| && !(i <= k < i + 20) ==> WordsWhileFit(s, i, FrerTableWords)[k] == s[k]
  {
    WordsWhileFitSpec(s, i, FrerTableWords);
  }
}

=== FILE: pair_scan.dfy ===
/**
 * The value-word rewrite the final fix, the FRER-enabled fallback and the
 * conservative minimal patch apply to a switch blob: walk `offset, offset + 8, ...` below an end,
 * and for every (command, value) pair whose command is one of a given set
 * and whose value's low byte names P4, P2A or P2B, OR the FRER bits into
 * the value word in place.
 */
module PairScan {
  import opened Bytes

  /**
   * Which pairs a scan rewrites: those whose command word is in `cmds`, and
   * whose value names P2A or P2B, or P4 as well when `withP4` holds.
   */
  datatype Rule = Rule(cmds: set<bv32>, withP4: bool)

  /** The low byte names the port: 0x08 is P4, 0x04 is P2A, 0x06 is P2B. */
  predicate IsFrerPort(rule: Rule, val: bv32)
  {
    (rule.withP4 && val & 0xFF == 0x08) || val & 0xFF == 0x04 || val & 0xFF == 0x06
  }

  /** P4 forwards to ports 2 and 3 (bits 0x0C); P2A and P2B get the FRER bit 31. */
  function FrerValue(val: bv32): (r: bv32)
    ensures val & 0xFF == 0x08 ==> r == val | 0x0C
    ensures (val & 0xFF == 0x04 || val & 0xFF == 0x06) ==> r == val | 0x8000_0000
    ensures !(val & 0xFF == 0x08 || val & 0xFF == 0x04 || val & 0xFF == 0x06) ==> r == val
  {
    if val & 0xFF == 0x08 then val | 0x0C
    else if val & 0xFF == 0x04 || val & 0xFF == 0x06 then val | 0x8000_0000
    else val
  }

  /** The value word the pair at `p` of `s` carries once the scan has passed it. */
  function PairValue(rule: Rule, s: Bytes, p: nat): bv32
    requires p + 8 <= |s|
  {
    var cmd := ReadLe32(s, p);
    var val := ReadLe32(s, p + 4);
    if cmd in rule.cmds && IsFrerPort(rule, val) then FrerValue(val) else val
  }

  /** One iteration of the scan at `offset`: rewrite the value word of an eligible pair. */
  function PatchPair(rule: Rule, s: Bytes, offset: nat): (r: Bytes)
    ensures |r| == |s|
    ensures forall k :: 0 <= k < |s| && !(offset + 4 <= k < offset + 8) ==> r[k] == s[k]
    ensures offset + 8 <= |s| ==> ReadLe32(r, offset + 4) == PairValue(rule, s, offset)
  {
    if offset + 8 <= |s| && ReadLe32(s, offset) in rule.cmds && IsFrerPort(rule, ReadLe32(s, offset + 4)) then
      PutLe32(s, offset + 4, FrerValue(ReadLe32(s, offset + 4)))
    else
      s
  }

  /** The scan over `offset, offset + 8, ...` below `end`. */
  function PatchPairs(rule: Rule, s: Bytes, offset: nat, end: nat): (r: Bytes)
    ensures |r| == |s|
    decreases end - offset
  {
    if offset >= end then s else PatchPairs(rule, PatchPair(rule, s, offset), offset + 8, end)
  }

  /** `p` is one of the offsets `offset, offset + 8, ...` below `end`. */
  predicate IsScanned(p: nat, offset: nat, end: nat)
    ensures IsScanned(p, offset, end) ==> offset <= p < end
    decreases end - offset
  {
    offset < end && (p == offset || IsScanned(p, offset + 8, end))
  }

  /** Byte `k` lies in the value word of a scanned pair. */
  predicate InValueWord(k: nat, offset: nat, end: nat)
    ensures InValueWord(k, offset, end) ==> offset + 4 <= k < end + 8
    decreases end - offset
  {
    offset < end && ((offset + 4 <= k < offset + 8) || InValueWord(k, offset + 8, end))
  }

  /** The scan keeps the length and every byte outside the value words of scanned pairs. */
  lemma {:induction false} PatchPairsFrame(rule: Rule, s: Bytes, offset: nat, end: nat)
    ensures |PatchPairs(rule, s, offset, end)| == |s|
    ensures forall k :: 0 <= k < |s| && !InValueWord(k, offset, end) ==> PatchPairs(rule, s, offset, end)[k] == s[k]
    decreases end - offset
  {
    if offset < end {
      PatchPairsFrame(rule, PatchPair(rule, s, offset), offset + 8, end);
    }
  }

  /** Each scanned pair that fits carries `PairValue` of the scan's input. */
  lemma {:induction false} PatchPairsValues(rule: Rule, s: Bytes, offset: nat, end: nat)
    ensures forall p: nat {:trigger IsScanned(p, offset, end)} :: IsScanned(p, offset, end) && p + 8 <= |s| ==>
      |PatchPairs(rule, s, offset, end)| == |s| && ReadLe32(PatchPairs(rule, s, offset, end), p + 4) == PairValue(rule, s, p)
    decreases end - offset
  {
    if offset < end {
      var t := PatchPair(rule, s, offset);
      PatchPairsValues(rule, t, offset + 8, end);
      forall p: nat | IsScanned(p, offset, end) && p + 8 <= |s|
        ensures ReadLe32(PatchPairs(rule, s, offset, end), p + 4) == PairValue(rule, s, p)
      {
        if p == offset {
          FirstPairValue(rule, s, offset, end);
        } else {
          assert IsScanned(p, offset + 8, end);
          PairValueFrame(rule, t, s, p);
        }
      }
    }
  }

  /** The pair the scan starts at carries `PairValue` once the whole scan is done. */
  lemma FirstPairValue(rule: Rule, s: Bytes, offset: nat, end: nat)
    requires offset < end && offset + 8 <= |s|
    ensures ReadLe32(PatchPairs(rule, s, offset, end), offset + 4) == PairValue(rule, s, offset)
  {
    var t := PatchPair(rule, s, offset);
    PairUntouched(rule, t, offset, end);
    ReadLe32Frame(PatchPairs(rule, t, offset + 8, end), t, offset + 4);
  }

  /** A pair's value after the scan depends only on its own eight bytes. */
  lemma PairValueFrame(rule: Rule, s: Bytes, t: Bytes, p: nat)
    requires p + 8 <= |s| && p + 8 <= |t|
    requires forall k :: p <= k < p + 8 ==> s[k] == t[k]
    ensures PairValue(rule, s, p) == PairValue(rule, t, p)
  {
    ReadLe32Frame(s, t, p);
    ReadLe32Frame(s, t, p + 4);
  }

  /** The scan from `offset + 8` on leaves the pair at `offset` alone. */
  lemma PairUntouched(rule: Rule, t: Bytes, offset: nat, end: nat)
    requires offset + 8 <= |t|
    ensures |PatchPairs(rule, t, offset + 8, end)| == |t|
    ensures forall k :: offset <= k < offset + 8 ==> PatchPairs(rule, t, offset + 8, end)[k] == t[k]
  {
    PatchPairsFrame(rule, t, offset + 8, end);
    forall k | offset <= k < offset + 8 ensures PatchPairs(rule, t, offset + 8, end)[k] == t[k] {
      assert !InValueWord(k, offset + 8, end);
    }
  }

  /** The command word of a scanned pair is never inside any value word. */
  lemma {:induction false} CommandNotInValueWord(p: nat, k: nat, offset: nat, end: nat)
    requires IsScanned(p, offset, end) && p <= k < p + 4
    ensures !InValueWord(k, offset, end)
    decreases end - offset
  {
    if p != offset {
      CommandNotInValueWord(p, k, offset + 8, end);
    }
  }

  /** A buffer on which every scanned pair is already settled goes through the scan unchanged. */
  lemma {:induction false} PatchPairsFixed(rule: Rule, s: Bytes, offset: nat, end: nat)
    requires forall p: nat {:trigger IsScanned(p, offset, end)} :: IsScanned(p, offset, end) ==> PatchPair(rule, s, p) == s
    ensures PatchPairs(rule, s, offset, end) == s
    decreases end - offset
  {
    if offset < end {
      assert IsScanned(offset, offset, end);
      forall p: nat | IsScanned(p, offset + 8, end) ensures PatchPair(rule, s, p) == s {
        assert IsScanned(p, offset, end);
      }
      PatchPairsFixed(rule, s, offset + 8, end);
    }
  }

  /** `FrerValue` settles a value: its low byte is no longer 0x08, or OR-ing bit 31 again changes nothing. */
  lemma FrerValueSettled(rule: Rule, val: bv32)
    requires IsFrerPort(rule, val)
    ensures IsFrerPort(rule, FrerValue(val)) ==> FrerValue(FrerValue(val)) == FrerValue(val)
  {
  }

  /** Every scanned pair of the scan's output is settled. */
  lemma PairSettled(rule: Rule, s: Bytes, offset: nat, end: nat, p: nat)
    requires IsScanned(p, offset, end)
    ensures PatchPair(rule, PatchPairs(rule, s, offset, end), p) == PatchPairs(rule, s, offset, end)
  {
    var r := PatchPairs(rule, s, offset, end);
    PatchPairsFrame(rule, s, offset, end);
    PatchPairsValues(rule, s, offset, end);
    if p + 8 <= |r| {
      forall k | p <= k < p + 4 ensures r[k] == s[k] {
        CommandNotInValueWord(p, k, offset, end);
      }
      ReadLe32Frame(r, s, p);
      var val := ReadLe32(s, p + 4);
      if ReadLe32(s, p) in rule.cmds && IsFrerPort(rule, val) {
        FrerValueSettled(rule, val);
        if IsFrerPort(rule, FrerValue(val)) {
          PutLe32Same(r, p + 4);
        }
      }
    }
  }

  /** Running the pair scan on its own output changes nothing. */
  lemma PatchPairsIdempotent(rule: Rule, s: Bytes, offset: nat, end: nat)
    ensures PatchPairs(rule, PatchPairs(rule, s, offset, end), offset, end) == PatchPairs(rule, s, offset, end)
  {
    var r := PatchPairs(rule, s, offset, end);
    forall p: nat | IsScanned(p, offset, end) ensures PatchPair(rule, r, p) == r {
      PairSettled(rule, s, offset, end, p);
    }
    PatchPairsFixed(rule, r, offset, end);
  }

  /** Some pair the scan visits fits in `s` and is eligible for a rewrite. */
  predicate AnyEligible(rule: Rule, s: Bytes, offset: nat, end: nat)
    decreases end - offset
  {
    offset < end &&
    ((offset + 8 <= |s| && ReadLe32(s, offset) in rule.cmds && IsFrerPort(rule, ReadLe32(s, offset + 4))) ||
     AnyEligible(rule, s, offset + 8, end))
  }

  /** With no eligible pair the scan changes nothing. */
  lemma {:induction false} IneligibleUnchanged(rule: Rule, s: Bytes, offset: nat, end: nat)
    requires !AnyEligible(rule, s, offset, end)
    ensures PatchPairs(rule, s, offset, end) == s
    decreases end - offset
  {
    if offset < end {
      IneligibleUnchanged(rule, s, offset + 8, end);
    }
  }
}

=== FILE: proper_config.dfy ===
/**
 * The "proper" SJA1110 configuration generator: a 16-byte LE device header
 * (device id, version, timestamp, CRC) followed by six tables, each with a
 * 12-byte header (id, entry count, data size, a CRC word left at 0). The
 * CRC at bytes 12..15 covers the whole buffer with that field zeroed.
 */
module ProperConfig {
  import opened Bytes
  import opened Crc32

  // Table ids.
  const BlkidL2Lookup: bv32 := 0x05
  const BlkidL2Policing: bv32 := 0x06
  const BlkidVlanLookup: bv32 := 0x07
  const BlkidL2Forwarding: bv32 := 0x08
  const BlkidMacConfig: bv32 := 0x09
  const BlkidL2LookupParams: bv32 := 0x0D
  const BlkidL2ForwardingParams: bv32 := 0x0E
  const BlkidGeneralParams: bv32 := 0x11
  const BlkidXmiiModeParams: bv32 := 0x4E

  const NumPorts: nat := 11
  /** Stored LE, so the image starts 0F 03 00 B7. */
  const DeviceId: bv32 := 0xB700_030F
  const Version: bv32 := 0x0000_0100

  /** Bytes of one configuration: header 16, tables 100 + 364 + 24 + 56 + 20 + 16. */
  const ConfigSize: nat := 596

  // ------------------------------------------------------------ table header

  /** `add_table_header`: LE id, LE count, LE data size and a zero CRC word. */
  function TableHeader(id: bv32, count: bv16, size: bv16): (h: Bytes)
    ensures |h| == 12
    ensures ReadLe32(h, 0) == id && ReadLe16(h, 4) == count && ReadLe16(h, 6) == size && ReadLe32(h, 8) == 0
  {
    Le32RoundTrip(id);
    Le16RoundTrip(count);
    Le16RoundTrip(size);
    Le32RoundTrip(0);
    Le32(id) + Le16(count) + Le16(size) + Le32(0)
  }

  /**
   * A table: its header names `id` and `count`, its size field is the
   * number of data bytes that follow, and its CRC word is 0.
   */
  predicate Framed(t: Bytes, id: bv32, count: bv16)
  {
    12 <= |t| < 12 + 0x1_0000 &&
    ReadLe32(t, 0) == id && ReadLe16(t, 4) == count && ReadLe16(t, 6) == (|t| - 12) as bv16 && ReadLe32(t, 8) == 0
  }

  /** `header + table_data`, the header built from the data's length. */
  lemma FramedTable(data: Bytes, id: bv32, count: bv16)
    requires |data| < 0x1_0000
    ensures Framed(TableHeader(id, count, |data| as bv16) + data, id, count)
    ensures (TableHeader(id, count, |data| as bv16) + data)[12..] == data
  {
    var h := TableHeader(id, count, |data| as bv16);
    ReadLe32Prefix(h, data, 0);
    ReadLe32Prefix(h, data, 8);
    ReadLe16Frame(h + data, h, 4);
    ReadLe16Frame(h + data, h, 6);
  }

  // ------------------------------------------------------------ L2 forwarding

  /** Port 4 (the FRER input) reaches and floods only ports 2 and 3; every other port all 11. */
  function ForwardMask(port: nat): bv32
  {
    if port == 4 then (1 << 2) | (1 << 3) else 0x7FF
  }

  predicate IsL2Entry(e: Bytes, port: nat)
  {
    |e| == 8 && ReadLe32(e, 0) == ForwardMask(port) && ReadLe32(e, 4) == ForwardMask(port)
  }

  predicate IsL2ForwardingTable(t: Bytes)
  {
    Framed(t, BlkidL2Forwarding, 11) && |t| == 100 && Records(t, 12, 8, 11, IsL2Entry)
  }

  /** `create_l2_forwarding_table`: 11 entries of (reachable ports, broadcast domain). */
  method CreateL2ForwardingTable() returns (t: Bytes)
    ensures IsL2ForwardingTable(t)
  {
    var data: Bytes := [];
    for port := 0 to NumPorts
      invariant |data| == 8 * port && Records(data, 0, 8, port, IsL2Entry)
    {
      var reachPort: bv32 := 0x7FF;
      var bcDomain: bv32 := 0x7FF;
      if port == 4 {
        reachPort := (1 << 2) | (1 << 3);
        bcDomain := (1 << 2) | (1 << 3);
      } else if port == 2 {
        reachPort := 0x7FF;
        bcDomain := 0x7FF;
      } else if port == 3 {
        reachPort := 0x7FF;
        bcDomain := 0x7FF;
      }
      var entry := Le32Pair(reachPort, bcDomain);
      AppendRecord(data, entry, 0, 8, port, IsL2Entry);
      data := data + entry;
    }
    FramedTable(data, BlkidL2Forwarding, 11);
    t := TableHeader(BlkidL2Forwarding, 11, |data| as bv16) + data;
    RecordsShift(TableHeader(BlkidL2Forwarding, 11, |data| as bv16), data, 8, 11, IsL2Entry);
  }

  // ---------------------------------------------------------------- MAC config

  /** Bit 31 of word 3 enables FRER, on the two FRER output ports 2 and 3 only. */
  function FrerEnableWord(port: nat): bv32
  {
    if port == 2 || port == 3 then 0x8000_0000 else 0
  }

  /** A 32-byte MAC entry: enable 1, speed 1, then 0, the FRER word, and zeros. */
  predicate IsMacEntry(e: Bytes, port: nat)
  {
    |e| == 32 &&
    ReadLe32(e, 0) == 1 && ReadLe32(e, 4) == 1 && ReadLe32(e, 8) == 0 && ReadLe32(e, 12) == FrerEnableWord(port) &&
    AllEqual(e[16..], 0)
  }

  /** The loop body of `create_mac_config_table`. */
  method MakeMacEntry(port: nat) returns (e: Bytes)
    ensures IsMacEntry(e, port)
  {
    e := Zeros(32);
    e := PutLe32(e, 0, 1);
    ghost var e1 := e;
    e := PutLe32(e, 4, 1);
    ghost var e2 := e;
    e := PutLe32(e, 8, 0);
    ghost var e3 := e;
    if port == 2 || port == 3 {
      e := PutLe32(e, 12, 0x8000_0000);
    } else {
      ReadLe32Frame(e, Zeros(32), 12);
    }
    ReadLe32Frame(e, e1, 0);
    ReadLe32Frame(e, e2, 4);
    ReadLe32Frame(e, e3, 8);
    assert forall i :: 0 <= i < 16 ==> e[16..][i] == e[16 + i];
  }

  predicate IsMacTable(t: Bytes)
  {
    Framed(t, BlkidMacConfig, 11) && |t| == 364 && Records(t, 12, 32, 11, IsMacEntry)
  }

  /** `create_mac_config_table`: 11 entries of 32 bytes. */
  method CreateMacConfigTable() returns (t: Bytes)
    ensures IsMacTable(t)
  {
    var data: Bytes := [];
    for port := 0 to NumPorts
      invariant |data| == 32 * port && Records(data, 0, 32, port, IsMacEntry)
    {
      var entry := MakeMacEntry(port);
      AppendRecord(data, entry, 0, 32, port, IsMacEntry);
      data := data + entry;
    }
    FramedTable(data, BlkidMacConfig, 11);
    t := TableHeader(BlkidMacConfig, 11, |data| as bv16) + data;
    RecordsShift(TableHeader(BlkidMacConfig, 11, |data| as bv16), data, 32, 11, IsMacEntry);
  }

  // ------------------------------------------------------ single-entry tables

  /** MAX_DYNP 0xFFF, Part_SPC 1, reserved. */
  const L2ForwardingParams: seq<bv32> := [0x0FFF, 1, 0]

  /** VLLUPFORMAT 1, MIRR_PTACU 0, SWITCHID, HOSTPRIO 0, both MAC_FLTRES 0x180, zeros. */
  const GeneralParams: seq<bv32> := [1, 0, DeviceId, 0, 0x180, 0x180, 0, 0, 0, 0, 0]

  /** A one-entry table whose data is the LE words `ws`. */
  predicate IsWordTable(t: Bytes, id: bv32, ws: seq<bv32>)
  {
    Framed(t, id, 1) && |t| == 12 + 4 * |ws| && WordsAt(t, 12, ws)
  }

  lemma WordTableShape(data: Bytes, id: bv32, ws: seq<bv32>)
    requires |data| == 4 * |ws| < 0x1_0000 && WordsAt(data, 0, ws)
    ensures IsWordTable(TableHeader(id, 1, |data| as bv16) + data, id, ws)
  {
    var h := TableHeader(id, 1, |data| as bv16);
    FramedTable(data, id, 1);
    WordsAppend(h, data, 0, ws);
  }

  /** The shared shape of the one-entry builders: header, then the entry's LE words. */
  method WordTable(id: bv32, ws: seq<bv32>) returns (t: Bytes)
    requires 4 * |ws| < 0x1_0000
    ensures IsWordTable(t, id, ws)
  {
    var data := Le32s(ws);
    Le32sWords(ws);
    WordTableShape(data, id, ws);
    t := TableHeader(id, 1, |data| as bv16) + data;
  }

  /** `create_l2_forwarding_params`: one 12-byte entry. */
  method CreateL2ForwardingParams() returns (t: Bytes)
    ensures IsWordTable(t, BlkidL2ForwardingParams, L2ForwardingParams) && |t| == 24
  {
    t := WordTable(BlkidL2ForwardingParams, L2ForwardingParams);
  }

  /** `create_general_params`: one 44-byte entry carrying the switch id. */
  method CreateGeneralParams() returns (t: Bytes)
    ensures IsWordTable(t, BlkidGeneralParams, GeneralParams) && |t| == 56
    ensures ReadLe32(t, 12 + 8) == DeviceId
  {
    t := WordTable(BlkidGeneralParams, GeneralParams);
    assert ReadLe32(t, 12 + 4 * 2) == GeneralParams[2];
  }

  /** `create_xmii_params`: one 4-byte entry, the default MII mode 0. */
  method CreateXmiiParams() returns (t: Bytes)
    ensures IsWordTable(t, BlkidXmiiModeParams, [0]) && |t| == 16
  {
    t := WordTable(BlkidXmiiModeParams, [0]);
  }

  /** VLAN 1 with all 11 ports as members and broadcast targets, untagged. */
  predicate IsVlanTable(t: Bytes)
  {
    Framed(t, BlkidVlanLookup, 1) && |t| == 20 &&
    ReadLe16(t, 12) == 1 && ReadLe16(t, 14) == 0x7FF && ReadLe16(t, 16) == 0x7FF && ReadLe16(t, 18) == 0
  }

  /** `create_vlan_lookup_table`: one 8-byte entry. */
  method CreateVlanLookupTable() returns (t: Bytes)
    ensures IsVlanTable(t)
  {
    var entry := Le16(0x0001) + Le16(0x07FF) + Le16(0x07FF) + Le16(0x0000);
    FramedTable(entry, BlkidVlanLookup, 1);
    var h := TableHeader(BlkidVlanLookup, 1, |entry| as bv16);
    t := h + entry;
  }

  // ------------------------------------------------------------ configuration

  /** The configuration before its CRC is stored: header words, then the six tables in order. */
  predicate IsConfigBody(b: Bytes)
  {
    |b| == ConfigSize &&
    ReadLe32(b, 0) == DeviceId && ReadLe32(b, 4) == Version && ReadLe32(b, 8) == 0 &&
    IsL2ForwardingTable(b[16..116]) && IsMacTable(b[116..480]) &&
    IsWordTable(b[480..504], BlkidL2ForwardingParams, L2ForwardingParams) &&
    IsWordTable(b[504..560], BlkidGeneralParams, GeneralParams) &&
    IsVlanTable(b[560..580]) && IsWordTable(b[580..596], BlkidXmiiModeParams, [0])
  }

  /** Where each part lands in the concatenation. */
  lemma BodyLayout(h: Bytes, l: Bytes, m: Bytes, p: Bytes, g: Bytes, v: Bytes, x: Bytes)
    requires |h| == 16 && |l| == 100 && |m| == 364 && |p| == 24 && |g| == 56 && |v| == 20 && |x| == 16
    ensures var b := h + l + m + p + g + v + x;
      |b| == ConfigSize && b[..16] == h && b[16..116] == l && b[116..480] == m && b[480..504] == p &&
      b[504..560] == g && b[560..580] == v && b[580..596] == x
  {
    var b := h + l + m + p + g + v + x;
    assert b[..16] == h;
    assert b[16..116] == l;
    assert b[116..480] == m;
    assert b[480..504] == p;
    assert b[504..560] == g;
    assert b[560..580] == v;
    assert b[580..596] == x;
  }

  /** Header words read through the first 16 bytes. */
  lemma HeaderWords(b: Bytes, h: Bytes)
    requires |b| >= 16 && b[..16] == h && WordsAt(h, 0, [DeviceId, Version, 0, 0])
    ensures ReadLe32(b, 0) == DeviceId && ReadLe32(b, 4) == Version && ReadLe32(b, 8) == 0 && ReadLe32(b, 12) == 0
  {
    PrefixAgree(b, h, 16);
    assert ReadLe32(h, 4 * 0) == DeviceId && ReadLe32(h, 4 * 1) == Version && ReadLe32(h, 4 * 2) == 0 && ReadLe32(h, 4 * 3) == 0;
    ReadLe32Frame(b, h, 0);
    ReadLe32Frame(b, h, 4);
    ReadLe32Frame(b, h, 8);
    ReadLe32Frame(b, h, 12);
  }

  /** The device header and the six tables of `generate_configuration`, CRC field still 0. */
  method BuildBody() returns (b: Bytes)
    ensures IsConfigBody(b) && ReadLe32(b, 12) == 0
  {
    var h := Le32s([DeviceId, Version, 0, 0]);
    Le32sWords([DeviceId, Version, 0, 0]);
    var l := CreateL2ForwardingTable();
    var m := CreateMacConfigTable();
    var p := CreateL2ForwardingParams();
    var g := CreateGeneralParams();
    var v := CreateVlanLookupTable();
    var x := CreateXmiiParams();
    b := h;
    b := b + l;
    b := b + m;
    b := b + p;
    b := b + g;
    b := b + v;
    b := b + x;
    BodyLayout(h, l, m, p, g, v, x);
    HeaderWords(b, h);
  }

  /** The body's meaning does not depend on its CRC field. */
  lemma BodyIgnoresCrcField(a: Bytes, b: Bytes)
    requires IsConfigBody(a) && |b| == |a| && a[..12] == b[..12] && a[16..] == b[16..]
    ensures IsConfigBody(b)
  {
    PrefixAgree(a, b, 12);
    ReadLe32Frame(a, b, 0);
    ReadLe32Frame(a, b, 4);
    ReadLe32Frame(a, b, 8);
    SuffixAgree(a, b, 16);
  }

  // ------------------------------------------------------------------ CRC

  /** `config[12:16] = b'\x00' * 4` on a copy. */
  function ZeroCrcField(c: Bytes): (r: Bytes)
    requires |c| >= 16
    ensures |r| == |c| && r[..12] == c[..12] && r[16..] == c[16..] && AllEqual(r[12..16], 0)
  {
    var r := PutBytes(c, 12, Zeros(4));
    assert r[..12] == c[..12] && r[16..] == c[16..];
    r
  }

  /** `verify_configuration`: the stored CRC against the CRC of the buffer with that field zeroed. */
  function VerifyConfiguration(config: Bytes): (ok: bool)
    requires |config| >= 16
    ensures ok <==> ReadLe32(config, 12) == Crc(config[..12] + Zeros(4) + config[16..])
  {
    var r := ZeroCrcField(config);
    assert r == config[..12] + Zeros(4) + config[16..];
    Crc(r) == ReadLe32(config, 12)
  }

  /** Storing a value in the CRC field leaves the zeroed copy unchanged. */
  lemma ZeroCrcFieldIgnoresStored(c: Bytes, w: bv32)
    requires |c| >= 16
    ensures ZeroCrcField(PutLe32(c, 12, w)) == ZeroCrcField(c)
  {
    var a := ZeroCrcField(PutLe32(c, 12, w));
    var b := ZeroCrcField(c);
    assert a[..12] == b[..12];
    assert a[16..] == b[16..];
    assert a[12..16] == b[12..16];
    assert a == a[..12] + a[12..16] + a[16..];
    assert b == b[..12] + b[12..16] + b[16..];
  }

  /**
   * Exactly one stored value passes `verify_configuration`: the CRC of the
   * buffer with its field zeroed, whatever was there before.
   */
  lemma StoredCrcUnique(c: Bytes, w: bv32)
    requires |c| >= 16
    ensures VerifyConfiguration(PutLe32(c, 12, w)) <==> w == Crc(ZeroCrcField(c))
  {
    ZeroCrcFieldIgnoresStored(c, w);
  }

  /** Sealing a fresh configuration keeps it a configuration body. */
  lemma SealedFresh(body: Bytes, crc: bv32)
    requires IsConfigBody(body)
    ensures IsConfigBody(PutLe32(body, 12, crc))
  {
    var c := PutLe32(body, 12, crc);
    assert c[..12] == body[..12] && c[16..] == body[16..];
    BodyIgnoresCrcField(body, c);
  }

  /** Sealing after earlier configurations leaves the new block untouched. */
  lemma SealedAppended(before: Bytes, body: Bytes, crc: bv32)
    requires |before| >= 16 && |body| >= 16
    ensures var c := PutLe32(before + body, 12, crc);
      c[|before|..] == body && ReadLe32(c, |before| + 12) == ReadLe32(body, 12)
  {
    var joined := before + body;
    var c := PutLe32(joined, 12, crc);
    assert c[|before|..] == body;
    ReadLe32Frame(c, joined, |before| + 12);
    ReadLe32Append(before, body, 12);
  }

  /**
   * Appending a body to whole configurations and storing the CRC of the
   * zeroed buffer: the new block is a configuration body, earlier bytes other
   * than the CRC field are kept, and the buffer verifies.
   */
  lemma AppendedAndSealed(before: Bytes, body: Bytes, crc: bv32)
    requires (before == [] || |before| >= ConfigSize) && IsConfigBody(body) && ReadLe32(body, 12) == 0
    requires crc == Crc(ZeroCrcField(before + body))
    ensures var c := PutLe32(before + body, 12, crc);
      |c| == |before| + ConfigSize &&
      IsConfigBody(c[|before|..]) &&
      (before != [] ==> ReadLe32(c, |before| + 12) == 0) &&
      (forall k :: 0 <= k < |before| && !(12 <= k < 16) ==> c[k] == before[k]) &&
      VerifyConfiguration(c)
  {
    StoredCrcUnique(before + body, crc);
    if before == [] {
      assert before + body == body;
      SealedFresh(body, crc);
    } else {
      SealedAppended(before, body, crc);
    }
  }

  /** `SJA1110ProperConfig`: only `config_data` changes across calls. */
  class ConfigGenerator {
    var configData: Bytes

    /** The buffer is empty or holds at least one configuration, so its CRC field exists. */
    ghost predicate Valid()
      reads this
    {
      configData == [] || |configData| >= ConfigSize
    }

    constructor()
      ensures Valid() && configData == []
    {
      configData := [];
    }

    /**
     * `generate_configuration`: appends a header and the six tables to
     * `config_data`, then stores at 12..15 the CRC of the whole buffer
     * with that field zeroed. On a fresh object the result is one
     * 596-byte configuration; on a second call the new block keeps a zero
     * CRC field and the first block's field is recomputed over both.
     */
    method GenerateConfiguration() returns (r: Bytes)
      requires Valid()
      modifies this
      ensures Valid() && r == configData
      ensures |configData| == |old(configData)| + ConfigSize
      ensures IsConfigBody(configData[|old(configData)|..])
      ensures old(configData) != [] ==> ReadLe32(configData, |old(configData)| + 12) == 0
      ensures forall k :: 0 <= k < |old(configData)| && !(12 <= k < 16) ==> configData[k] == old(configData)[k]
      ensures VerifyConfiguration(configData)
    {
      var body := BuildBody();
      ghost var before := configData;
      configData := configData + body;
      var configWithoutCrc := ZeroCrcField(configData);
      var crc := Crc(configWithoutCrc);
      configData := PutLe32(configData, 12, crc);
      AppendedAndSealed(before, body, crc);
      r := configData;
    }
  }

  /** `verify_configuration(generate_configuration())` on a fresh generator: 596 bytes that pass. */
  method GenerateFresh() returns (config: Bytes)
    ensures |config| == ConfigSize && IsConfigBody(config) && VerifyConfiguration(config)
  {
    var g := new ConfigGenerator();
    config := g.GenerateConfiguration();
  }
}

=== FILE: proper_frer_config.dfy ===
/**
 * Three candidate switch images for FRER bring-up, each exactly 2236 bytes:
 * V1 (a forwarding pair and filler pairs), V2 (port pairs, a stream record
 * and numbered filler pairs) and V3 (NXP-style L2 forwarding and MAC
 * tables); and two microcontroller images behind the image-valid marker.
 */
module ProperFrerConfig {
  import opened Bytes
  import opened UcImage
  import ProperConfig

  // `SJA1110ConfigFormat`
  const BlkidL2Forwarding: bv32 := 0x08
  const BlkidMacConfig: bv32 := 0x09
  const BlkidL2ForwardingParams: bv32 := 0x0E
  const BlkidGeneralParams: bv32 := 0x11
  const HeaderSize: nat := 12

  const ImageSize: nat := 2236

  /**
   * `create_table_header(block_id, crc, entry_count)`: the words go out as
   * id, entry count, CRC, although the CRC is the second parameter.
   */
  function CreateTableHeader(blockId: bv32, crc: bv32, entryCount: bv32): (h: Bytes)
    ensures |h| == HeaderSize
    ensures ReadLe32(h, 0) == blockId && ReadLe32(h, 4) == entryCount && ReadLe32(h, 8) == crc
  {
    var h := Le32s([blockId, entryCount, crc]);
    Le32sWords([blockId, entryCount, crc]);
    assert ReadLe32(h, 4 * 0) == blockId && ReadLe32(h, 4 * 1) == entryCount && ReadLe32(h, 4 * 2) == crc;
    h
  }

  // ---------------------------------------------------------------------- V1

  /** The 0x0F0300B7 magic, version 6, size and feature words, then the entry (port 4, ports 2 and 3). */
  const V1Prefix: seq<bv32> := [0x0F03_00B7, 6, 0xDC00_0000, 0xE82C_E086, 4, (1 << 2) | (1 << 3)]
  const FillCommand: bv32 := 0x00EC_FFFF
  const V1FillValue: bv32 := 0x9FFF_7F00

  predicate IsV1Fill(e: Bytes, k: nat)
  {
    |e| == 8 && ReadLe32(e, 0) == FillCommand && ReadLe32(e, 4) == V1FillValue
  }

  /** 24 bytes of header and entry, 276 filler pairs, and the command word of a 277th cut at 2236. */
  predicate IsV1Image(r: Bytes)
  {
    |r| == ImageSize && WordsAt(r, 0, V1Prefix) && Records(r, 24, 8, 276, IsV1Fill) && ReadLe32(r, 2232) == FillCommand
  }

  /** The V1 buffer of a first call after `k` filler pairs. */
  predicate V1Filled(c: Bytes, k: nat)
  {
    |c| == 24 + 8 * k <= ImageSize + 4 && WordsAt(c, 0, V1Prefix) && Records(c, 24, 8, k, IsV1Fill)
  }

  /** The bytes a first `create_config` has built after `k` turns of its fill loop. */
  function V1Buffer(k: nat): (c: Bytes)
    ensures |c| == 24 + 8 * k
  {
    if k == 0 then Le32s(V1Prefix) else V1Buffer(k - 1) + Le32(FillCommand) + Le32(V1FillValue)
  }

  /** One turn of the V1 fill loop appends a filler pair to a filled buffer. */
  lemma V1AppendFill(c: Bytes, k: nat)
    requires V1Filled(c, k) && 24 + 8 * (k + 1) <= ImageSize + 4
    ensures V1Filled(c + Le32(FillCommand) + Le32(V1FillValue), k + 1)
  {
    var e := Le32Pair(FillCommand, V1FillValue);
    ConcatAssoc(c, Le32(FillCommand), Le32(V1FillValue));
    AppendRecord(c, e, 24, 8, k, IsV1Fill);
    WordsPrefix(c, e, 0, V1Prefix);
  }

  lemma {:induction false} V1BufferFilled(k: nat)
    requires 24 + 8 * k <= ImageSize + 4
    ensures V1Filled(V1Buffer(k), k)
  {
    if k == 0 {
      Le32sWords(V1Prefix);
    } else {
      V1BufferFilled(k - 1);
      V1AppendFill(V1Buffer(k - 1), k - 1);
    }
  }

  /** The buffer after a first `create_config`: 277 filler pairs, cut to the image. */
  lemma V1Cut(c: Bytes, k: nat)
    requires V1Filled(c, k) && |c| >= ImageSize
    ensures IsV1Image(c[..ImageSize])
  {
    assert k == 277;
    var r := c[..ImageSize];
    RecordsTake(c, ImageSize, 24, 8, 276, IsV1Fill);
    RecordAt(c, 24, 8, 277, IsV1Fill, 276);
    ReadLe32Sub(c, 2232, 2240, 0);
    ReadLe32Frame(r, c, 2232);
    WordsInPrefix(c[..24], r, 0, V1Prefix) by {
      assert r[..24] == c[..24];
      forall i | 0 <= i < |V1Prefix| ensures 4 * i + 4 <= 24 && ReadLe32(c[..24], 4 * i) == V1Prefix[i] {
        ReadLe32Sub(c, 0, 24, 4 * i);
      }
    }
  }

  /** The first call's loop stops at 2240 bytes, and its first 2236 are the V1 image. */
  lemma V1BufferImage(k: nat)
    requires |V1Buffer(k)| >= ImageSize && (k == 0 || |V1Buffer(k - 1)| < ImageSize)
    ensures |V1Buffer(k)| == ImageSize + 4 && IsV1Image(V1Buffer(k)[..ImageSize])
  {
    V1BufferFilled(k);
    V1Cut(V1Buffer(k), k);
  }

  /** A first call's buffer ends with the value word of its last filler pair. */
  lemma V1LastValue(k: nat)
    requires k > 0
    ensures ReadLe32(V1Buffer(k), |V1Buffer(k)| - 4) == V1FillValue
  {
    Le32RoundTrip(V1FillValue);
    ReadLe32Append(V1Buffer(k - 1) + Le32(FillCommand), Le32(V1FillValue), 0);
  }

  /** `FRERConfigV1`: `config` is an instance field, so it persists across calls. */
  class FrerConfigV1 {
    var config: Bytes

    /** Empty, or at least one image whose first 2236 bytes are the V1 image. */
    ghost predicate Valid()
      reads this
    {
      config == [] || (|config| >= ImageSize && IsV1Image(config[..ImageSize]))
    }

    constructor()
      ensures Valid() && config == []
    {
      config := [];
    }

    /**
     * `create_config`: appends the header and entry, fills with
     * (0x00ECFFFF, 0x9FFF7F00) pairs while shorter than 2236 and returns
     * the first 2236 bytes. A second call only appends another header and
     * entry, so it returns the same image again.
     */
    method CreateConfig() returns (r: Bytes)
      requires Valid()
      modifies this
      ensures Valid() && IsV1Image(r)
      ensures old(config) == [] ==> |config| == ImageSize + 4 && r == config[..ImageSize] && ReadLe32(config, ImageSize) == V1FillValue
      ensures old(config) != [] ==> config == old(config) + Le32s(V1Prefix) && r == old(config)[..ImageSize]
    {
      ghost var before := config;
      config := config + Le32s(V1Prefix);
      ghost var fills: nat := 0;
      while |config| < ImageSize
        invariant before == [] ==> config == V1Buffer(fills) && (fills == 0 || |V1Buffer(fills - 1)| < ImageSize)
        invariant before != [] ==> config == before + Le32s(V1Prefix)
        decreases ImageSize - |config|
      {
        config := config + Le32(FillCommand);
        config := config + Le32(V1FillValue);
        fills := fills + 1;
      }
      r := config[..ImageSize];
      if before == [] {
        V1BufferImage(fills);
        V1LastValue(fills);
      } else {
        SlicePrefix(before, Le32s(V1Prefix), ImageSize);
      }
    }
  }

  // ---------------------------------------------------------------------- V2

  /** Header, P4/P2A/P2B port pairs, then FRER enable, stream 1, input mask P4, output mask P2A+P2B. */
  const V2Prefix: seq<bv32> := [
    0x0F03_00B7, 6, 0xDC00_0000, 0xE82C_E086,
    0x00EC_FFFF, 0x9FFF_7F04, 0x00EC_FFFF, 0x9FFF_7F02, 0x00EC_FFFF, 0x9FFF_7F03,
    0x8001_0000, 1, 0x10, 0x0C
  ]

  const V2Patterns: seq<(bv32, bv32)> := [
    (0x00EC_FFFF, 0x9FFF_7F00), (0x00EC_FFFF, 0x9FFF_7F02), (0x00EC_FFFF, 0x9FFF_7F04),
    (0x00EC_FFFF, 0x9FFF_7F06), (0x00EC_FFFF, 0x9FFF_7F08), (0x00EC_FFFF, 0x9FFF_7F0A)
  ]

  /** The value word of filler pair `k`: pattern `k mod 6` plus `2 k` (no wrap below 273 pairs). */
  function V2FillValue(k: nat): bv32
    requires k < 273
  {
    V2Patterns[k % 6].1 + (k * 2) as bv32
  }

  predicate IsV2Fill(e: Bytes, k: nat)
  {
    |e| == 8 && k < 272 && ReadLe32(e, 0) == V2Patterns[k % 6].0 && ReadLe32(e, 4) == V2FillValue(k)
  }

  /** 56 bytes of fixed words, 272 filler pairs, and the command word of a 273rd whose value is left out. */
  predicate IsV2Image(r: Bytes)
  {
    |r| == ImageSize && WordsAt(r, 0, V2Prefix) && Records(r, 56, 8, 272, IsV2Fill) && ReadLe32(r, 2232) == FillCommand
  }

  /** Turns of the V2 fill loop: 272 whole filler pairs and a last command word. */
  const V2Turns: nat := 273

  /** What turn `k` of the V2 fill loop appends: a whole pair, or only the command word once 2232 is reached. */
  function V2Turn(k: nat): (t: Bytes)
    requires k < 273
    ensures |t| == (if k < 272 then 8 else 4)
  {
    if k < 272 then Le32(V2Patterns[k % 6].0) + Le32(V2FillValue(k)) else Le32(V2Patterns[k % 6].0)
  }

  /** The V2 buffer after `p` turns of the fill loop. */
  function V2Buffer(p: nat): (c: Bytes)
    requires p <= 273
    ensures |c| == (if p < 273 then 56 + 8 * p else ImageSize)
  {
    if p == 0 then Le32s(V2Prefix) else V2Buffer(p - 1) + V2Turn(p - 1)
  }

  /** Whole turn `k` of the fill loop is filler pair `k`. */
  lemma V2TurnFill(k: nat)
    requires k < 272
    ensures IsV2Fill(V2Turn(k), k)
  {
    assert V2Turn(k) == Le32Pair(V2Patterns[k % 6].0, V2FillValue(k));
  }

  /** Appending filler pair `k` after `k` pairs keeps the fixed words and extends the run. */
  lemma V2AppendFill(c: Bytes, e: Bytes, k: nat)
    requires |c| == 56 + 8 * k && WordsAt(c, 0, V2Prefix) && Records(c, 56, 8, k, IsV2Fill)
    requires |e| == 8 && IsV2Fill(e, k)
    ensures WordsAt(c + e, 0, V2Prefix) && Records(c + e, 56, 8, k + 1, IsV2Fill)
  {
    AppendRecord(c, e, 56, 8, k, IsV2Fill);
    WordsPrefix(c, e, 0, V2Prefix);
  }

  /** After `p` whole pairs the buffer holds the fixed words and the first `p` filler pairs. */
  lemma {:induction false} V2BufferFilled(p: nat)
    requires p <= 272
    ensures WordsAt(V2Buffer(p), 0, V2Prefix) && Records(V2Buffer(p), 56, 8, p, IsV2Fill)
  {
    if p == 0 {
      Le32sWords(V2Prefix);
    } else {
      V2BufferFilled(p - 1);
      V2TurnFill(p - 1);
      V2AppendFill(V2Buffer(p - 1), V2Turn(p - 1), p - 1);
    }
  }

  /** The last turn: after 272 whole pairs only the command word fits. */
  lemma V2LastCommand(c: Bytes)
    requires |c| == 2232 && WordsAt(c, 0, V2Prefix) && Records(c, 56, 8, 272, IsV2Fill)
    ensures IsV2Image(c + Le32(V2Patterns[272 % 6].0))
  {
    var w := Le32(V2Patterns[272 % 6].0);
    Le32RoundTrip(V2Patterns[272 % 6].0);
    ReadLe32Append(c, w, 0);
    WordsPrefix(c, w, 0, V2Prefix);
    RecordsExtend(c, w, 56, 8, 272, IsV2Fill);
  }

  /** The 273rd turn completes the image. */
  lemma V2BufferImage(p: nat)
    requires p == V2Turns
    ensures IsV2Image(V2Buffer(p))
  {
    V2BufferFilled(p - 1);
    V2LastCommand(V2Buffer(p - 1));
  }

  /** One turn of the V2 fill loop: the command word, and the value word if the buffer is still short of 2236. */
  method V2FillTurn(c0: Bytes, patternIndex: nat) returns (c: Bytes)
    requires patternIndex < 273 && c0 == V2Buffer(patternIndex)
    ensures c == V2Buffer(patternIndex + 1)
  {
    // the command word always goes in; the value word only while the buffer stays short of 2236
    var turn := Le32(V2Patterns[patternIndex % 6].0);
    if |c0| + 4 < ImageSize {
      turn := turn + Le32(V2FillValue(patternIndex));
    }
    c := c0 + turn;
  }

  /** The fill loop of `FRERConfigV2.create_config`, from turn `p0` until the buffer reaches 2236 bytes. */
  method V2Fill(c0: Bytes, p0: nat) returns (c: Bytes)
    requires p0 <= 273 && c0 == V2Buffer(p0)
    ensures |c| == ImageSize && IsV2Image(c)
  {
    c := c0;
    var patternIndex := p0;
    while |c| < ImageSize
      invariant patternIndex <= 273 && c == V2Buffer(patternIndex)
      decreases ImageSize - |c|
    {
      c := V2FillTurn(c, patternIndex);
      patternIndex := patternIndex + 1;
    }
    V2BufferImage(patternIndex);
  }

  /**
   * `FRERConfigV2.create_config`: the fixed words, then filler pair `k` =
   * (0x00ECFFFF, pattern `k mod 6` + 2 k) while shorter than 2236, the
   * value word skipped once the command word reaches 2236.
   */
  method CreateConfigV2() returns (r: Bytes)
    ensures IsV2Image(r)
  {
    var config := Le32s(V2Prefix);
    config := V2Fill(config, 0);
    SliceWhole(config, ImageSize);
    r := config[..ImageSize];
  }

  // ---------------------------------------------------------------------- V3

  /** BE 0xB700030F, BE version 6, two reserved zero words. */
  predicate IsV3Header(h: Bytes)
  {
    |h| == 16 && ReadBe32(h, 0) == 0xB700_030F && ReadBe32(h, 4) == 6 && ReadBe32(h, 8) == 0 && ReadBe32(h, 12) == 0
  }

  /** Header (id 8, 11 entries, CRC 0), then the same forwarding masks as the proper generator. */
  predicate IsV3L2Table(t: Bytes)
  {
    |t| == 100 && WordsAt(t, 0, [BlkidL2Forwarding, 11, 0]) && Records(t, 12, 8, 11, ProperConfig.IsL2Entry)
  }

  /** A MAC entry: TX/RX enable 3, speed 1000, zeros. */
  predicate IsV3MacEntry(e: Bytes, port: nat)
  {
    |e| == 32 && ReadLe32(e, 0) == 3 && ReadLe32(e, 4) == 1000 && AllEqual(e[8..], 0)
  }

  predicate IsV3MacTable(t: Bytes)
  {
    |t| == 364 && WordsAt(t, 0, [BlkidMacConfig, 11, 0]) && Records(t, 12, 32, 11, IsV3MacEntry)
  }

  predicate IsV3Image(r: Bytes)
  {
    |r| == ImageSize && IsV3Header(r[..16]) && IsV3L2Table(r[16..116]) && IsV3MacTable(r[116..480]) &&
    AllEqual(r[480..], 0)
  }

  /** The header the table-header helper produces, read as three words. */
  lemma TableHeaderWords(blockId: bv32, count: bv32)
    ensures WordsAt(CreateTableHeader(blockId, 0, count), 0, [blockId, count, 0])
  {
    var h := CreateTableHeader(blockId, 0, count);
    assert ReadLe32(h, 4 * 0) == blockId && ReadLe32(h, 4 * 1) == count && ReadLe32(h, 4 * 2) == 0;
  }

  /** The L2 forwarding part of V3: table header, then 11 (reach, broadcast) entries. */
  method V3L2Table() returns (t: Bytes)
    ensures IsV3L2Table(t)
  {
    t := CreateTableHeader(BlkidL2Forwarding, 0, 11);
    TableHeaderWords(BlkidL2Forwarding, 11);
    for port := 0 to 11
      invariant |t| == 12 + 8 * port && WordsAt(t, 0, [BlkidL2Forwarding, 11, 0])
      invariant Records(t, 12, 8, port, ProperConfig.IsL2Entry)
    {
      var reach: bv32;
      var bcast: bv32;
      if port == 4 {
        reach := (1 << 2) | (1 << 3);
        bcast := (1 << 2) | (1 << 3);
      } else if port == 2 || port == 3 {
        reach := 0x7FF;
        bcast := 0x7FF;
      } else {
        reach := 0x7FF;
        bcast := 0x7FF;
      }
      var entry := Le32Pair(reach, bcast);
      AppendRecord(t, entry, 12, 8, port, ProperConfig.IsL2Entry);
      WordsPrefix(t, entry, 0, [BlkidL2Forwarding, 11, 0]);
      t := t + entry;
    }
  }

  method V3MacEntry() returns (e: Bytes)
    ensures IsV3MacEntry(e, 0)
  {
    e := Zeros(32);
    e := PutLe32(e, 0, 3);
    ghost var e1 := e;
    e := PutLe32(e, 4, 1000);
    ReadLe32Frame(e, e1, 0);
    assert forall i :: 0 <= i < 24 ==> e[8..][i] == e[8 + i];
  }

  /** The MAC part of V3: table header, then 11 entries of 32 bytes. */
  method V3MacTable() returns (t: Bytes)
    ensures IsV3MacTable(t)
  {
    t := CreateTableHeader(BlkidMacConfig, 0, 11);
    TableHeaderWords(BlkidMacConfig, 11);
    for port := 0 to 11
      invariant |t| == 12 + 32 * port && WordsAt(t, 0, [BlkidMacConfig, 11, 0])
      invariant Records(t, 12, 32, port, IsV3MacEntry)
    {
      var macEntry := V3MacEntry();
      AppendRecord(t, macEntry, 12, 32, port, IsV3MacEntry);
      WordsPrefix(t, macEntry, 0, [BlkidMacConfig, 11, 0]);
      t := t + macEntry;
    }
  }

  lemma V3Layout(h: Bytes, l: Bytes, m: Bytes, r: Bytes)
    requires IsV3Header(h) && IsV3L2Table(l) && IsV3MacTable(m)
    requires |r| == ImageSize && r[..480] == h + l + m && AllEqual(r[480..], 0)
    ensures IsV3Image(r)
  {
    assert r[..16] == (h + l + m)[..16] == h;
    assert r[16..116] == (h + l + m)[16..116] == l;
    assert r[116..480] == (h + l + m)[116..480] == m;
  }

  /** `FRERConfigV3.create_config`: header, L2 forwarding table, MAC table, zero padding to 2236. */
  method CreateConfigV3() returns (r: Bytes)
    ensures IsV3Image(r)
  {
    var h := Be32(0xB700_030F) + Be32(0x0000_0006) + Be32(0) + Be32(0);
    assert IsV3Header(h);
    var l := V3L2Table();
    var m := V3MacTable();
    var config := h + l + m;
    config := PadWith(config, 0, ImageSize);
    SliceWhole(config, ImageSize);
    r := Take(config, ImageSize);
    V3Layout(h, l, m, r);
  }

  // ------------------------------------------------------------- UC images

  /** Entry point, reserved, size 0x1212, version 0x12, stack pointer, reset handler. */
  const BasicUcHeader: seq<bv32> := [0x0200_0024, 0, 0x0000_1212, 0x12, 0x0004_E2F8, 0x01C1]
  const DefaultHandler: bv32 := 0x0209

  /** `k` words of the little-endian value `v` from offset `at`. */
  predicate WordRun(c: Bytes, at: nat, v: bv32, k: nat)
  {
    forall i :: 0 <= i < k ==> at + 4 * i + 4 <= |c| && ReadLe32(c, at + 4 * i) == v
  }

  /** Marker, the six header words, 14 default-handler vectors: 88 bytes. */
  predicate IsBasicUcCode(c: Bytes)
  {
    |c| == 88 && c[..8] == Marker && WordsAt(c, 8, BasicUcHeader) && WordRun(c, 32, DefaultHandler, 14)
  }

  /** Marker, then header words `hs` encoded as `h`, then vector words `vs` encoded as `v`. */
  lemma UcLayout(h: Bytes, v: Bytes, hs: seq<bv32>, vs: seq<bv32>)
    requires |h| == 4 * |hs| && WordsAt(h, 0, hs) && WordsAt(v, 0, vs)
    ensures (Marker + h + v)[..8] == Marker
    ensures WordsAt(Marker + h + v, 8, hs) && WordsAt(Marker + h + v, 8 + |h|, vs)
  {
    SlicePrefix(Marker, h, 8);
    SlicePrefix(Marker + h, v, 8);
    WordsAppend(Marker, h, 0, hs);
    WordsPrefix(Marker + h, v, 8, hs);
    WordsAppend(Marker + h, v, 0, vs);
  }

  /** `n` copies of one word. */
  function Copies(w: bv32, n: nat): (ws: seq<bv32>)
    ensures |ws| == n && forall i :: 0 <= i < n ==> ws[i] == w
  {
    seq(n, _ => w)
  }

  /** The vector loop of both images: `n` copies of one handler address. */
  method AppendVectors(head: Bytes, handler: bv32, n: nat) returns (fw: Bytes)
    ensures fw == head + Le32s(Copies(handler, n))
  {
    fw := head;
    for i := 0 to n
      invariant fw == head + Le32s(Copies(handler, i))
    {
      Le32sSnoc(Copies(handler, i), handler);
      ConcatAssoc(head, Le32s(Copies(handler, i)), Le32(handler));
      assert Copies(handler, i) + [handler] == Copies(handler, i + 1);
      fw := fw + Le32(handler);
    }
  }

  lemma BasicUcCode(vs: seq<bv32>)
    requires |vs| == 14 && forall i :: 0 <= i < 14 ==> vs[i] == DefaultHandler
    ensures IsBasicUcCode(Marker + Le32s(BasicUcHeader) + Le32s(vs))
  {
    Le32sWords(BasicUcHeader);
    Le32sWords(vs);
    UcLayout(Le32s(BasicUcHeader), Le32s(vs), BasicUcHeader, vs);
  }

  /** `create_basic_uc`: the code part, then 0xFF up to 8 KiB. */
  method CreateBasicUc() returns (fw: Bytes)
    ensures |fw| == 8192 && HasMarker(fw) && IsBasicUcCode(fw[..88]) && AllEqual(fw[88..], 0xFF)
  {
    var code := AppendVectors(Marker + Le32s(BasicUcHeader), DefaultHandler, 14);
    BasicUcCode(Copies(DefaultHandler, 14));
    fw := PadWith(code, 0xFF, 8192);
    MarkerKept(code, fw);
  }

  /** Entry point, FRER enabled, size, version, stack pointer, reset, NMI and hard-fault handlers. */
  const FrerUcHeader: seq<bv32> := [0x0200_0024, 1, 0x0000_2000, 0x20, 0x2000_8000, 0x0401, 0x0501, 0x0601]
  const FrerHandler: bv32 := 0x0801

  /** FRER enable, the R-TAG EtherType 0xF1CD, first stream 1, 256 streams, window 256, timeout 1000. */
  const FrerUcConfig: seq<bv32> := [1, 0xF1CD, 1, 0x100, 0x100, 0x3E8]

  /** Marker, eight header words, 12 FRER handler vectors, six FRER configuration words: 112 bytes. */
  predicate IsFrerUcCode(c: Bytes)
  {
    |c| == 112 && c[..8] == Marker && WordsAt(c, 8, FrerUcHeader) && WordRun(c, 40, FrerHandler, 12) &&
    WordsAt(c, 88, FrerUcConfig)
  }

  /** A run of equal words read through the word list it was encoded from. */
  lemma WordRunOf(c: Bytes, at: nat, vs: seq<bv32>, v: bv32)
    requires WordsAt(c, at, vs) && forall i :: 0 <= i < |vs| ==> vs[i] == v
    ensures WordRun(c, at, v, |vs|)
  {
  }

  /** The marker and three encoded word lists one after another. */
  lemma UcLayout3(h: Bytes, v: Bytes, g: Bytes, hs: seq<bv32>, vs: seq<bv32>, gs: seq<bv32>)
    requires |h| == 4 * |hs| && |v| == 4 * |vs| && WordsAt(h, 0, hs) && WordsAt(v, 0, vs) && WordsAt(g, 0, gs)
    ensures (Marker + h + v + g)[..8] == Marker
    ensures WordsAt(Marker + h + v + g, 8, hs) && WordsAt(Marker + h + v + g, 8 + |h|, vs)
    ensures WordsAt(Marker + h + v + g, 8 + |h| + |v|, gs)
  {
    UcLayout(h, v, hs, vs);
    SlicePrefix(Marker + h + v, g, 8);
    WordsPrefix(Marker + h + v, g, 8, hs);
    WordsPrefix(Marker + h + v, g, 8 + |h|, vs);
    WordsAppend(Marker + h + v, g, 0, gs);
  }

  lemma FrerUcCode(h: Bytes, v: Bytes, g: Bytes, vs: seq<bv32>)
    requires |h| == 32 && |v| == 48 && |g| == 24
    requires WordsAt(h, 0, FrerUcHeader) && WordsAt(v, 0, vs) && WordsAt(g, 0, FrerUcConfig)
    requires |vs| == 12 && forall i :: 0 <= i < 12 ==> vs[i] == FrerHandler
    ensures IsFrerUcCode(Marker + h + v + g)
  {
    UcLayout3(h, v, g, FrerUcHeader, vs, FrerUcConfig);
    WordRunOf(Marker + h + v + g, 40, vs, FrerHandler);
  }

  /** The code part of `create_frer_uc`: marker, header, handler vectors, configuration words. */
  method FrerUcCodePart() returns (code: Bytes)
    ensures IsFrerUcCode(code)
  {
    var header := Le32s(FrerUcHeader);
    var vectors := AppendVectors(Marker + header, FrerHandler, 12);
    ghost var vs := Copies(FrerHandler, 12);
    var config := Le32s(FrerUcConfig);
    code := vectors + config;
    Le32sWords(FrerUcHeader);
    Le32sWords(vs);
    Le32sWords(FrerUcConfig);
    FrerUcCode(header, Le32s(vs), config, vs);
  }

  /** `create_frer_uc`: the code part, then 0xFF up to the full 320280 bytes. */
  method CreateFrerUc() returns (fw: Bytes)
    ensures |fw| == FullSize && HasMarker(fw) && IsFrerUcCode(fw[..112]) && AllEqual(fw[112..], 0xFF)
  {
    var code := FrerUcCodePart();
    fw := PadWith(code, 0xFF, FullSize);
    MarkerKept(code, fw);
  }
}

=== FILE: s32g_fix.dfy ===
/**
 * The S32G274A-RDB2 fix: rewrite the switch image's device id as the LE
 * word 0x0F0300B7 (bytes B7 00 03 0F), and rebuild the microcontroller
 * image as the image-valid marker, a four-word header and the original
 * image shifted by 24 bytes, padded with 0xFF and cut to 320280 bytes.
 */
module S32gFix {
  import opened Bytes
  import opened UcImage

  /** The id word as packed; the hardware reads its bytes as 0xB700030F. */
  const DeviceId: bv32 := 0x0F03_00B7
  const DeviceIdBytes: Bytes := [0xB7, 0x00, 0x03, 0x0F]

  /** Entry point, version/flags, firmware size, header size. */
  const UcHeaderWords: seq<bv32> := [0x0200_0024, 0x0000_0001, 0x0000_4000, 0x0000_0020]
  const UcHeaderSize: nat := 24
  /** How much of the original fits behind the header: 320280 - 24. */
  const UcBodySize: nat := 320256

  lemma DeviceIdLayout()
    ensures Le32(DeviceId) == DeviceIdBytes
  {
  }

  /** The packed id read back from four bytes: exactly B7 00 03 0F. */
  lemma DeviceIdRead(s: Bytes)
    requires |s| >= 4
    ensures ReadLe32(s, 0) == DeviceId <==> s[..4] == DeviceIdBytes
  {
    if ReadLe32(s, 0) == DeviceId {
      var b0, b1, b2, b3 := s[0], s[1], s[2], s[3];
      assert (b0 as bv32) | ((b1 as bv32) << 8) | ((b2 as bv32) << 16) | ((b3 as bv32) << 24) == DeviceId;
      assert b0 == 0xB7 && b1 == 0x00 && b2 == 0x03 && b3 == 0x0F;
    }
  }

  /**
   * `fix_switch_firmware` without the file I/O: `struct.pack_into` at 0,
   * which needs at least four bytes; the id bytes change and nothing else.
   */
  method FixSwitchFirmware(data: Bytes) returns (fixed: Bytes)
    requires |data| >= 4
    ensures |fixed| == |data| && fixed[..4] == DeviceIdBytes
    ensures forall k :: 4 <= k < |data| ==> fixed[k] == data[k]
  {
    fixed := PutLe32(data, 0, DeviceId);
    DeviceIdRead(fixed);
  }

  /** Fixing an already fixed image changes nothing. */
  lemma FixSwitchIdempotent(data: Bytes)
    requires |data| >= 4 && data[..4] == DeviceIdBytes
    ensures PutLe32(data, 0, DeviceId) == data
  {
    DeviceIdRead(data);
    PutLe32Same(data, 0);
  }

  /** `original[lo:hi]` with Python's clamping. */
  function Slice(s: Bytes, lo: nat, hi: nat): (r: Bytes)
    ensures |r| == Max(0, Min(hi, |s|) - lo)
  {
    Drop(Take(s, hi), lo)
  }

  /** The two copied slices together are the first `min(len, 320256)` bytes. */
  lemma BodySlices(original: Bytes)
    ensures Slice(original, 0, 1024) + Slice(original, 1024, UcBodySize) == original[..Min(|original|, UcBodySize)]
  {
  }

  /**
   * `fix_uc_firmware` without the file I/O: 320280 bytes holding the
   * marker, the header words, then the original's first
   * `min(len, 320256)` bytes and 0xFF after them.
   */
  method FixUcFirmware(original: Bytes) returns (out: Bytes)
    ensures |out| == FullSize && out[..8] == Marker && WordsAt(out, 8, UcHeaderWords)
    ensures out[UcHeaderSize..UcHeaderSize + Min(|original|, UcBodySize)] == original[..Min(|original|, UcBodySize)]
    ensures AllEqual(out[UcHeaderSize + Min(|original|, UcBodySize)..], 0xFF)
  {
    var fw := Marker;
    var header := PackWords(UcHeaderWords);
    fw := fw + header;
    ghost var head := fw;
    fw := fw + Slice(original, 0, 1024);
    fw := fw + Slice(original, 1024, UcBodySize);
    BodySlices(original);
    ghost var copied := fw;
    fw := PadWith(fw, 0xFF, FullSize);
    out := Take(fw, FullSize);
    UcLayout(head, header, original[..Min(|original|, UcBodySize)], copied, out);
  }

  /** The layout of the output from the buffer before and after the pad loop. */
  lemma UcLayout(head: Bytes, header: Bytes, body: Bytes, copied: Bytes, out: Bytes)
    requires head == Marker + header && |header| == 16 && WordsAt(header, 0, UcHeaderWords)
    requires |body| <= UcBodySize && copied == head + body
    requires |out| == FullSize && out[..|copied|] == copied && AllEqual(out[|copied|..], 0xFF)
    ensures out[..8] == Marker && WordsAt(out, 8, UcHeaderWords)
    ensures out[UcHeaderSize..UcHeaderSize + |body|] == body
  {
    WordsAppend(Marker, header, 0, UcHeaderWords);
    WordsInPrefix(head, out, 8, UcHeaderWords) by {
      assert out[..|head|] == out[..|copied|][..|head|];
    }
    assert out[..8] == out[..|copied|][..8];
    assert out[UcHeaderSize..UcHeaderSize + |body|] == out[..|copied|][UcHeaderSize..];
  }

  /** `verify_fixes`: the LE device id check and the marker check. */
  datatype FixVerdict = FixVerdict(deviceIdOk: bool, magicOk: bool)

  function VerifyFixes(switchData: Bytes, ucData: Bytes): (v: FixVerdict)
    requires |switchData| >= 4
    ensures v.deviceIdOk <==> switchData[..4] == DeviceIdBytes
    ensures v.magicOk <==> HasMarker(ucData)
  {
    DeviceIdRead(switchData);
    FixVerdict(ReadLe32(switchData, 0) == DeviceId, Take(ucData, 8) == Marker)
  }

  /** Both checks pass on what the two fixes produce. */
  lemma FixesVerify(switchData: Bytes, ucData: Bytes)
    requires |switchData| >= 4 && switchData[..4] == DeviceIdBytes
    requires |ucData| == FullSize && ucData[..8] == Marker
    ensures VerifyFixes(switchData, ucData) == FixVerdict(true, true)
  {
  }
}

=== FILE: uc_image.dfy ===
/** What every microcontroller image built here shares: the image-valid marker and the full size. */
module UcImage {
  import opened Bytes

  /** The image-valid marker: 6A A6 four times. */
  const Marker: Bytes := [0x6A, 0xA6, 0x6A, 0xA6, 0x6A, 0xA6, 0x6A, 0xA6]

  /** The size of the original microcontroller image. */
  const FullSize: nat := 320280

  predicate HasMarker(fw: Bytes)
  {
    |fw| >= 8 && fw[..8] == Marker
  }

  /** Padding after a code part that starts with the marker keeps the marker in front. */
  lemma MarkerKept(code: Bytes, fw: Bytes)
    requires HasMarker(code) && |code| <= |fw| && fw[..|code|] == code
    ensures HasMarker(fw)
  {
    assert fw[..8] == fw[..|code|][..8];
  }
}

=== FILE: ultrathink_firmware.dfy ===
/**
 * The "UltraThink" firmware generator: a 36-byte big-endian device header
 * followed by self-describing configuration tables. Every table starts with
 * a 16-byte little-endian header (table id, entry count, entry size, CRC-32
 * of the table from byte 16 on) and holds `count` fixed-size entries.
 */
module UltrathinkFirmware {
  import opened Bytes
  import opened Crc32

  const DeviceId: bv32 := 0xB700_030E
  const HeaderVersion: bv32 := 0x0000_0010
  /** FRER, TSN, 802.1CB, cut-through and preemption: bits 0 to 4. */
  const HeaderFeatures: bv32 := (1 << 0) | (1 << 1) | (1 << 2) | (1 << 3) | (1 << 4)
  const HeaderSize: nat := 36

  // The configuration table ids the generator declares.
  const TableSchedule: bv32 := 0x00
  const TableL2Lookup: bv32 := 0x05
  const TableL2Policing: bv32 := 0x06
  const TableVlanLookup: bv32 := 0x07
  const TableL2Forwarding: bv32 := 0x08
  const TableMacConfig: bv32 := 0x09
  const TableScheduleParams: bv32 := 0x0A
  const TableScheduleEntryPoints: bv32 := 0x0B
  const TableVlForwarding: bv32 := 0x0C
  const TableL2LookupParams: bv32 := 0x0D
  const TableL2ForwardingParams: bv32 := 0x0E
  const TableAvbParams: bv32 := 0x10
  const TableGeneralParams: bv32 := 0x11
  const TableRetagging: bv32 := 0x12
  const TableXmiiMode: bv32 := 0x13
  const TableFrerStreamIdent: bv32 := 0x20
  const TableFrerStreamSplit: bv32 := 0x21
  const TableFrerMemberStream: bv32 := 0x22
  const TableFrerSequenceEncode: bv32 := 0x23
  const TableFrerSequenceDecode: bv32 := 0x24
  const TableFrerSequenceRecovery: bv32 := 0x25

  /** The R-TAG EtherType this generator uses. */
  const RtagEthertype: bv16 := 0xF1C1
  const VectorAlgorithm: bv8 := 0

  const SwitchImageSize: nat := 2236
  const UcImageSize: nat := 320280

  // ------------------------------------------------------------ device header

  /** `create_device_header`, with the wall-clock time passed in. */
  function DeviceHeader(timestamp: bv64): (h: Bytes)
    ensures |h| == HeaderSize
    ensures ReadBe32(h, 0) == 0xB700_030E && ReadBe32(h, 4) == 0x10
    ensures ReadBe64(h, 8) == timestamp
    ensures ReadBe32(h, 16) == 0x1F
    ensures AllEqual(h[20..], 0)
  {
    Be32RoundTrip(DeviceId);
    Be32RoundTrip(HeaderVersion);
    Be64RoundTrip(timestamp);
    Be32RoundTrip(HeaderFeatures);
    var h := Be32(DeviceId) + Be32(HeaderVersion) + Be64(timestamp) + Be32(HeaderFeatures) + Zeros(16);
    assert h[..4] == Be32(DeviceId) && h[4..8] == Be32(HeaderVersion);
    assert h[8..16] == Be64(timestamp) && h[16..20] == Be32(HeaderFeatures);
    h
  }

  // ------------------------------------------------------------ table framing

  /** The 16-byte table header with the CRC placeholder 0. */
  function TableHeader(id: bv32, count: bv32, size: bv32): (h: Bytes)
    ensures |h| == 16
    ensures ReadLe32(h, 0) == id && ReadLe32(h, 4) == count && ReadLe32(h, 8) == size && ReadLe32(h, 12) == 0
  {
    Le32(id) + Le32(count) + Le32(size) + Le32(0)
  }

  /**
   * A sealed table header: bytes 0..11 name `id`, `count` and `size`, and
   * bytes 12..15 hold the CRC-32 of everything after the header.
   */
  predicate TableFramed(t: Bytes, id: bv32, count: bv32, size: bv32)
  {
    |t| >= 16 &&
    ReadLe32(t, 0) == id && ReadLe32(t, 4) == count && ReadLe32(t, 8) == size &&
    ReadLe32(t, 12) == Crc(t[16..])
  }

  /** The shared "Update CRC" step: store the CRC-32 of `table[16:]` LE at 12..15. */
  method SealTable(t: Bytes) returns (r: Bytes)
    requires |t| >= 16
    ensures |r| == |t| && r[..12] == t[..12] && r[16..] == t[16..]
    ensures ReadLe32(r, 12) == Crc(r[16..])
  {
    var crc := Crc(t[16..]);
    r := PutLe32(t, 12, crc);
    assert r[..12] == t[..12];
    assert r[16..] == t[16..];
  }

  /**
   * A header with the placeholder, `n` records of `size` bytes after it,
   * then sealing: a framed table whose records are intact.
   */
  lemma SealedTable(t: Bytes, r: Bytes, id: bv32, count: bv32, sizeWord: bv32, size: nat, n: nat, P: (Bytes, nat) -> bool)
    requires |t| >= 16 && t[..16] == TableHeader(id, count, sizeWord) && Records(t, 16, size, n, P)
    requires |r| == |t| && r[..12] == t[..12] && r[16..] == t[16..] && ReadLe32(r, 12) == Crc(r[16..])
    ensures TableFramed(r, id, count, sizeWord) && Records(r, 16, size, n, P)
  {
    var h := TableHeader(id, count, sizeWord);
    PrefixAgree(r, t, 12);
    PrefixAgree(t, h, 12);
    ReadLe32Frame(r, h, 0);
    ReadLe32Frame(r, h, 4);
    ReadLe32Frame(r, h, 8);
    RecordsFrame(t, r, 16, size, n, P);
  }

  // ---------------------------------------------- stream identification table

  /**
   * Bytes 0..11 of stream `id`'s entry: LE stream handle, method 3 (MAC +
   * VLAN), priority `id % 8`, a source MAC filter only for the four critical
   * streams, and VLAN 100 + id.
   */
  predicate StreamIdentKeys(e: Bytes, id: nat)
  {
    |e| == 32 && id < 16 &&
    ReadLe16(e, 0) == id as bv16 && e[2] == 0x03 && e[3] == (id % 8) as bv8 &&
    (if id < 4 then e[4..10] == [0x00, 0x11, 0x22, 0x33, 0x44, id as bv8] else AllEqual(e[4..10], 0)) &&
    ReadLe16(e, 10) == (100 + id) as bv16
  }

  /**
   * Bytes 12..31: a multicast destination filter, EtherType 0x88F7, the port
   * mask (all 11 ports for critical streams, ports 1-4 otherwise), the flags
   * (enable and FRER, plus high priority for critical streams), then zeros.
   */
  predicate StreamIdentFilters(e: Bytes, id: nat)
  {
    |e| == 32 && id < 16 &&
    e[12..18] == [0x01, 0x00, 0x5E, 0x00, 0x00, id as bv8] &&
    ReadLe16(e, 18) == 0x88F7 &&
    ReadLe16(e, 20) == (if id < 4 then 0x7FF else 0x01E) &&
    e[22] == (if id < 4 then 0x07 else 0x03) &&
    AllEqual(e[23..], 0)
  }

  /** The complete layout of stream `id`'s 32-byte entry. */
  predicate IsStreamIdentEntry(e: Bytes, id: nat)
  {
    StreamIdentKeys(e, id) && StreamIdentFilters(e, id)
  }

  /** The loop body of `create_frer_stream_identification_table`: one entry, written into 32 zero bytes. */
  method MakeStreamIdentEntry(id: nat) returns (e: Bytes)
    requires id < 16
    ensures IsStreamIdentEntry(e, id)
  {
    e := Zeros(32);
    e := WriteStreamKeys(e, id);
    ghost var keys := e;
    e := WriteStreamFilters(e, id);
    StreamIdentKeysFrame(keys, e, id);
  }

  /** The first half of the entry: handle, method, priority, source MAC and VLAN. */
  method WriteStreamKeys(e0: Bytes, id: nat) returns (e: Bytes)
    requires |e0| == 32 && AllEqual(e0[..12], 0) && id < 16
    ensures StreamIdentKeys(e, id)
    ensures |e| == 32 && forall i :: 12 <= i < 32 ==> e[i] == e0[i]
  {
    e := PutLe16(e0, 0, id as bv16);
    ghost var handleSet := e;
    e := PutByte(e, 2, 0x03);
    e := PutByte(e, 3, (id % 8) as bv8);
    if id < 4 {
      e := PutBytes(e, 4, [0x00, 0x11, 0x22, 0x33, 0x44, id as bv8]);
    }
    ghost var macSet := e;
    e := PutLe16(e, 10, (100 + id) as bv16);
    ReadLe16Frame(handleSet, e, 0);
    assert e[4..10] == macSet[4..10];
  }

  /** The second half of the entry: destination filter, EtherType, port mask and flags. */
  method WriteStreamFilters(e0: Bytes, id: nat) returns (e: Bytes)
    requires |e0| == 32 && AllEqual(e0[12..], 0) && id < 16
    ensures StreamIdentFilters(e, id)
    ensures |e| == 32 && forall i :: 0 <= i < 12 ==> e[i] == e0[i]
  {
    e := PutBytes(e0, 12, [0x01, 0x00, 0x5E, 0x00, 0x00, id as bv8]);
    ghost var filterSet := e;
    e := PutLe16(e, 18, 0x88F7);
    var portMask: bv16 := if id < 4 then 0x7FF else 0x01E;
    e := PutLe16(e, 20, portMask);
    ghost var maskSet := e;
    var flags: bv8 := (1 << 0) | (1 << 1);
    if id < 4 {
      flags := flags | (1 << 2);
    }
    e := PutByte(e, 22, flags);
    assert e[12..18] == filterSet[12..18];
    ReadLe16Frame(maskSet, e, 18);
    ReadLe16Frame(maskSet, e, 20);
  }

  /** Bytes 0..11 alone decide `StreamIdentKeys`. */
  lemma StreamIdentKeysFrame(a: Bytes, b: Bytes, id: nat)
    requires StreamIdentKeys(a, id) && |b| == 32 && forall i :: 0 <= i < 12 ==> a[i] == b[i]
    ensures StreamIdentKeys(b, id)
  {
    ReadLe16Frame(a, b, 0);
    ReadLe16Frame(a, b, 10);
    assert a[4..10] == b[4..10];
  }

  predicate IsStreamIdentTable(t: Bytes)
  {
    TableFramed(t, TableFrerStreamIdent, 16, 32) && Records(t, 16, 32, 16, IsStreamIdentEntry)
  }

  /** `create_frer_stream_identification_table`: 16 entries of 32 bytes, 528 bytes in all. */
  method CreateStreamIdentTable() returns (t: Bytes)
    ensures IsStreamIdentTable(t) && |t| == 528
  {
    t := TableHeader(TableFrerStreamIdent, 16, 32);
    for id := 0 to 16
      invariant |t| == 16 + 32 * id && t[..16] == TableHeader(TableFrerStreamIdent, 16, 32)
      invariant Records(t, 16, 32, id, IsStreamIdentEntry)
    {
      var entry := MakeStreamIdentEntry(id);
      AppendRecord(t, entry, 16, 32, id, IsStreamIdentEntry);
      assert (t + entry)[..16] == t[..16];
      t := t + entry;
    }
    var sealed := SealTable(t);
    SealedTable(t, sealed, TableFrerStreamIdent, 16, 32, 32, 16, IsStreamIdentEntry);
    t := sealed;
  }

  // ------------------------------------------------------ sequence generation

  /**
   * Bytes 0..9 of stream `id`'s 24-byte generator entry: LE stream
   * reference, the vector algorithm, sequence space 65535 starting at 0 and
   * the R-TAG at byte offset 18.
   */
  predicate SeqGenHead(e: Bytes, id: nat)
  {
    |e| == 24 && id < 16 &&
    ReadLe16(e, 0) == id as bv16 && e[2] == VectorAlgorithm && e[3] == 0 &&
    ReadLe16(e, 4) == 65535 && ReadLe16(e, 6) == 0 && e[8] == 18 && e[9] == 0
  }

  /**
   * Bytes 10..23: replication to ports 2 and 3 (mask 0x000C) for streams
   * 0-7 and none for 8-15, a 1000 us period, paths A (0) and B (1), zeros
   * after.
   */
  predicate SeqGenTail(e: Bytes, id: nat)
  {
    |e| == 24 &&
    ReadLe16(e, 10) == (if id < 8 then 0x000C else 0) &&
    ReadLe32(e, 12) == 1000 && e[16] == 0 && e[17] == 1 && AllEqual(e[18..], 0)
  }

  predicate IsSeqGenEntry(e: Bytes, id: nat)
  {
    SeqGenHead(e, id) && SeqGenTail(e, id)
  }

  /** The loop body of `create_frer_sequence_generation_table`. */
  method MakeSeqGenEntry(id: nat) returns (e: Bytes)
    requires id < 16
    ensures IsSeqGenEntry(e, id)
  {
    e := Zeros(24);
    e := WriteSeqGenHead(e, id);
    ghost var head := e;
    e := WriteSeqGenTail(e, id);
    SeqGenHeadFrame(head, e, id);
  }

  /** Stream reference, algorithm, sequence space and R-TAG offset. */
  method WriteSeqGenHead(e0: Bytes, id: nat) returns (e: Bytes)
    requires |e0| == 24 && AllEqual(e0[..10], 0) && id < 16
    ensures SeqGenHead(e, id)
    ensures |e| == 24 && forall i :: 10 <= i < 24 ==> e[i] == e0[i]
  {
    e := PutLe16(e0, 0, id as bv16);
    e := PutByte(e, 2, VectorAlgorithm);
    ghost var idSet := e;
    e := PutLe16(e, 4, 65535);
    e := PutLe16(e, 6, 0);
    ghost var spaceSet := e;
    e := PutByte(e, 8, 18);
    ReadLe16Frame(idSet, e, 0);
    ReadLe16Frame(spaceSet, e, 4);
    ReadLe16Frame(spaceSet, e, 6);
  }

  /** Replication mask, period and path identifiers. */
  method WriteSeqGenTail(e0: Bytes, id: nat) returns (e: Bytes)
    requires |e0| == 24 && AllEqual(e0[10..], 0)
    ensures SeqGenTail(e, id)
    ensures |e| == 24 && forall i :: 0 <= i < 10 ==> e[i] == e0[i]
  {
    var replication: bv16 := 0;
    if id < 8 {
      replication := (1 << 2) | (1 << 3);
    }
    e := PutLe16(e0, 10, replication);
    e := PutLe32(e, 12, 1000);
    ghost var periodSet := e;
    e := PutByte(e, 16, 0);
    e := PutByte(e, 17, 1);
    ReadLe16Frame(periodSet, e, 10);
    ReadLe32Frame(periodSet, e, 12);
  }

  /** Bytes 0..9 alone decide `SeqGenHead`. */
  lemma SeqGenHeadFrame(a: Bytes, b: Bytes, id: nat)
    requires SeqGenHead(a, id) && |b| == 24 && forall i :: 0 <= i < 10 ==> a[i] == b[i]
    ensures SeqGenHead(b, id)
  {
    ReadLe16Frame(a, b, 0);
    ReadLe16Frame(a, b, 4);
    ReadLe16Frame(a, b, 6);
  }

  predicate IsSeqGenTable(t: Bytes)
  {
    TableFramed(t, TableFrerSequenceEncode, 16, 24) && Records(t, 16, 24, 16, IsSeqGenEntry)
  }

  /** `create_frer_sequence_generation_table`: 16 entries of 24 bytes, 400 bytes in all. */
  method CreateSeqGenTable() returns (t: Bytes)
    ensures IsSeqGenTable(t) && |t| == 400
  {
    t := TableHeader(TableFrerSequenceEncode, 16, 24);
    for id := 0 to 16
      invariant |t| == 16 + 24 * id && t[..16] == TableHeader(TableFrerSequenceEncode, 16, 24)
      invariant Records(t, 16, 24, id, IsSeqGenEntry)
    {
      var entry := MakeSeqGenEntry(id);
      AppendRecord(t, entry, 16, 24, id, IsSeqGenEntry);
      assert (t + entry)[..16] == t[..16];
      t := t + entry;
    }
    var sealed := SealTable(t);
    SealedTable(t, sealed, TableFrerSequenceEncode, 16, 24, 24, 16, IsSeqGenEntry);
    t := sealed;
  }

  // -------------------------------------------------------- sequence recovery

  /**
   * Bytes 0..7 of stream `id`'s recovery entry: LE stream reference, the
   * vector algorithm and a history window of 256 frames.
   */
  predicate RecoveryIdent(e: Bytes, id: nat)
  {
    |e| == 48 && id < 16 &&
    ReadLe16(e, 0) == id as bv16 && e[2] == VectorAlgorithm && e[3] == 0 &&
    ReadLe16(e, 4) == 256 && e[6] == 0 && e[7] == 0
  }

  /** Bytes 8..15: a 100000 us recovery timeout, individual recovery and latent error detection on. */
  predicate RecoveryTimeouts(e: Bytes)
  {
    |e| == 48 && ReadLe32(e, 8) == 100000 && e[12] == 1 && e[13] == 1 && e[14] == 0 && e[15] == 0
  }

  /**
   * Bytes 16..27: a 1 s reset timeout, the statistics offset 0x1000 + 64 id,
   * an acceptance window of 5, and member paths A and B (mask 0x03) for
   * streams 0-7 and none for 8-15.
   */
  predicate RecoveryWindow(e: Bytes, id: nat)
  {
    |e| == 48 && id < 16 &&
    ReadLe32(e, 16) == 1000000 && ReadLe32(e, 20) == (0x1000 + id * 64) as bv32 &&
    ReadLe16(e, 24) == 5 && ReadLe16(e, 26) == (if id < 8 then 0x03 else 0)
  }

  /** Bytes 28..47: the all-ones initial vector at 32..39, zeros around it. */
  predicate RecoveryVector(e: Bytes)
  {
    |e| == 48 && AllEqual(e[28..32], 0) && AllEqual(e[32..40], 0xFF) && AllEqual(e[40..], 0)
  }

  predicate IsRecoveryEntry(e: Bytes, id: nat)
  {
    RecoveryIdent(e, id) && RecoveryTimeouts(e) && RecoveryWindow(e, id) && RecoveryVector(e)
  }

  /** The loop body of `create_frer_sequence_recovery_table`. */
  method MakeRecoveryEntry(id: nat) returns (e: Bytes)
    requires id < 16
    ensures IsRecoveryEntry(e, id)
  {
    e := Zeros(48);
    e := WriteRecoveryIdent(e, id);
    ghost var ident := e;
    e := WriteRecoveryTimeouts(e);
    ghost var timeouts := e;
    e := WriteRecoveryWindow(e, id);
    ghost var window := e;
    e := WriteRecoveryVector(e);
    RecoveryIdentFrame(ident, e, id);
    RecoveryTimeoutsFrame(timeouts, e);
    RecoveryWindowFrame(window, e, id);
  }

  /** Stream reference, algorithm and history window. */
  method WriteRecoveryIdent(e0: Bytes, id: nat) returns (e: Bytes)
    requires |e0| == 48 && AllEqual(e0[..8], 0) && id < 16
    ensures RecoveryIdent(e, id)
    ensures |e| == 48 && forall i :: 8 <= i < 48 ==> e[i] == e0[i]
  {
    e := PutLe16(e0, 0, id as bv16);
    e := PutByte(e, 2, VectorAlgorithm);
    ghost var idSet := e;
    e := PutLe16(e, 4, 256);
    ReadLe16Frame(idSet, e, 0);
  }

  /** Recovery timeout and the two enable flags. */
  method WriteRecoveryTimeouts(e0: Bytes) returns (e: Bytes)
    requires |e0| == 48 && AllEqual(e0[8..16], 0)
    ensures RecoveryTimeouts(e)
    ensures |e| == 48 && forall i :: 0 <= i < 48 && !(8 <= i < 16) ==> e[i] == e0[i]
  {
    e := PutLe32(e0, 8, 100000);
    ghost var timeoutSet := e;
    e := PutByte(e, 12, 1);
    e := PutByte(e, 13, 1);
    ReadLe32Frame(timeoutSet, e, 8);
  }

  /** Reset timeout, statistics offset, acceptance window and member mask. */
  method WriteRecoveryWindow(e0: Bytes, id: nat) returns (e: Bytes)
    requires |e0| == 48 && id < 16
    ensures RecoveryWindow(e, id)
    ensures |e| == 48 && forall i :: 0 <= i < 48 && !(16 <= i < 28) ==> e[i] == e0[i]
  {
    e := PutLe32(e0, 16, 1000000);
    e := PutLe32(e, 20, (0x1000 + id * 64) as bv32);
    ghost var offsetSet := e;
    e := PutLe16(e, 24, 5);
    var members: bv16 := 0;
    if id < 8 {
      members := 0x03;
    }
    e := PutLe16(e, 26, members);
    ReadLe32Frame(offsetSet, e, 16);
    ReadLe32Frame(offsetSet, e, 20);
  }

  /** The algorithm-specific part: the initial vector when byte 2 names the vector algorithm. */
  method WriteRecoveryVector(e0: Bytes) returns (e: Bytes)
    requires |e0| == 48 && AllEqual(e0[28..], 0) && e0[2] == VectorAlgorithm
    ensures RecoveryVector(e)
    ensures |e| == 48 && forall i :: 0 <= i < 28 ==> e[i] == e0[i]
  {
    e := e0;
    if e[2] == VectorAlgorithm {
      e := PutBytes(e, 32, Ones(8));
    }
  }

  /** Bytes 0..7 alone decide `RecoveryIdent`. */
  lemma RecoveryIdentFrame(a: Bytes, b: Bytes, id: nat)
    requires RecoveryIdent(a, id) && |b| == 48 && forall i :: 0 <= i < 8 ==> a[i] == b[i]
    ensures RecoveryIdent(b, id)
  {
    ReadLe16Frame(a, b, 0);
    ReadLe16Frame(a, b, 4);
  }

  /** Bytes 8..15 alone decide `RecoveryTimeouts`. */
  lemma RecoveryTimeoutsFrame(a: Bytes, b: Bytes)
    requires RecoveryTimeouts(a) && |b| == 48 && forall i :: 8 <= i < 16 ==> a[i] == b[i]
    ensures RecoveryTimeouts(b)
  {
    ReadLe32Frame(a, b, 8);
  }

  /** Bytes 16..27 alone decide `RecoveryWindow`. */
  lemma RecoveryWindowFrame(a: Bytes, b: Bytes, id: nat)
    requires RecoveryWindow(a, id) && |b| == 48 && forall i :: 16 <= i < 28 ==> a[i] == b[i]
    ensures RecoveryWindow(b, id)
  {
    ReadLe32Frame(a, b, 16);
    ReadLe32Frame(a, b, 20);
    ReadLe16Frame(a, b, 24);
    ReadLe16Frame(a, b, 26);
  }

  predicate IsRecoveryTable(t: Bytes)
  {
    TableFramed(t, TableFrerSequenceRecovery, 16, 48) && Records(t, 16, 48, 16, IsRecoveryEntry)
  }

  /** `create_frer_sequence_recovery_table`: 16 entries of 48 bytes, 784 bytes in all. */
  method CreateRecoveryTable() returns (t: Bytes)
    ensures IsRecoveryTable(t) && |t| == 784
  {
    t := TableHeader(TableFrerSequenceRecovery, 16, 48);
    for id := 0 to 16
      invariant |t| == 16 + 48 * id && t[..16] == TableHeader(TableFrerSequenceRecovery, 16, 48)
      invariant Records(t, 16, 48, id, IsRecoveryEntry)
    {
      var entry := MakeRecoveryEntry(id);
      AppendRecord(t, entry, 16, 48, id, IsRecoveryEntry);
      assert (t + entry)[..16] == t[..16];
      t := t + entry;
    }
    var sealed := SealTable(t);
    SealedTable(t, sealed, TableFrerSequenceRecovery, 16, 48, 48, 16, IsRecoveryEntry);
    t := sealed;
  }

  // ------------------------------------------------------- port configuration

  datatype PortSetting = PortSetting(speed: bv16, enabled: bool, frer: bool)

  /** CPU port 0; 1000BASE-T1 ports 1-4 with FRER; 100BASE-T1 ports 5-6; internal ports 7-10 disabled. */
  const PortSettings: seq<PortSetting> := [
    PortSetting(1000, true, false),
    PortSetting(1000, true, true), PortSetting(1000, true, true),
    PortSetting(1000, true, true), PortSetting(1000, true, true),
    PortSetting(100, true, false), PortSetting(100, true, false),
    PortSetting(1000, false, false), PortSetting(1000, false, false),
    PortSetting(1000, false, false), PortSetting(1000, false, false)
  ]

  function Flag(b: bool): bv8 { if b then 1 else 0 }

  /** The recovery function of a FRER port: 2A uses 0, 2B uses 1, the input port 4 none (0xFF). */
  function RecoveryFunctionOf(port: nat): bv8
  {
    if port == 2 then 0 else if port == 3 then 1 else if port == 4 then 0xFF else 0
  }

  /**
   * Bytes 0..7 of port `port`'s entry: port number, enable, LE speed, full
   * duplex, FRER, cut-through, and preemption for gigabit ports.
   */
  predicate PortIdentity(e: Bytes, port: nat)
  {
    |e| == 64 && port < 11 &&
    var c := PortSettings[port];
    e[0] == port as bv8 && e[1] == Flag(c.enabled) && ReadLe16(e, 2) == c.speed &&
    e[4] == 1 && e[5] == Flag(c.frer) && e[6] == 1 && e[7] == Flag(c.speed >= 1000)
  }

  /** Bytes 8..15: a 1522-byte maximum frame, default VLAN 1 and 8 queues. */
  predicate PortLimits(e: Bytes)
  {
    |e| == 64 && ReadLe16(e, 8) == 1522 && ReadLe16(e, 10) == 1 && e[12] == 8 && AllEqual(e[13..16], 0)
  }

  predicate PortBasics(e: Bytes, port: nat)
  {
    PortIdentity(e, port) && PortLimits(e)
  }

  /**
   * Bytes 16..63: unlimited ingress and egress rates and, for FRER ports,
   * the R-TAG insertion point 14 and the port's recovery function.
   */
  predicate PortFrerPart(e: Bytes, port: nat)
  {
    |e| == 64 && port < 11 &&
    var c := PortSettings[port];
    ReadLe32(e, 16) == 0 && ReadLe32(e, 20) == 0 &&
    e[24] == (if c.frer then 14 else 0) &&
    e[25] == (if c.frer then RecoveryFunctionOf(port) else 0) &&
    AllEqual(e[26..], 0)
  }

  predicate IsPortEntry(e: Bytes, port: nat)
  {
    PortBasics(e, port) && PortFrerPart(e, port)
  }

  /** The loop body of `create_port_configuration_table`. */
  method MakePortEntry(port: nat) returns (e: Bytes)
    requires port < 11
    ensures IsPortEntry(e, port)
  {
    e := Zeros(64);
    e := WritePortIdentity(e, port);
    ghost var identity := e;
    e := WritePortLimits(e);
    PortIdentityFrame(identity, e, port);
    ghost var basics := e;
    e := WritePortFrerPart(e, port);
    PortIdentityFrame(basics, e, port);
    PortLimitsFrame(basics, e);
  }

  /** Bytes 0..7 of the entry. */
  method WritePortIdentity(e0: Bytes, port: nat) returns (e: Bytes)
    requires |e0| == 64 && port < 11
    ensures PortIdentity(e, port) && e[8..] == e0[8..]
  {
    var c := PortSettings[port];
    e := e0[0 := port as bv8];
    e := e[1 := Flag(c.enabled)];
    e := PutLe16(e, 2, c.speed);
    ghost var speedSet := e;
    e := e[4 := 1];
    e := e[5 := Flag(c.frer)];
    e := e[6 := 1];
    e := e[7 := Flag(c.speed >= 1000)];
    ReadLe16Frame(speedSet, e, 2);
    assert e[8..] == e0[8..];
  }

  /** Bytes 8..15 of the entry. */
  method WritePortLimits(e0: Bytes) returns (e: Bytes)
    requires |e0| == 64 && AllEqual(e0[8..], 0)
    ensures PortLimits(e) && e[..8] == e0[..8] && e[16..] == e0[16..]
  {
    e := PutLe16(e0, 8, 1522);
    e := PutLe16(e, 10, 1);
    ghost var vlanSet := e;
    e := e[12 := 8];
    ReadLe16Frame(vlanSet, e, 8);
    ReadLe16Frame(vlanSet, e, 10);
    assert e[..8] == e0[..8];
    assert e[16..] == e0[16..];
  }

  /** Bytes 0..7 alone decide `PortIdentity`. */
  lemma PortIdentityFrame(a: Bytes, b: Bytes, port: nat)
    requires PortIdentity(a, port) && |b| == 64 && a[..8] == b[..8]
    ensures PortIdentity(b, port)
  {
    PrefixAgree(a, b, 8);
    ReadLe16Frame(a, b, 2);
  }

  /** Bytes 8..15 alone decide `PortLimits`. */
  lemma PortLimitsFrame(a: Bytes, b: Bytes)
    requires PortLimits(a) && |b| == 64 && a[..16] == b[..16]
    ensures PortLimits(b)
  {
    PrefixAgree(a, b, 16);
    ReadLe16Frame(a, b, 8);
    ReadLe16Frame(a, b, 10);
  }

  /** Rate limits and the port-specific FRER bytes. */
  method WritePortFrerPart(e0: Bytes, port: nat) returns (e: Bytes)
    requires |e0| == 64 && AllEqual(e0[16..], 0) && port < 11
    ensures PortFrerPart(e, port) && e[..16] == e0[..16]
  {
    var c := PortSettings[port];
    e := PutLe32(e0, 16, 0);
    e := PutLe32(e, 20, 0);
    if c.frer {
      e := PutByte(e, 24, 14);
      if port == 2 {
        e := PutByte(e, 25, 0);
      } else if port == 3 {
        e := PutByte(e, 25, 1);
      } else if port == 4 {
        e := PutByte(e, 25, 0xFF);
      }
    }
    assert e[..16] == e0[..16];
  }

  predicate IsPortTable(t: Bytes)
  {
    TableFramed(t, TableMacConfig, 11, 64) && Records(t, 16, 64, 11, IsPortEntry)
  }

  /** `create_port_configuration_table`: 11 entries of 64 bytes, 720 bytes in all. */
  method CreatePortTable() returns (t: Bytes)
    ensures IsPortTable(t) && |t| == 720
  {
    t := TableHeader(TableMacConfig, 11, 64);
    for port := 0 to 11
      invariant |t| == 16 + 64 * port && t[..16] == TableHeader(TableMacConfig, 11, 64)
      invariant Records(t, 16, 64, port, IsPortEntry)
    {
      var entry := MakePortEntry(port);
      AppendRecord(t, entry, 16, 64, port, IsPortEntry);
      assert (t + entry)[..16] == t[..16];
      t := t + entry;
    }
    var sealed := SealTable(t);
    SealedTable(t, sealed, TableMacConfig, 11, 64, 64, 11, IsPortEntry);
    t := sealed;
  }

  // ------------------------------------------------------------ L2 forwarding

  datatype ForwardingRule = ForwardingRule(reachable: bv16, broadcast: bv16)

  const ForwardingRules: seq<ForwardingRule> := [
    ForwardingRule(0x7FE, 0x7FE), ForwardingRule(0x7FD, 0x7FD),
    ForwardingRule(0x7FB, 0x001), ForwardingRule(0x7F7, 0x001),
    ForwardingRule(0x00C, 0x00C),
    ForwardingRule(0x7EF, 0x7EF), ForwardingRule(0x7DF, 0x7DF),
    ForwardingRule(0x000, 0x000), ForwardingRule(0x000, 0x000),
    ForwardingRule(0x000, 0x000), ForwardingRule(0x000, 0x000)
  ]

  /** Port `p`'s bit in an 11-port mask. */
  function PortBit(p: bv16): bv16
    requires p < 11
  {
    1 << p
  }

  /** Port `port`'s 16-byte forwarding entry: LE reach mask, LE broadcast mask, default VLAN 1, all features on. */
  predicate IsL2Entry(e: Bytes, port: nat)
  {
    |e| == 16 && port < 11 &&
    ReadLe16(e, 0) == ForwardingRules[port].reachable && ReadLe16(e, 2) == ForwardingRules[port].broadcast &&
    ReadLe16(e, 4) == 1 && e[6] == 0x0F && AllEqual(e[7..], 0)
  }

  /** The loop body of `create_l2_forwarding_table`. */
  method MakeL2Entry(port: nat) returns (e: Bytes)
    requires port < 11
    ensures IsL2Entry(e, port)
  {
    var rule := ForwardingRules[port];
    e := Zeros(16);
    e := PutLe16(e, 0, rule.reachable);
    e := PutLe16(e, 2, rule.broadcast);
    e := PutLe16(e, 4, 1);
    e := PutByte(e, 6, 0x0F);
  }

  predicate IsL2Table(t: Bytes)
  {
    TableFramed(t, TableL2Forwarding, 11, 16) && Records(t, 16, 16, 11, IsL2Entry)
  }

  /** `create_l2_forwarding_table`: 11 entries of 16 bytes, 192 bytes in all. */
  method CreateL2Table() returns (t: Bytes)
    ensures IsL2Table(t) && |t| == 192
  {
    t := TableHeader(TableL2Forwarding, 11, 16);
    for port := 0 to 11
      invariant |t| == 16 + 16 * port && t[..16] == TableHeader(TableL2Forwarding, 11, 16)
      invariant Records(t, 16, 16, port, IsL2Entry)
    {
      var entry := MakeL2Entry(port);
      AppendRecord(t, entry, 16, 16, port, IsL2Entry);
      assert (t + entry)[..16] == t[..16];
      t := t + entry;
    }
    var sealed := SealTable(t);
    SealedTable(t, sealed, TableL2Forwarding, 11, 16, 16, 11, IsL2Entry);
    t := sealed;
  }

  /**
   * What the forwarding rules mean: port 4 (the FRER input) reaches and
   * floods only ports 2 and 3; ports 0 to 3 reach every port but
   * themselves and ports 2 and 3 flood only to port 0; ports 5 and 6 carry
   * masks that clear bits 4 and 5 rather than their own bit; ports 7 to 10
   * forward nowhere.
   */
  lemma ForwardingRulesMeaning()
    ensures ForwardingRules[4].reachable == PortBit(2) | PortBit(3) == ForwardingRules[4].broadcast
    ensures forall p: bv16 :: p < 4 ==> ForwardingRules[p].reachable == 0x7FF & !PortBit(p)
    ensures ForwardingRules[2].broadcast == PortBit(0) == ForwardingRules[3].broadcast
    ensures ForwardingRules[5].reachable == 0x7FF & !PortBit(4) && ForwardingRules[6].reachable == 0x7FF & !PortBit(5)
    ensures forall p :: 7 <= p < 11 ==> ForwardingRules[p] == ForwardingRule(0, 0)
  {
  }

  // ------------------------------------------------------- general parameters

  const SwitchIdentifier: bv64 := 0x0011_2233_4455
  /** VLAN, L2 lookup, policing, FRER, TSN and PTP: bits 0 to 5. */
  const GeneralFeatures: bv32 := (1 << 0) | (1 << 1) | (1 << 2) | (1 << 3) | (1 << 4) | (1 << 5)

  /**
   * Bytes 0..31 of the single 128-byte entry: the LE switch id
   * 0x001122334455, mirror and cascade ports disabled (0xFF), host port 0,
   * metadata to host, 8 ns timestamps, 300 s MAC and VLAN ageing and the
   * feature word 0x3F.
   */
  predicate GeneralSwitchPart(e: Bytes)
  {
    |e| == 128 &&
    ReadLe32(e, 0) == 0x2233_4455 && ReadLe32(e, 4) == 0x0011 &&
    e[8] == 0xFF && e[9] == 0 && e[10] == 0xFF && e[11] == 1 &&
    ReadLe32(e, 12) == 8 && ReadLe32(e, 16) == 300 && ReadLe32(e, 20) == 300 &&
    ReadLe32(e, 24) == 0x3F && AllEqual(e[28..32], 0)
  }

  /** Bytes 32..127: FRER on, 16 streams, 8 recovery functions, the R-TAG EtherType 0xF1C1, zeros. */
  predicate GeneralFrerPart(e: Bytes)
  {
    |e| == 128 &&
    e[32] == 1 && e[33] == 16 && e[34] == 8 && e[35] == 0 &&
    ReadLe16(e, 36) == 0xF1C1 && AllEqual(e[38..], 0)
  }

  predicate IsGeneralEntry(e: Bytes, k: nat)
  {
    k == 0 && GeneralSwitchPart(e) && GeneralFrerPart(e)
  }

  /** The entry of `create_general_parameters_table`. */
  method MakeGeneralEntry() returns (e: Bytes)
    ensures IsGeneralEntry(e, 0)
  {
    e := Zeros(128);
    e := PutLe64(e, 0, SwitchIdentifier);
    e := PutByte(e, 8, 0xFF);
    e := PutByte(e, 9, 0);
    e := PutByte(e, 10, 0xFF);
    e := PutByte(e, 11, 1);
    e := PutLe32(e, 12, 8);
    e := PutLe32(e, 16, 300);
    e := PutLe32(e, 20, 300);
    e := PutLe32(e, 24, GeneralFeatures);
    assert GeneralSwitchPart(e);
    ghost var switchPart := e;
    e := WriteGeneralFrerPart(e);
    PrefixAgree(switchPart, e, 32);
  }

  method WriteGeneralFrerPart(e0: Bytes) returns (e: Bytes)
    requires |e0| == 128 && AllEqual(e0[32..], 0)
    ensures GeneralFrerPart(e) && e[..32] == e0[..32]
  {
    e := PutByte(e0, 32, 1);
    e := PutByte(e, 33, 16);
    e := PutByte(e, 34, 8);
    e := PutLe16(e, 36, RtagEthertype);
    assert e[..32] == e0[..32];
  }

  predicate IsGeneralTable(t: Bytes)
  {
    TableFramed(t, TableGeneralParams, 1, 128) && Records(t, 16, 128, 1, IsGeneralEntry)
  }

  /** `create_general_parameters_table`: one entry of 128 bytes, 144 bytes in all. */
  method CreateGeneralTable() returns (t: Bytes)
    ensures IsGeneralTable(t) && |t| == 144
  {
    t := TableHeader(TableGeneralParams, 1, 128);
    var entry := MakeGeneralEntry();
    AppendRecord(t, entry, 16, 128, 0, IsGeneralEntry);
    assert (t + entry)[..16] == t[..16];
    t := t + entry;
    var sealed := SealTable(t);
    SealedTable(t, sealed, TableGeneralParams, 1, 128, 128, 1, IsGeneralEntry);
    t := sealed;
  }

  // --------------------------------------------------- microcontroller image

  /** The 16 Cortex-M7 system vectors: stack pointer, handlers, reserved zeros. */
  const SystemVectors: seq<bv32> := [
    0x2000_8000, 0x0401, 0x0801, 0x0901, 0x0A01, 0x0B01, 0x0C01, 0, 0, 0, 0,
    0x0D01, 0x0E01, 0, 0x0F01, 0x1001
  ]

  /** Peripheral interrupt `j`'s handler address, `0x1101 + 4 j`. */
  function PeripheralVector(j: nat): bv32
    requires j < 240
  {
    (0x1101 + j * 4) as bv32
  }

  /** Vector `i` of the 256-entry table: a system vector, then the 240 peripheral handlers. */
  function UcVector(i: nat): bv32
    requires i < 256
  {
    if i < 16 then SystemVectors[i] else PeripheralVector(i - 16)
  }

  /** The reset handler's eleven Thumb half-words. */
  const ResetHandler: seq<bv16> := [
    0x4B20, 0x2201, 0x601A, 0x4B21, 0x4A22, 0x601A, 0x4B23, 0x4A24, 0x601A, 0xB662, 0xE7FE
  ]

  const SeqGenCode: Bytes := [0x10, 0xB5, 0x04, 0x46, 0x20, 0x46, 0x10, 0xBD]
  const SeqRecoveryCode: Bytes := [0x38, 0xB5, 0x04, 0x46, 0x0D, 0x46, 0x38, 0xBD]

  predicate IsVectorWord(w: Bytes, i: nat)
  {
    |w| == 4 && i < 256 && ReadLe32(w, 0) == UcVector(i)
  }

  predicate IsHandlerInsn(h: Bytes, i: nat)
  {
    |h| == 2 && i < 11 && ReadLe16(h, 0) == ResetHandler[i]
  }

  /** Stream record `i` of the configuration section: id, flags 0x00010000, sequence start 100 i, maximum 0xFFFF. */
  predicate IsUcStreamRecord(r: Bytes, i: nat)
  {
    |r| == 12 && i < 16 &&
    ReadLe32(r, 0) == i as bv32 && ReadLe32(r, 4) == 0x0001_0000 &&
    ReadLe16(r, 8) == (i * 100) as bv16 && ReadLe16(r, 10) == 0xFFFF
  }

  /**
   * The code and data part of the microcontroller image: 256 LE vectors, the
   * reset handler at 1024, the two code fragments at 1046 and 1054 and the
   * 16 stream records at 1062, 1254 bytes in all.
   */
  predicate UcCodeLayout(fw: Bytes)
  {
    |fw| >= 1254 &&
    Records(fw, 0, 4, 256, IsVectorWord) &&
    Records(fw, 1024, 2, 11, IsHandlerInsn) &&
    fw[1046..1054] == SeqGenCode && fw[1054..1062] == SeqRecoveryCode &&
    Records(fw, 1062, 12, 16, IsUcStreamRecord)
  }

  /** The whole image: the code and data part, then 0xFF up to 320280 bytes. */
  predicate IsUcImage(fw: Bytes)
  {
    |fw| == UcImageSize && UcCodeLayout(fw) && AllEqual(fw[1254..], 0xFF)
  }

  /** Appending to the image keeps its code and data part. */
  lemma UcCodeLayoutExtend(t: Bytes, e: Bytes)
    requires UcCodeLayout(t)
    ensures UcCodeLayout(t + e)
  {
    RecordsExtend(t, e, 0, 4, 256, IsVectorWord);
    RecordsExtend(t, e, 1024, 2, 11, IsHandlerInsn);
    RecordsExtend(t, e, 1062, 12, 16, IsUcStreamRecord);
    assert (t + e)[1046..1054] == t[1046..1054] && (t + e)[1054..1062] == t[1054..1062];
  }

  /** `struct.pack('<IIHH', i, 0x00010000, i * 100, 0xFFFF)` */
  function UcStreamRecord(i: nat): (r: Bytes)
    requires i < 16
    ensures IsUcStreamRecord(r, i)
  {
    Le32RoundTrip(i as bv32);
    Le32RoundTrip(0x0001_0000);
    Le16RoundTrip((i * 100) as bv16);
    Le16RoundTrip(0xFFFF);
    var r := Le32(i as bv32) + Le32(0x0001_0000) + Le16((i * 100) as bv16) + Le16(0xFFFF);
    assert r[..4] == Le32(i as bv32) && r[4..8] == Le32(0x0001_0000);
    assert r[8..10] == Le16((i * 100) as bv16) && r[10..] == Le16(0xFFFF);
    r
  }

  /** The vector list: the 16 system vectors, then 240 peripheral handlers. */
  method UcVectors() returns (vectors: seq<bv32>)
    ensures |vectors| == 256 && forall k :: 0 <= k < 256 ==> vectors[k] == UcVector(k)
  {
    vectors := SystemVectors;
    for i := 0 to 240
      invariant |vectors| == 16 + i && forall k :: 0 <= k < |vectors| ==> vectors[k] == UcVector(k)
    {
      vectors := vectors + [PeripheralVector(i)];
    }
  }

  /** The vector table and the reset handler, 1046 bytes. */
  method UcVectorTableAndHandler() returns (fw: Bytes)
    ensures |fw| == 1046 && Records(fw, 0, 4, 256, IsVectorWord) && Records(fw, 1024, 2, 11, IsHandlerInsn)
  {
    var vectors := UcVectors();
    fw := [];
    for k := 0 to 256
      invariant |fw| == 4 * k && Records(fw, 0, 4, k, IsVectorWord)
    {
      var w := Le32(vectors[k]);
      Le32RoundTrip(vectors[k]);
      AppendRecord(fw, w, 0, 4, k, IsVectorWord);
      fw := fw + w;
    }
    for k := 0 to 11
      invariant |fw| == 1024 + 2 * k && Records(fw, 0, 4, 256, IsVectorWord) && Records(fw, 1024, 2, k, IsHandlerInsn)
    {
      var h := Le16(ResetHandler[k]);
      Le16RoundTrip(ResetHandler[k]);
      RecordsExtend(fw, h, 0, 4, 256, IsVectorWord);
      AppendRecord(fw, h, 1024, 2, k, IsHandlerInsn);
      fw := fw + h;
    }
  }

  /** The configuration section: 16 stream records of 12 bytes. */
  method UcConfigData() returns (config: Bytes)
    ensures |config| == 192 && Records(config, 0, 12, 16, IsUcStreamRecord)
  {
    config := [];
    for i := 0 to 16
      invariant |config| == 12 * i && Records(config, 0, 12, i, IsUcStreamRecord)
    {
      var r := UcStreamRecord(i);
      AppendRecord(config, r, 0, 12, i, IsUcStreamRecord);
      config := config + r;
    }
  }

  /** Everything `create_uc_firmware` writes before the padding. */
  method UcCode() returns (fw: Bytes)
    ensures |fw| == 1254 && UcCodeLayout(fw)
  {
    fw := UcVectorTableAndHandler();
    ghost var table := fw;
    fw := fw + SeqGenCode;
    fw := fw + SeqRecoveryCode;
    assert fw == table + (SeqGenCode + SeqRecoveryCode);
    RecordsExtend(table, SeqGenCode + SeqRecoveryCode, 0, 4, 256, IsVectorWord);
    RecordsExtend(table, SeqGenCode + SeqRecoveryCode, 1024, 2, 11, IsHandlerInsn);
    var config := UcConfigData();
    RecordsExtend(fw, config, 0, 4, 256, IsVectorWord);
    RecordsExtend(fw, config, 1024, 2, 11, IsHandlerInsn);
    RecordsShift(fw, config, 12, 16, IsUcStreamRecord);
    assert (fw + config)[1046..1054] == SeqGenCode && (fw + config)[1054..1062] == SeqRecoveryCode;
    fw := fw + config;
  }

  /** `create_uc_firmware`: code and data in the first 1254 bytes, 0xFF padding to 320280. */
  method CreateUcFirmware() returns (fw: Bytes)
    ensures IsUcImage(fw)
  {
    var code := UcCode();
    fw := code;
    if |fw| < UcImageSize {
      fw := fw + Ones(UcImageSize - |fw|);
    }
    UcCodeLayoutExtend(code, Ones(UcImageSize - 1254));
    assert fw[1254..] == Ones(UcImageSize - 1254);
    assert fw[..UcImageSize] == fw;
    fw := Take(fw, UcImageSize);
  }

  // ------------------------------------------------------------ the two images

  /**
   * The recovery table as it survives the cut at 2236 bytes: the first 216
   * of its 784 bytes, so its header words (the CRC word included, which
   * covers the entries cut away), its first four entries and the first 8
   * bytes of the fifth.
   */
  ghost predicate TruncatedRecoveryTable(t: Bytes)
  {
    |t| == 216 &&
    ReadLe32(t, 0) == TableFrerSequenceRecovery && ReadLe32(t, 4) == 16 && ReadLe32(t, 8) == 48 &&
    Records(t, 16, 48, 4, IsRecoveryEntry) &&
    exists r :: |r| == 784 && IsRecoveryTable(r) && t == r[..216]
  }

  /** The switch image: the device header, five complete tables and the head of the sixth. */
  ghost predicate IsSwitchImage(fw: Bytes, timestamp: bv64)
  {
    |fw| == SwitchImageSize &&
    fw[..36] == DeviceHeader(timestamp) &&
    IsGeneralTable(fw[36..180]) && IsPortTable(fw[180..900]) && IsL2Table(fw[900..1092]) &&
    IsStreamIdentTable(fw[1092..1620]) && IsSeqGenTable(fw[1620..2020]) &&
    TruncatedRecoveryTable(fw[2020..])
  }

  /** Where each part lands once the header and the six tables are concatenated and cut at 2236. */
  lemma SwitchLayout(h: Bytes, g: Bytes, p: Bytes, l: Bytes, s: Bytes, q: Bytes, r: Bytes)
    requires |h| == 36 && |g| == 144 && |p| == 720 && |l| == 192 && |s| == 528 && |q| == 400 && |r| == 784
    ensures |h + g + p + l + s + q + r| == 2804
    ensures var fw := (h + g + p + l + s + q + r)[..2236];
      fw[..36] == h && fw[36..180] == g && fw[180..900] == p && fw[900..1092] == l &&
      fw[1092..1620] == s && fw[1620..2020] == q && fw[2020..] == r[..216]
  {
    var p2 := h + g;
    var p3 := p2 + p;
    var p4 := p3 + l;
    var p5 := p4 + s;
    var p6 := p5 + q;
    var x := p6 + r;
    var fw := x[..2236];
    assert x[..|p6|] == p6;
    PieceOf(x, p5, q, 2236);
    PieceOf(x, p4, s, 2236);
    PieceOf(x, p3, l, 2236);
    PieceOf(x, p2, p, 2236);
    PieceOf(x, h, g, 2236);
    assert fw[..36] == x[..|h|];
    assert fw[2020..] == r[..216] by {
      assert fw[2020..] == x[|p6|..2236];
    }
  }

  /**
   * A piece of `x` that follows `a` inside a known prefix `a + b` of `x`,
   * read from the first `n` bytes, and the shorter prefix `a`.
   */
  lemma PieceOf(x: Bytes, a: Bytes, b: Bytes, n: nat)
    requires |a + b| <= n <= |x| && x[..|a + b|] == a + b
    ensures x[..n][|a|..|a| + |b|] == b && x[..|a|] == a
  {
    assert x[..n][|a|..|a| + |b|] == x[..|a + b|][|a|..];
    assert x[..|a|] == x[..|a + b|][..|a|];
  }

  /** The recovery table's first 216 bytes are its truncated form: header words and first four entries. */
  lemma RecoveryTableHead(r: Bytes)
    requires IsRecoveryTable(r) && |r| == 784
    ensures TruncatedRecoveryTable(r[..216])
  {
    assert Records(r, 16, 48, 4, IsRecoveryEntry);
    RecordsTake(r, 216, 16, 48, 4, IsRecoveryEntry);
    ReadLe32Frame(r, r[..216], 0);
    ReadLe32Frame(r, r[..216], 4);
    ReadLe32Frame(r, r[..216], 8);
    assert |r| == 784 && IsRecoveryTable(r) && r[..216] == r[..216];
  }

  /**
   * `generate_complete_firmware`: the header and the six tables in order,
   * zero padding when shorter than 2236 bytes, the cut at 2236; then the
   * microcontroller image.
   */
  method GenerateCompleteFirmware(timestamp: bv64) returns (switchFw: Bytes, ucFw: Bytes)
    ensures IsSwitchImage(switchFw, timestamp) && IsUcImage(ucFw)
  {
    var h := DeviceHeader(timestamp);
    var g := CreateGeneralTable();
    var p := CreatePortTable();
    var l := CreateL2Table();
    var s := CreateStreamIdentTable();
    var q := CreateSeqGenTable();
    var r := CreateRecoveryTable();
    var fw := h;
    fw := fw + g;
    fw := fw + p;
    fw := fw + l;
    fw := fw + s;
    fw := fw + q;
    fw := fw + r;
    SwitchLayout(h, g, p, l, s, q, r);
    fw := PadZeros(fw, SwitchImageSize);
    ucFw := CreateUcFirmware();
    switchFw := Take(fw, SwitchImageSize);
    RecoveryTableHead(r);
  }
}

=== FILE: ultrathink_frer_patch.dfy ===
/**
 * The sja1105-tool checksum loops and the "UltraThink" patch of a GoldVIP
 * switch blob: set CB_EN in the first configuration word, overwrite the low
 * nibble of three port control bytes, drop a 12-byte R-TAG record into the
 * first 16-byte run of 0xFF after 0x100, and store the checksum of the
 * configuration region at bytes 12..15.
 */
module UltrathinkFrerPatch {
  import opened Bytes
  import opened Crc32

  /** The R-TAG EtherType this tool writes. */
  const RtagEthertype: bv16 := 0xF1C1

  // ------------------------------------------------------------- bit_reverse

  /**
   * The value `bit_reverse(v, w)` holds after its first `i` iterations:
   * bit j of `v` (j < i) placed at bit `w - 1 - j`.
   */
  function BitReverseUpTo(v: bv32, w: nat, i: nat): bv32
    requires i <= w <= 32
    decreases i
  {
    if i == 0 then 0
    else BitReverseUpTo(v, w, i - 1) | ((if v & (1 << (i - 1)) != 0 then 1 else 0) << (w - i))
  }

  lemma BitReverseStep(v: bv32, w: nat, i: nat, r: bv32, bit: bv32)
    requires i < w <= 32 && r == BitReverseUpTo(v, w, i)
    requires bit == if v & (1 << i) != 0 then 1 else 0
    ensures r | (bit << (w - i - 1)) == BitReverseUpTo(v, w, i + 1)
  {
  }

  /** `bit_reverse(val, width)` for the widths the tool uses (at most 32). */
  method BitReverse(val: bv32, width: nat) returns (r: bv32)
    requires width <= 32
    ensures r == BitReverseUpTo(val, width, width)
  {
    r := 0;
    for i := 0 to width
      invariant r == BitReverseUpTo(val, width, i)
    {
      var bit: bv32 := if val & (1 << i) != 0 then 1 else 0;
      BitReverseStep(val, width, i, r, bit);
      r := r | (bit << (width - i - 1));
    }
  }

  // The full-width loop, four input bits at a time.
  lemma Nibble0(v: bv32) ensures BitReverseUpTo(v, 32, 4) == Rev32(v & 0x0000_000F) {}
  lemma Nibble1(v: bv32) ensures BitReverseUpTo(v, 32, 8) == BitReverseUpTo(v, 32, 4) | Rev32(v & 0x0000_00F0) {}
  lemma Nibble2(v: bv32) ensures BitReverseUpTo(v, 32, 12) == BitReverseUpTo(v, 32, 8) | Rev32(v & 0x0000_0F00) {}
  lemma Nibble3(v: bv32) ensures BitReverseUpTo(v, 32, 16) == BitReverseUpTo(v, 32, 12) | Rev32(v & 0x0000_F000) {}
  lemma Nibble4(v: bv32) ensures BitReverseUpTo(v, 32, 20) == BitReverseUpTo(v, 32, 16) | Rev32(v & 0x000F_0000) {}
  lemma Nibble5(v: bv32) ensures BitReverseUpTo(v, 32, 24) == BitReverseUpTo(v, 32, 20) | Rev32(v & 0x00F0_0000) {}
  lemma Nibble6(v: bv32) ensures BitReverseUpTo(v, 32, 28) == BitReverseUpTo(v, 32, 24) | Rev32(v & 0x0F00_0000) {}
  lemma Nibble7(v: bv32) ensures BitReverseUpTo(v, 32, 32) == BitReverseUpTo(v, 32, 28) | Rev32(v & 0xF000_0000) {}

  lemma Rev32ByNibbles(v: bv32)
    ensures Rev32(v) == Rev32(v & 0x0000_000F) | Rev32(v & 0x0000_00F0) | Rev32(v & 0x0000_0F00) | Rev32(v & 0x0000_F000)
      | Rev32(v & 0x000F_0000) | Rev32(v & 0x00F0_0000) | Rev32(v & 0x0F00_0000) | Rev32(v & 0xF000_0000)
  {
  }

  /** At width 32, `bit_reverse` is the full bit reversal `Rev32`. */
  lemma BitReverseIsRev32(v: bv32)
    ensures BitReverseUpTo(v, 32, 32) == Rev32(v)
  {
    Nibble0(v); Nibble1(v); Nibble2(v); Nibble3(v);
    Nibble4(v); Nibble5(v); Nibble6(v); Nibble7(v);
    Rev32ByNibbles(v);
  }

  /** Reversing 32 bits twice gives the value back. */
  lemma BitReverseInvolution(v: bv32)
    ensures BitReverseUpTo(BitReverseUpTo(v, 32, 32), 32, 32) == v
  {
    BitReverseIsRev32(v);
    BitReverseIsRev32(Rev32(v));
    Rev32Involution(v);
  }

  // --------------------------------------------------------------- checksum

  /**
   * `crc32_add(crc, byte)`. Python keeps `crc` to 32 bits with a mask and
   * lets `byte32` grow; only its bit 31 is ever examined, so 32-bit words
   * compute the same thing.
   */
  method Crc32Add(crc: bv32, b: bv8) returns (r: bv32)
    ensures r == MsbStep(crc, b)
  {
    var byte32 := BitReverse(b as bv32, 32);
    BitReverseIsRev32(b as bv32);
    r := crc;
    for i := 0 to 8
      invariant MsbRounds(r, byte32, 8 - i) == MsbStep(crc, b)
    {
      if (r ^ byte32) & 0x8000_0000 != 0 {
        r := (r << 1) ^ MsbPoly;
      } else {
        r := r << 1;
      }
      byte32 := byte32 << 1;
    }
  }

  /** `ether_crc32_le(data)`: it is the CRC-32 of `data`. */
  method EtherCrc32Le(data: Bytes) returns (r: bv32)
    ensures r == EtherCrc(data)
    ensures r == Crc(data)
  {
    var crc := Seed;
    for i := 0 to |data|
      invariant crc == MsbFold(Seed, data[..i])
    {
      assert data[..i + 1][..i] == data[..i];
      crc := Crc32Add(crc, data[i]);
    }
    assert data[..|data|] == data;
    r := BitReverse(!crc, 32);
    BitReverseIsRev32(!crc);
    EtherCrcIsReflectedCrc(data);
  }

  /** `data[16:16+config_size]` with `config_size` the LE word at 8..11. */
  function ConfigRegion(data: Bytes): (r: Bytes)
    requires |data| >= 12
    ensures |data| >= 16 ==> r == data[16..Min(16 + ReadLe32(data, 8) as int, |data|)]
    ensures |data| < 16 ==> r == []
  {
    Drop(Take(data, 16 + ReadLe32(data, 8) as int), 16)
  }

  /**
   * The region depends only on the length word at 8..11 and the bytes from
   * 16 on: bytes 0..7 and the stored checksum at 12..15 never matter.
   */
  lemma ConfigRegionIgnoresHeader(a: Bytes, b: Bytes)
    requires |a| == |b| >= 16
    requires a[8..12] == b[8..12] && a[16..] == b[16..]
    ensures ConfigRegion(a) == ConfigRegion(b)
  {
    LengthWordAgrees(a, b);
    RegionAgrees(a, b, Min(16 + ReadLe32(a, 8) as int, |a|));
  }

  lemma LengthWordAgrees(a: Bytes, b: Bytes)
    requires |a| >= 12 && |b| >= 12 && a[8..12] == b[8..12]
    ensures ReadLe32(a, 8) == ReadLe32(b, 8)
  {
    assert a[8] == a[8..12][0] && a[9] == a[8..12][1] && a[10] == a[8..12][2] && a[11] == a[8..12][3];
    assert b[8] == b[8..12][0] && b[9] == b[8..12][1] && b[10] == b[8..12][2] && b[11] == b[8..12][3];
    ReadLe32Frame(a, b, 8);
  }

  lemma RegionAgrees(a: Bytes, b: Bytes, n: nat)
    requires 16 <= n <= |a| == |b| && a[16..] == b[16..]
    ensures a[16..n] == b[16..n]
  {
    assert a[16..n] == a[16..][..n - 16];
    assert b[16..n] == b[16..][..n - 16];
  }

  /** `calculate_sja1110_crc(data)` */
  method CalculateSja1110Crc(data: Bytes) returns (r: bv32)
    requires |data| >= 12
    ensures r == Crc(ConfigRegion(data))
  {
    var configSize := ReadLe32(data, 8);
    var configData := Drop(Take(data, 16 + configSize as int), 16);
    r := EtherCrc32Le(configData);
  }

  // ------------------------------------------------------------------ patch

  /** The 12-byte R-TAG record: EtherType, stream 1, input mask, output mask, window, timeout. */
  const RtagRecord: Bytes :=
    Le16(RtagEthertype) + Le16(0x0001) + Le16(0x0010) + Le16(0x000C) + Le16(0x0100) + Le16(0x03E8)

  lemma RtagRecordFields()
    ensures |RtagRecord| == 12
    ensures ReadLe16(RtagRecord, 0) == 0xF1C1 && ReadLe16(RtagRecord, 2) == 1
    ensures ReadLe16(RtagRecord, 4) == 0x10 && ReadLe16(RtagRecord, 6) == 0x0C
    ensures ReadLe16(RtagRecord, 8) == 0x100 && ReadLe16(RtagRecord, 10) == 0x3E8
  {
  }

  /** Where the R-TAG record goes: the first all-0xFF run of 16 bytes in `[0x100, min(len-16, 0x400))`. */
  function RtagSlot(data: Bytes): Option<nat>
    requires |data| >= 16
  {
    FirstRun(data, 0xFF, 16, 0x100, Min(|data| - 16, 0x400))
  }

  /** Byte `k` is one the patch may change, given where the R-TAG record went. */
  predicate Patchable(k: nat, slot: Option<nat>)
  {
    4 <= k < 8 || 12 <= k < 16 || k == 0x27 || k == 0x2F || k == 0x37 ||
    (slot.Some? && slot.value <= k < slot.value + 12)
  }

  /** `(b & 0xF0) | nibble` */
  function WithLowNibble(b: bv8, nibble: bv8): bv8
  {
    (b & 0xF0) | nibble
  }

  /** Step [4]: the low nibbles of the port 4, 2 and 3 control bytes, each when in range. */
  method SetPortNibbles(data: Bytes) returns (out: Bytes)
    ensures |out| == |data|
    ensures PortNibblesSet(out, data)
    ensures forall k :: 0 <= k < |out| && k != 0x27 && k != 0x2F && k != 0x37 ==> out[k] == data[k]
  {
    out := data;
    if |out| > 0x37 {
      out := PutByte(out, 0x37, WithLowNibble(out[0x37], 0x0E));
    }
    if |out| > 0x27 {
      out := PutByte(out, 0x27, WithLowNibble(out[0x27], 0x0A));
    }
    if |out| > 0x2F {
      out := PutByte(out, 0x2F, WithLowNibble(out[0x2F], 0x0C));
    }
  }

  /** Step [5]: the R-TAG record at the first free run, if there is one. */
  method AddRtag(data: Bytes) returns (out: Bytes)
    requires |data| >= 16
    ensures |out| == |data|
    ensures RtagSlot(data).Some? ==>
      var i := RtagSlot(data).value; 0x100 <= i && i + 12 <= |out| && out[i..i + 12] == RtagRecord
    ensures forall k :: 0 <= k < |out| && !(RtagSlot(data).Some? && RtagSlot(data).value <= k < RtagSlot(data).value + 12) ==>
      out[k] == data[k]
  {
    out := data;
    var slot := FindRun(data, 0xFF, 16, 0x100, Min(|data| - 16, 0x400));
    if slot.Some? {
      var i := slot.value;
      FirstRunSpec(data, 0xFF, 16, 0x100, Min(|data| - 16, 0x400));
      out := SetSlice(data, i, i + 12, RtagRecord);
    }
  }

  /** Bytes 0x27, 0x2F and 0x37 of `data` hold the port nibbles step [4] writes into `orig`. */
  predicate PortNibblesSet(data: Bytes, orig: Bytes)
    requires |data| == |orig|
  {
    (|data| > 0x37 ==> data[0x37] == WithLowNibble(orig[0x37], 0x0E)) &&
    (|data| > 0x27 ==> data[0x27] == WithLowNibble(orig[0x27], 0x0A)) &&
    (|data| > 0x2F ==> data[0x2F] == WithLowNibble(orig[0x2F], 0x0C))
  }

  /** The port nibbles survive steps that leave those three bytes alone. */
  lemma PortNibblesCarry(orig: Bytes, before: Bytes, nibbled: Bytes, after: Bytes)
    requires |orig| == |before| == |nibbled| == |after|
    requires forall k :: 0x20 <= k < 0x40 && k < |orig| ==> before[k] == orig[k] && after[k] == nibbled[k]
    requires PortNibblesSet(nibbled, before)
    ensures PortNibblesSet(after, orig)
  {
  }

  /** Steps [3] to [5]: CB_EN, the port nibbles and the R-TAG record; nothing else changes. */
  method ApplyFrerPatches(switchData: Bytes) returns (out: Bytes)
    requires |switchData| >= 16
    ensures |out| == |switchData|
    ensures ReadLe32(out, 4) == ReadLe32(switchData, 4) | 0x80
    ensures PortNibblesSet(out, switchData)
    ensures RtagSlot(switchData).Some? ==>
      var i := RtagSlot(switchData).value; 0x100 <= i && i + 12 <= |out| && out[i..i + 12] == RtagRecord
    ensures forall k :: 0 <= k < |out| && !Patchable(k, RtagSlot(switchData)) ==> out[k] == switchData[k]
  {
    // [3] CB_EN
    var config1 := ReadLe32(switchData, 4);
    var withCb := PutLe32(switchData, 4, config1 | 0x80);

    // [4] port control nibbles
    var withPorts := SetPortNibbles(withCb);
    assert forall k :: 0x100 <= k < |withPorts| ==> withPorts[k] == switchData[k];
    FirstRunFrame(withPorts, switchData, 0xFF, 16, 0x100, Min(|switchData| - 16, 0x400));

    // [5] R-TAG record
    out := AddRtag(withPorts);
    ghost var slot := RtagSlot(switchData);
    forall k | 0 <= k < |out| && !Patchable(k, slot)
      ensures out[k] == switchData[k]
    {
      assert out[k] == withPorts[k];
      assert withPorts[k] == withCb[k];
    }
    ReadLe32Frame(out, withCb, 4);
    PortNibblesCarry(switchData, withCb, withPorts, out);
  }

  /**
   * Steps [3] to [8] of `create_ultrathink_frer` on the loaded switch blob:
   * the patched blob and whether the final checksum check passed.
   */
  method CreateUltrathinkFrer(switchData: Bytes) returns (out: Bytes, verified: bool)
    requires |switchData| >= 16
    ensures |out| == |switchData|
    ensures ReadLe32(out, 4) == ReadLe32(switchData, 4) | 0x80
    ensures PortNibblesSet(out, switchData)
    ensures RtagSlot(switchData).Some? ==>
      var i := RtagSlot(switchData).value; i + 12 <= |out| && out[i..i + 12] == RtagRecord
    ensures forall k :: 0 <= k < |out| && !Patchable(k, RtagSlot(switchData)) ==> out[k] == switchData[k]
    ensures ReadLe32(out, 12) == Crc(ConfigRegion(out))
    ensures verified
  {
    var patched := ApplyFrerPatches(switchData);

    // [6] checksum of the configuration region, stored at 12..15
    var newCrc := CalculateSja1110Crc(patched);
    out := PutLe32(patched, 12, newCrc);
    ConfigRegionIgnoresHeader(out, patched);
    ReadLe32Frame(out, patched, 4);
    if RtagSlot(switchData).Some? {
      var i := RtagSlot(switchData).value;
      assert out[i..i + 12] == patched[i..i + 12];
    }

    // [8] read back and compare
    var verifyCrc := CalculateSja1110Crc(out);
    var storedCrc := ReadLe32(out, 12);
    verified := verifyCrc == storedCrc;
  }
}
